=== FILE: README.md ===
# lankalust in Dafny

A model of the client-side core of lankalust, a Sri Lankan classifieds, dating, stories and chat site that keeps all its data in the browser's local storage. The project covers:

- **The stores.** Each keeps one JSON document under one key:
  - member ads (`userAdsStore`);
  - the fixed mock ads and the unified ad list built from both;
  - dating profiles and dating messages;
  - the WalKatha stories;
  - the ad-placement catalog.
- **The two sign-in contexts:**
  - the classifieds accounts, including the administrator;
  - the dating accounts.
- **The page logic built on the stores:**
  - the age gate;
  - the sign-up and sign-in dialog with its Sri Lankan phone validation;
  - the ad list and home page (category tab, filters, pagination, page-number bar, ads inside a page);
  - the ad detail page's messenger numbers;
  - the dating browse page (tabs, filters, sort, buttons);
  - the story list and story page (paragraphs and their ad slots, likes);
  - the post-ad and my-ads pages;
  - the chat room (channels, message caps, unread badges);
  - the admin console's tables and cascade deletes.

## How the model is organised

- **Storage.** A store's key holds `Storage.Stored<T>`:
  - `Absent` when `getItem` gave nothing or the empty string;
  - `Corrupt` when `JSON.parse` or the store's own code threw inside its `try`;
  - `Value(v)` otherwise.

  An operation returns a `Storage.Step`: its answer, and what the key holds afterwards.
- **Time.** Every timestamp is an integer count of milliseconds.
- **Outside inputs are parameters.** `Date.now()`, freshly generated ids, `Math.random()` values and the locale date string are all passed in.
- **Page state.** Each page's React state is a plain datatype, and each handler is a pure function from the old state to the new one.
- **Modules.** One module per store or page, plus the shared helpers:
  - `Text`: `trim`, `toLowerCase`, `includes`, `parseInt` and number printing;
  - `Lists`: filter, count, insertion sort, index lookup;
  - `Arith`;
  - `Paging`;
  - `TimeLabels`: the "… ago" labels.

## Model

| member | source | states |
|---|---|---|
| AdSpaces.Default | src/data/adSpacesStore.ts:18-41 | a catalog placement starts disabled with blank codes of the right count for its kind and a non-empty size |
| AdSpaces.CatalogEntry | src/data/adSpacesStore.ts:18-41 | every one of the sixteen default placements is well formed and disabled |
| AdSpaces.CatalogValid | src/data/adSpacesStore.ts:18-41 | the default list has sixteen distinct keys, each well formed |
| AdSpaces.KeyIndex | src/data/adSpacesStore.ts:85-86 | the position of the first placement with the key, or -1 exactly when no placement has it |
| AdSpaces.Lookup | src/data/adSpacesStore.ts:85-86 | `find` by key: nothing exactly when the key is absent, otherwise a listed placement with that key |
| AdSpaces.SizeFor | src/data/adSpacesStore.ts:64-66 | a sizeless placement gets the catalog size for its key, or "320×50" when the catalog has none; never empty |
| AdSpaces.FixSlotRepairs | src/data/adSpacesStore.ts:59-68 | repairing one placement pads a rotating placement's codes to four with its own codes as a prefix and fills a missing size; a well-formed placement is left unchanged |
| AdSpaces.FixAll | src/data/adSpacesStore.ts:59-68 | the migration loop repairs each stored placement in place, keeping count and order |
| AdSpaces.Missing | src/data/adSpacesStore.ts:53-56 | the defaults appended all come from the catalog and lack a key in the stored list, and every catalog placement whose key the stored list lacks is among them |
| AdSpaces.MissingExactly | src/data/adSpacesStore.ts:53-56 | the defaults appended are exactly the catalog placements whose key the stored list lacks, each once, in catalog order |
| AdSpaces.MissingNone | src/data/adSpacesStore.ts:53-56 | a list holding every catalog key gets nothing appended |
| AdSpaces.RepairSplits | src/data/adSpacesStore.ts:53-68 | the repaired list is the migrated stored list followed by the missing defaults |
| AdSpaces.RepairKeepsStored | src/data/adSpacesStore.ts:53-68 | stored placements keep their places ahead of the appended defaults, each repaired from its original |
| AdSpaces.RepairWellFormed | src/data/adSpacesStore.ts:59-68 | after repair every placement has a size and every rotating one at least four codes |
| AdSpaces.FixAllKeepsKeys | src/data/adSpacesStore.ts:59-68 | migration never adds or drops a key |
| AdSpaces.RepairComplete | src/data/adSpacesStore.ts:53-56 | after repair every catalog key is present |
| AdSpaces.AppendOnlyIsNotMigration | src/data/adSpacesStore.ts:53-70 | appending missing defaults alone does not set `migrated`, so it is not written back |
| AdSpaces.RepairOfRepaired | src/data/adSpacesStore.ts:53-70 | a complete, well-formed list passes repair unchanged and unmigrated |
| AdSpaces.RepairIdempotent | src/data/adSpacesStore.ts:53-70 | repairing a repaired list changes nothing and leaves `migrated` false |
| AdSpaces.CatalogComplete | src/data/adSpacesStore.ts:18-41 | the catalog holds all its own keys |
| AdSpaces.GetAdSpaces | src/data/adSpacesStore.ts:44-75 | absent storage is seeded with the catalog without a broadcast; unreadable storage yields the catalog without a write; a stored list is repaired and written back with one broadcast exactly when a placement was migrated; the result is complete and well formed |
| AdSpaces.ReadIsStable | src/data/adSpacesStore.ts:44-75 | a second read returns the same list and writes nothing |
| AdSpaces.CatalogKeyFound | src/data/adSpacesStore.ts:85-86 | every catalog key can be found in a repaired list |
| AdSpaces.GetSlot | src/data/adSpacesStore.ts:85-87 | a found placement has the key and is well formed, and a catalog key is always found |
| AdSpaces.Merge | src/data/adSpacesStore.ts:93 | `{ ...slot, ...updates }` never changes the key; each of caption, area, kind, size, codes and enabled takes the update's value when given and keeps the old one otherwise; an empty update changes nothing |
| AdSpaces.UpdateIn | src/data/adSpacesStore.ts:89-96 | only the first placement with the key is merged; every other placement is unchanged; an unknown key gives nothing |
| AdSpaces.UpdateSlot | src/data/adSpacesStore.ts:89-96 | false with nothing written or broadcast beyond the read for an unknown key; otherwise the merged list is saved with one broadcast |
| AdSpaces.ActiveCodes | src/data/adSpacesStore.ts:102 | the codes kept are non-blank after trim and drawn from the placement; none are kept exactly when all are blank |
| AdSpaces.ActiveCodesAll | src/data/adSpacesStore.ts:102 | codes that are all non-blank are all kept, in order |
| AdSpaces.ActiveCodesKeepsExactly | src/data/adSpacesStore.ts:102 | the kept codes are exactly the non-blank ones, in order: every non-blank code is kept and every blank one dropped |
| AdSpaces.RotatingCode | src/data/adSpacesStore.ts:99-105 | "" exactly when the placement is missing, disabled or has only blank codes; otherwise the untrimmed non-blank code at `index` modulo the number of non-blank codes |
| AdSpaces.RotationPeriodic | src/data/adSpacesStore.ts:104 | the rotation repeats with period equal to the number of non-blank codes |
| AdSpaces.RotationInOrder | src/data/adSpacesStore.ts:102-104 | below that period, index i gives the i-th non-blank code |
| AdSpaces.RotationSkipsBlank | src/data/adSpacesStore.ts:102-104 | codes A, B, blank, D rotate as A, B, D, A |
| AdSpaces.SingleCode | src/data/adSpacesStore.ts:108-112 | "" for a missing or disabled placement and for an enabled one with no codes, otherwise the trimmed first code; the result is always trimmed |
| AdSpaces.CatalogShowsNothing | src/data/adSpacesStore.ts:99-112 | the default catalog shows no code anywhere |
| AdSpaces.GetRotatingCode | src/data/adSpacesStore.ts:99-105 | the stored form of the rotating getter: "" exactly when the repaired placement shows nothing, otherwise its non-blank code at `index` modulo their number; always "" on absent or unreadable storage |
| AdSpaces.GetSingleCode | src/data/adSpacesStore.ts:108-112 | the stored form of the single getter: the trimmed first code of the repaired placement when it is enabled and has a code, "" otherwise, and "" on absent or unreadable storage |
| AdSpaces.SepIndex | src/data/adSpacesStore.ts:117 | the first "×", "x" or "X" in a size, or -1 when there is none |
| AdSpaces.SizeParts | src/data/adSpacesStore.ts:117 | the first two pieces of `split(/[×x]/i)`: the text before the first separator, and the text up to the next separator if there is one |
| AdSpaces.NumberOr | src/data/adSpacesStore.ts:118 | `parseInt(part) \|\| fallback`: the parsed number unless it is missing, NaN or 0 |
| AdSpaces.ParseSize | src/data/adSpacesStore.ts:116-119 | the width and height are never 0 |
| AdSpaces.SizePartsOfPair | src/data/adSpacesStore.ts:117 | splitting "a×b" gives a and b |
| AdSpaces.ParseSizeRoundTrip | src/data/adSpacesStore.ts:116-119 | parsing "w×h" for positive w and h gives (w, h) back |
| AdSpaces.ParseSizeNoSeparator | src/data/adSpacesStore.ts:118 | a size with no separator falls back to height 50 |
| AdSpaces.SampleBanner | src/data/adSpacesStore.ts:121-127 | the sample banner markup is never blank |
| AdSpaces.SampleRotating | src/data/adSpacesStore.ts:129-137 | each numbered sample markup is never blank |
| AdSpaces.SampleCodes | src/data/adSpacesStore.ts:145-154 | one sample code for a single placement, four for a rotating one, none blank |
| AdSpaces.SampleSlot | src/data/adSpacesStore.ts:142-155 | a sampled placement is enabled with those codes and otherwise unchanged |
| AdSpaces.ClearedSlot | src/data/adSpacesStore.ts:162-165 | a cleared placement is disabled with one blank code (single) or four (rotating) and otherwise unchanged |
| AdSpaces.SampleAll | src/data/adSpacesStore.ts:142-155 | every placement is sampled, in order |
| AdSpaces.ClearAll | src/data/adSpacesStore.ts:162-165 | every placement is cleared, in order |
| AdSpaces.ClearAllShowsNothing | src/data/adSpacesStore.ts:99-167 | after clearing, both getters return "" for every key |
| AdSpaces.VisibleSlotShows | src/data/adSpacesStore.ts:99-112 | an enabled placement whose codes are all non-blank shows its first code and rotates through all of them |
| AdSpaces.SampleAllShowsSamples | src/data/adSpacesStore.ts:99-157 | after sampling, every present key is enabled and both getters return a sample; a rotating one cycles through its four |
| AdSpaces.LoadSampleAds | src/data/adSpacesStore.ts:140-157 | the read list, sampled, is saved with one more broadcast |
| AdSpaces.ClearAllAds | src/data/adSpacesStore.ts:160-167 | the read list, cleared, is saved with one more broadcast |
| AdSpaces.LoadedShowsSamples | src/data/adSpacesStore.ts:140-157 | after `loadSampleAds` every catalog key shows a sample in both getters |
| AdSpaces.ClearedShowsNothing | src/data/adSpacesStore.ts:160-167 | after `clearAllAds` both getters return "" for every key |
| UserAds.All | src/data/userAdsStore.ts:40-46 | the stored list when readable, and [] when nothing or nothing readable is stored |
| UserAds.GetByUser | src/data/userAdsStore.ts:59-61 | exactly the stored ads whose owner matches the name ignoring case, in stored order |
| UserAds.CountActiveByUser | src/data/userAdsStore.ts:64-70 | never more than the number of stored ads |
| UserAds.CountActiveIsUnexpiredOwnAds | src/data/userAdsStore.ts:64-70 | counting own unexpired ads in one pass equals counting the unexpired ones among the user's ads |
| UserAds.CountActiveByUserAgrees | src/data/userAdsStore.ts:59-70 | `countActiveByUser` is the number of unexpired ads `getByUser` returns |
| UserAds.Stamp | src/data/userAdsStore.ts:85-96 | a new ad keeps the posted fields, takes the given id and creation time, expires 60 days later and is locked for 14 days |
| UserAds.Add | src/data/userAdsStore.ts:85-100 | the stored list grows by one: the old ads unchanged in front, the stamped ad last, and that ad is returned; the stamp is the form's fields with the new id, `createdAt` now and the edit lock and expiry computed from now |
| UserAds.AddedAdLifecycle | src/data/userAdsStore.ts:73-89 | a new ad is locked and live for 14 days, then unlocked and live until day 60, then expired |
| UserAds.DeadlinesAreMonotone | src/data/userAdsStore.ts:73-82 | once unlocked an ad stays unlocked, and once expired it stays expired |
| UserAds.Merge | src/data/userAdsStore.ts:107 | `{ ...ad, ...updates }` keeps id, owner and creation time; each of the other fields, expiry and edit lock included, takes the patch's value when given and keeps the old one otherwise; an empty patch changes nothing |
| UserAds.Update | src/data/userAdsStore.ts:103-110 | true exactly when some ad has the id; then only the first such ad is merged and the list is saved; otherwise nothing is written |
| UserAds.Delete | src/data/userAdsStore.ts:113-119 | true exactly when some ad has the id; then exactly the ads without that id are saved, in order; otherwise nothing is written |
| Storage.Seeded | src/data/storiesStore.ts:115-126 | the shared seed-on-first-read pattern: absent storage is written with the fixtures; unreadable storage reads as the fixtures without a write; a readable list is returned as stored |
| Messages.All | src/data/datingMessages.ts:23-29 | the stored list when readable, and [] when nothing or nothing readable is stored |
| Messages.Send | src/data/datingMessages.ts:38-49 | the new message carries the draft, the given id and time and is unread, and is appended after the stored messages |
| Messages.Inbox | src/data/datingMessages.ts:52-56 | newest first, holding each message addressed to the user as often as it is stored and nothing else |
| Messages.SentBy | src/data/datingMessages.ts:59-63 | newest first, holding each message the user sent as often as it is stored and nothing else |
| Messages.Conversation | src/data/datingMessages.ts:66-74 | oldest first, holding exactly the stored messages between the two users in either direction |
| Messages.ConversationSymmetric | src/data/datingMessages.ts:66-74 | the thread between a and b is the thread between b and a |
| Messages.UnreadCount | src/data/datingMessages.ts:77-79 | zero exactly when no stored message to the user is unread |
| Messages.MarkAsRead | src/data/datingMessages.ts:82-89 | an unknown id writes nothing; otherwise only the first message with that id becomes read and every other message is unchanged |
| Messages.MarkFrom | src/data/datingMessages.ts:95-100 | each message from the partner to the user that is unread becomes read; every other message is unchanged |
| Messages.MarkConversationAsRead | src/data/datingMessages.ts:92-102 | nothing is written when nothing was pending; otherwise the marked list is saved |
| Messages.NothingPendingAfterMarking | src/data/datingMessages.ts:95-100 | after marking, no message from that partner to the user is unread |
| Messages.MarkConversationIdempotent | src/data/datingMessages.ts:92-102 | marking a conversation twice stores the same as marking it once |
| Messages.MarkFromUnread | src/data/datingMessages.ts:77-100 | marking lowers the user's unread messages by exactly the pending ones from that partner |
| Messages.MarkConversationLowersUnread | src/data/datingMessages.ts:77-102 | after opening a conversation the unread badge drops by exactly that conversation's unread messages |
| Messages.DeleteMessage | src/data/datingMessages.ts:105-108 | exactly the messages with another id are saved, in order; the list is written even when nothing matched |
| Messages.PartnersFrom | src/data/datingMessages.ts:130-135 | the partners in order of first appearance after those already seen, each once, and no one else |
| Messages.Partners | src/data/datingMessages.ts:130-135 | each partner of the user's messages exactly once, and each with a non-empty group |
| Messages.Group | src/data/datingMessages.ts:131-135 | a partner's group is exactly the user's messages with that partner, each as often as stored, in store order |
| Messages.GroupsOfPartners | src/data/datingMessages.ts:130-135 | every partner that occurs has a non-empty group |
| Messages.SummaryOf | src/data/datingMessages.ts:139-155 | a summary names the partner, carries that pair's newest message, and counts the pair's messages and those unread by the user; the partner's username, name and photo come from the newest message's recipient side when the user sent it and from its sender side otherwise |
| Messages.GroupCounts | src/data/datingMessages.ts:142-154 | counting inside a group equals counting the whole list by partner |
| Messages.BuildAll | src/data/datingMessages.ts:138-156 | one summary per partner, in partner order |
| Messages.Mine | src/data/datingMessages.ts:125-127 | exactly the stored messages the user sent or received, each as often as stored |
| Messages.Summaries | src/data/datingMessages.ts:121-161 | summaries come newest conversation first |
| Messages.SummariesDistinct | src/data/datingMessages.ts:130-139 | no partner has two summaries |
| Messages.BuiltSummarise | src/data/datingMessages.ts:139-155 | every built summary's last message is the newest of its pair |
| Messages.BuiltCover | src/data/datingMessages.ts:130-155 | every message's partner has a built summary |
| Messages.SummariesSummarise | src/data/datingMessages.ts:121-161 | after sorting, every summary still carries its pair's newest message |
| Messages.MineIndex | src/data/datingMessages.ts:125-127 | every message involving the user is among the user's messages |
| Messages.SummariesCoverPartners | src/data/datingMessages.ts:121-161 | every partner the user has exchanged a message with has a summary |
| Messages.SelfPartnerNeedsSelfMessage | src/data/datingMessages.ts:132 | a summary whose partner is the user exists only when the user messaged themself |
| Messages.PartnersOnce | src/data/datingMessages.ts:130-135 | each partner occurs exactly once in the partner list |
| Messages.BuiltSums | src/data/datingMessages.ts:139-155 | the built summaries' unread counts add up to the user's unread messages, and their totals to the number of messages |
| Messages.SummariesUnreadSum | src/data/datingMessages.ts:121-161 | the summaries' unread counts add up to the user's unread badge |
| Messages.MineUnread | src/data/datingMessages.ts:125-127 | the user's unread messages are all among the user's own messages |
| Messages.SummariesTotalSum | src/data/datingMessages.ts:121-161 | the summaries' totals add up to the number of stored messages involving the user |
| Stories.MockIds | src/data/storiesStore.ts:31-110 | the six fixture stories have ids 1 to 6, all distinct |
| Stories.MockShape | src/data/storiesStore.ts:31-110 | the fixtures come newest first, each in a listed category with non-negative counters |
| Stories.FixtureLabelMatchesAge | src/data/storiesStore.ts:31-110 | each fixture's hard-coded age label is the label its own timestamp produces |
| Stories.HoursLabel | src/data/storiesStore.ts:38-41 | a single-digit number of hours is labelled "Nh ago" |
| Stories.DaysLabel | src/data/storiesStore.ts:64-67 | a single-digit number of days is labelled "Nd ago" |
| Stories.GetById | src/data/storiesStore.ts:132-134 | nothing exactly when no story has the id, otherwise the first story with it |
| Stories.MaxIdFrom | src/data/storiesStore.ts:138 | the fold's result bounds every id and the start value, and is one of them |
| Stories.Add | src/data/storiesStore.ts:136-150 | the new story's id is one more than the largest id (or 0), above every stored id; it starts with no views or likes, "Just now" and the given time, and goes first |
| Stories.AddKeepsIdsDistinct | src/data/storiesStore.ts:136-150 | adding keeps ids distinct |
| Stories.Merge | src/data/storiesStore.ts:156 | `{ ...story, ...updates }` keeps the id; each of title, author, excerpt, image, content, category, views, likes, time and creation stamp takes the patch's value when given and keeps the old one otherwise; an empty patch changes nothing |
| Stories.Update | src/data/storiesStore.ts:152-159 | true exactly when some story has the id; then only the first such story is merged and the list is saved |
| Stories.UpdateKeepsIdsDistinct | src/data/storiesStore.ts:152-159 | updating keeps ids distinct |
| Stories.Delete | src/data/storiesStore.ts:161-167 | true exactly when some story has the id; then exactly the other stories are saved, in order |
| Stories.DeleteKeepsIdsDistinct | src/data/storiesStore.ts:161-167 | deleting keeps ids distinct |
| Stories.Reset | src/data/storiesStore.ts:169-171 | after a reset every read returns the fixtures |
| Profiles.RandomIn | src/data/datingProfiles.ts:31-41 | for a random value in [0, 1) the drawn integer lies between the bounds |
| Profiles.Mock | src/data/datingProfiles.ts:44-69 | twenty-four fixture profiles, each built from its seed row |
| Profiles.NumberedIdsDiffer | src/data/datingProfiles.ts:45-68 | "m" followed by different numbers gives different ids |
| Profiles.SeedUsernamesDistinct | src/data/datingProfiles.ts:45-68 | the fixture usernames are pairwise different |
| Profiles.MockIdsDistinct | src/data/datingProfiles.ts:45-68 | fixture i has id "m(i+1)", so the ids are distinct |
| Profiles.MockUsernamesDistinct | src/data/datingProfiles.ts:45-68 | the fixture usernames are distinct |
| Profiles.MockAdultsWithoutPassword | src/data/datingProfiles.ts:45-68 | every fixture is at least 18 and has no password |
| Profiles.MockTimesInRange | src/data/datingProfiles.ts:31-68 | each fixture's creation and last-active times lie inside its seeded day and minute windows |
| Profiles.GetSession | src/data/datingProfiles.ts:90-97 | a session exists exactly when a readable one is stored |
| Profiles.SaveSession | src/data/datingProfiles.ts:99-105 | saving no session removes the key |
| Profiles.SessionRoundTrip | src/data/datingProfiles.ts:90-105 | reading back a saved session gives what was saved, including none |
| Profiles.Public | src/data/datingProfiles.ts:107-121 | the public form has no password and differs from the profile in nothing else |
| Profiles.PublicProfiles | src/data/datingProfiles.ts:107-111 | every profile, in order, with its password stripped and nothing else changed |
| Profiles.ProfileById | src/data/datingProfiles.ts:113-121 | nothing exactly when no profile has the id; otherwise the first such profile without its password |
| Profiles.TouchLastActive | src/data/datingProfiles.ts:123-130 | an unknown id writes nothing; otherwise only that profile's last-active time changes to now |
| Profiles.TouchedShowsActiveNow | src/data/datingProfiles.ts:123-146 | right after touching, the profile reads "Active 0s ago" |
| TimeLabels.ParseRender | src/data/datingMessages.ts:172-175 | a counted label or "Just now" reads back as the bucket and count it was made from |
| TimeLabels.ParseCount | src/data/datingMessages.ts:173-175 | "N" followed by a unit letter and " ago" reads back as N in that unit |
| TimeLabels.MessageAge | src/data/datingMessages.ts:164-177 | "Just now" exactly under a minute; otherwise the floor count of minutes under an hour, hours under a day, days under a week; a date from seven days on |
| TimeLabels.AdAge | src/data/unifiedAds.ts:45-53 | "Just now" exactly under a minute; otherwise the floor count of minutes, hours under 1440 minutes, then days without an upper limit |
| TimeLabels.LastActiveAge | src/data/datingProfiles.ts:132-146 | seconds exactly under a minute; then minutes, hours, days under a week, and whole weeks beyond, each the floor count |
| MockAds.Ads | src/data/mockAds.ts:34-45 | twenty-four generated ads |
| MockAds.AdShape | src/data/mockAds.ts:34-45 | ad i has id i+1, a real category (never "All"), is verified exactly when i is a multiple of three, and its location is its city and district |
| MockAds.AdTimeReadsBack | src/data/mockAds.ts:42 | ad i's label reads back as (i mod 12) + 1 hours |
| MockAds.Find | src/data/mockAds.ts:34-35 | the mock ad with number n is the n-th one for 1 ≤ n ≤ 24, and nothing otherwise |
| MockAds.FindByNumber | src/data/mockAds.ts:34-35 | searching by number finds position n−1 exactly for 1 ≤ n ≤ 24 |
| UnifiedAds.UnifyMock | src/data/unifiedAds.ts:28-41 | a mock ad becomes "mock_" followed by its number, keeps its label and verification, and has no contact |
| UnifiedAds.UnifyUser | src/data/unifiedAds.ts:44-75 | a member ad keeps its id, is never verified, has the age label of its creation time, an empty image when it has none, and carries its contact and owner |
| UnifiedAds.MockList | src/data/unifiedAds.ts:28-41 | all twenty-four mock ads unified, in order |
| UnifiedAds.AllAds | src/data/unifiedAds.ts:78-82 | the member ads first, each unified, then the twenty-four mock ads |
| UnifiedAds.FindAdById | src/data/unifiedAds.ts:85-113 | a member ad with the id wins; otherwise a "mock_" id whose number parses to 1..24 finds that mock ad; anything else finds nothing |
| UnifiedAds.FindListedAd | src/data/unifiedAds.ts:78-113 | every listed ad can be found again by its id |
| UnifiedAds.FindListedMockAd | src/data/unifiedAds.ts:92-109 | every unified mock id finds its ad |
| UnifiedAds.MockIdReadsBack | src/data/unifiedAds.ts:30-93 | a unified mock id has the prefix and its number parses back |
| UnifiedAds.FoundAdOrigin | src/data/unifiedAds.ts:85-113 | a found ad is either a member ad with exactly that id or a mock ad found through the prefix |
| Accounts.Login | src/contexts/AuthContext.tsx:70-90 | the configured administrator credentials sign in as administrator first; otherwise sign-in succeeds exactly when a stored account matches the name ignoring case and the password exactly, and the session holds that account; a failure says the login is invalid and changes nothing; the account list is never changed |
| Accounts.Register | src/contexts/AuthContext.tsx:92-108 | a name taken ignoring case is refused first, then a registered phone; otherwise the account is appended and signed in |
| Accounts.RegisterKeepsUnique | src/contexts/AuthContext.tsx:92-108 | registration keeps names unique ignoring case and phones unique |
| Accounts.RegisterThenLogin | src/contexts/AuthContext.tsx:70-108 | a member who has just registered can sign in with the same name and password |
| Accounts.AdminOnlyThroughCredentials | src/contexts/AuthContext.tsx:70-90 | a sign-in is an administrator exactly when it used the administrator credentials |
| Accounts.Logout | src/contexts/AuthContext.tsx:110-113 | the session and user are cleared and the accounts kept |
| Accounts.Restore | src/contexts/AuthContext.tsx:59-68 | a stored session restores its user; an unreadable one is removed |
| Accounts.RestoreAfterLogin | src/contexts/AuthContext.tsx:59-113 | reloading after a sign-in restores the same user, and after a sign-out restores none |
| DatingAuth.Login | src/contexts/DatingAuthContext.tsx:69-83 | success exactly when a profile matches name ignoring case and password; the first match gets last-active now and is stored, and the session holds it without its password |
| DatingAuth.PasswordlessCannotLogIn | src/contexts/DatingAuthContext.tsx:69-76 | when no profile has a password (as with the fixtures) no sign-in succeeds |
| DatingAuth.RegisterError | src/contexts/DatingAuthContext.tsx:85-104 | the refusals in the source's order: name taken, a missing field (age 0 counts as missing), password under six, age under 18, age over 99; none exactly when all pass |
| DatingAuth.Register | src/contexts/DatingAuthContext.tsx:85-131 | a refusal changes nothing but the seeding read; otherwise the new profile is appended and signed in without its password |
| DatingAuth.RegisteredMemberIsValid | src/contexts/DatingAuthContext.tsx:85-131 | a registered profile is appended last, is 18 to 99, has a password of six or more UTF-16 units, and no other profile has its name ignoring case |
| DatingAuth.RegisterThenLogin | src/contexts/DatingAuthContext.tsx:69-131 | a member who has just registered can sign in with the same name and password |
| DatingAuth.Logout | src/contexts/DatingAuthContext.tsx:133-139 | the session is cleared; for a signed-in user found in the list, that profile's last-active time becomes now and every other profile is unchanged; an unknown user writes back only what the read seeded; nobody signed in changes no profile |
| DatingAuth.RestoreAfterLogout | src/contexts/DatingAuthContext.tsx:52-139 | a reload after logging out restores nobody and touches no profile, and the member who left reads "Active 0s ago" at the moment of leaving |
| DatingAuth.Merge | src/contexts/DatingAuthContext.tsx:147 | `{ ...profile, ...fields, lastActive }`: each of the fifteen patchable fields takes the patch's value when given and keeps the old one otherwise, and last-active is always now |
| DatingAuth.UpdateProfile | src/contexts/DatingAuthContext.tsx:141-154 | refused when signed out or when the profile is gone; otherwise only the user's profile is merged and the session follows it without its password |
| DatingAuth.SessionsHaveNoPassword | src/contexts/DatingAuthContext.tsx:79-152 | after sign-in, registration or an update, neither the user nor the stored session carries a password |
| DatingAuth.Restore | src/contexts/DatingAuthContext.tsx:52-58 | a stored session restores its user and touches that user's last-active time; no session changes nothing |
| DatingAuth.RestoreAfterLogin | src/contexts/DatingAuthContext.tsx:52-83 | reloading after a sign-in restores the same user |
| Phone.Clean | src/components/AuthModal.tsx:22 | the cleaned number is exactly the characters of the input that are not a space, dash or parenthesis, in their order |
| Phone.ValidateSLPhone | src/components/AuthModal.tsx:21-37 | a rejection always carries the one error message the form shows |
| Phone.AcceptedShape | src/components/AuthModal.tsx:21-37 | a number passes exactly when its cleaned form is 07 and eight digits, 947 and eight digits, or +947 and eight digits |
| Phone.ValidateCleaned | src/components/AuthModal.tsx:21-37 | cleaning is idempotent, and validating the cleaned number gives the same verdict |
| Phone.SeparatorsIgnored | src/components/AuthModal.tsx:22 | separators typed anywhere in a number change neither its cleaned form nor the verdict |
| Phone.HandleRegister | src/components/AuthModal.tsx:98-130 | the checks in the source's order: a blank field, a name under three characters after trimming, an invalid phone, a password under six, a mismatched confirmation; only when all pass is the trimmed name, cleaned phone and password submitted |
| Phone.SubmittedPhoneIsValid | src/components/AuthModal.tsx:98-130 | every submitted phone is already clean and valid, and the name has three or more characters |
| Phone.HandleLogin | src/components/AuthModal.tsx:82-96 | refused exactly when name or password is blank after trimming; otherwise the trimmed name and the untrimmed password are submitted |
| Phone.WaNumber | src/pages/AdDetailPage.tsx:30-34 | a leading '+' is dropped, a leading '0' becomes "94", any other number is kept |
| Phone.ViberIsPlusWa | src/pages/AdDetailPage.tsx:30-131 | the Viber number is always '+' followed by the WhatsApp number |
| Phone.ValidContactWaNumber | src/pages/AdDetailPage.tsx:28-34 | for a contact the sign-up accepts, the WhatsApp number is 947 followed by eight digits |
| Paging.TotalPages | src/pages/AdsPage.tsx:82 | at least one page; one for an empty list; otherwise the fewest pages of `per` that hold every item |
| Paging.TotalPagesIsCeiling | src/pages/AdsPage.tsx:82 | the page count is the rounded-up quotient |
| Paging.Slice | src/pages/AdsPage.tsx:83 | a slice takes only items of the list, and is the plain subsequence for in-range bounds |
| Paging.PageOfShape | src/pages/AdsPage.tsx:83 | a page holds at most `per` items: the next `per` items from (page − 1) · per, or none past the end |
| Paging.PagesPrefix | src/pages/AdsPage.tsx:83 | pages 1 … k together are the first k · per items |
| Paging.PagesCoverList | src/pages/AdsPage.tsx:82-83 | reading pages 1 … TotalPages in order gives back the whole list, each item once |
| Paging.ShowingMatchesPage | src/pages/AdsPage.tsx:146 | on every page of a non-empty list, "Showing a–b of n" names exactly the items that page shows |
| Paging.PageStartsInside | src/pages/AdsPage.tsx:82-83 | every page up to the last starts before the end of the list |
| Paging.PageNumbers | src/pages/AdsPage.tsx:91-105 | at most seven entries for a current page in range |
| Paging.ShownFromContents | src/pages/DatingPage.tsx:441-442 | the filter keeps exactly the pages that get a button, in increasing order |
| Paging.SkipHidden | src/pages/DatingPage.tsx:441-442 | pages without a button add nothing to the filtered list |
| Paging.TakeShown | src/pages/DatingPage.tsx:441-442 | a stretch of pages with buttons is kept whole |
| Paging.WindowIsWithEllipses | src/pages/AdsPage.tsx:91-105 | with more than seven pages, the ad list's window is the bar of the shown pages with "..." over every jump |
| Paging.WindowPages | src/pages/AdsPage.tsx:96-102 | with more than seven pages, the shown pages are the first, those within one of the current page, and the last |
| Paging.SmallWindowIsWithEllipses | src/pages/AdsPage.tsx:93-94 | with seven pages or fewer every page is shown, without "..." |
| Paging.PageNumbersShape | src/pages/AdsPage.tsx:91-105 | the bar starts at page 1, ends at the last page, contains the current page, lists pages in increasing order, and lists exactly the pages the window shows |
| Paging.DatingButtonsShape | src/pages/DatingPage.tsx:441-447 | the dating bar starts at 1, ends at the last page, contains the current page, and lists in order exactly the pages within two of it plus the first and the last |
| Paging.BarOfShown | src/pages/DatingPage.tsx:441-447 | any bar built from a window starts at 1, ends at the last page and lists exactly the window's pages in order |
| Paging.ShownEnds | src/pages/DatingPage.tsx:441-442 | the shown pages start at 1, end at the last page and are increasing |
| Paging.EllipsesBetween | src/pages/DatingPage.tsx:443-447 | a bar neither starts nor ends with "...", never has two "..." together, and its numbers are the shown pages |
| Paging.AfterShape | src/pages/DatingPage.tsx:443-447 | the same for the tail of a bar after a given page |
| Paging.GapMeansJump | src/pages/DatingPage.tsx:445 | a "..." stands exactly between two listed pages that are not neighbours |
| Paging.SideBySideMeansStep | src/pages/DatingPage.tsx:445 | two buttons side by side are neighbouring pages |
| Paging.RotatingAdsStep | src/pages/AdsPage.tsx:152-160 | each item adds its cell, with an ad after every fourth item |
| Paging.RotatingAdsItems | src/pages/AdsPage.tsx:152-160 | item k sits at position k + ⌊k/4⌋, and a page of n items renders n + ⌊n/4⌋ cells |
| Paging.RotatingAdsPlaces | src/pages/AdsPage.tsx:156-158 | after every fourth item comes an ad with rotation index ⌊k/4⌋ |
| Paging.NoAdAfterOtherItems | src/pages/AdsPage.tsx:156 | any other item is followed directly by the next item |
| Listings.InitialTabAsWritten | src/pages/AdsPage.tsx:29-30 | the tab as the page computes it: a known code opens its tab, a name the lookup object inherits yields a non-string value, anything else opens "All" |
| Listings.InitialTab | src/pages/AdsPage.tsx:16-30 | always a real category tab, and "All" exactly when the code is not one of the eight |
| Listings.CodesDistinct | src/pages/AdsPage.tsx:16-25 | no two codes open the same tab |
| Listings.HomeLinksOpenTheirTab | src/pages/Index.tsx:17-26 | each home-page category link opens the tab it is labelled with |
| Listings.Filtered | src/pages/AdsPage.tsx:74-80 | exactly the ads that pass every filter, each as often as listed, in their listed order |
| Listings.PassesMeans | src/pages/AdsPage.tsx:74-80 | an ad passes exactly when its tab matches or the tab is "All", the search is empty or found in its title or description ignoring case, and district and city match unless "all" |
| Listings.InheritedCodeHidesEverything | src/pages/AdsPage.tsx:29-80 | `?cat=constructor` selects no tab, so the list is empty whatever else is chosen |
| Listings.CorrectedTabListsItsCategory | src/pages/AdsPage.tsx:16-80 | with the corrected tab, every ad of the opened category is listed when no other filter is set |
| Listings.HomeIsAllTab | src/pages/Index.tsx:66-71 | the home page filters exactly as the ad list's "All" tab does |
| Listings.AdsPagesCover | src/pages/AdsPage.tsx:82-83 | the ad list's pages of sixteen, read in order, show every filtered ad exactly once |
| Listings.AdsOnPagePass | src/pages/AdsPage.tsx:74-83 | every ad on a page is a listed ad that passes the filters |
| DatingBrowse.AgeBound | src/pages/DatingPage.tsx:126-127 | an empty bound takes its default; otherwise it is what `parseInt` makes of the text, possibly nothing |
| DatingBrowse.Browse | src/pages/DatingPage.tsx:111-149 | a permutation of exactly the profiles that pass the own-profile, tab, select, age and search filters, ordered by the chosen sort key |
| DatingBrowse.BrowseMembers | src/pages/DatingPage.tsx:111-138 | a profile is listed exactly when it is stored and passes every filter |
| DatingBrowse.OwnProfileHidden | src/pages/DatingPage.tsx:114-116 | a signed-in member never sees their own profile |
| DatingBrowse.GayTab | src/pages/DatingPage.tsx:27-120 | the Gay tab lists exactly the Men tab's profiles that seek men |
| DatingBrowse.LesbianTab | src/pages/DatingPage.tsx:27-120 | the Lesbian tab lists exactly the Women tab's profiles that seek women |
| DatingBrowse.GenderTabsPartition | src/pages/DatingPage.tsx:27-120 | All Members lists exactly what the Women, Men and Couples tabs list together |
| DatingBrowse.TabKeeps | src/pages/DatingPage.tsx:27-120 | the same three facts for a single profile |
| DatingBrowse.UnreadableAgeHidesAll | src/pages/DatingPage.tsx:126-128 | a minimum age that does not parse compares false with every age and hides every profile |
| DatingBrowse.ActiveFilterCount | src/pages/DatingPage.tsx:100-108 | at most seven, and zero exactly when every filter is at its default and the search is blank after trimming |
| DatingBrowse.NoActiveFilterListsCategory | src/pages/DatingPage.tsx:100-138 | with no active filter, every other profile of the tab aged 0 to 999 is listed |
| DatingBrowse.ApplySearch | src/pages/DatingPage.tsx:69-79 | the pending filters become the applied ones and the page goes back to 1 |
| DatingBrowse.ResetFilters | src/pages/DatingPage.tsx:81-97 | no filter is active afterwards, pending equals applied, and the page is 1 |
| DatingBrowse.ChangeCategory | src/pages/DatingPage.tsx:154-161 | switching tab clears both gender selects, pending and applied, goes to page 1, and changes nothing else |
| DatingBrowse.ChangeCategoryClearsSelects | src/pages/DatingPage.tsx:154-161 | switching tab lowers the active-filter count by the selects it cleared |
| DatingBrowse.TouchedIsOnline | src/pages/DatingPage.tsx:169-172 | after `touchLastActive` at `now`, that member shows as online at a later moment exactly when it is less than ten minutes after `now` |
| DatingBrowse.RegisterAddsShownMember | src/pages/DatingPage.tsx:65-66 | a successful dating sign-up raises the displayed member count by one; a refused one leaves it unchanged |
| DatingBrowse.MembersPageShowsKept | src/pages/DatingPage.tsx:111-152 | every profile on a page passes the filters |
| DatingBrowse.MembersPagesCover | src/pages/DatingPage.tsx:151-152 | the pages of twenty, read in order, show every listed profile exactly once |
| StoryViews.FilteredStories | src/pages/StoriesPage.tsx:37-64 | a permutation of exactly the stories matching the search (title, excerpt or body, ignoring case) and the category, ordered newest first or by likes plus views |
| StoryViews.FilteredStoriesMembers | src/pages/StoriesPage.tsx:37-54 | a story is listed exactly when it is stored and matches |
| StoryViews.PopularKeepsTotals | src/pages/StoriesPage.tsx:57-61 | sorting loses no story: the listed likes plus views add up to those of the matching stories |
| StoryViews.StoryPageCount | src/pages/StoriesPage.tsx:188-206 | when the controls show (more than twenty stories) the page count is the rounded-up quotient and at least two; zero for no stories |
| StoryViews.SplitFrom | src/pages/StoryDetailPage.tsx:11 | splitting on blank lines always gives at least one piece |
| StoryViews.JoinSplitFrom | src/pages/StoryDetailPage.tsx:11 | joining the pieces with blank lines gives back the text |
| StoryViews.SplitRoundTrip | src/pages/StoryDetailPage.tsx:11 | `split("\n\n")` loses nothing: joining it gives back the story body |
| StoryViews.Paragraphs | src/pages/StoryDetailPage.tsx:11 | the paragraphs are exactly the non-empty pieces of the split, each kept once, in order |
| StoryViews.StoryBodyText | src/pages/StoryDetailPage.tsx:18-31 | the rendered body shows every paragraph, in order, and no other text |
| StoryViews.EndSlotShown | src/pages/StoryDetailPage.tsx:29 | the end-of-story ad slot always shows |
| StoryViews.InContentSlot | src/pages/StoryDetailPage.tsx:14-25 | an in-content slot shows exactly when its insertion point is within the paragraph count |
| StoryViews.StorySlotsShown | src/pages/StoryDetailPage.tsx:14-29 | the 25% slot shows from one paragraph on, the 50% slot from two, the 75% slot from three, the end slot always |
| StoryViews.SlotShown | src/pages/StoryDetailPage.tsx:20-25 | a slot follows some paragraph exactly when its insertion point is at most the paragraph count |
| StoryViews.SlotsInOrder | src/pages/StoryDetailPage.tsx:14-16 | from four paragraphs on, the three insertion points are distinct, increasing and within the story |
| StoryViews.OpenLikes | src/pages/StoryDetailPage.tsx:41-42 | the page opens not liked, counting the story's likes, or 0 for a missing story |
| StoryViews.ToggleLike | src/pages/StoryDetailPage.tsx:44-52 | a click flips the liked flag and moves the count one step in the matching direction |
| StoryViews.LikeCountTracksLiked | src/pages/StoryDetailPage.tsx:41-52 | the count is always the opening count plus one while liked, and two clicks restore the state |
| Chat.Get | src/pages/ChatPage.tsx:191-211 | `record[key] \|\| []`: a channel that was never written reads as empty |
| Chat.Put | src/pages/ChatPage.tsx:245-253 | `{ ...prev, [key]: msgs }`: the key reads back the new messages, every other key reads as before, and no channel is lost |
| Chat.AppendCapped | src/pages/ChatPage.tsx:246-252 | `[...msgs, m].slice(-cap)`: the newest cap messages, ending with the new one |
| Chat.SeedMessages | src/pages/ChatPage.tsx:74-92 | each room opens with a non-empty list numbered 1, 2, … |
| Chat.SeedRooms | src/pages/ChatPage.tsx:57-92 | the four rooms, each with its seeded messages |
| Chat.RoomUnread | src/pages/ChatPage.tsx:202-207 | zero when nobody is signed in, and never more than the room's messages |
| Chat.UnreadIsUnseen | src/pages/ChatPage.tsx:206 | the unread count is the length of the filter of messages above the read mark and not the user's own, and is positive exactly when there is one |
| Chat.RoomBadgeShows | src/pages/ChatPage.tsx:202-207 | for a signed-in user a room's badge shows exactly when the room holds a message above its read mark that someone else wrote |
| Chat.PmUnread | src/pages/ChatPage.tsx:209-214 | zero when nobody is signed in, and never more than the conversation's messages |
| Chat.PmBadgeShows | src/pages/ChatPage.tsx:209-214 | for a signed-in user a conversation's badge shows exactly when it holds a message above its `pm_` read mark that the partner wrote |
| Chat.BadgeSum | src/pages/ChatPage.tsx:216-218 | the `reduce` sum of badges is at least each badge, and zero exactly when every badge is zero |
| Chat.TotalUnread | src/pages/ChatPage.tsx:216-220 | the header badge is zero when nobody is signed in, is at least every room and conversation badge, and is zero exactly when all of them are |
| Chat.UnseenAddsOne | src/pages/ChatPage.tsx:206 | appending a message below the cap raises the unread count by one when it is unseen and leaves it otherwise |
| Chat.IncomingRaisesTotal | src/pages/ChatPage.tsx:202-220 | a message from someone else posted into the open room below its cap raises the header badge by exactly one |
| Chat.SeedReadUpTo | src/pages/ChatPage.tsx:178-181 | each room's read mark starts at its last seeded message |
| Chat.Login | src/pages/ChatPage.tsx:176-185 | a blank nickname changes nothing; otherwise the trimmed nickname signs in with the seeded read marks, and the rooms are untouched |
| Chat.GetFirst | src/pages/ChatPage.tsx:191-204 | a channel reads the messages of its first entry |
| Chat.SeedRoomsGet | src/pages/ChatPage.tsx:74-92 | each seeded room reads back its seed messages |
| Chat.AllSeen | src/pages/ChatPage.tsx:206 | nothing is unread when every message is at or below the read mark |
| Chat.SeededRoomsRead | src/pages/ChatPage.tsx:176-207 | with the seeded rooms and read marks no room has unread messages |
| Chat.JoinStartsClean | src/pages/ChatPage.tsx:175-207 | right after joining every room badge is zero |
| Chat.Leave | src/pages/ChatPage.tsx:222-230 | leaving signs out and closes the private chat, keeps the messages and read marks, and the badge drops to zero |
| Chat.BioInput | src/pages/ChatPage.tsx:371 | the bio is the longest prefix of what was typed that fits in 300 UTF-16 units: all of it when it fits, and otherwise the next code point would overflow |
| Chat.SaveProfile | src/pages/ChatPage.tsx:828-837 | a blank nickname or nobody signed in changes nothing; otherwise only the profile changes, to the trimmed nickname |
| Chat.Post | src/pages/ChatPage.tsx:244-254 | the open channel gets the message appended and capped at 50 for a private chat or 500 for a room; the message is the newest |
| Chat.Send | src/pages/ChatPage.tsx:235-257 | blank text or nobody signed in changes nothing; otherwise the untrimmed text is posted under the nickname with the given id and time |
| Chat.SendImage | src/pages/ChatPage.tsx:259-282 | no file or nobody signed in changes nothing; otherwise an empty-text message carrying the image is posted |
| Chat.PostShape | src/pages/ChatPage.tsx:244-254 | posting changes only the open channel, keeps the newest messages up to the cap, and leaves the read marks and user alone |
| Chat.OwnMessageAddsNoUnread | src/pages/ChatPage.tsx:206-252 | posting one's own message never raises one's unread count |
| Chat.MarkRead | src/pages/ChatPage.tsx:188-199 | read marks never go down, only the open channel's may change, and it reaches that channel's last message |
| Chat.MarkReadClearsBadge | src/pages/ChatPage.tsx:188-214 | with ids in increasing order, the open channel has no unread messages once marked |
| Admin.TablePage | src/pages/AdminPage.tsx:180-181 | an admin table page holds at most ten rows, all from the filtered list |
| Admin.TablePagesCover | src/pages/AdminPage.tsx:180-181 | the table's pages of ten, read in order, show every row exactly once |
| Admin.MemberRows | src/pages/AdminPage.tsx:174-178 | a blank search lists every member; otherwise exactly those whose name contains the search ignoring case or whose phone contains the lower-cased search, in list order |
| Admin.AdIds | src/pages/AdminPage.tsx:188-189 | the ids of the member's ads, in order |
| Admin.DeleteEach | src/pages/AdminPage.tsx:188-189 | deleting ids one by one leaves exactly the ads whose id is not among them; no ids changes nothing |
| Admin.DeleteOneReads | src/data/userAdsStore.ts:113-119 | after one delete the store reads as the ads with another id |
| Admin.DeleteMember | src/pages/AdminPage.tsx:183-192 | the saved members are exactly those with another name ignoring case, in stored order; the ads left are exactly those whose id is not one of the member's ad ids |
| Admin.DeleteMemberRemovesTheirAds | src/pages/AdminPage.tsx:183-192 | none of the member's ads survives |
| Admin.DeleteMemberExact | src/pages/AdminPage.tsx:183-192 | with distinct ad ids, exactly the other members' ads survive, in order |
| Admin.DeleteListed | src/pages/AdminPage.tsx:334-343 | a mock ad is refused and nothing changes; a member ad is deleted by id |
| Admin.ListedIds | src/pages/AdminPage.tsx:346-347 | the ids of the listed ads, in order |
| Admin.ClearMemberAds | src/pages/AdminPage.tsx:345-350 | exactly the stored ads whose id is among the listed member ads are deleted |
| Admin.MemberAdsListed | src/pages/AdminPage.tsx:345-347 | every stored member ad is among the listed member ads |
| Admin.ClearMemberAdsEmptiesStore | src/pages/AdminPage.tsx:345-350 | clearing with the full listing empties the member-ad store |
| Admin.DeleteProfile | src/pages/AdminPage.tsx:545-551 | the saved profiles are exactly the others; the saved messages are exactly those neither sent nor received by the profile, each list in its stored order |
| Admin.DeleteProfileLeavesNoMail | src/pages/AdminPage.tsx:545-551 | the deleted profile has an empty inbox and nothing sent |
| Admin.DeleteProfileKeepsOtherThreads | src/pages/AdminPage.tsx:545-551 | every conversation between two other members is unchanged |
| Admin.Toggled | src/pages/AdminPage.tsx:1145-1147 | only the enabled flag of the chosen placement flips |
| Admin.ToggleEnabled | src/pages/AdminPage.tsx:1144-1151 | each placement toggled by key, in order |
| Admin.ToggleEnabledTwice | src/pages/AdminPage.tsx:1144-1151 | toggling the same placement twice restores the list |
| Admin.ToggleAll | src/pages/AdminPage.tsx:1133-1142 | every placement is set to the negation of "all enabled" |
| Admin.ToggleAllAlternates | src/pages/AdminPage.tsx:1133-1142 | when all are enabled the switch disables all; otherwise it enables all, and pressing it again disables all |
| Admin.SaveSlot | src/pages/AdminPage.tsx:1158-1167 | every placement with the edited key is replaced by the edit; the others are kept |
| Admin.SaveSlotReadsBack | src/pages/AdminPage.tsx:1158-1167 | looking up the edited key afterwards finds the edit; every other key finds what it found before |
| Admin.ExcerptOf | src/pages/AdminPage.tsx:892 | a non-blank excerpt is kept trimmed; otherwise the longest prefix of the trimmed body that fits in sixty UTF-16 units, followed by "..." |
| Admin.ImageOf | src/pages/AdminPage.tsx:895 | no image exactly when the field is empty, and otherwise the field itself |
| Admin.StoryData | src/pages/AdminPage.tsx:889-896 | the saved story has the trimmed title and body, author "Admin", the excerpt rule, the chosen category and the image |
| Admin.PatchOf | src/pages/AdminPage.tsx:899 | an edit never touches views, likes, label or timestamp |
| Admin.SaveStory | src/pages/AdminPage.tsx:885-907 | a blank title is refused first, then a blank body, before anything is read; otherwise a new story goes first with no views or likes, and saving never creates while editing |
| Admin.SaveStoryEdits | src/pages/AdminPage.tsx:898-900 | editing replaces only the edited story's text, reporting whether it was found |
| AdForms.CategoriesAreTabs | src/pages/PostAdPage.tsx:15-17 | the forms offer exactly the ad list's tabs without "All", in the same order |
| AdForms.Slug | src/pages/PostAdPage.tsx:104 | turning a name into a select value keeps its length |
| AdForms.SlugIsClean | src/pages/PostAdPage.tsx:104 | a select value has no whitespace, slash or upper-case letter, and making a value of a value changes nothing |
| AdForms.CategorySlugs | src/pages/PostAdPage.tsx:15-17 | the eight categories give the eight listed select values, all different |
| AdForms.CategoryOf | src/pages/PostAdPage.tsx:103-105 | a known select value maps back to the one category it came from; any other value is kept as it is |
| AdForms.CategoryRoundTrip | src/pages/PostAdPage.tsx:103-105 | every category survives the trip to a select value and back |
| AdForms.StartEdit | src/pages/ProfilePage.tsx:49-62 | the editor opens with the ad's fields and the category's select value, or an empty category when the ad's category is not one of the eight |
| AdForms.EditPatch | src/pages/ProfilePage.tsx:74-84 | saving sends the mapped category and the trimmed title, description, location and contact, and nothing else |
| AdForms.SaveEdit | src/pages/ProfilePage.tsx:69-89 | a blank field or empty category is refused without writing; otherwise the store's update runs with the patch and its answer is reported |
| AdForms.EditUntouchedKeepsCategory | src/pages/ProfilePage.tsx:49-89 | opening and saving an ad unchanged keeps its category and trims its title |
| AdForms.UnknownCategoryBlocksSave | src/pages/ProfilePage.tsx:49-73 | an ad whose category is not one of the eight cannot be saved until a category is picked |
| AdForms.RowControls | src/pages/ProfilePage.tsx:287-313 | edit and delete show together exactly when the ad is not locked; the expired badge shows exactly when it has expired |
| AdForms.ControlsOverLifetime | src/pages/ProfilePage.tsx:287-313 | a new ad shows no controls for 14 days, then edit and delete until day 60, then those plus the expired badge |
| AdForms.Location | src/pages/PostAdPage.tsx:107-111 | "city, district" when a city is chosen, otherwise the district alone; always ends with the district |
| AdForms.Optional | src/pages/PostAdPage.tsx:123 | an optional field is absent exactly when blank after trimming, and trimmed otherwise |
| AdForms.PostOf | src/pages/PostAdPage.tsx:102-128 | the posted ad carries the owner, the mapped category, the trimmed fields, "All Locations" for any district and "" for any city, the built location and the optional price |
| AdForms.Submit | src/pages/PostAdPage.tsx:88-128 | a missing required field is refused first, then a title under five characters, both without writing; a posted ad is appended to the store with the given id and time |
| AdForms.NoQuota | src/pages/PostAdPage.tsx:88-128 | whether an ad is posted depends only on the form, never on how many ads the member already has |
| AdForms.PostedCategory | src/pages/PostAdPage.tsx:103-128 | an ad posted under a category's select value is stored under that category's name |
| AgeGate.ToNumber | src/components/AgeVerification.tsx:13 | subtraction coerces a number to itself, `null` to 0 and a missing field to NaN |
| AgeGate.IsVerified | src/components/AgeVerification.tsx:8-18 | not verified when nothing or nothing readable is stored or the stamp does not coerce; otherwise verified exactly while fewer than thirty days have passed |
| AgeGate.GateCycle | src/components/AgeVerification.tsx:8-32 | checked when the page mounts, the gate shows on a first visit and after unreadable storage; after "Yes" at t it stays hidden exactly until t plus thirty days and shows again from then on |
| AgeGate.HandleYes | src/components/AgeVerification.tsx:29-32 | confirming stores the current time |
| AgeGate.ConfirmationLasts30Days | src/components/AgeVerification.tsx:6-32 | a confirmation at t keeps the gate away exactly until t plus thirty days |
| AgeGate.VerifiedEarlier | src/components/AgeVerification.tsx:13-14 | a visitor verified now was verified at every earlier moment |
| AgeGate.CoercionCases | src/components/AgeVerification.tsx:12-14 | a stored `null` counts from the epoch, and a missing or non-numeric stamp never verifies |
| Text.TrimIsSlice | src/components/AuthModal.tsx:85-102 | `trim()` removes exactly the leading and trailing whitespace: the result is a slice of the input with only whitespace around it |
| Text.TrimIdempotent | src/pages/AdminPage.tsx:886-893 | trimming twice is trimming once |
| Text.BlankIffAllSpace | src/pages/PostAdPage.tsx:92 | a field is blank after trimming exactly when it is all whitespace |
| Text.Search | src/pages/AdsPage.tsx:76 | `includes` answers exactly whether the needle occurs at some position |
| Text.ToLower | src/pages/AdsPage.tsx:76 | lower-casing keeps the length and lowers each character |
| Text.ParseIntIgnoresTail | src/pages/DatingPage.tsx:126-127 | `parseInt` reads a number back from its digits even with text after them |
| Text.ParseIntOfIntToString | src/data/unifiedAds.ts:93 | `parseInt` reads back any printed integer, whatever non-digit text follows |
| Text.JsLengthOfBmp | src/pages/ChatPage.tsx:371 | `.length` counts one per character exactly when no character lies outside the Basic Multilingual Plane |
| Text.JsPrefixFits | src/pages/ChatPage.tsx:371 | `slice(0, n)` in whole code points is the longest prefix of UTF-16 length at most n |
| Text.JsPrefixOfBmp | src/pages/AdminPage.tsx:892 | without characters outside the Basic Multilingual Plane, `slice(0, n)` is the first n characters |
| Lists.SortDesc | src/data/datingMessages.ts:159 | `sort` with a comparator `key(b) - key(a)` gives a permutation of the input in descending key order |
| Lists.SortDescStable | src/data/datingMessages.ts:159 | the descending sort is stable: the elements with any one key keep their input order |

## Left out

- `toLowerCase` is modelled on ASCII letters only. Non-ASCII letters are kept as they are. Every search, name comparison and category value therefore ignores case for A–Z only.
- Dates are integers of milliseconds. An unparseable ISO string (a `NaN` date) is not modelled outside the age gate, where coercing the stored stamp is the point.
- The alphabetical sort on the dating page uses `localeCompare`. It is modelled as a `collate` rank function passed in: the contract states ordering by that rank, not the ICU collation.
- Locale formatting is not modelled: `toLocaleDateString`, `toLocaleTimeString` and `toLocaleString` of view counts. The chat message time and the date of an old dating message are parameters.
- Images are not modelled: `FileReader`, canvas resizing, `URL.createObjectURL`, and the post-ad page's image type and size checks. An image is an optional string.
- The `storage` event listeners and broadcasts that make other components re-read a store are not modelled. `AdSpaces` counts its broadcasts but does not model the listeners.
- The sample ad markup of `loadSampleAds` is opaque, non-blank text built from the placement's key and size. Its HTML is not reproduced.
- `AD_LIMITS` in `src/data/userAdsStore.ts` declares a quota, title, description and price bounds and a contact pattern. No core code enforces them: `AdForms.NoQuota` proves that posting ignores the quota. Only the lock and lifetime days are used.
- Each handler is an atomic step. Concurrent tabs writing the same key, and React's batching of state updates, are not modelled.
- Fixture text is a parameter, because it is copy and not logic:
  - the story titles and bodies (`Stories.Prose`);
  - the dating profiles' about-me texts (`Profiles.Blurb`);
  - the mock ads' titles, descriptions and images (`MockAds.Copy`);
  - the chat rooms' seeded message texts.
- `Math.random()` is a real number in [0, 1) passed in per draw.
- The dating session refresh every 60 seconds is a timer. It is not modelled; `Profiles.TouchLastActive` is the step it repeats.
- The dating sign-up dialog's own checks (username length, the about-me length cap) live in `src/components/DatingAuthModal.tsx`, which is not part of this model. Only the context's checks are modelled.
- The administrator credentials are a `Credentials` parameter of `Accounts.Login`, not constants of the model.
- Category display names (`getCategoryName` on the story pages) are not modelled.
- The story page looks its story up with `Number(id)` of the route parameter. That conversion is not modelled; the id is an integer.
- The chat nickname field's `maxLength` of 20 is an HTML attribute and is not modelled.
- The dating page's `"any"` select value is modelled as `None`.
- The post-ad page's city list comes from `src/data/locations.ts`, which is not part of this model. A chosen district and city are plain strings.
- `AgeGate.ToNumber`: what `Number()` makes of a string, array or object stamp is given with the value (`Other`) rather than computed.
- `AdForms.SaveEdit` does not check the edit lock, as the source's `saveEdit` does not: only the buttons are hidden (`AdForms.RowControls`).
- Toast and error texts are named constants. Where they are shown is not modelled.
- AdSpaces.GetAdSpaces: the model returns values, while the source returns `[...defaultSlots]` (src/data/adSpacesStore.ts:49 and 73), a new array holding the catalog's own objects. `loadSampleAds` (lines 142-155) then sets `enabled` and `codes` on those objects, which changes the in-memory catalog that later reads of absent or unreadable storage return. The model's catalog never changes.
- Profiles.TouchLastActive: the same aliasing. On absent storage `getDatingUsers` returns `[...mockDatingProfiles]` (src/data/datingProfiles.ts:78 and 82), and `updateUserLastActive` (line 127) writes `lastActive` into the fixture profile itself. The model's fixture never changes.
- Chat.BioInput: when unit 300 falls between the two halves of a surrogate pair, `slice(0, 300)` keeps the lone high half. Dafny strings hold only whole code points, so the model drops the pair.
- Admin.ExcerptOf: the same for unit 60 of the excerpt.

## Findings

| source | as written | input that shows it | evidently intended | confidence | as-written member | corrected member |
|---|---|---|---|---|---|---|
| src/pages/AdsPage.tsx:30 | `catParamToTab[catParam] \|\| "All"` (and again on line 55) reads names the lookup object inherits from `Object.prototype`, giving a function instead of a tab name | `/ads?cat=constructor` | any code other than the eight opens the "All" tab | not executed | Listings.InitialTabAsWritten, Listings.InheritedCodeHidesEverything | Listings.InitialTab, Listings.CorrectedTabListsItsCategory |


=== FILE: accounts.dfy ===
/** The main site's accounts: a list of username / phone / password records
    under one key, the logged-in user under a second key, and the same user
    held in memory by the auth provider. One fixed administrator pair is
    checked before the stored accounts; its values are a parameter here. */
module Accounts {
  import opened Text
  import opened Lists
  import opened Storage

  /** `StoredUser` */
  datatype Account = Account(username: string, phone: string, password: string)

  /** `User`: what a session holds. There is no password field. */
  datatype SessionUser = SessionUser(username: string, phone: string, isAdmin: bool)

  /** The administrator's username and password. */
  datatype Credentials = Credentials(username: string, password: string)

  /** `{ success, error? }` */
  datatype Outcome = Success | Failure(error: string)

  /** The two keys, and the provider's `user` state. */
  datatype World = World(users: Stored<seq<Account>>, session: Stored<SessionUser>, user: Option<SessionUser>)

  const InvalidLogin: string := "Invalid username or password."
  const UsernameTaken: string := "Username already taken."
  const PhoneTaken: string := "This phone number is already registered."

  /** `getStoredUsers` */
  function Users(w: World): seq<Account>
  {
    ListOrEmpty(w.users)
  }

  predicate LoginMatches(a: Account, username: string, password: string)
  {
    SameIgnoringCase(a.username, username) && a.password == password
  }

  /** `setUser(s)` and the session write. */
  function SignIn(w: World, s: SessionUser): World
  {
    w.(session := Value(s), user := Some(s))
  }

  /** `login`: the administrator pair first, without looking at the accounts;
      then the first account whose username equals `username` ignoring case
      and whose password equals `password` exactly. */
  function Login(w: World, admin: Credentials, username: string, password: string): (r: (Outcome, World))
    ensures r.1.users == w.users
    ensures username == admin.username && password == admin.password ==>
              r.0 == Success && r.1.session == Value(SessionUser(admin.username, "", true))
    ensures !(username == admin.username && password == admin.password) ==>
              && (r.0 == Success <==> exists i :: 0 <= i < |Users(w)| && LoginMatches(Users(w)[i], username, password))
              && (r.0.Success? ==> exists k :: 0 <= k < |Users(w)| && LoginMatches(Users(w)[k], username, password)
                                     && r.1.session == Value(SessionUser(Users(w)[k].username, Users(w)[k].phone, false)))
    ensures r.0.Success? ==> r.1.session.Value? && r.1.user == Some(r.1.session.v)
    ensures r.0.Failure? ==> r.0.error == InvalidLogin && r.1 == w
  {
    if username == admin.username && password == admin.password then
      (Success, SignIn(w, SessionUser(admin.username, "", true)))
    else
      var us := Users(w);
      var k := FindIndex(us, (a: Account) => LoginMatches(a, username, password));
      if k == -1 then (Failure(InvalidLogin), w)
      else (Success, SignIn(w, SessionUser(us[k].username, us[k].phone, false)))
  }

  /** `register`: a username clash, ignoring case, is reported before a phone
      clash; otherwise the account is appended and the user signed in. */
  function Register(w: World, username: string, phone: string, password: string): (r: (Outcome, World))
    ensures var us := Users(w);
            var nameTaken := exists i :: 0 <= i < |us| && SameIgnoringCase(us[i].username, username);
            var phoneTaken := exists i :: 0 <= i < |us| && us[i].phone == phone;
            && (nameTaken ==> r == (Failure(UsernameTaken), w))
            && (!nameTaken && phoneTaken ==> r == (Failure(PhoneTaken), w))
            && (!nameTaken && !phoneTaken ==>
                  && r.0 == Success
                  && r.1.users == Value(us + [Account(username, phone, password)])
                  && r.1.session == Value(SessionUser(username, phone, false))
                  && r.1.user == Some(SessionUser(username, phone, false)))
  {
    var us := Users(w);
    if FindIndex(us, (a: Account) => SameIgnoringCase(a.username, username)) >= 0 then (Failure(UsernameTaken), w)
    else if FindIndex(us, (a: Account) => a.phone == phone) >= 0 then (Failure(PhoneTaken), w)
    else
      var w' := w.(users := Value(us + [Account(username, phone, password)]));
      (Success, SignIn(w', SessionUser(username, phone, false)))
  }

  /** No two accounts share a username ignoring case, or a phone. */
  predicate Unique(us: seq<Account>)
  {
    forall i, j :: 0 <= i < j < |us| ==> !SameIgnoringCase(us[i].username, us[j].username) && us[i].phone != us[j].phone
  }

  /** Registering keeps the accounts unique. */
  lemma RegisterKeepsUnique(w: World, username: string, phone: string, password: string)
    requires Unique(Users(w))
    ensures Unique(Users(Register(w, username, phone, password).1))
  {
    var us := Users(w);
    var r := Register(w, username, phone, password);
    if r.0.Success? {
      var vs := Users(r.1);
      assert vs == us + [Account(username, phone, password)];
      forall i, j | 0 <= i < j < |vs|
        ensures !SameIgnoringCase(vs[i].username, vs[j].username) && vs[i].phone != vs[j].phone
      {
        if j == |us| {
          assert vs[i] == us[i];
        }
      }
    }
  }

  /** After a successful registration, the same name and password log in as
      the new account (unless they are the administrator pair). */
  lemma RegisterThenLogin(w: World, admin: Credentials, username: string, phone: string, password: string)
    requires Register(w, username, phone, password).0.Success?
    requires !(username == admin.username && password == admin.password)
    ensures var w' := Register(w, username, phone, password).1;
            Login(w', admin, username, password).0 == Success
            && Login(w', admin, username, password).1.user == Some(SessionUser(username, phone, false))
  {
    var us := Users(w);
    var w' := Register(w, username, phone, password).1;
    var vs := Users(w');
    assert vs == us + [Account(username, phone, password)];
    assert LoginMatches(vs[|us|], username, password);
    forall k | 0 <= k < |us| ensures vs[k] == us[k] && !LoginMatches(vs[k], username, password) {
    }
  }

  /** Only the administrator pair yields an administrator session. */
  lemma AdminOnlyThroughCredentials(w: World, admin: Credentials, username: string, password: string)
    requires Login(w, admin, username, password).0.Success?
    ensures Login(w, admin, username, password).1.user.value.isAdmin
            <==> username == admin.username && password == admin.password
  {
  }

  /** `logout`: forget the user and remove the session; accounts stay. */
  function Logout(w: World): (r: World)
    ensures r.users == w.users && r.session.Absent? && r.user.None?
  {
    w.(session := Absent, user := None)
  }

  /** The mount-time restore: a readable session becomes the user; an
      unreadable one is removed. Before it the user is null. */
  function Restore(session: Stored<SessionUser>): (r: (Option<SessionUser>, Stored<SessionUser>))
    ensures r.0.Some? <==> session.Value?
    ensures session.Corrupt? ==> r.1.Absent?
    ensures !session.Corrupt? ==> r.1 == session
  {
    match session
    case Value(s) => (Some(s), session)
    case Absent => (None, session)
    case Corrupt => (None, Absent)
  }

  /** A reload after logging in restores the same user; after logging out, none. */
  lemma RestoreAfterLogin(w: World, admin: Credentials, username: string, password: string)
    requires Login(w, admin, username, password).0.Success?
    ensures var w' := Login(w, admin, username, password).1;
            Restore(w'.session).0 == w'.user
    ensures Restore(Logout(w).session).0.None?
  {
  }
}

=== FILE: adforms.dfy ===
/** The two forms that write member ads: posting a new ad, and editing or
    deleting one's own ads on the profile page. Both carry the category as a
    slug in their select and map it back to the category's name. */
module AdForms {
  import opened Text
  import opened Lists
  import opened Storage
  import MockAds
  import UserAds

  /** The category names both pages list. */
  const Categories: seq<string> :=
    ["Male Personals", "Female Personals", "Massage", "Live Cam", "Toys", "Jobs", "Hotel/Rooms", "Other"]

  /** The select values the categories become. */
  const Slugs: seq<string> :=
    ["male-personals", "female-personals", "massage", "live-cam", "toys", "jobs", "hotel-rooms", "other"]

  /** The pages list the ad list's tabs, "All" excepted. */
  lemma CategoriesAreTabs()
    ensures Categories == MockAds.CategoryTabs[1..]
  {
  }

  /** One character of `toLowerCase().replace(/\s|\//g, "-")`. */
  function SlugChar(c: char): (r: char)
  {
    var l := LowerChar(c);
    if IsSpace(l) || l == '/' then '-' else l
  }

  /** `c.toLowerCase().replace(/\s|\//g, "-")` */
  function Slug(c: string): (r: string)
    ensures |r| == |c|
  {
    seq(|c|, i requires 0 <= i < |c| => SlugChar(c[i]))
  }

  /** A slug has no white space, slash or upper-case letter, and is its own slug. */
  lemma SlugIsClean(c: string)
    ensures forall i :: 0 <= i < |Slug(c)| ==> !IsSpace(Slug(c)[i]) && Slug(c)[i] != '/' && !('A' <= Slug(c)[i] <= 'Z')
    ensures Slug(Slug(c)) == Slug(c)
  {
  }

  lemma SlugsFrom0()
    ensures forall i :: 0 <= i < 2 ==> Slug(Categories[i]) == Slugs[i]
  {
    assert Slug(Categories[0]) == Slugs[0];
    assert Slug(Categories[1]) == Slugs[1];
  }

  lemma SlugsFrom2()
    ensures forall i :: 2 <= i < 4 ==> Slug(Categories[i]) == Slugs[i]
  {
    assert Slug(Categories[2]) == Slugs[2];
    assert Slug(Categories[3]) == Slugs[3];
  }

  lemma SlugsFrom4()
    ensures forall i :: 4 <= i < 6 ==> Slug(Categories[i]) == Slugs[i]
  {
    assert Slug(Categories[4]) == Slugs[4];
    assert Slug(Categories[5]) == Slugs[5];
  }

  lemma SlugsFrom6()
    ensures forall i :: 6 <= i < 8 ==> Slug(Categories[i]) == Slugs[i]
  {
    assert Slug(Categories[6]) == Slugs[6];
    assert Slug(Categories[7]) == Slugs[7];
  }

  /** The eight slugs, and they differ from each other. */
  lemma CategorySlugs()
    ensures |Slugs| == |Categories|
    ensures forall i :: 0 <= i < |Categories| ==> Slug(Categories[i]) == Slugs[i]
    ensures Distinct(Slugs)
  {
    SlugsFrom0();
    SlugsFrom2();
    SlugsFrom4();
    SlugsFrom6();
  }

  predicate SlugOf(c: string, slug: string)
  {
    Slug(c) == slug
  }

  /** `categories.find((c) => slug(c) === value) || value`: the category the
      select value names, or the value itself when it names none. */
  function CategoryOf(value: string): (r: string)
    ensures value in Slugs ==> r in Categories && Slug(r) == value
    ensures value !in Slugs ==> r == value
  {
    CategorySlugs();
    var k := FindIndex(Categories, c => SlugOf(c, value));
    if k == -1 then value else Categories[k]
  }

  /** Mapping a category's slug back gives the category. */
  lemma CategoryRoundTrip(i: int)
    requires 0 <= i < |Categories|
    ensures CategoryOf(Slug(Categories[i])) == Categories[i]
  {
    CategorySlugs();
    var r := CategoryOf(Slugs[i]);
    var j :| 0 <= j < |Categories| && Categories[j] == r;
    assert Slugs[j] == Slugs[i];
  }

  // ---------------------------------------------------------------- profile page

  /** The profile page's edit form. */
  datatype EditForm = EditForm(category: string, title: string, description: string, location: string,
                               contact: string)

  /** `startEdit`: the ad's fields, and the slug of its category when the
      category is one of the eight (otherwise no category is selected). */
  function StartEdit(ad: UserAds.UserAd): (f: EditForm)
    ensures ad.post.category in Categories ==> f.category == Slug(ad.post.category)
    ensures ad.post.category !in Categories ==> f.category == ""
    ensures f.title == ad.post.title && f.description == ad.post.description
    ensures f.location == ad.post.location && f.contact == ad.post.contact
  {
    EditForm(if ad.post.category in Categories then Slug(ad.post.category) else "",
             ad.post.title, ad.post.description, ad.post.location, ad.post.contact)
  }

  const AllFieldsRequired: string := "All fields are required."

  predicate EditComplete(f: EditForm)
  {
    Trim(f.title) != [] && Trim(f.description) != [] && Trim(f.location) != [] && Trim(f.contact) != []
    && f.category != ""
  }

  /** The update `saveEdit` sends: the category's name and the trimmed fields. */
  function EditPatch(f: EditForm): (u: UserAds.AdPatch)
    ensures u.category == Some(CategoryOf(f.category)) && u.title == Some(Trim(f.title))
    ensures u.description == Some(Trim(f.description)) && u.location == Some(Trim(f.location))
    ensures u.contact == Some(Trim(f.contact))
    ensures u.expiresAt.None? && u.editLockedUntil.None? && u.district.None? && u.city.None?
  {
    UserAds.AdPatch(Some(CategoryOf(f.category)), Some(Trim(f.title)), Some(Trim(f.description)), None, None,
                    Some(Trim(f.location)), Some(Trim(f.contact)), None, None, None, None, None, None, None, None)
  }

  datatype EditResult = EditRefused(error: string) | EditSaved(found: bool)

  /** `saveEdit`: refused with nothing written when a field is blank or no
      category is chosen; otherwise the store's `update`. */
  function SaveEdit(st: Stored<seq<UserAds.UserAd>>, id: string, f: EditForm): (r: Step<seq<UserAds.UserAd>, EditResult>)
    ensures !EditComplete(f) ==> r == Step(EditRefused(AllFieldsRequired), st)
    ensures EditComplete(f) ==> r.value.EditSaved? && r == Step(EditSaved(UserAds.Update(st, id, EditPatch(f)).value),
                                                               UserAds.Update(st, id, EditPatch(f)).stored)
  {
    if !EditComplete(f) then Step(EditRefused(AllFieldsRequired), st)
    else
      var u := UserAds.Update(st, id, EditPatch(f));
      Step(EditSaved(u.value), u.stored)
  }

  /** Opening the editor on an ad of one of the eight categories and saving
      it untouched keeps the category and stores the fields trimmed. */
  lemma EditUntouchedKeepsCategory(ad: UserAds.UserAd)
    requires ad.post.category in Categories
    ensures var u := EditPatch(StartEdit(ad));
            && u.category == Some(ad.post.category)
            && UserAds.Merge(ad, u).post.title == Trim(ad.post.title)
            && UserAds.Merge(ad, u).post.category == ad.post.category
  {
    var i :| 0 <= i < |Categories| && Categories[i] == ad.post.category;
    CategoryRoundTrip(i);
  }

  /** An ad whose category is not one of the eight cannot be saved until a
      category is chosen. */
  lemma UnknownCategoryBlocksSave(st: Stored<seq<UserAds.UserAd>>, ad: UserAds.UserAd)
    requires ad.post.category !in Categories
    ensures SaveEdit(st, ad.id, StartEdit(ad)) == Step(EditRefused(AllFieldsRequired), st)
  {
  }

  /** The controls an ad row shows: edit and delete while the ad is not
      locked, and the expired badge whenever it has expired. */
  datatype Controls = Controls(edit: bool, delete: bool, expiredBadge: bool)

  function RowControls(ad: UserAds.UserAd, now: int): (c: Controls)
    ensures c.edit == c.delete
    ensures c.edit <==> !(ad.editLockedUntil.Some? && ad.editLockedUntil.value > now)
    ensures c.expiredBadge <==> ad.expiresAt.Some? && ad.expiresAt.value <= now
  {
    Controls(!UserAds.IsLocked(ad, now), !UserAds.IsLocked(ad, now), UserAds.IsExpired(ad, now))
  }

  /** For an ad added at `t`: no controls for the first 14 days, then edit and
      delete, and from day 60 on the expired badge as well. */
  lemma ControlsOverLifetime(p: UserAds.Post, id: string, t: int, now: int)
    requires now >= t
    ensures var c := RowControls(UserAds.Stamp(p, id, t), now);
            && (now < t + UserAds.LockDays * UserAds.DayMs ==> c == Controls(false, false, false))
            && (t + UserAds.LockDays * UserAds.DayMs <= now < t + UserAds.LifetimeDays * UserAds.DayMs ==>
                  c == Controls(true, true, false))
            && (t + UserAds.LifetimeDays * UserAds.DayMs <= now ==> c == Controls(true, true, true))
  {
    UserAds.AddedAdLifecycle(p, id, t, now);
  }

  // ---------------------------------------------------------------- post ad page

  /** The post-ad form. `image` is the chosen picture's data URL, if any. */
  datatype PostForm = PostForm(category: string, title: string, price: string, description: string,
                               district: string, city: string, contact: string, image: Option<string>,
                               whatsapp: bool, viber: bool, telegram: bool, imo: bool)

  datatype PostResult = PostRefused(error: string) | Posted(ad: UserAds.UserAd)

  const FillRequired: string := "Please fill in all required fields."
  const TitleTooShort: string := "Title must be at least 5 characters."
  const MinTitle: nat := 5

  /** "all" districts become "All Locations". */
  function DistrictValue(district: string): string
  {
    if district == "all" then "All Locations" else district
  }

  /** "all" cities become no city. */
  function CityValue(city: string): string
  {
    if city == "all" then "" else city
  }

  /** "city, district", or the district alone when there is no city. */
  function Location(city: string, district: string): (r: string)
    ensures city != "" ==> r == city + ", " + district
    ensures city == "" ==> r == district
    ensures |district| <= |r| && r[|r| - |district|..] == district
  {
    if city != "" then city + ", " + district else district
  }

  /** `value.trim() || undefined` */
  function Optional(s: string): (r: Option<string>)
    ensures r.None? <==> Trim(s) == []
    ensures r.Some? ==> r.value == Trim(s)
  {
    if Trim(s) == [] then None else Some(Trim(s))
  }

  /** The ad the form describes for `username`. */
  function PostOf(f: PostForm, username: string): (p: UserAds.Post)
    ensures p.username == username && p.category == CategoryOf(f.category)
    ensures p.title == Trim(f.title) && p.description == Trim(f.description) && p.contact == Trim(f.contact)
    ensures p.district == DistrictValue(f.district) && p.city == CityValue(f.city)
    ensures p.location == Location(CityValue(f.city), DistrictValue(f.district))
    ensures p.price == Optional(f.price)
  {
    UserAds.Post(username, CategoryOf(f.category), Trim(f.title), Trim(f.description), DistrictValue(f.district),
                 CityValue(f.city), Location(CityValue(f.city), DistrictValue(f.district)), Trim(f.contact),
                 if f.image.Some? && f.image.value != [] then f.image else None, Optional(f.price),
                 Some(f.whatsapp), Some(f.viber), Some(f.telegram), Some(f.imo))
  }

  /** `handleSubmit`: a missing category or a blank title, description or
      contact is refused first, then a trimmed title under 5 characters;
      otherwise the ad is added, whatever the member's count of live ads. */
  function Submit(st: Stored<seq<UserAds.UserAd>>, username: string, f: PostForm, id: string, now: int)
    : (r: Step<seq<UserAds.UserAd>, PostResult>)
    ensures f.category == "" || Trim(f.title) == [] || Trim(f.description) == [] || Trim(f.contact) == [] ==>
              r == Step(PostRefused(FillRequired), st)
    ensures (f.category != "" && Trim(f.title) != [] && Trim(f.description) != [] && Trim(f.contact) != []
             && JsLength(Trim(f.title)) < MinTitle) ==> r == Step(PostRefused(TitleTooShort), st)
    ensures r.value.Posted? ==>
              && r.stored.Value? && r.stored.v == UserAds.All(st) + [r.value.ad]
              && r.value.ad.post == PostOf(f, username) && r.value.ad.id == id && r.value.ad.createdAt == now
  {
    if f.category == "" || Trim(f.title) == [] || Trim(f.description) == [] || Trim(f.contact) == [] then
      Step(PostRefused(FillRequired), st)
    else if JsLength(Trim(f.title)) < MinTitle then Step(PostRefused(TitleTooShort), st)
    else
      var a := UserAds.Add(st, PostOf(f, username), id, now);
      assert a.stored.v == a.stored.v[..|UserAds.All(st)|] + [a.stored.v[|UserAds.All(st)|]];
      Step(Posted(a.value), a.stored)
  }

  /** Whether a form is accepted depends on the form alone: no quota of live
      ads applies, so a member with any number of ads can post. */
  lemma NoQuota(st: Stored<seq<UserAds.UserAd>>, st': Stored<seq<UserAds.UserAd>>, username: string,
                f: PostForm, id: string, now: int)
    ensures Submit(st, username, f, id, now).value.Posted? <==> Submit(st', username, f, id, now).value.Posted?
    ensures Submit(st, username, f, id, now).value.Posted? <==>
              f.category != "" && Trim(f.title) != [] && Trim(f.description) != [] && Trim(f.contact) != []
              && JsLength(Trim(f.title)) >= MinTitle
  {
  }

  /** A category picked from the select is stored under its name. */
  lemma PostedCategory(st: Stored<seq<UserAds.UserAd>>, username: string, f: PostForm, id: string, now: int, i: int)
    requires 0 <= i < |Categories| && f.category == Slug(Categories[i])
    ensures Submit(st, username, f, id, now).value.Posted? ==>
              Submit(st, username, f, id, now).value.ad.post.category == Categories[i]
  {
    CategoryRoundTrip(i);
  }
}

=== FILE: admin.dfy ===
/** The administration page: deleting members together with what they own,
    deleting and clearing member ads, switching ad placements on and off,
    saving a placement and a story, and the ten-row pages of every table. */
module Admin {
  import opened Text
  import opened Lists
  import opened Storage
  import Paging
  import Accounts
  import UserAds
  import UnifiedAds
  import MockAds
  import Profiles
  import Messages
  import AdSpaces
  import Stories

  type Slot = AdSpaces.Slot

  /** `PAGE_SIZE` */
  const PageSize: nat := 10

  // ---------------------------------------------------------------- tables

  /** The rows page `page` of an admin table shows. */
  function TablePage<T>(rows: seq<T>, page: int): (r: seq<T>)
    requires page >= 1
    ensures |r| <= PageSize
    ensures forall x :: x in r ==> x in rows
  {
    Paging.PageOfShape(rows, page, PageSize);
    Paging.PageOf(rows, page, PageSize)
  }

  /** Pages 1 to `Math.max(1, Math.ceil(n / 10))` list every row once, in order. */
  lemma TablePagesCover<T>(rows: seq<T>)
    ensures var t := Paging.TotalPages(|rows|, PageSize);
            && t >= 1 && (|rows| > 0 ==> (t - 1) * PageSize < |rows| <= t * PageSize)
            && Paging.Pages(rows, PageSize, t) == rows
  {
    Paging.PagesCoverList(rows, PageSize);
  }

  /** The members table's search: every member for a blank query, otherwise
      the query (lower-cased, not trimmed) in the lower-cased username or in
      the phone number. */
  predicate MemberMatches(a: Accounts.Account, search: string)
  {
    Trim(search) == [] || Search(ToLower(a.username), ToLower(search)) || Search(a.phone, ToLower(search))
  }

  function MemberRows(users: seq<Accounts.Account>, search: string): (r: seq<Accounts.Account>)
    ensures forall a :: a in r <==> a in users && MemberMatches(a, search)
    ensures KeepsExactly(r, users, a => MemberMatches(a, search))
    ensures Trim(search) == [] ==> r == users
  {
    FilterKeepsExactly(users, a => MemberMatches(a, search));
    if Trim(search) == [] then
      FilterAll(users, a => MemberMatches(a, search));
      Filter(users, a => MemberMatches(a, search))
    else Filter(users, a => MemberMatches(a, search))
  }

  // ---------------------------------------------------------------- member ads

  function AdIds(ads: seq<UserAds.UserAd>): (r: seq<string>)
    ensures |r| == |ads| && forall i :: 0 <= i < |ads| ==> r[i] == ads[i].id
  {
    seq(|ads|, i requires 0 <= i < |ads| => ads[i].id)
  }

  /** Deleting the store's ads one id after the other (`ids.forEach(delete)`):
      what is left is every ad whose id is none of them, in order, and with
      no ids nothing is written. */
  function DeleteEach(st: Stored<seq<UserAds.UserAd>>, ids: seq<string>): (r: Stored<seq<UserAds.UserAd>>)
    ensures UserAds.All(r) == Filter(UserAds.All(st), (a: UserAds.UserAd) => a.id !in ids)
    ensures |ids| == 0 ==> r == st
    decreases |ids|
  {
    if |ids| == 0 then
      FilterAll(UserAds.All(st), (a: UserAds.UserAd) => a.id !in ids);
      st
    else
      var next := UserAds.Delete(st, ids[0]).stored;
      var r := DeleteEach(next, ids[1..]);
      DeleteOneReads(st, ids[0]);
      FilterTwice(UserAds.All(st), (a: UserAds.UserAd) => a.id != ids[0], (a: UserAds.UserAd) => a.id !in ids[1..],
                  (a: UserAds.UserAd) => a.id !in ids);
      r
  }

  /** One `delete` leaves the ads without that id. */
  lemma DeleteOneReads(st: Stored<seq<UserAds.UserAd>>, id: string)
    ensures UserAds.All(UserAds.Delete(st, id).stored) == Filter(UserAds.All(st), (a: UserAds.UserAd) => a.id != id)
  {
    var ads := UserAds.All(st);
    if !UserAds.Delete(st, id).value {
      FilterAll(ads, (a: UserAds.UserAd) => a.id != id);
    }
  }

  /** The members table's Delete: the account list loses every account whose
      username matches ignoring case (an unreadable list is saved empty), and
      every ad the member posted is deleted by id. */
  function DeleteMember(users: Stored<seq<Accounts.Account>>, ads: Stored<seq<UserAds.UserAd>>, username: string)
    : (r: (Stored<seq<Accounts.Account>>, Stored<seq<UserAds.UserAd>>))
    ensures r.0.Value?
    ensures forall a :: a in r.0.v <==> a in ListOrEmpty(users) && !SameIgnoringCase(a.username, username)
    ensures KeepsExactly(r.0.v, ListOrEmpty(users), (a: Accounts.Account) => !SameIgnoringCase(a.username, username))
    ensures UserAds.All(r.1) ==
              Filter(UserAds.All(ads), (a: UserAds.UserAd) => a.id !in AdIds(UserAds.GetByUser(ads, username)))
  {
    FilterKeepsExactly(ListOrEmpty(users), (a: Accounts.Account) => !SameIgnoringCase(a.username, username));
    (Value(Filter(ListOrEmpty(users), (a: Accounts.Account) => !SameIgnoringCase(a.username, username))),
     DeleteEach(ads, AdIds(UserAds.GetByUser(ads, username))))
  }

  /** After a member is deleted none of their ads is left. */
  lemma DeleteMemberRemovesTheirAds(users: Stored<seq<Accounts.Account>>, ads: Stored<seq<UserAds.UserAd>>,
                                    username: string, a: UserAds.UserAd)
    requires a in UserAds.All(ads) && UserAds.ByUser(a, username)
    ensures a !in UserAds.All(DeleteMember(users, ads, username).1)
  {
    var mine := UserAds.GetByUser(ads, username);
    FilterKeepsExactly(UserAds.All(ads), (x: UserAds.UserAd) => UserAds.ByUser(x, username));
    assert a in mine;
    var k :| 0 <= k < |mine| && mine[k] == a;
    assert AdIds(mine)[k] == a.id;
  }

  /** An ad of anyone else stays unless it shares its id with one of theirs. */
  lemma DeleteMemberKeepsOthers(users: Stored<seq<Accounts.Account>>, ads: Stored<seq<UserAds.UserAd>>,
                                username: string, a: UserAds.UserAd)
    requires a in UserAds.All(ads)
    requires forall b :: b in UserAds.GetByUser(ads, username) ==> b.id != a.id
    ensures a in UserAds.All(DeleteMember(users, ads, username).1)
  {
  }

  /** With ids unique in the store, deleting a member leaves exactly the
      other members' ads, in order. */
  lemma DeleteMemberExact(users: Stored<seq<Accounts.Account>>, ads: Stored<seq<UserAds.UserAd>>, username: string)
    requires DistinctBy(UserAds.All(ads), UserAds.IdOf)
    ensures UserAds.All(DeleteMember(users, ads, username).1) ==
              Filter(UserAds.All(ads), (a: UserAds.UserAd) => !UserAds.ByUser(a, username))
  {
    var all := UserAds.All(ads);
    var mine := UserAds.GetByUser(ads, username);
    var ids := AdIds(mine);
    assert forall k :: 0 <= k < |mine| ==> mine[k] in all && UserAds.ByUser(mine[k], username);
    forall i | 0 <= i < |all| ensures (all[i].id !in ids) == !UserAds.ByUser(all[i], username) {
      if all[i].id in ids {
        SharedIdIsTheirs(all, mine, username, i);
      } else if UserAds.ByUser(all[i], username) {
        DeleteMemberRemovesTheirAds(users, ads, username, all[i]);
      }
    }
    FilterExt(all, (a: UserAds.UserAd) => a.id !in ids, (a: UserAds.UserAd) => !UserAds.ByUser(a, username));
  }

  /** With unique ids, an ad sharing its id with one of the member's ads is
      that ad, so it is the member's. */
  lemma SharedIdIsTheirs(all: seq<UserAds.UserAd>, mine: seq<UserAds.UserAd>, username: string, i: int)
    requires DistinctBy(all, UserAds.IdOf) && 0 <= i < |all|
    requires forall k :: 0 <= k < |mine| ==> mine[k] in all && UserAds.ByUser(mine[k], username)
    requires all[i].id in AdIds(mine)
    ensures UserAds.ByUser(all[i], username)
  {
    var ids := AdIds(mine);
    var k :| 0 <= k < |ids| && ids[k] == all[i].id;
    var j :| 0 <= j < |all| && all[j] == mine[k];
    assert UserAds.IdOf(all[j]) == UserAds.IdOf(all[i]);
    assert j == i;
  }

  /** The ads table's Delete: a member ad is deleted from the store by id; a
      demonstration ad is refused and nothing is written. */
  function DeleteListed(st: Stored<seq<UserAds.UserAd>>, ad: UnifiedAds.Ad): (r: Stored<seq<UserAds.UserAd>>)
    ensures ad.source == UnifiedAds.MockSource ==> r == st
    ensures ad.source == UnifiedAds.UserSource ==>
              UserAds.All(r) == Filter(UserAds.All(st), (a: UserAds.UserAd) => a.id != ad.id)
  {
    if ad.source == UnifiedAds.UserSource then
      DeleteOneReads(st, ad.id);
      UserAds.Delete(st, ad.id).stored
    else st
  }

  function IsMemberAd(a: UnifiedAds.Ad): bool { a.source == UnifiedAds.UserSource }

  function ListedIds(listed: seq<UnifiedAds.Ad>): (r: seq<string>)
    ensures |r| == |listed| && forall i :: 0 <= i < |listed| ==> r[i] == listed[i].id
  {
    seq(|listed|, i requires 0 <= i < |listed| => listed[i].id)
  }

  /** "Clear User Ads": every member ad in the table, deleted by id. */
  function ClearMemberAds(st: Stored<seq<UserAds.UserAd>>, listed: seq<UnifiedAds.Ad>): (r: Stored<seq<UserAds.UserAd>>)
    ensures UserAds.All(r) ==
              Filter(UserAds.All(st), (a: UserAds.UserAd) => a.id !in ListedIds(Filter(listed, IsMemberAd)))
  {
    DeleteEach(st, ListedIds(Filter(listed, IsMemberAd)))
  }

  /** Every stored ad appears in the table as a member ad with its id. */
  lemma MemberAdsListed(st: Stored<seq<UserAds.UserAd>>, copy: MockAds.Copy, now: int, i: int)
    requires 0 <= i < |UserAds.All(st)|
    ensures UserAds.All(st)[i].id in ListedIds(Filter(UnifiedAds.AllAds(st, copy, now), IsMemberAd))
  {
    var listed := UnifiedAds.AllAds(st, copy, now);
    var members := Filter(listed, IsMemberAd);
    var u := listed[i];
    assert u == UnifiedAds.UnifyUser(UserAds.All(st)[i], now);
    assert u in members;
    var k :| 0 <= k < |members| && members[k] == u;
    assert ListedIds(members)[k] == u.id;
  }

  /** Clearing from a table that shows the store's current ads leaves no
      member ad at all. */
  lemma ClearMemberAdsEmptiesStore(st: Stored<seq<UserAds.UserAd>>, copy: MockAds.Copy, now: int)
    ensures UserAds.All(ClearMemberAds(st, UnifiedAds.AllAds(st, copy, now))) == []
  {
    var all := UserAds.All(st);
    var ids := ListedIds(Filter(UnifiedAds.AllAds(st, copy, now), IsMemberAd));
    forall i | 0 <= i < |all| ensures all[i].id in ids {
      MemberAdsListed(st, copy, now, i);
    }
    FilterNone(all, (a: UserAds.UserAd) => a.id !in ids);
  }

  // ---------------------------------------------------------------- dating

  predicate Untouched(m: Messages.Message, id: string)
  {
    m.From() != id && m.To() != id
  }

  /** The dating profiles table's Delete: the profile list (seeded first when
      absent) loses every profile with `id`, and the message list every
      message from or to `id`; both are saved. */
  function DeleteProfile(profiles: Stored<seq<Profiles.Profile>>, mock: seq<Profiles.Profile>,
                         msgs: Stored<seq<Messages.Message>>, id: string)
    : (r: (Stored<seq<Profiles.Profile>>, Stored<seq<Messages.Message>>))
    ensures r.0.Value? && r.1.Value?
    ensures forall p :: p in r.0.v <==> p in Profiles.Users(profiles, mock).value && p.id != id
    ensures forall m :: m in r.1.v <==> m in Messages.All(msgs) && Untouched(m, id)
    ensures Subseq(r.0.v, Profiles.Users(profiles, mock).value) && Subseq(r.1.v, Messages.All(msgs))
    ensures KeepsExactly(r.0.v, Profiles.Users(profiles, mock).value, (p: Profiles.Profile) => p.id != id)
    ensures KeepsExactly(r.1.v, Messages.All(msgs), (m: Messages.Message) => Untouched(m, id))
  {
    var ps := Profiles.Users(profiles, mock).value;
    FilterKeepsExactly(ps, (p: Profiles.Profile) => p.id != id);
    FilterKeepsExactly(Messages.All(msgs), (m: Messages.Message) => Untouched(m, id));
    (Value(Filter(ps, (p: Profiles.Profile) => p.id != id)),
     Value(Filter(Messages.All(msgs), (m: Messages.Message) => Untouched(m, id))))
  }

  /** After the delete the profile has no mail either way. */
  lemma DeleteProfileLeavesNoMail(profiles: Stored<seq<Profiles.Profile>>, mock: seq<Profiles.Profile>,
                                  msgs: Stored<seq<Messages.Message>>, id: string)
    ensures Messages.Inbox(DeleteProfile(profiles, mock, msgs, id).1, id) == []
    ensures Messages.SentBy(DeleteProfile(profiles, mock, msgs, id).1, id) == []
  {
    var left := DeleteProfile(profiles, mock, msgs, id).1;
    assert forall m :: m in Messages.All(left) ==> Untouched(m, id);
    assert multiset(Messages.Inbox(left, id)) == multiset{};
    assert multiset(Messages.SentBy(left, id)) == multiset{};
  }

  /** A thread between two other members reads exactly as before the delete. */
  lemma DeleteProfileKeepsOtherThreads(profiles: Stored<seq<Profiles.Profile>>, mock: seq<Profiles.Profile>,
                                       msgs: Stored<seq<Messages.Message>>, id: string, a: string, b: string)
    requires a != id && b != id
    ensures Messages.Conversation(DeleteProfile(profiles, mock, msgs, id).1, a, b) == Messages.Conversation(msgs, a, b)
  {
    var all := Messages.All(msgs);
    var keep := (m: Messages.Message) => Untouched(m, id);
    var between := (m: Messages.Message) => Messages.Between(m, a, b);
    FilterTwice(all, keep, between, between);
    assert Messages.All(DeleteProfile(profiles, mock, msgs, id).1) == Filter(all, keep);
  }

  // ---------------------------------------------------------------- placements

  /** Flip one placement's switch. */
  function Toggled(s: Slot, key: string): (r: Slot)
    ensures r.(enabled := s.enabled) == s
    ensures r.enabled == (if s.key == key then !s.enabled else s.enabled)
  {
    if s.key == key then s.(enabled := !s.enabled) else s
  }

  /** `toggleEnabled(key)`: every placement with the key flips, the others
      and every other field stay as they were. */
  function ToggleEnabled(slots: seq<Slot>, key: string): (r: seq<Slot>)
    ensures |r| == |slots|
    ensures forall i :: 0 <= i < |r| ==> r[i] == Toggled(slots[i], key)
  {
    seq(|slots|, i requires 0 <= i < |slots| => Toggled(slots[i], key))
  }

  /** Flipping twice restores the list. */
  lemma ToggleEnabledTwice(slots: seq<Slot>, key: string)
    ensures ToggleEnabled(ToggleEnabled(slots, key), key) == slots
  {
  }

  /** `allEnabled`: some placement exists and every one is on. */
  predicate AllEnabled(slots: seq<Slot>)
  {
    |slots| > 0 && Count(slots, (s: Slot) => s.enabled) == |slots|
  }

  /** `toggleAll`: every placement is switched to the opposite of `allEnabled`. */
  function ToggleAll(slots: seq<Slot>): (r: seq<Slot>)
    ensures |r| == |slots|
    ensures forall i :: 0 <= i < |r| ==> r[i] == slots[i].(enabled := !AllEnabled(slots))
  {
    seq(|slots|, i requires 0 <= i < |slots| => slots[i].(enabled := !AllEnabled(slots)))
  }

  /** Switching all flips between "all on" and "all off": from all on every
      placement goes off; otherwise every placement comes on, and a second
      press turns them all off again. */
  lemma ToggleAllAlternates(slots: seq<Slot>)
    requires |slots| > 0
    ensures AllEnabled(slots) ==> forall i :: 0 <= i < |slots| ==> !ToggleAll(slots)[i].enabled
    ensures !AllEnabled(slots) ==> AllEnabled(ToggleAll(slots))
    ensures !AllEnabled(slots) ==> forall i :: 0 <= i < |slots| ==> !ToggleAll(ToggleAll(slots))[i].enabled
  {
    var r := ToggleAll(slots);
    if !AllEnabled(slots) {
      assert forall i :: 0 <= i < |r| ==> r[i].enabled;
      assert AllEnabled(r);
    }
  }

  /** The editor's Save: every placement carrying the edited key becomes the
      edited placement; the rest stay. */
  function SaveSlot(slots: seq<Slot>, edited: Slot): (r: seq<Slot>)
    ensures |r| == |slots|
    ensures forall i :: 0 <= i < |r| ==> r[i] == if slots[i].key == edited.key then edited else slots[i]
  {
    seq(|slots|, i requires 0 <= i < |slots| => if slots[i].key == edited.key then edited else slots[i])
  }

  /** After saving, reading the edited key gives the edited placement, and
      every other key reads as before. */
  lemma SaveSlotReadsBack(slots: seq<Slot>, edited: Slot, key: string)
    requires AdSpaces.HasKey(slots, edited.key)
    ensures AdSpaces.Lookup(SaveSlot(slots, edited), edited.key) == Some(edited)
    ensures key != edited.key ==> AdSpaces.Lookup(SaveSlot(slots, edited), key) == AdSpaces.Lookup(slots, key)
  {
    var r := SaveSlot(slots, edited);
    AdSpaces.KeyIndexOfSameKeys(slots, r, edited.key);
    AdSpaces.KeyIndexOfSameKeys(slots, r, key);
  }

  // ---------------------------------------------------------------- stories

  /** The story editor's fields. */
  datatype StoryForm = StoryForm(title: string, excerpt: string, content: string, category: string, image: string)

  datatype Saved = Rejected(error: string) | Created(story: Stories.Story) | Updated(found: bool)

  const TitleRequired: string := "Title is required."
  const ContentRequired: string := "Content is required."
  const ExcerptLength: nat := 60

  /** A blank excerpt becomes the first 60 UTF-16 units of the trimmed content,
      in whole code points, followed by "...". */
  function ExcerptOf(f: StoryForm): (r: string)
    ensures Trim(f.excerpt) != [] ==> r == Trim(f.excerpt)
    ensures Trim(f.excerpt) == [] ==> |r| >= 3 && r[|r| - 3..] == "..."
    ensures Trim(f.excerpt) == [] ==>
              var c := Trim(f.content); var head := r[..|r| - 3];
              && head <= c && JsLength(head) <= ExcerptLength
              && (JsLength(c) <= ExcerptLength ==> head == c)
              && (|head| < |c| ==> JsLength(head) + Units(c[|head|]) > ExcerptLength)
  {
    if Trim(f.excerpt) != [] then Trim(f.excerpt)
    else
      var head := JsPrefix(Trim(f.content), ExcerptLength);
      JsPrefixFits(Trim(f.content), ExcerptLength);
      WithDots(head);
      head + "..."
  }

  lemma WithDots(head: string)
    ensures var r := head + "..."; |r| >= 3 && r[|r| - 3..] == "..." && r[..|r| - 3] == head
  {
    var r := head + "...";
    assert r[..|head|] == head;
  }

  /** `form.image || undefined` */
  function ImageOf(f: StoryForm): (r: Option<string>)
    ensures r.None? <==> f.image == []
    ensures r.Some? ==> r.value == f.image
  {
    if f.image == [] then None else Some(f.image)
  }

  /** The story the editor saves: trimmed title and content, author "Admin". */
  function StoryData(f: StoryForm): (t: Stories.StoryText)
    ensures t.title == Trim(f.title) && t.content == Trim(f.content) && t.author == "Admin"
    ensures t.excerpt == ExcerptOf(f) && t.category == f.category && t.image == ImageOf(f)
  {
    Stories.StoryText(Trim(f.title), "Admin", ExcerptOf(f), ImageOf(f), Trim(f.content), f.category)
  }

  /** Every field the editor sends, as an update. */
  function PatchOf(t: Stories.StoryText): (u: Stories.StoryPatch)
    ensures u.views.None? && u.likes.None? && u.time.None? && u.createdTs.None?
  {
    Stories.StoryPatch(Some(t.title), Some(t.author), None, None, None, Some(t.excerpt), Some(t.image),
                       Some(t.content), Some(t.category), None)
  }

  /** `handleSave`: a blank title, then a blank content, is refused before the
      store is read; otherwise the story is updated when one is being edited
      and added otherwise. */
  function SaveStory(st: Stored<seq<Stories.Story>>, mock: seq<Stories.Story>, f: StoryForm,
                     editing: Option<int>, now: int): (r: Step<seq<Stories.Story>, Saved>)
    ensures Trim(f.title) == [] ==> r == Step(Rejected(TitleRequired), st)
    ensures Trim(f.title) != [] && Trim(f.content) == [] ==> r == Step(Rejected(ContentRequired), st)
    ensures r.value.Created? ==>
              && editing.None? && r.stored.Value? && |r.stored.v| > 0 && r.stored.v[0] == r.value.story
              && r.value.story.text == StoryData(f) && r.value.story.createdTs == now
              && r.value.story.views == 0 && r.value.story.likes == 0
    ensures !r.value.Rejected? <==> Trim(f.title) != [] && Trim(f.content) != []
    ensures editing.None? ==> !r.value.Updated?
  {
    if Trim(f.title) == [] then Step(Rejected(TitleRequired), st)
    else if Trim(f.content) == [] then Step(Rejected(ContentRequired), st)
    else if editing.Some? then
      var u := Stories.Update(st, mock, editing.value, PatchOf(StoryData(f)));
      Step(Updated(u.value), u.stored)
    else
      var a := Stories.Add(st, mock, StoryData(f), now);
      Step(Created(a.value), a.stored)
  }

  /** Editing a story replaces its text with the editor's and keeps its
      counters and date; no other story changes. */
  lemma SaveStoryEdits(st: Stored<seq<Stories.Story>>, mock: seq<Stories.Story>, f: StoryForm, id: int, now: int)
    requires Trim(f.title) != [] && Trim(f.content) != []
    ensures var ss := Stories.All(st, mock).value; var k := IndexBy(ss, Stories.IdOf, id);
            var r := SaveStory(st, mock, f, Some(id), now);
            && (r.value == Updated(k >= 0))
            && (k >= 0 ==> && r.stored.Value? && |r.stored.v| == |ss|
                           && r.stored.v[k] == ss[k].(text := StoryData(f))
                           && forall i :: 0 <= i < |ss| && i != k ==> r.stored.v[i] == ss[i])
  {
    var ss := Stories.All(st, mock).value;
    var k := IndexBy(ss, Stories.IdOf, id);
    if k >= 0 {
      var m := Stories.Merge(ss[k], PatchOf(StoryData(f)));
      assert m.text == StoryData(f);
    }
  }
}

=== FILE: adspaces.dfy ===
/** The ad-placement catalog: one slot per named placement on the site, each
    holding the raw ad codes an administrator pasted, kept in local storage
    and repaired every time it is read.

    The repair is stated for any catalog `cat` of well-formed, disabled
    entries; the store functions use it with `Catalog`, the sixteen
    `defaultSlots`. */
module AdSpaces {
  import opened Text
  import opened Storage
  import Arith
  import opened Lists

  /** `type: "single" | "rotating"` */
  datatype SlotKind = Single | Rotating

  /** `AdSpaceSlot`; `caption` is the source's `label`. */
  datatype Slot = Slot(key: string, caption: string, area: string, kind: SlotKind,
                       size: string, codes: seq<string>, enabled: bool)

  /** A rotating slot offers this many code positions. */
  const RotatingCodes: nat := 4

  /** "320×50", the size given to an empty size whose key has no catalog size. */
  const DefaultSize: string := "320\U{D7}50"

  /** `n` empty code positions. */
  function Blanks(n: nat): (r: seq<string>)
    ensures |r| == n
    ensures forall i :: 0 <= i < n ==> r[i] == ""
  {
    if n == 0 then [] else Blanks(n - 1) + [""]
  }

  /** What the repair establishes for one slot: a rotating slot offers every
      code position and the size is never empty. */
  predicate WellFormed(s: Slot)
  {
    (s.kind == Rotating ==> |s.codes| >= RotatingCodes) && s.size != ""
  }

  /** A catalog entry: disabled, with one empty code (single) or four (rotating). */
  function Default(key: string, caption: string, area: string, kind: SlotKind, size: string): (s: Slot)
    requires size != ""
    ensures WellFormed(s) && !s.enabled
    ensures s.key == key && s.kind == kind && s.size == size
    ensures forall i :: 0 <= i < |s.codes| ==> s.codes[i] == ""
  {
    Slot(key, caption, area, kind, size, if kind == Single then [""] else Blanks(RotatingCodes), false)
  }

  /** Entry `i` of `defaultSlots`, for `i` from 0 to 15. */
  function CatalogEntry(i: int): (s: Slot)
    ensures WellFormed(s) && !s.enabled
  {
    match i
    case 0 => Default("top-leaderboard", "Top Leaderboard", "Global", Single, "320\U{D7}50")
    case 1 => Default("bottom-mobile", "Bottom Mobile Banner", "Global", Single, "320\U{D7}100")
    case 2 => Default("sliding-bottom", "Sliding Bottom Strip", "Global", Single, "320\U{D7}50")
    case 3 => Default("detail-below-image", "Detail Page Below Image", "Ads", Single, "320\U{D7}100")
    case 4 => Default("ad-detail-bottom", "Ad Detail Bottom", "Ads", Single, "300\U{D7}250")
    case 5 => Default("home-in-content", "Home Feed (every 4 rows)", "Ads", Rotating, "320\U{D7}200")
    case 6 => Default("category-in-content", "Category Feed (every 4 rows)", "Ads", Rotating, "320\U{D7}200")
    case 7 => Default("profile-bottom", "Profile Page Bottom", "Profile", Single, "300\U{D7}250")
    case 8 => Default("dating-in-content", "Dating Feed (every 4 rows)", "Dating", Rotating, "320\U{D7}50")
    case 9 => Default("dating-profile-bottom", "Dating Profile Bottom", "Dating", Single, "320\U{D7}250")
    case 10 => Default("walkatha-in-content", "Stories Feed (every 4 rows)", "WalKatha", Rotating, "320\U{D7}100")
    case 11 => Default("walkatha-story-content-1", "Story Body 25%", "WalKatha", Single, "320\U{D7}90")
    case 12 => Default("walkatha-story-content-2", "Story Body 50%", "WalKatha", Single, "320\U{D7}90")
    case 13 => Default("walkatha-story-content-3", "Story Body 75%", "WalKatha", Single, "320\U{D7}90")
    case 14 => Default("walkatha-story-content-4", "Story Body End", "WalKatha", Single, "320\U{D7}90")
    case _ => Default("chatbox-horizontal", "Chat User List (every 10)", "Chat", Rotating, "320\U{D7}50")
  }

  /** `defaultSlots`: the sixteen placements, in the order the store appends them. */
  const Catalog: seq<Slot> := CatalogList()

  function CatalogList(): seq<Slot>
  {
    seq(16, CatalogEntry)
  }

  /** Every entry is complete and switched off. */
  predicate ValidCatalog(cat: seq<Slot>)
  {
    forall i :: 0 <= i < |cat| ==> WellFormed(cat[i]) && !cat[i].enabled
  }

  lemma CatalogValid()
    ensures ValidCatalog(Catalog)
  {
  }

  /** Some slot in the list carries `key`. */
  predicate HasKey(slots: seq<Slot>, key: string)
  {
    exists i | 0 <= i < |slots| :: slots[i].key == key
  }

  /** Every key of `cat` occurs in `slots`. */
  predicate Complete(cat: seq<Slot>, slots: seq<Slot>)
  {
    forall i :: 0 <= i < |cat| ==> HasKey(slots, cat[i].key)
  }

  /** `slots.findIndex((s) => s.key === key)` */
  function KeyIndex(slots: seq<Slot>, key: string): (k: int)
    ensures -1 <= k < |slots|
    ensures k == -1 <==> !HasKey(slots, key)
    ensures k >= 0 ==> slots[k].key == key && forall i :: 0 <= i < k ==> slots[i].key != key
  {
    if |slots| == 0 then -1
    else if slots[0].key == key then 0
    else
      var k := KeyIndex(slots[1..], key);
      assert forall i :: 1 <= i < |slots| ==> slots[i] == slots[1..][i - 1];
      if k == -1 then -1 else k + 1
  }

  /** `slots.find((s) => s.key === key)` */
  function Lookup(slots: seq<Slot>, key: string): (r: Option<Slot>)
    ensures r.None? <==> !HasKey(slots, key)
    ensures r.Some? ==> r.value.key == key && r.value in slots
  {
    var k := KeyIndex(slots, key);
    if k == -1 then None else Some(slots[k])
  }

  /** Lists whose keys agree position by position find a key at the same place. */
  lemma {:induction false} KeyIndexOfSameKeys(a: seq<Slot>, b: seq<Slot>, key: string)
    requires |a| == |b| && forall i :: 0 <= i < |a| ==> a[i].key == b[i].key
    ensures KeyIndex(a, key) == KeyIndex(b, key)
  {
    if |a| > 0 {
      KeyIndexOfSameKeys(a[1..], b[1..], key);
    }
  }

  // ---------------------------------------------------------------- repair

  /** `cat.find((d) => d.key === key)?.size || "320×50"` */
  function SizeFor(cat: seq<Slot>, key: string): (r: string)
    ensures r != ""
    ensures !HasKey(cat, key) ==> r == DefaultSize
    ensures HasKey(cat, key) && cat[KeyIndex(cat, key)].size != "" ==> r == cat[KeyIndex(cat, key)].size
  {
    var k := KeyIndex(cat, key);
    if k == -1 || cat[k].size == "" then DefaultSize else cat[k].size
  }

  /** The migration of one slot: pad a rotating slot's codes with blanks to
      four, and give an empty size the catalog size. */
  function FixSlot(cat: seq<Slot>, s: Slot): Slot
  {
    var codes := if s.kind == Rotating && |s.codes| < RotatingCodes
                 then s.codes + Blanks(RotatingCodes - |s.codes|) else s.codes;
    var size := if s.size == "" then SizeFor(cat, s.key) else s.size;
    s.(codes := codes, size := size)
  }

  /** How slot `r` relates to the stored slot `s` it was repaired from: only
      blank codes added at the end, exactly up to four for a short rotating
      slot, and only an empty size replaced. */
  predicate RepairedFrom(cat: seq<Slot>, s: Slot, r: Slot)
  {
    && r.key == s.key && r.caption == s.caption && r.area == s.area
    && r.kind == s.kind && r.enabled == s.enabled
    && s.codes <= r.codes
    && (forall i :: |s.codes| <= i < |r.codes| ==> r.codes[i] == "")
    && (s.kind == Rotating && |s.codes| < RotatingCodes ==> |r.codes| == RotatingCodes)
    && (s.kind == Single || |s.codes| >= RotatingCodes ==> r.codes == s.codes)
    && (s.size != "" ==> r.size == s.size)
    && (s.size == "" ==> r.size == SizeFor(cat, s.key))
  }

  /** A slot's migration only completes it, and leaves a well-formed slot alone. */
  lemma FixSlotRepairs(cat: seq<Slot>, s: Slot)
    ensures RepairedFrom(cat, s, FixSlot(cat, s)) && WellFormed(FixSlot(cat, s))
    ensures WellFormed(s) <==> FixSlot(cat, s) == s
  {
  }

  /** The migration loop: `FixSlot` on every slot, in place. */
  function FixAll(cat: seq<Slot>, slots: seq<Slot>): (r: seq<Slot>)
    ensures |r| == |slots|
    ensures forall i :: 0 <= i < |slots| ==> r[i] == FixSlot(cat, slots[i])
  {
    if |slots| == 0 then [] else [FixSlot(cat, slots[0])] + FixAll(cat, slots[1..])
  }

  lemma {:induction false} FixAllAppend(cat: seq<Slot>, a: seq<Slot>, b: seq<Slot>)
    ensures FixAll(cat, a + b) == FixAll(cat, a) + FixAll(cat, b)
  {
    if |a| == 0 {
      assert a + b == b;
    } else {
      assert (a + b)[1..] == a[1..] + b;
      FixAllAppend(cat, a[1..], b);
    }
  }

  /** Migration leaves a list of well-formed slots as it is. */
  lemma FixAllWellFormed(cat: seq<Slot>, slots: seq<Slot>)
    requires forall i :: 0 <= i < |slots| ==> WellFormed(slots[i])
    ensures FixAll(cat, slots) == slots
  {
    forall i | 0 <= i < |slots| ensures FixAll(cat, slots)[i] == slots[i] {
      FixSlotRepairs(cat, slots[i]);
    }
  }

  /** The entries of `cat` whose key `slots` lacks, each once, in catalog order. */
  function Missing(cat: seq<Slot>, slots: seq<Slot>): (r: seq<Slot>)
    ensures |r| <= |cat|
    ensures forall i :: 0 <= i < |r| ==> r[i] in cat && !HasKey(slots, r[i].key)
    ensures forall i :: 0 <= i < |cat| && !HasKey(slots, cat[i].key) ==> cat[i] in r
  {
    if |cat| == 0 then []
    else
      var rest := Missing(cat[1..], slots);
      assert forall i :: 1 <= i < |cat| ==> cat[i] == cat[1..][i - 1];
      if HasKey(slots, cat[0].key) then rest else [cat[0]] + rest
  }

  /** The missing entries are exactly those of `cat` whose key `slots` lacks,
      each once, in catalog order. */
  lemma {:induction false} MissingExactly(cat: seq<Slot>, slots: seq<Slot>)
    ensures KeepsExactly(Missing(cat, slots), cat, (d: Slot) => !HasKey(slots, d.key))
  {
    MissingIsFilter(cat, slots);
    FilterKeepsExactly(cat, (d: Slot) => !HasKey(slots, d.key));
  }

  lemma {:induction false} MissingIsFilter(cat: seq<Slot>, slots: seq<Slot>)
    ensures Missing(cat, slots) == Filter(cat, (d: Slot) => !HasKey(slots, d.key))
  {
    if |cat| > 0 {
      MissingIsFilter(cat[1..], slots);
    }
  }

  /** Catalog entries need no migration. */
  lemma MissingWellFormed(cat: seq<Slot>, slots: seq<Slot>)
    requires ValidCatalog(cat)
    ensures forall i :: 0 <= i < |Missing(cat, slots)| ==> WellFormed(Missing(cat, slots)[i])
  {
    forall i | 0 <= i < |Missing(cat, slots)| ensures WellFormed(Missing(cat, slots)[i]) {
      var j :| 0 <= j < |cat| && cat[j] == Missing(cat, slots)[i];
    }
  }

  /** Nothing is missing from a complete list. */
  lemma {:induction false} MissingNone(cat: seq<Slot>, slots: seq<Slot>)
    requires Complete(cat, slots)
    ensures Missing(cat, slots) == []
  {
    if |cat| > 0 {
      assert HasKey(slots, cat[0].key);
      assert Complete(cat[1..], slots) by {
        forall i | 0 <= i < |cat| - 1 ensures HasKey(slots, cat[1..][i].key) {
          assert cat[1..][i] == cat[i + 1];
        }
      }
      MissingNone(cat[1..], slots);
    }
  }

  /** Some stored slot needs padding or a size. */
  predicate NeedsMigration(slots: seq<Slot>)
  {
    exists i | 0 <= i < |slots| :: !WellFormed(slots[i])
  }

  /** A repaired list and whether the repair must be written back. */
  datatype Repaired = Repaired(slots: seq<Slot>, migrated: bool)

  /** The repair `getAdSpaces` performs on a parsed list: append a copy of every
      missing catalog entry, then migrate every slot. Only the migration of a
      stored slot counts as a change to write back. */
  function Repair(cat: seq<Slot>, parsed: seq<Slot>): Repaired
  {
    Repaired(FixAll(cat, parsed + Missing(cat, parsed)), NeedsMigration(parsed))
  }

  /** The repaired list is the migrated stored list followed by the missing catalog entries. */
  lemma RepairSplits(cat: seq<Slot>, parsed: seq<Slot>)
    requires ValidCatalog(cat)
    ensures Repair(cat, parsed).slots == FixAll(cat, parsed) + Missing(cat, parsed)
  {
    FixAllAppend(cat, parsed, Missing(cat, parsed));
    MissingWellFormed(cat, parsed);
    FixAllWellFormed(cat, Missing(cat, parsed));
  }

  /** The stored slots keep their place and are only completed; the missing
      catalog entries follow them unchanged. */
  lemma RepairKeepsStored(cat: seq<Slot>, parsed: seq<Slot>)
    requires ValidCatalog(cat)
    ensures var r := Repair(cat, parsed).slots;
            && |r| == |parsed| + |Missing(cat, parsed)|
            && (forall i :: 0 <= i < |parsed| ==> RepairedFrom(cat, parsed[i], r[i]))
            && r[|parsed|..] == Missing(cat, parsed)
  {
    RepairSplits(cat, parsed);
    var r := Repair(cat, parsed).slots;
    forall i | 0 <= i < |parsed| ensures RepairedFrom(cat, parsed[i], r[i]) {
      assert r[i] == FixAll(cat, parsed)[i];
      FixSlotRepairs(cat, parsed[i]);
    }
  }

  /** After repair every slot is well formed. */
  lemma RepairWellFormed(cat: seq<Slot>, parsed: seq<Slot>)
    requires ValidCatalog(cat)
    ensures forall i :: 0 <= i < |Repair(cat, parsed).slots| ==> WellFormed(Repair(cat, parsed).slots[i])
  {
    var r := Repair(cat, parsed).slots;
    RepairSplits(cat, parsed);
    MissingWellFormed(cat, parsed);
    forall i | 0 <= i < |r| ensures WellFormed(r[i]) {
      if i < |parsed| {
        FixSlotRepairs(cat, parsed[i]);
        assert r[i] == FixSlot(cat, parsed[i]);
      } else {
        assert r[i] == Missing(cat, parsed)[i - |parsed|];
      }
    }
  }

  /** Migration keeps every key where it was. */
  lemma FixAllKeepsKeys(cat: seq<Slot>, slots: seq<Slot>, key: string)
    ensures HasKey(FixAll(cat, slots), key) <==> HasKey(slots, key)
  {
    var r := FixAll(cat, slots);
    if HasKey(slots, key) {
      var i :| 0 <= i < |slots| && slots[i].key == key;
      assert r[i].key == key;
    }
    if HasKey(r, key) {
      var i :| 0 <= i < |r| && r[i].key == key;
      assert slots[i].key == key;
    }
  }

  /** Appending the missing entries supplies every catalog key. */
  lemma AppendMissingFindsKey(cat: seq<Slot>, parsed: seq<Slot>, j: int)
    requires 0 <= j < |cat|
    ensures HasKey(parsed + Missing(cat, parsed), cat[j].key)
  {
    var x := parsed + Missing(cat, parsed);
    var m := Missing(cat, parsed);
    if HasKey(parsed, cat[j].key) {
      var i :| 0 <= i < |parsed| && parsed[i].key == cat[j].key;
      assert x[i] == parsed[i];
    } else {
      assert cat[j] in m;
      var k :| 0 <= k < |m| && m[k] == cat[j];
      assert x[|parsed| + k] == m[k];
    }
  }

  /** After repair every catalog key is present. */
  lemma RepairComplete(cat: seq<Slot>, parsed: seq<Slot>)
    ensures Complete(cat, Repair(cat, parsed).slots)
  {
    forall j | 0 <= j < |cat| ensures HasKey(Repair(cat, parsed).slots, cat[j].key) {
      AppendMissingFindsKey(cat, parsed, j);
      FixAllKeepsKeys(cat, parsed + Missing(cat, parsed), cat[j].key);
    }
  }

  /** Appending missing catalog entries alone is not a migration: a list of
      well-formed slots comes back with the entries appended but is not written. */
  lemma AppendOnlyIsNotMigration(cat: seq<Slot>, parsed: seq<Slot>)
    requires ValidCatalog(cat)
    requires forall i :: 0 <= i < |parsed| ==> WellFormed(parsed[i])
    ensures !Repair(cat, parsed).migrated
    ensures Repair(cat, parsed).slots == parsed + Missing(cat, parsed)
  {
    RepairSplits(cat, parsed);
    FixAllWellFormed(cat, parsed);
  }

  /** A complete, well-formed list is its own repair. */
  lemma RepairOfRepaired(cat: seq<Slot>, slots: seq<Slot>)
    requires ValidCatalog(cat) && Complete(cat, slots)
    requires forall i :: 0 <= i < |slots| ==> WellFormed(slots[i])
    ensures Repair(cat, slots) == Repaired(slots, false)
  {
    MissingNone(cat, slots);
    AppendOnlyIsNotMigration(cat, slots);
    assert slots + [] == slots;
  }

  /** Repairing a repaired list changes nothing and asks for no write. */
  lemma RepairIdempotent(cat: seq<Slot>, parsed: seq<Slot>)
    requires ValidCatalog(cat)
    ensures Repair(cat, Repair(cat, parsed).slots) == Repaired(Repair(cat, parsed).slots, false)
  {
    RepairWellFormed(cat, parsed);
    RepairComplete(cat, parsed);
    RepairOfRepaired(cat, Repair(cat, parsed).slots);
  }

  // ---------------------------------------------------------------- store

  /** What a store operation returns, what local storage holds afterwards, and
      how many change broadcasts (`AD_SPACES_CHANGED`) it dispatched. */
  datatype Outcome<T> = Outcome(value: T, stored: Stored<seq<Slot>>, broadcasts: nat)

  lemma CatalogComplete()
    ensures Complete(Catalog, Catalog)
  {
    forall i | 0 <= i < |Catalog| ensures HasKey(Catalog, Catalog[i].key) {
      assert Catalog[i].key == Catalog[i].key;
    }
  }

  /** `getAdSpaces`: seed the catalog when nothing is stored (a direct write,
      without a broadcast), fall back to the catalog without writing when the
      stored text cannot be read, and otherwise return the repaired list,
      saving it (with a broadcast) only when a stored slot was migrated. */
  function GetAdSpaces(st: Stored<seq<Slot>>): (r: Outcome<seq<Slot>>)
    ensures Complete(Catalog, r.value)
    ensures forall i :: 0 <= i < |r.value| ==> WellFormed(r.value[i])
    ensures !st.Value? ==> r.value == Catalog && r.broadcasts == 0
    ensures st.Absent? ==> r.stored == Value(Catalog)
    ensures st.Corrupt? ==> r.stored == Corrupt
    ensures st.Value? ==> r.value == Repair(Catalog, st.v).slots
    ensures st.Value? ==> (r.broadcasts == 1 <==> NeedsMigration(st.v))
    ensures st.Value? ==> r.stored == if NeedsMigration(st.v) then Value(r.value) else st
    ensures r.broadcasts <= 1
  {
    CatalogValid();
    match st
    case Absent =>
      CatalogComplete();
      Outcome(Catalog, Value(Catalog), 0)
    case Corrupt =>
      CatalogComplete();
      Outcome(Catalog, Corrupt, 0)
    case Value(parsed) =>
      RepairWellFormed(Catalog, parsed);
      RepairComplete(Catalog, parsed);
      var rep := Repair(Catalog, parsed);
      if rep.migrated then Outcome(rep.slots, Value(rep.slots), 1)
      else Outcome(rep.slots, st, 0)
  }

  /** Reading twice gives the same slots, and the second read writes nothing. */
  lemma ReadIsStable(st: Stored<seq<Slot>>)
    ensures GetAdSpaces(GetAdSpaces(st).stored).value == GetAdSpaces(st).value
    ensures GetAdSpaces(GetAdSpaces(st).stored).stored == GetAdSpaces(st).stored
    ensures GetAdSpaces(GetAdSpaces(st).stored).broadcasts == 0
  {
    CatalogValid();
    match st
    case Absent =>
      CatalogComplete();
      RepairOfRepaired(Catalog, Catalog);
    case Corrupt =>
    case Value(parsed) =>
      RepairIdempotent(Catalog, parsed);
  }

  /** `key` names one of the sixteen placements. */
  predicate IsCatalogKey(key: string)
  {
    HasKey(Catalog, key)
  }

  lemma CatalogKeyFound(slots: seq<Slot>, key: string)
    requires Complete(Catalog, slots)
    ensures IsCatalogKey(key) ==> HasKey(slots, key)
  {
    if IsCatalogKey(key) {
      var i :| 0 <= i < |Catalog| && Catalog[i].key == key;
    }
  }

  /** `getSlot`: every placement of the catalog is found. */
  function GetSlot(st: Stored<seq<Slot>>, key: string): (r: Outcome<Option<Slot>>)
    ensures r.value.Some? ==> r.value.value.key == key && WellFormed(r.value.value)
    ensures IsCatalogKey(key) ==> r.value.Some?
    ensures r.stored == GetAdSpaces(st).stored && r.broadcasts == GetAdSpaces(st).broadcasts
  {
    CatalogKeyFound(GetAdSpaces(st).value, key);
    Outcome(Lookup(GetAdSpaces(st).value, key), GetAdSpaces(st).stored, GetAdSpaces(st).broadcasts)
  }

  /** The fields `updateSlot` may change: `Partial<Omit<AdSpaceSlot, "key">>`. */
  datatype SlotPatch = SlotPatch(caption: Option<string>, area: Option<string>, kind: Option<SlotKind>,
                                 size: Option<string>, codes: Option<seq<string>>, enabled: Option<bool>)

  /** `{ ...slot, ...updates }`: every field the patch carries wins; the key cannot be patched. */
  function Merge(s: Slot, u: SlotPatch): (r: Slot)
    ensures r.key == s.key
    ensures u == SlotPatch(None, None, None, None, None, None) ==> r == s
    ensures Patched(u.caption, s.caption, r.caption) && Patched(u.area, s.area, r.area)
    ensures Patched(u.kind, s.kind, r.kind) && Patched(u.size, s.size, r.size)
    ensures Patched(u.codes, s.codes, r.codes) && Patched(u.enabled, s.enabled, r.enabled)
  {
    Slot(s.key, u.caption.GetOr(s.caption), u.area.GetOr(s.area), u.kind.GetOr(s.kind),
         u.size.GetOr(s.size), u.codes.GetOr(s.codes), u.enabled.GetOr(s.enabled))
  }

  /** The list after `slots[idx] = { ...slots[idx], ...updates }` at the first
      slot with `key`, or `None` when no slot has it (`idx === -1`). */
  function UpdateIn(slots: seq<Slot>, key: string, u: SlotPatch): (r: Option<seq<Slot>>)
    ensures r.None? <==> !HasKey(slots, key)
    ensures r.Some? ==> var k := KeyIndex(slots, key);
                        && |r.value| == |slots|
                        && r.value[k] == Merge(slots[k], u) && r.value[k].key == key
                        && forall i :: 0 <= i < |slots| && i != k ==> r.value[i] == slots[i]
  {
    var k := KeyIndex(slots, key);
    if k == -1 then None else Some(slots[k := Merge(slots[k], u)])
  }

  /** `updateSlot`: read, merge the patch into the first slot with `key` and
      save; an unknown key is refused and nothing beyond the read is written. */
  function UpdateSlot(st: Stored<seq<Slot>>, key: string, u: SlotPatch): (r: Outcome<bool>)
    ensures r.value <==> UpdateIn(GetAdSpaces(st).value, key, u).Some?
    ensures IsCatalogKey(key) ==> r.value
    ensures !r.value ==> r.stored == GetAdSpaces(st).stored && r.broadcasts == GetAdSpaces(st).broadcasts
    ensures r.value ==> r.stored == Value(UpdateIn(GetAdSpaces(st).value, key, u).value)
                        && r.broadcasts == GetAdSpaces(st).broadcasts + 1
  {
    CatalogKeyFound(GetAdSpaces(st).value, key);
    match UpdateIn(GetAdSpaces(st).value, key, u)
    case None => Outcome(false, GetAdSpaces(st).stored, GetAdSpaces(st).broadcasts)
    case Some(slots) => Outcome(true, Value(slots), GetAdSpaces(st).broadcasts + 1)
  }

  // ---------------------------------------------------------------- getters

  /** The codes `c.trim()` keeps truthy, in order: `codes.filter((c) => c.trim())`.
      A code is blank after `trim()` exactly when it is all white space
      (`Text.BlankIffAllSpace`). */
  function ActiveCodes(codes: seq<string>): (r: seq<string>)
    ensures |r| <= |codes|
    ensures forall i :: 0 <= i < |r| ==> !AllSpace(r[i]) && r[i] in codes
    ensures r == [] <==> forall i :: 0 <= i < |codes| ==> AllSpace(codes[i])
  {
    if |codes| == 0 then []
    else
      assert codes == [codes[0]] + codes[1..];
      var rest := ActiveCodes(codes[1..]);
      if AllSpace(codes[0]) then rest else [codes[0]] + rest
  }

  /** The non-blank codes are kept exactly: all of them, in their stored order,
      and nothing else. */
  lemma {:induction false} ActiveCodesKeepsExactly(codes: seq<string>)
    ensures ActiveCodes(codes) == Filter(codes, IsActiveCode)
    ensures KeepsExactly(ActiveCodes(codes), codes, IsActiveCode)
  {
    if |codes| > 0 {
      ActiveCodesKeepsExactly(codes[1..]);
    }
    FilterKeepsExactly(codes, IsActiveCode);
  }

  /** A code the rotation shows: truthy after `trim()`. */
  predicate IsActiveCode(c: string)
  {
    !AllSpace(c)
  }

  lemma {:induction false} ActiveCodesAll(codes: seq<string>)
    requires forall i :: 0 <= i < |codes| ==> !AllSpace(codes[i])
    ensures ActiveCodes(codes) == codes
  {
    if |codes| > 0 {
      ActiveCodesAll(codes[1..]);
    }
  }

  /** The placement shows nothing: no slot, a disabled slot, or only blank codes. */
  predicate ShowsNothing(slots: seq<Slot>, key: string)
  {
    var s := Lookup(slots, key);
    s.None? || !s.value.enabled || forall i :: 0 <= i < |s.value.codes| ==> AllSpace(s.value.codes[i])
  }

  /** `getRotatingCode` on an already read list: the code at `index` modulo the
      number of non-blank codes, returned untrimmed. */
  function RotatingCode(slots: seq<Slot>, key: string, index: nat): (r: string)
    ensures r == "" <==> ShowsNothing(slots, key)
    ensures r != "" ==> r in Lookup(slots, key).value.codes && !AllSpace(r)
    ensures !ShowsNothing(slots, key) ==>
              var active := ActiveCodes(Lookup(slots, key).value.codes);
              |active| > 0 && r == active[index % |active|]
  {
    var s := Lookup(slots, key);
    if s.None? || !s.value.enabled then ""
    else
      var active := ActiveCodes(s.value.codes);
      if |active| == 0 then ""
      else
        assert active[index % |active|] in active;
        active[index % |active|]
  }

  /** The rotation cycles with the number of non-blank codes. */
  lemma RotationPeriodic(slots: seq<Slot>, key: string, index: nat)
    requires !ShowsNothing(slots, key)
    ensures var k := |ActiveCodes(Lookup(slots, key).value.codes)|;
            k > 0 && RotatingCode(slots, key, index + k) == RotatingCode(slots, key, index)
  {
    Arith.ModShift(index, |ActiveCodes(Lookup(slots, key).value.codes)|);
  }

  /** The first positions show the non-blank codes in their stored order. */
  lemma RotationInOrder(slots: seq<Slot>, key: string, index: nat)
    requires Lookup(slots, key).Some? && Lookup(slots, key).value.enabled
    requires index < |ActiveCodes(Lookup(slots, key).value.codes)|
    ensures RotatingCode(slots, key, index) == ActiveCodes(Lookup(slots, key).value.codes)[index]
  {
    Arith.ModBelow(index, |ActiveCodes(Lookup(slots, key).value.codes)|);
  }

  /** Codes ["A", "B", "", "D"] rotate as A, B, D, A. */
  lemma RotationSkipsBlank(s: Slot)
    requires s.enabled && s.codes == ["A", "B", "", "D"]
    ensures RotatingCode([s], s.key, 0) == "A"
    ensures RotatingCode([s], s.key, 1) == "B"
    ensures RotatingCode([s], s.key, 2) == "D"
    ensures RotatingCode([s], s.key, 3) == "A"
  {
    assert Lookup([s], s.key) == Some(s);
    assert "A"[0] == 'A' && "B"[0] == 'B' && "D"[0] == 'D';
    assert !AllSpace("A") && !AllSpace("B") && AllSpace("") && !AllSpace("D");
    var c3: seq<string> := ["D"];
    var c2: seq<string> := ["", "D"];
    var c1: seq<string> := ["B", "", "D"];
    assert ActiveCodes(c3) == ["D"] by { assert c3[1..] == []; }
    assert ActiveCodes(c2) == ["D"] by { assert c2[1..] == c3; }
    assert ActiveCodes(c1) == ["B", "D"] by { assert c1[1..] == c2; }
    assert ActiveCodes(s.codes) == ["A", "B", "D"] by { assert s.codes[1..] == c1; }
  }

  /** `getSingleCode` on an already read list: the trimmed first code, or "". */
  function SingleCode(slots: seq<Slot>, key: string): (r: string)
    ensures Trim(r) == r
    ensures r != "" ==> Lookup(slots, key).Some? && Lookup(slots, key).value.enabled
    ensures var s := Lookup(slots, key);
            s.Some? && s.value.enabled && |s.value.codes| > 0 ==> r == Trim(s.value.codes[0])
    ensures var s := Lookup(slots, key);
            s.Some? && s.value.enabled && s.value.codes == [] ==> r == ""
  {
    var s := Lookup(slots, key);
    if s.None? || !s.value.enabled || |s.value.codes| == 0 then ""
    else
      TrimIdempotent(s.value.codes[0]);
      Trim(s.value.codes[0])
  }

  /** Catalog entries are disabled, so the catalog shows nothing anywhere. */
  lemma CatalogShowsNothing(key: string)
    ensures ShowsNothing(Catalog, key)
    ensures SingleCode(Catalog, key) == ""
  {
    CatalogValid();
    var k := KeyIndex(Catalog, key);
    if k != -1 {
      assert !Catalog[k].enabled;
    }
  }

  /** `getRotatingCode(key, index)` against local storage. */
  function GetRotatingCode(st: Stored<seq<Slot>>, key: string, index: nat): (r: Outcome<string>)
    ensures r.value == "" <==> ShowsNothing(GetAdSpaces(st).value, key)
    ensures !ShowsNothing(GetAdSpaces(st).value, key) ==>
              var active := ActiveCodes(Lookup(GetAdSpaces(st).value, key).value.codes);
              |active| > 0 && r.value == active[index % |active|]
    ensures !st.Value? ==> r.value == ""
    ensures r.stored == GetAdSpaces(st).stored
  {
    CatalogShowsNothing(key);
    Outcome(RotatingCode(GetAdSpaces(st).value, key, index), GetAdSpaces(st).stored, GetAdSpaces(st).broadcasts)
  }

  /** `getSingleCode(key)` against local storage. */
  function GetSingleCode(st: Stored<seq<Slot>>, key: string): (r: Outcome<string>)
    ensures Trim(r.value) == r.value
    ensures var s := Lookup(GetAdSpaces(st).value, key);
            && (s.Some? && s.value.enabled && |s.value.codes| > 0 ==> r.value == Trim(s.value.codes[0]))
            && (s.None? || !s.value.enabled || s.value.codes == [] ==> r.value == "")
    ensures !st.Value? ==> r.value == ""
    ensures r.stored == GetAdSpaces(st).stored
  {
    CatalogShowsNothing(key);
    Outcome(SingleCode(GetAdSpaces(st).value, key), GetAdSpaces(st).stored, GetAdSpaces(st).broadcasts)
  }

  // ---------------------------------------------------------------- samples

  /** A character of the class `/[×x]/i`. */
  predicate IsSizeSep(c: char)
  {
    c == '\U{D7}' || c == 'x' || c == 'X'
  }

  /** Index of the first separator, or -1. */
  function SepIndex(s: string): (k: int)
    ensures -1 <= k < |s|
    ensures k == -1 <==> forall i :: 0 <= i < |s| ==> !IsSizeSep(s[i])
    ensures k >= 0 ==> IsSizeSep(s[k]) && forall i :: 0 <= i < k ==> !IsSizeSep(s[i])
  {
    if |s| == 0 then -1
    else if IsSizeSep(s[0]) then 0
    else
      var k := SepIndex(s[1..]);
      assert forall i :: 1 <= i < |s| ==> s[i] == s[1..][i - 1];
      if k == -1 then -1 else k + 1
  }

  /** `size.split(/[×x]/i)`, keeping only the first two parts (`None` when there is no separator). */
  function SizeParts(s: string): (r: (string, Option<string>))
    ensures r.0 <= s && forall i :: 0 <= i < |r.0| ==> !IsSizeSep(r.0[i])
    ensures r.1.None? <==> r.0 == s
    ensures r.1.Some? ==> IsSizeSep(s[|r.0|]) && r.1.value <= s[|r.0| + 1..]
                          && forall i :: 0 <= i < |r.1.value| ==> !IsSizeSep(r.1.value[i])
  {
    var k := SepIndex(s);
    if k == -1 then (s, None)
    else
      var rest := s[k + 1..];
      var j := SepIndex(rest);
      (s[..k], Some(if j == -1 then rest else rest[..j]))
  }

  /** `parseInt(part) || fallback`: NaN and 0 both fall back. */
  function NumberOr(part: Option<string>, fallback: int): (r: int)
    ensures fallback != 0 ==> r != 0
    ensures part.Some? && ParseInt(part.value).Some? && ParseInt(part.value).value != 0 ==>
              r == ParseInt(part.value).value
    ensures part.None? || ParseInt(part.value).None? ==> r == fallback
  {
    match part
    case None => fallback
    case Some(p) =>
      match ParseInt(p)
      case None => fallback
      case Some(n) => if n == 0 then fallback else n
  }

  /** `parseSize`: width and height from "W×H", 320 and 50 where a part is missing, zero or not a number. */
  function ParseSize(size: string): (r: (int, int))
    ensures r.0 != 0 && r.1 != 0
  {
    var parts := SizeParts(size);
    (NumberOr(Some(parts.0), 320), NumberOr(parts.1, 50))
  }

  lemma DigitsHaveNoSeparator(s: string)
    requires AllDigits(s)
    ensures SepIndex(s) == -1
  {
  }

  /** "W×H" splits into W and H when neither contains a separator. */
  lemma SizePartsOfPair(a: string, b: string)
    requires SepIndex(a) == -1 && SepIndex(b) == -1
    ensures SizeParts(a + "\U{D7}" + b) == (a, Some(b))
  {
    var s := a + "\U{D7}" + b;
    assert forall i :: 0 <= i < |a| ==> s[i] == a[i];
    assert IsSizeSep(s[|a|]);
    assert SepIndex(s) == |a|;
    assert s[..|a|] == a;
    assert s[|a| + 1..] == b;
  }

  /** Rendering positive dimensions as "W×H" and parsing them back gives them back. */
  lemma ParseSizeRoundTrip(w: nat, h: nat)
    requires w > 0 && h > 0
    ensures ParseSize(NatToString(w) + "\U{D7}" + NatToString(h)) == (w, h)
  {
    DigitsHaveNoSeparator(NatToString(w));
    DigitsHaveNoSeparator(NatToString(h));
    SizePartsOfPair(NatToString(w), NatToString(h));
    ParseIntOfNatToString(w);
    ParseIntOfNatToString(h);
  }

  /** A size without a separator has no height part, so the height is 50. */
  lemma ParseSizeNoSeparator(size: string)
    requires forall i :: 0 <= i < |size| ==> !IsSizeSep(size[i])
    ensures ParseSize(size).1 == 50
  {
    assert SepIndex(size) == -1;
  }

  /** `sampleBanner`: placeholder markup for a single slot, modelled as an
      opaque visible string naming the slot, its caption and its dimensions. */
  function SampleBanner(key: string, caption: string, w: int, h: int): (r: string)
    ensures !AllSpace(r)
  {
    var r := "<div>" + caption + " " + IntToString(w) + "\U{D7}" + IntToString(h) + " [" + key + "]</div>";
    assert r[0] == '<';
    r
  }

  /** `sampleRotating`: placeholder markup "AD n" for position `n` of a rotating slot. */
  function SampleRotating(key: string, caption: string, n: nat, w: int, h: int): (r: string)
    ensures !AllSpace(r)
  {
    var r := "<div>AD " + NatToString(n) + " " + caption + " " + IntToString(w) + "\U{D7}" + IntToString(h)
             + " [" + key + "]</div>";
    assert r[0] == '<';
    r
  }

  /** The sample codes `loadSampleAds` gives a slot: one banner, or four numbered ones. */
  function SampleCodes(s: Slot): (codes: seq<string>)
    ensures |codes| == if s.kind == Single then 1 else RotatingCodes
    ensures forall i :: 0 <= i < |codes| ==> !AllSpace(codes[i])
  {
    var wh := ParseSize(s.size);
    if s.kind == Single then
      [SampleBanner(s.key, s.caption, wh.0, wh.1)]
    else
      SampleRotatingCodes(s.key, s.caption, wh.0, wh.1)
  }

  /** The four numbered placeholders of a rotating slot. */
  function SampleRotatingCodes(key: string, caption: string, w: int, h: int): (codes: seq<string>)
    ensures |codes| == RotatingCodes
    ensures forall i :: 0 <= i < |codes| ==> !AllSpace(codes[i])
  {
    seq(RotatingCodes, k requires 0 <= k < RotatingCodes => SampleRotating(key, caption, k + 1, w, h))
  }

  /** One slot after `loadSampleAds`. */
  function SampleSlot(s: Slot): (r: Slot)
    ensures r.enabled
    ensures r.key == s.key && r.caption == s.caption && r.area == s.area && r.kind == s.kind && r.size == s.size
    ensures |r.codes| == if s.kind == Single then 1 else RotatingCodes
    ensures forall i :: 0 <= i < |r.codes| ==> !AllSpace(r.codes[i])
  {
    s.(enabled := true, codes := SampleCodes(s))
  }

  /** One slot after `clearAllAds`. */
  function ClearedSlot(s: Slot): (r: Slot)
    ensures !r.enabled
    ensures r.key == s.key && r.caption == s.caption && r.area == s.area && r.kind == s.kind && r.size == s.size
    ensures forall i :: 0 <= i < |r.codes| ==> r.codes[i] == ""
    ensures |r.codes| == if s.kind == Rotating then RotatingCodes else 1
  {
    s.(enabled := false, codes := if s.kind == Rotating then Blanks(RotatingCodes) else [""])
  }

  function SampleAll(slots: seq<Slot>): (r: seq<Slot>)
    ensures |r| == |slots|
    ensures forall i :: 0 <= i < |slots| ==> r[i] == SampleSlot(slots[i])
  {
    if |slots| == 0 then [] else [SampleSlot(slots[0])] + SampleAll(slots[1..])
  }

  function ClearAll(slots: seq<Slot>): (r: seq<Slot>)
    ensures |r| == |slots|
    ensures forall i :: 0 <= i < |slots| ==> r[i] == ClearedSlot(slots[i])
  {
    if |slots| == 0 then [] else [ClearedSlot(slots[0])] + ClearAll(slots[1..])
  }

  /** After clearing, every placement shows nothing, through either getter. */
  lemma ClearAllShowsNothing(slots: seq<Slot>, key: string, index: nat)
    ensures RotatingCode(ClearAll(slots), key, index) == ""
    ensures SingleCode(ClearAll(slots), key) == ""
  {
    KeyIndexOfSameKeys(slots, ClearAll(slots), key);
  }

  /** An enabled slot whose codes are all visible shows its first code, and
      rotates through all of its codes in order. */
  lemma VisibleSlotShows(slots: seq<Slot>, key: string, index: nat)
    requires Lookup(slots, key).Some? && Lookup(slots, key).value.enabled
    requires |Lookup(slots, key).value.codes| > 0
    requires forall i :: 0 <= i < |Lookup(slots, key).value.codes| ==> !AllSpace(Lookup(slots, key).value.codes[i])
    ensures SingleCode(slots, key) != ""
    ensures RotatingCode(slots, key, index) ==
              Lookup(slots, key).value.codes[index % |Lookup(slots, key).value.codes|]
  {
    var codes := Lookup(slots, key).value.codes;
    BlankIffAllSpace(codes[0]);
    ActiveCodesAll(codes);
  }

  /** After loading samples, every placement the list has shows a sample: its
      single code, and for a rotating slot its sample at position `index mod 4`. */
  lemma SampleAllShowsSamples(slots: seq<Slot>, key: string, index: nat)
    requires HasKey(slots, key)
    ensures var after := SampleAll(slots);
            && Lookup(after, key).Some?
            && Lookup(after, key).value.enabled
            && SingleCode(after, key) != ""
            && RotatingCode(after, key, index) != ""
            && (Lookup(after, key).value.kind == Rotating ==>
                  RotatingCode(after, key, index) == Lookup(after, key).value.codes[index % RotatingCodes])
  {
    var after := SampleAll(slots);
    KeyIndexOfSameKeys(slots, after, key);
    assert Lookup(after, key).value == SampleSlot(slots[KeyIndex(slots, key)]);
    VisibleSlotShows(after, key, index);
  }

  /** `loadSampleAds`: read, enable every slot with visible sample codes, save. */
  function LoadSampleAds(st: Stored<seq<Slot>>): (r: Outcome<()>)
    ensures r.stored == Value(SampleAll(GetAdSpaces(st).value))
    ensures r.broadcasts == GetAdSpaces(st).broadcasts + 1
  {
    Outcome((), Value(SampleAll(GetAdSpaces(st).value)), GetAdSpaces(st).broadcasts + 1)
  }

  /** `clearAllAds`: read, disable every slot and blank its codes, save. */
  function ClearAllAds(st: Stored<seq<Slot>>): (r: Outcome<()>)
    ensures r.stored == Value(ClearAll(GetAdSpaces(st).value))
    ensures r.broadcasts == GetAdSpaces(st).broadcasts + 1
  {
    Outcome((), Value(ClearAll(GetAdSpaces(st).value)), GetAdSpaces(st).broadcasts + 1)
  }

  /** After `loadSampleAds` both getters show a sample for every catalog placement. */
  lemma LoadedShowsSamples(st: Stored<seq<Slot>>, key: string, index: nat)
    requires IsCatalogKey(key)
    ensures SingleCode(LoadSampleAds(st).stored.v, key) != ""
    ensures RotatingCode(LoadSampleAds(st).stored.v, key, index) != ""
  {
    CatalogKeyFound(GetAdSpaces(st).value, key);
    SampleAllShowsSamples(GetAdSpaces(st).value, key, index);
  }

  /** After `clearAllAds` both getters show nothing for every key. */
  lemma ClearedShowsNothing(st: Stored<seq<Slot>>, key: string, index: nat)
    ensures SingleCode(ClearAllAds(st).stored.v, key) == ""
    ensures RotatingCode(ClearAllAds(st).stored.v, key, index) == ""
  {
    ClearAllShowsNothing(GetAdSpaces(st).value, key, index);
  }
}

=== FILE: agegate.dfy ===
/** The age gate: a confirmation stored with its time, trusted for 30 days.
    The stored document is `{ ts }`; what the check does with `ts` follows
    JavaScript's subtraction, which coerces it to a number first. */
module AgeGate {
  import opened Text
  import opened Storage

  /** `EXPIRY_DAYS` */
  const ExpiryDays: int := 30

  /** `24 * 60 * 60 * 1000` */
  const DayMs: int := 86400000

  const ExpiryMs: int := ExpiryDays * DayMs

  /** The `ts` field as read back: missing (`undefined`), `null`, a number,
      a boolean, or any other value (a string, an array, an object) together
      with what `Number()` makes of it, `None` standing for `NaN`. */
  datatype Ts = Missing | Null | Num(v: int) | Flag(b: bool) | Other(asNumber: Option<int>)

  /** The number `Date.now() - ts` subtracts, `None` for `NaN`:
      `undefined` gives `NaN`, `null` and `false` give 0, `true` gives 1. */
  function ToNumber(ts: Ts): (r: Option<int>)
    ensures ts.Num? ==> r == Some(ts.v)
    ensures ts.Missing? ==> r.None?
    ensures ts.Null? ==> r == Some(0)
  {
    match ts
    case Missing => None
    case Null => Some(0)
    case Num(v) => Some(v)
    case Flag(b) => Some(if b then 1 else 0)
    case Other(n) => n
  }

  /** `isVerified`: nothing stored (or an empty string), an unreadable
      document, or a document that is not an object means not verified;
      otherwise verified while fewer than 30 days have passed since `ts`.
      `NaN < x` is false, so a `ts` that does not coerce never verifies. */
  function IsVerified(st: Stored<Ts>, now: int): (r: bool)
    ensures !st.Value? ==> !r
    ensures st.Value? && ToNumber(st.v).None? ==> !r
    ensures st.Value? && ToNumber(st.v).Some? ==> (r <==> now - ToNumber(st.v).value < ExpiryMs)
  {
    match st
    case Absent => false
    case Corrupt => false
    case Value(ts) =>
      match ToNumber(ts)
      case None => false
      case Some(n) => now - n < ExpiryMs
  }

  /** The gate shows while the visitor is not verified. */
  function ShowsGate(st: Stored<Ts>, now: int): (r: bool)
    ensures r <==> !IsVerified(st, now)
  {
    !IsVerified(st, now)
  }

  /** `handleYes`: store the current time. */
  function HandleYes(now: int): (st: Stored<Ts>)
    ensures st.Value? && ToNumber(st.v) == Some(now)
  {
    Value(Num(now))
  }

  /** Confirming at `t` keeps the gate away until 30 days later, and brings it
      back from then on. */
  lemma ConfirmationLasts30Days(t: int, now: int)
    ensures IsVerified(HandleYes(t), now) <==> now < t + ExpiryDays * DayMs
  {
  }

  /** What a page load shows (the check runs once, when the gate mounts): the
      gate on a first visit or after unreadable storage, then, after "Yes" at
      `t`, no gate until 30 days have passed and the gate again from then on. */
  lemma GateCycle(t: int, now: int)
    ensures ShowsGate(Absent, now) && ShowsGate(Corrupt, now)
    ensures !ShowsGate(HandleYes(t), now) <==> now < t + ExpiryMs
    ensures now >= t ==> (ShowsGate(HandleYes(t), now) <==> now >= t + ExpiryMs)
  {
    ConfirmationLasts30Days(t, now);
  }

  /** A verified visitor was verified at every earlier moment: the window only closes. */
  lemma VerifiedEarlier(st: Stored<Ts>, now: int, earlier: int)
    requires earlier <= now && IsVerified(st, now)
    ensures IsVerified(st, earlier)
  {
  }

  /** A stored `null` counts as the epoch, and a missing `ts` never verifies. */
  lemma CoercionCases(now: int)
    ensures IsVerified(Value(Null), now) <==> now < ExpiryMs
    ensures !IsVerified(Value(Missing), now)
    ensures !IsVerified(Value(Other(None)), now)
  {
  }
}

=== FILE: arith.dfy ===
/** Integer facts the paging and rotation arithmetic rests on. */
module Arith {

  lemma {:induction false} MulMono(d: int, k: int)
    requires d >= 1 && k > 0
    ensures d * k >= k
  {
    if d > 1 {
      MulMono(d - 1, k);
      assert d * k == (d - 1) * k + k;
    }
  }

  /** Quotient and remainder are unique. */
  lemma DivModUnique(x: int, q: int, r: int, k: int)
    requires 0 <= r < k && x == q * k + r
    ensures x % k == r && x / k == q
  {
    var q' := x / k;
    assert x == q' * k + x % k;
    if q > q' {
      assert (q - q') * k == q * k - q' * k;
      MulMono(q - q', k);
    } else if q < q' {
      assert (q' - q) * k == q' * k - q * k;
      MulMono(q' - q, k);
    }
  }

  lemma ModBelow(a: int, k: int)
    requires 0 <= a < k
    ensures a % k == a && a / k == 0
  {
    DivModUnique(a, 0, a, k);
  }

  /** Adding the modulus does not move the remainder. */
  lemma ModShift(a: int, k: int)
    requires 0 <= a && 0 < k
    ensures (a + k) % k == a % k
  {
    var q := a / k;
    assert a == q * k + a % k;
    assert a + k == (q + 1) * k + a % k;
    DivModUnique(a + k, q + 1, a % k, k);
  }
}

=== FILE: chat.dfy ===
/** The chat page: four seeded rooms and private conversations, each kept to
    its most recent messages; per-channel read marks and the unread badges
    they drive; joining, leaving and editing the chat profile. Nothing is
    stored: the state lives in the page. The clock (`Date.now()`, which
    numbers messages) and the displayed time of day are parameters. */
module Chat {
  import opened Text
  import opened Lists

  const MaxRoomMessages: nat := 500
  const MaxPrivateMessages: nat := 50
  const MaxBio: nat := 300
  const MaxNickname: nat := 20

  datatype Gender = Male | Female | CoupleGender

  datatype ChatUser = ChatUser(nickname: string, avatar: string, bio: string, gender: Gender)

  /** `Message`; `image` is `None` for a text message. */
  datatype ChatMessage = ChatMessage(id: int, user: string, text: string, time: string, image: Option<string>)

  /** One entry of a `Record<string, Message[]>`: a room id or a partner's name, and its messages. */
  datatype Channel = Channel(key: string, msgs: seq<ChatMessage>)

  /** `record[key] || []` */
  function Get(cs: seq<Channel>, key: string): (r: seq<ChatMessage>)
    ensures (forall i :: 0 <= i < |cs| ==> cs[i].key != key) ==> r == []
  {
    if |cs| == 0 then [] else if cs[0].key == key then cs[0].msgs else Get(cs[1..], key)
  }

  /** `{ ...record, [key]: msgs }`: an existing key keeps its place, a new
      one comes last; every other key reads as before. */
  function Put(cs: seq<Channel>, key: string, msgs: seq<ChatMessage>): (r: seq<Channel>)
    ensures Get(r, key) == msgs
    ensures forall k :: k != key ==> Get(r, k) == Get(cs, k)
    ensures |r| >= |cs| && forall i :: 0 <= i < |cs| ==> r[i].key == cs[i].key
  {
    if |cs| == 0 then [Channel(key, msgs)]
    else if cs[0].key == key then [Channel(key, msgs)] + cs[1..]
    else
      var rest := Put(cs[1..], key, msgs);
      var r := [cs[0]] + rest;
      assert r[0] == cs[0] && r[1..] == rest;
      r
  }

  /** `[...msgs, m].slice(-cap)`: the new message last, only the most recent `cap` kept. */
  function AppendCapped(msgs: seq<ChatMessage>, m: ChatMessage, cap: nat): (r: seq<ChatMessage>)
    requires cap > 0
    ensures |r| == if |msgs| + 1 <= cap then |msgs| + 1 else cap
    ensures r[|r| - 1] == m
    ensures r == (msgs + [m])[|msgs| + 1 - |r|..]
  {
    var all := msgs + [m];
    if |all| <= cap then all else all[|all| - cap..]
  }

  /** The seeded rooms, in their order. */
  const RoomIds: seq<string> := ["public", "boys", "girls", "couples"]

  /** A seeded message's number, author and time; its text is copy. */
  datatype Seed = Seed(id: int, user: string, time: string)

  function SeedsOf(room: string): seq<Seed>
  {
    match room
    case "public" => [Seed(1, "Kasun", "2:30 PM"), Seed(2, "Nimali", "2:31 PM"), Seed(3, "Dilan", "2:33 PM"),
                      Seed(4, "Sachini", "2:35 PM")]
    case "boys" => [Seed(1, "Kasun", "2:30 PM"), Seed(2, "Dilan", "2:32 PM")]
    case "girls" => [Seed(1, "Nimali", "2:30 PM"), Seed(2, "Sachini", "2:31 PM")]
    case _ => [Seed(1, "RanilAndKusum", "2:30 PM")]
  }

  /** `mockRoomMessages[room]`, with `text(room, id)` the seeded message's words. */
  function SeedMessages(room: string, text: (string, int) -> string): (r: seq<ChatMessage>)
    ensures |r| == |SeedsOf(room)| && |r| > 0
    ensures forall i :: 0 <= i < |r| ==> r[i].id == i + 1
  {
    var ss := SeedsOf(room);
    seq(|ss|, i requires 0 <= i < |ss| => ChatMessage(ss[i].id, ss[i].user, text(room, ss[i].id), ss[i].time, None))
  }

  function SeedRooms(text: (string, int) -> string): (r: seq<Channel>)
    ensures |r| == 4 && forall i :: 0 <= i < 4 ==> r[i] == Channel(RoomIds[i], SeedMessages(RoomIds[i], text))
  {
    seq(4, i requires 0 <= i < 4 => Channel(RoomIds[i], SeedMessages(RoomIds[i], text)))
  }

  /** The page's state. `pm` is the partner of the open private chat, if any. */
  datatype ChatState = ChatState(user: Option<ChatUser>, room: string, pm: Option<string>, rooms: seq<Channel>,
                                 pms: seq<Channel>, readUpTo: map<string, int>)

  /** The page as it opens: nobody joined, the public room, the seeded rooms. */
  function Opened(text: (string, int) -> string): ChatState
  {
    ChatState(None, "public", None, SeedRooms(text), [], map[])
  }

  /** The key of a private chat's read mark. */
  function PmKey(name: string): string
  {
    "pm_" + name
  }

  /** The key of the open channel's read mark. */
  function ChannelKey(c: ChatState): string
  {
    if c.pm.Some? then PmKey(c.pm.value) else c.room
  }

  /** `currentMessages` */
  function Current(c: ChatState): seq<ChatMessage>
  {
    if c.pm.Some? then Get(c.pms, c.pm.value) else Get(c.rooms, c.room)
  }

  /** `readUpTo[key] || 0` */
  function LastSeen(readUpTo: map<string, int>, key: string): int
  {
    if key in readUpTo then readUpTo[key] else 0
  }

  /** A message not yet seen and written by someone else. */
  predicate Unseen(m: ChatMessage, lastSeen: int, me: string)
  {
    m.id > lastSeen && m.user != me
  }

  /** The badge of one channel: `msgs.filter((m) => m.id > lastSeen && m.user !== me).length`. */
  function UnseenBy(lastSeen: int, me: string): ChatMessage -> bool
  {
    m => Unseen(m, lastSeen, me)
  }

  function UnreadIn(msgs: seq<ChatMessage>, lastSeen: int, me: string): nat
  {
    Count(msgs, UnseenBy(lastSeen, me))
  }

  /** Some message of `msgs` is unseen. */
  predicate HasUnseen(msgs: seq<ChatMessage>, lastSeen: int, me: string)
  {
    exists i :: 0 <= i < |msgs| && Unseen(msgs[i], lastSeen, me)
  }

  /** The badge counts exactly the unseen messages, and shows exactly when
      there is one. */
  lemma UnreadIsUnseen(msgs: seq<ChatMessage>, lastSeen: int, me: string)
    ensures UnreadIn(msgs, lastSeen, me) == |Filter(msgs, UnseenBy(lastSeen, me))|
    ensures UnreadIn(msgs, lastSeen, me) > 0 <==> HasUnseen(msgs, lastSeen, me)
  {
    CountIsFilterLength(msgs, UnseenBy(lastSeen, me));
  }

  /** `getUnreadForRoom`: 0 before joining. */
  function RoomUnread(c: ChatState, room: string): (n: nat)
    ensures c.user.None? ==> n == 0
    ensures n <= |Get(c.rooms, room)|
  {
    if c.user.None? then 0 else UnreadIn(Get(c.rooms, room), LastSeen(c.readUpTo, room), c.user.value.nickname)
  }

  /** `getUnreadForPM`: 0 before joining. */
  function PmUnread(c: ChatState, name: string): (n: nat)
    ensures c.user.None? ==> n == 0
    ensures n <= |Get(c.pms, name)|
  {
    if c.user.None? then 0
    else UnreadIn(Get(c.pms, name), LastSeen(c.readUpTo, PmKey(name)), c.user.value.nickname)
  }

  /** Once someone is signed in, a room's badge shows exactly when the room
      holds a message above its mark from someone else. */
  lemma RoomBadgeShows(c: ChatState, room: string)
    requires c.user.Some?
    ensures RoomUnread(c, room) > 0 <==> HasUnseen(Get(c.rooms, room), LastSeen(c.readUpTo, room), c.user.value.nickname)
  {
    UnreadIsUnseen(Get(c.rooms, room), LastSeen(c.readUpTo, room), c.user.value.nickname);
  }

  /** The same for a private chat, against its `pm_` mark. */
  lemma PmBadgeShows(c: ChatState, name: string)
    requires c.user.Some?
    ensures PmUnread(c, name) > 0 <==> HasUnseen(Get(c.pms, name), LastSeen(c.readUpTo, PmKey(name)), c.user.value.nickname)
  {
    UnreadIsUnseen(Get(c.pms, name), LastSeen(c.readUpTo, PmKey(name)), c.user.value.nickname);
  }

  /** The sum of some badges: positive exactly when one of them is, and never
      below any of them. */
  function BadgeSum(ns: seq<nat>): (n: nat)
    ensures forall i :: 0 <= i < |ns| ==> ns[i] <= n
    ensures n == 0 <==> forall i :: 0 <= i < |ns| ==> ns[i] == 0
  {
    if |ns| == 0 then 0
    else
      var rest := BadgeSum(ns[1..]);
      assert forall i :: 1 <= i < |ns| ==> ns[i] == ns[1..][i - 1];
      ns[0] + rest
  }

  /** `rooms.map((r) => getUnreadForRoom(r.id))` */
  function RoomBadges(c: ChatState, rooms: seq<string>): (r: seq<nat>)
    ensures |r| == |rooms|
  {
    seq(|rooms|, i requires 0 <= i < |rooms| => RoomUnread(c, rooms[i]))
  }

  /** `Object.keys(privateMessages).map(getUnreadForPM)` */
  function PmBadges(c: ChatState, pms: seq<Channel>): (r: seq<nat>)
    ensures |r| == |pms|
  {
    seq(|pms|, i requires 0 <= i < |pms| => PmUnread(c, pms[i].key))
  }

  /** `totalUnread`: the seeded rooms' badges plus every private chat's. The
      header badge shows exactly when some room or conversation has a badge,
      and is at least as large as each of them. */
  function TotalUnread(c: ChatState): (n: int)
    ensures c.user.None? ==> n == 0
    ensures forall i :: 0 <= i < |RoomIds| ==> RoomUnread(c, RoomIds[i]) <= n
    ensures forall i :: 0 <= i < |c.pms| ==> PmUnread(c, c.pms[i].key) <= n
    ensures n == 0 <==> && (forall i :: 0 <= i < |RoomIds| ==> RoomUnread(c, RoomIds[i]) == 0)
                        && (forall i :: 0 <= i < |c.pms| ==> PmUnread(c, c.pms[i].key) == 0)
  {
    var rooms := RoomBadges(c, RoomIds);
    var pms := PmBadges(c, c.pms);
    assert forall i :: 0 <= i < |RoomIds| ==> rooms[i] == RoomUnread(c, RoomIds[i]);
    assert forall i :: 0 <= i < |c.pms| ==> pms[i] == PmUnread(c, c.pms[i].key);
    BadgeSum(rooms) + BadgeSum(pms)
  }

  /** Raising one badge by one raises the sum by one. */
  lemma {:induction false} BadgeSumBump(ns: seq<nat>, ms: seq<nat>, j: nat)
    requires |ms| == |ns| && j < |ns|
    requires ms[j] == ns[j] + 1
    requires forall i :: 0 <= i < |ns| && i != j ==> ms[i] == ns[i]
    ensures BadgeSum(ms) == BadgeSum(ns) + 1
  {
    if j == 0 {
      assert ms[1..] == ns[1..];
    } else {
      BadgeSumBump(ns[1..], ms[1..], j - 1);
    }
  }

  /** A message from someone else above the mark, arriving while the channel
      is under its cap, raises that channel's badge by exactly one; any other
      message leaves it as it was. */
  lemma UnseenAddsOne(msgs: seq<ChatMessage>, m: ChatMessage, cap: nat, lastSeen: int, me: string)
    requires |msgs| < cap
    ensures UnreadIn(AppendCapped(msgs, m, cap), lastSeen, me)
            == UnreadIn(msgs, lastSeen, me) + (if Unseen(m, lastSeen, me) then 1 else 0)
  {
    assert AppendCapped(msgs, m, cap) == msgs + [m];
    CountSnoc(msgs, m, UnseenBy(lastSeen, me));
  }

  /** Replacing room `j`'s messages sets that room's badge from the new list
      and leaves the other rooms' badges alone. */
  lemma PutRoomBadges(c: ChatState, msgs: seq<ChatMessage>, j: nat)
    requires c.user.Some? && j < |RoomIds|
    ensures var r := c.(rooms := Put(c.rooms, RoomIds[j], msgs));
            && RoomBadges(r, RoomIds)[j] == UnreadIn(msgs, LastSeen(c.readUpTo, RoomIds[j]), c.user.value.nickname)
            && forall i :: 0 <= i < |RoomIds| && i != j ==> RoomBadges(r, RoomIds)[i] == RoomBadges(c, RoomIds)[i]
  {
    assert forall i :: 0 <= i < |RoomIds| && i != j ==> RoomIds[i] != RoomIds[j];
  }

  /** Posting in room `j` of the seeded list raises that room's badge by the
      message's own contribution and leaves the other rooms' badges alone. */
  lemma PostRoomBadges(c: ChatState, m: ChatMessage, j: nat)
    requires c.user.Some? && c.pm.None? && j < |RoomIds| && RoomIds[j] == c.room
    requires |Get(c.rooms, c.room)| < MaxRoomMessages
    ensures var me := c.user.value.nickname;
            RoomBadges(Post(c, m), RoomIds)[j]
            == RoomBadges(c, RoomIds)[j] + (if Unseen(m, LastSeen(c.readUpTo, c.room), me) then 1 else 0)
    ensures forall i :: 0 <= i < |RoomIds| && i != j ==> RoomBadges(Post(c, m), RoomIds)[i] == RoomBadges(c, RoomIds)[i]
  {
    var after := AppendCapped(Get(c.rooms, c.room), m, MaxRoomMessages);
    assert Post(c, m) == c.(rooms := Put(c.rooms, RoomIds[j], after));
    PutRoomBadges(c, after, j);
    UnseenAddsOne(Get(c.rooms, c.room), m, MaxRoomMessages, LastSeen(c.readUpTo, c.room), c.user.value.nickname);
  }

  /** Someone else's new message in seeded room `j`, above its mark and
      under the cap, raises the header badge by exactly one. */
  lemma IncomingRaisesTotal(c: ChatState, m: ChatMessage, j: nat)
    requires c.user.Some? && c.pm.None? && j < |RoomIds| && RoomIds[j] == c.room
    requires |Get(c.rooms, c.room)| < MaxRoomMessages
    requires Unseen(m, LastSeen(c.readUpTo, c.room), c.user.value.nickname)
    ensures TotalUnread(Post(c, m)) == TotalUnread(c) + 1
  {
    var r := Post(c, m);
    var rc, rr := RoomBadges(c, RoomIds), RoomBadges(r, RoomIds);
    assert PmBadges(r, r.pms) == PmBadges(c, c.pms) by {
      PostKeepsPmBadges(c, m);
    }
    assert BadgeSum(rr) == BadgeSum(rc) + 1 by {
      PostRoomBadges(c, m, j);
      BadgeSumBump(rc, rr, j);
    }
    assert TotalUnread(r) == BadgeSum(rr) + BadgeSum(PmBadges(r, r.pms));
  }

  /** A message posted in a room leaves every private chat's badge alone. */
  lemma PostKeepsPmBadges(c: ChatState, m: ChatMessage)
    requires c.pm.None?
    ensures PmBadges(Post(c, m), Post(c, m).pms) == PmBadges(c, c.pms)
  {
    var r := Post(c, m);
    assert r.pms == c.pms && r.user == c.user && r.readUpTo == c.readUpTo;
  }

  /** The read marks `handleLogin` starts from: each seeded room's last message. */
  function SeedReadUpTo(text: (string, int) -> string): (r: map<string, int>)
    ensures forall i :: 0 <= i < 4 ==> RoomIds[i] in r && r[RoomIds[i]] == |SeedsOf(RoomIds[i])|
  {
    map room | room in RoomIds :: SeedMessages(room, text)[|SeedMessages(room, text)| - 1].id
  }

  /** `handleLogin`: refused for a blank nickname; otherwise the trimmed
      nickname joins and every seeded room is marked read. */
  function Login(c: ChatState, nickname: string, bio: string, gender: Gender, avatar: string,
                 text: (string, int) -> string): (r: ChatState)
    ensures Trim(nickname) == [] ==> r == c
    ensures Trim(nickname) != [] ==>
              && r.user == Some(ChatUser(Trim(nickname), avatar, bio, gender))
              && r.readUpTo == SeedReadUpTo(text)
              && r.(user := c.user, readUpTo := c.readUpTo) == c
  {
    if Trim(nickname) == [] then c
    else c.(user := Some(ChatUser(Trim(nickname), avatar, bio, gender)), readUpTo := SeedReadUpTo(text))
  }

  /** `Get` reads the first channel carrying the key. */
  lemma {:induction false} GetFirst(cs: seq<Channel>, key: string, i: int)
    requires 0 <= i < |cs| && cs[i].key == key
    requires forall j :: 0 <= j < i ==> cs[j].key != key
    ensures Get(cs, key) == cs[i].msgs
  {
    if i > 0 {
      GetFirst(cs[1..], key, i - 1);
    }
  }

  /** The seeded rooms read back as their seeded messages. */
  lemma SeedRoomsGet(text: (string, int) -> string, i: int)
    requires 0 <= i < 4
    ensures Get(SeedRooms(text), RoomIds[i]) == SeedMessages(RoomIds[i], text)
  {
    assert forall j, k :: 0 <= j < k < 4 ==> RoomIds[j] != RoomIds[k];
    GetFirst(SeedRooms(text), RoomIds[i], i);
  }

  /** A channel whose every message is at or below the mark has no badge. */
  lemma AllSeen(msgs: seq<ChatMessage>, lastSeen: int, me: string)
    requires forall j :: 0 <= j < |msgs| ==> msgs[j].id <= lastSeen
    ensures UnreadIn(msgs, lastSeen, me) == 0
  {
    assert forall j :: 0 <= j < |msgs| ==> !Unseen(msgs[j], lastSeen, me);
  }

  /** With the seeded rooms all marked read, no seeded room has a badge. */
  lemma SeededRoomsRead(c: ChatState, text: (string, int) -> string, i: int)
    requires c.user.Some? && c.rooms == SeedRooms(text) && c.readUpTo == SeedReadUpTo(text) && 0 <= i < 4
    ensures RoomUnread(c, RoomIds[i]) == 0
  {
    var msgs := SeedMessages(RoomIds[i], text);
    SeedRoomsGet(text, i);
    assert LastSeen(c.readUpTo, RoomIds[i]) == |msgs|;
    AllSeen(msgs, |msgs|, c.user.value.nickname);
  }

  /** Joining the page as it opened leaves no seeded room with a badge,
      whatever the nickname. */
  lemma JoinStartsClean(nickname: string, bio: string, gender: Gender, avatar: string,
                        text: (string, int) -> string, i: int)
    requires Trim(nickname) != [] && 0 <= i < 4
    ensures RoomUnread(Login(Opened(text), nickname, bio, gender, avatar, text), RoomIds[i]) == 0
  {
    SeededRoomsRead(Login(Opened(text), nickname, bio, gender, avatar, text), text, i);
  }

  /** `handleLeaveChat`: nobody joined, no private chat open. */
  function Leave(c: ChatState): (r: ChatState)
    ensures r.user.None? && r.pm.None? && TotalUnread(r) == 0
    ensures r.rooms == c.rooms && r.pms == c.pms && r.readUpTo == c.readUpTo
  {
    c.(user := None, pm := None)
  }

  /** The bio box keeps the first 300 UTF-16 units typed, in whole code points. */
  function BioInput(typed: string): (r: string)
    ensures JsLength(r) <= MaxBio && r <= typed
    ensures JsLength(typed) <= MaxBio ==> r == typed
    ensures |r| < |typed| ==> JsLength(r) + Units(typed[|r|]) > MaxBio
  {
    JsPrefixFits(typed, MaxBio);
    JsPrefix(typed, MaxBio)
  }

  /** Save Changes in the profile dialog: refused for a blank nickname, and
      before joining; otherwise the trimmed nickname and the new bio, gender
      and avatar. */
  function SaveProfile(c: ChatState, nick: string, bio: string, gender: Gender, avatar: string): (r: ChatState)
    ensures (Trim(nick) == [] || c.user.None?) ==> r == c
    ensures Trim(nick) != [] && c.user.Some? ==> r == c.(user := Some(ChatUser(Trim(nick), avatar, bio, gender)))
  {
    if Trim(nick) == [] || c.user.None? then c
    else c.(user := Some(ChatUser(Trim(nick), avatar, bio, gender)))
  }

  /** Adds `m` to the open channel, capped at 50 messages for a private chat
      and 500 for a room. */
  function Post(c: ChatState, m: ChatMessage): (r: ChatState)
    ensures Current(r) == AppendCapped(Current(c), m, if c.pm.Some? then MaxPrivateMessages else MaxRoomMessages)
    ensures |Current(r)| > 0 && Current(r)[|Current(r)| - 1] == m
  {
    if c.pm.Some? then c.(pms := Put(c.pms, c.pm.value, AppendCapped(Get(c.pms, c.pm.value), m, MaxPrivateMessages)))
    else c.(rooms := Put(c.rooms, c.room, AppendCapped(Get(c.rooms, c.room), m, MaxRoomMessages)))
  }

  /** `handleSend`: a blank message or a visitor who has not joined sends
      nothing; otherwise the raw text goes out numbered by the clock. */
  function Send(c: ChatState, text: string, now: int, time: string): (r: ChatState)
    ensures (Trim(text) == [] || c.user.None?) ==> r == c
    ensures Trim(text) != [] && c.user.Some? ==> r == Post(c, ChatMessage(now, c.user.value.nickname, text, time, None))
  {
    if Trim(text) == [] || c.user.None? then c
    else Post(c, ChatMessage(now, c.user.value.nickname, text, time, None))
  }

  /** `handleImageUpload`: with a file chosen and the visitor joined, an
      image message with no text. */
  function SendImage(c: ChatState, url: Option<string>, now: int, time: string): (r: ChatState)
    ensures (url.None? || c.user.None?) ==> r == c
    ensures url.Some? && c.user.Some? ==> r == Post(c, ChatMessage(now, c.user.value.nickname, "", time, url))
  {
    if url.None? || c.user.None? then c
    else Post(c, ChatMessage(now, c.user.value.nickname, "", time, url))
  }

  /** Posting puts the message last in the open channel, keeps at most 50
      (private) or 500 (room) of the most recent messages, and touches no
      other channel. */
  lemma PostShape(c: ChatState, m: ChatMessage)
    ensures var r := Post(c, m); var cap := if c.pm.Some? then MaxPrivateMessages else MaxRoomMessages;
            && |Current(r)| == (if |Current(c)| + 1 <= cap then |Current(c)| + 1 else cap)
            && Current(r) == (Current(c) + [m])[|Current(c)| + 1 - |Current(r)|..]
            && (c.pm.Some? ==> r.rooms == c.rooms && forall k :: k != c.pm.value ==> Get(r.pms, k) == Get(c.pms, k))
            && (c.pm.None? ==> r.pms == c.pms && forall k :: k != c.room ==> Get(r.rooms, k) == Get(c.rooms, k))
            && r.readUpTo == c.readUpTo && r.user == c.user
  {
  }

  lemma {:induction false} CountSuffix<T>(s: seq<T>, k: nat, p: T -> bool)
    requires k <= |s|
    ensures Count(s[k..], p) <= Count(s, p)
  {
    CountAppend(s[..k], s[k..], p);
    assert s[..k] + s[k..] == s;
  }

  /** A message of one's own never adds to a badge: the open channel's
      unread count does not grow (it may shrink when the cap drops old messages). */
  lemma OwnMessageAddsNoUnread(msgs: seq<ChatMessage>, m: ChatMessage, cap: nat, lastSeen: int, me: string)
    requires cap > 0 && m.user == me
    ensures UnreadIn(AppendCapped(msgs, m, cap), lastSeen, me) <= UnreadIn(msgs, lastSeen, me)
  {
    var p := UnseenBy(lastSeen, me);
    var r := AppendCapped(msgs, m, cap);
    CountSnoc(msgs, m, p);
    CountSuffix(msgs + [m], |msgs| + 1 - |r|, p);
  }

  /** The mark-read effect: with someone joined and the open channel not
      empty, its mark moves up to the channel's last message number, never down. */
  function MarkRead(c: ChatState): (r: ChatState)
    ensures forall k :: k in c.readUpTo ==> k in r.readUpTo && r.readUpTo[k] >= c.readUpTo[k]
    ensures forall k :: k != ChannelKey(c) ==> LastSeen(r.readUpTo, k) == LastSeen(c.readUpTo, k)
    ensures c.user.Some? && |Current(c)| > 0 ==>
              LastSeen(r.readUpTo, ChannelKey(c)) >= Current(c)[|Current(c)| - 1].id
    ensures r.(readUpTo := c.readUpTo) == c
  {
    var msgs := Current(c);
    var key := ChannelKey(c);
    if c.user.None? || |msgs| == 0 then c
    else
      var lastId := msgs[|msgs| - 1].id;
      if LastSeen(c.readUpTo, key) >= lastId then c else c.(readUpTo := c.readUpTo[key := lastId])
  }

  /** Numbered in sending order. */
  predicate IdsAscending(msgs: seq<ChatMessage>)
  {
    forall i, j :: 0 <= i < j < |msgs| ==> msgs[i].id <= msgs[j].id
  }

  /** Once the open channel is marked read, its badge is clear, provided its
      messages are numbered in the order they were sent. */
  lemma MarkReadClearsBadge(c: ChatState)
    requires c.user.Some? && IdsAscending(Current(c))
    ensures var r := MarkRead(c); var msgs := Current(r);
            UnreadIn(msgs, LastSeen(r.readUpTo, ChannelKey(r)), c.user.value.nickname) == 0
  {
    var r := MarkRead(c);
    var msgs := Current(c);
    assert Current(r) == msgs && ChannelKey(r) == ChannelKey(c);
    if |msgs| > 0 {
      var seen := LastSeen(r.readUpTo, ChannelKey(c));
      assert forall i :: 0 <= i < |msgs| ==> msgs[i].id <= msgs[|msgs| - 1].id <= seen;
    }
  }
}

=== FILE: datingauth.dfy ===
/** The dating section's sign-in: registration with its checks in a fixed
    order, login against the member store, logout, profile edits, and the
    session restored on mount. A session never holds a password. `now` and
    the generated member id are parameters. */
module DatingAuth {
  import opened Text
  import opened Lists
  import opened Storage
  import opened Profiles

  /** The profile store, the session key, and the provider's `datingUser`. */
  datatype World = World(users: Stored<seq<Profile>>, session: Stored<Profile>, user: Option<Profile>)

  datatype Outcome = Success | Failure(error: string)

  const InvalidLogin: string := "Invalid username or password."
  const UsernameTaken: string := "Username already taken."
  const MissingField: string := "Please fill in all required fields."
  const ShortPassword: string := "Password must be at least 6 characters."
  const TooYoung: string := "You must be at least 18 years old to register."
  const BadAge: string := "Please enter a valid age."
  const NotLoggedIn: string := "Not logged in."
  const NoProfile: string := "Profile not found."

  /** `DatingRegisterFields`. `age` is `None` for the `NaN` that `parseInt`
      gives an unreadable age; an unchosen gender or seeking is `None`. */
  datatype RegisterFields = RegisterFields(username: string, password: string, name: string, age: Option<int>,
                                           gender: Option<Gender>, seeking: Option<Gender>,
                                           country: string, district: string)

  /** `{ password: _, ...rest }` followed by the session write and `setDatingUser`. */
  function SignIn(w: World, stored: Stored<seq<Profile>>, p: Profile): World
  {
    World(stored, Value(Public(p)), Some(Public(p)))
  }

  predicate LoginMatches(p: Profile, username: string, password: string)
  {
    SameIgnoringCase(p.username, username) && p.password == Some(password)
  }

  function MatchIndex(us: seq<Profile>, username: string, password: string): int
  {
    FindIndex(us, (p: Profile) => LoginMatches(p, username, password))
  }

  /** `datingLogin`: the first member whose username equals `username`
      ignoring case and whose password equals `password`; its `lastActive`
      becomes `now` and it is signed in without its password. */
  function Login(w: World, mock: seq<Profile>, username: string, password: string, now: int): (r: (Outcome, World))
    ensures var read := Users(w.users, mock); var us := read.value; var k := MatchIndex(us, username, password);
            && (r.0 == Success <==> exists i :: 0 <= i < |us| && LoginMatches(us[i], username, password))
            && (r.0.Failure? ==> r.0.error == InvalidLogin && r.1 == w.(users := read.stored))
            && (r.0.Success? ==> 0 <= k < |us| && LoginMatches(us[k], username, password)
                                 && (forall i :: 0 <= i < k ==> !LoginMatches(us[i], username, password))
                                 && r.1.users == Value(us[k := us[k].(lastActive := now)])
                                 && r.1.user == Some(us[k].(lastActive := now, password := None))
                                 && r.1.session == Value(r.1.user.value))
  {
    var read := Users(w.users, mock);
    var us := read.value;
    var k := MatchIndex(us, username, password);
    if k == -1 then (Failure(InvalidLogin), w.(users := read.stored))
    else
      var found := us[k].(lastActive := now);
      (Success, SignIn(w, Value(us[k := found]), found))
  }

  /** A member without a password, as every fixture is, never logs in. */
  lemma PasswordlessCannotLogIn(w: World, mock: seq<Profile>, username: string, password: string, now: int)
    requires forall i :: 0 <= i < |Users(w.users, mock).value| ==> Users(w.users, mock).value[i].password.None?
    ensures Login(w, mock, username, password, now).0 == Failure(InvalidLogin)
  {
  }

  /** The first failed check of `datingRegister`, in the source's order:
      a taken username, a missing field (age 0 or unreadable counts as
      missing), a password shorter than six UTF-16 units, then an age outside
      18 … 99. */
  function RegisterError(us: seq<Profile>, f: RegisterFields): (e: Option<string>)
    ensures var taken := exists i :: 0 <= i < |us| && SameIgnoringCase(us[i].username, f.username);
            var missing := f.username == [] || f.password == [] || f.name == [] || f.age.None? || f.age == Some(0)
                           || f.gender.None? || f.seeking.None? || f.district == [];
            && (taken ==> e == Some(UsernameTaken))
            && (!taken && missing ==> e == Some(MissingField))
            && (!taken && !missing && JsLength(f.password) < 6 ==> e == Some(ShortPassword))
            && (!taken && !missing && JsLength(f.password) >= 6 && f.age.value < 18 ==> e == Some(TooYoung))
            && (!taken && !missing && JsLength(f.password) >= 6 && 18 <= f.age.value && f.age.value > 99 ==> e == Some(BadAge))
            && (e.None? <==> !taken && !missing && JsLength(f.password) >= 6 && 18 <= f.age.value <= 99)
  {
    if FindIndex(us, (p: Profile) => SameIgnoringCase(p.username, f.username)) >= 0 then Some(UsernameTaken)
    else if f.username == [] || f.password == [] || f.name == [] || f.age.None? || f.age == Some(0)
            || f.gender.None? || f.seeking.None? || f.district == [] then Some(MissingField)
    else if JsLength(f.password) < 6 then Some(ShortPassword)
    else if f.age.value < 18 then Some(TooYoung)
    else if f.age.value > 99 then Some(BadAge)
    else None
  }

  /** The member `datingRegister` creates: empty about and interests, single,
      orientation undisclosed, Sri Lanka when no country was given, and
      joined and active at `now`. */
  function NewProfile(f: RegisterFields, id: string, now: int): Profile
    requires f.age.Some? && f.gender.Some? && f.seeking.Some?
  {
    Profile(id, f.username, Some(f.password), f.name, f.age.value, f.gender.value, f.seeking.value,
            if f.country == [] then "Sri Lanka" else f.country, f.district, "", "", Single,
            OrientationUndisclosed, "", now, now)
  }

  /** `datingRegister`: on success the new member is appended and signed in
      without its password; on failure only the read's seeding is written. */
  function Register(w: World, mock: seq<Profile>, f: RegisterFields, id: string, now: int): (r: (Outcome, World))
    ensures var read := Users(w.users, mock); var us := read.value; var e := RegisterError(us, f);
            && (e.Some? ==> r == (Failure(e.value), w.(users := read.stored)))
            && (e.None? ==> && r.0 == Success && f.age.Some? && f.gender.Some? && f.seeking.Some?
                            && r.1.users == Value(us + [NewProfile(f, id, now)])
                            && r.1.user == Some(NewProfile(f, id, now).(password := None))
                            && r.1.session == Value(r.1.user.value))
  {
    var read := Users(w.users, mock);
    var us := read.value;
    var e := RegisterError(us, f);
    if e.Some? then (Failure(e.value), w.(users := read.stored))
    else
      var p := NewProfile(f, id, now);
      (Success, SignIn(w, Value(us + [p]), p))
  }

  /** Every member a registration adds is an adult of at most 99 with a
      password of at least six UTF-16 units, under a username no member had,
      ignoring case; the members before it are unchanged. */
  lemma RegisteredMemberIsValid(w: World, mock: seq<Profile>, f: RegisterFields, id: string, now: int)
    requires Register(w, mock, f, id, now).0.Success?
    ensures var us := Users(w.users, mock).value; var vs := Register(w, mock, f, id, now).1.users.v;
            && |vs| == |us| + 1 && vs[..|us|] == us
            && 18 <= vs[|us|].age <= 99
            && vs[|us|].password.Some? && JsLength(vs[|us|].password.value) >= 6
            && forall i :: 0 <= i < |us| ==> !SameIgnoringCase(us[i].username, vs[|us|].username)
  {
    var us := Users(w.users, mock).value;
    assert RegisterError(us, f).None?;
    var vs := us + [NewProfile(f, id, now)];
    assert vs[..|us|] == us;
  }

  /** The same name and password log straight back in after registering. */
  lemma RegisterThenLogin(w: World, mock: seq<Profile>, f: RegisterFields, id: string, now: int, later: int)
    requires Register(w, mock, f, id, now).0.Success?
    ensures Login(Register(w, mock, f, id, now).1, mock, f.username, f.password, later).0 == Success
  {
    var us := Users(w.users, mock).value;
    var vs := us + [NewProfile(f, id, now)];
    assert Users(Register(w, mock, f, id, now).1.users, mock).value == vs;
    assert LoginMatches(vs[|us|], f.username, f.password);
  }

  /** `datingLogout`: stamp the member's `lastActive`, then drop the session;
      the member record stays. */
  function Logout(w: World, mock: seq<Profile>, now: int): (r: World)
    ensures r.session.Absent? && r.user.None?
    ensures w.user.None? ==> r.users == w.users
    ensures w.user.Some? && r.users.Value? ==>
              && |r.users.v| == |Users(w.users, mock).value|
              && forall i :: 0 <= i < |r.users.v| ==> r.users.v[i].id == Users(w.users, mock).value[i].id
    ensures w.user.Some? ==>
              var us := Users(w.users, mock).value; var k := IndexBy(us, IdOf, w.user.value.id);
              && (k < 0 ==> r.users == Users(w.users, mock).stored)
              && (k >= 0 ==> && r.users.Value? && |r.users.v| == |us|
                             && r.users.v[k] == us[k].(lastActive := now)
                             && forall i :: 0 <= i < |us| && i != k ==> r.users.v[i] == us[i])
  {
    var users := if w.user.Some? then TouchLastActive(w.users, mock, w.user.value.id, now) else w.users;
    World(users, SaveSession(None), None)
  }

  /** After logging out, a reload restores nobody and touches no member, and
      the member who left reads as active at the moment they left. */
  lemma RestoreAfterLogout(w: World, mock: seq<Profile>, now: int, later: int)
    requires w.user.Some? && IndexBy(Users(w.users, mock).value, IdOf, w.user.value.id) >= 0
    ensures var r := Logout(w, mock, now); var back := Restore(r.users, r.session, mock, later);
            && back.user.None? && back.users == r.users
    ensures var r := Logout(w, mock, now); var k := IndexBy(Users(w.users, mock).value, IdOf, w.user.value.id);
            && r.users.Value? && r.users.v[k].lastActive == now
            && FormatLastActive(r.users.v[k].lastActive, now) == "Active 0s ago"
  {
    TouchedShowsActiveNow(w.users, mock, w.user.value.id, now);
  }

  /** `Partial<DatingProfile>`: each present field replaces the member's. */
  datatype ProfilePatch = ProfilePatch(id: Option<string>, username: Option<string>, password: Option<Option<string>>,
                                       name: Option<string>, age: Option<int>, gender: Option<Gender>,
                                       seeking: Option<Gender>, country: Option<string>, district: Option<string>,
                                       aboutMe: Option<string>, interests: Option<string>,
                                       maritalStatus: Option<MaritalStatus>, orientation: Option<Orientation>,
                                       profilePhoto: Option<string>, createdAt: Option<int>, lastActive: Option<int>)

  /** `{ ...profile, ...fields, lastActive: now }`: the patch wins over the
      profile, and `now` over the patch. */
  function Merge(p: Profile, u: ProfilePatch, now: int): (r: Profile)
    ensures r.lastActive == now
    ensures Patched(u.id, p.id, r.id) && Patched(u.username, p.username, r.username)
    ensures Patched(u.password, p.password, r.password) && Patched(u.name, p.name, r.name)
    ensures Patched(u.age, p.age, r.age) && Patched(u.gender, p.gender, r.gender)
    ensures Patched(u.seeking, p.seeking, r.seeking) && Patched(u.country, p.country, r.country)
    ensures Patched(u.district, p.district, r.district) && Patched(u.aboutMe, p.aboutMe, r.aboutMe)
    ensures Patched(u.interests, p.interests, r.interests) && Patched(u.maritalStatus, p.maritalStatus, r.maritalStatus)
    ensures Patched(u.orientation, p.orientation, r.orientation) && Patched(u.profilePhoto, p.profilePhoto, r.profilePhoto)
    ensures Patched(u.createdAt, p.createdAt, r.createdAt)
    ensures u == ProfilePatch(None, None, None, None, None, None, None, None, None, None, None, None, None, None, None, None)
            ==> r == p.(lastActive := now)
  {
    Profile(u.id.GetOr(p.id), u.username.GetOr(p.username), u.password.GetOr(p.password), u.name.GetOr(p.name),
            u.age.GetOr(p.age), u.gender.GetOr(p.gender), u.seeking.GetOr(p.seeking), u.country.GetOr(p.country),
            u.district.GetOr(p.district), u.aboutMe.GetOr(p.aboutMe), u.interests.GetOr(p.interests),
            u.maritalStatus.GetOr(p.maritalStatus), u.orientation.GetOr(p.orientation),
            u.profilePhoto.GetOr(p.profilePhoto), u.createdAt.GetOr(p.createdAt), now)
  }

  /** `updateDatingProfile`: merge into the signed-in member's record and
      re-sign in. Nothing is validated. */
  function UpdateProfile(w: World, mock: seq<Profile>, u: ProfilePatch, now: int): (r: (Outcome, World))
    ensures w.user.None? ==> r == (Failure(NotLoggedIn), w)
    ensures w.user.Some? ==>
              var read := Users(w.users, mock); var us := read.value; var k := IndexBy(us, IdOf, w.user.value.id);
              && (k < 0 ==> r == (Failure(NoProfile), w.(users := read.stored)))
              && (k >= 0 ==> && r.0 == Success
                             && r.1.users.Value? && |r.1.users.v| == |us|
                             && r.1.users.v[k] == Merge(us[k], u, now)
                             && (forall i :: 0 <= i < |us| && i != k ==> r.1.users.v[i] == us[i])
                             && r.1.user == Some(Merge(us[k], u, now).(password := None))
                             && r.1.session == Value(r.1.user.value))
  {
    if w.user.None? then (Failure(NotLoggedIn), w)
    else
      var read := Users(w.users, mock);
      var us := read.value;
      var k := IndexBy(us, IdOf, w.user.value.id);
      if k == -1 then (Failure(NoProfile), w.(users := read.stored))
      else
        var p := Merge(us[k], u, now);
        (Success, SignIn(w, Value(us[k := p]), p))
  }

  /** No sign-in path leaves a password in the session or in memory. */
  lemma SessionsHaveNoPassword(w: World, mock: seq<Profile>, username: string, password: string,
                               f: RegisterFields, id: string, u: ProfilePatch, now: int)
    ensures var l := Login(w, mock, username, password, now);
            l.0.Success? ==> l.1.user.value.password.None? && l.1.session.v.password.None?
    ensures var g := Register(w, mock, f, id, now);
            g.0.Success? ==> g.1.user.value.password.None? && g.1.session.v.password.None?
    ensures var d := UpdateProfile(w, mock, u, now);
            d.0.Success? ==> d.1.user.value.password.None? && d.1.session.v.password.None?
  {
  }

  /** The mount-time restore, from the two keys: a stored session becomes
      the user, and its member's `lastActive` is stamped. */
  function Restore(users: Stored<seq<Profile>>, session: Stored<Profile>, mock: seq<Profile>, now: int): (r: World)
    ensures r.user == GetSession(session) && r.session == session
    ensures r.user.None? ==> r.users == users
    ensures r.user.Some? ==> r.users == TouchLastActive(users, mock, r.user.value.id, now)
  {
    match GetSession(session)
    case None => World(users, session, None)
    case Some(s) => World(TouchLastActive(users, mock, s.id, now), session, Some(s))
  }

  /** After a login, a reload restores the same member, now without a password. */
  lemma RestoreAfterLogin(w: World, mock: seq<Profile>, username: string, password: string, now: int, later: int)
    requires Login(w, mock, username, password, now).0.Success?
    ensures var l := Login(w, mock, username, password, now).1;
            Restore(l.users, l.session, mock, later).user == l.user
  {
  }
}

=== FILE: datingbrowse.dfy ===
/** The dating section's member browser: the category tabs, the applied
    filters, the sort orders, the "online" dot and the page of 20 members.
    `now` is a parameter, and so is the collation `localeCompare` uses for
    the alphabetical order (a rank per name). */
module DatingBrowse {
  import opened Text
  import opened Lists
  import Paging
  import Profiles
  import DatingAuth
  import Storage

  type Profile = Profiles.Profile
  type Gender = Profiles.Gender

  const MembersPerPage: nat := 20
  const OnlineWindowMs: int := 600000
  const ShownMembersBase: int := 24000

  /** `CategoryTab` */
  datatype Category = AllMembers | Women | Men | Couples | GayMen | Lesbians

  /** The gender a tab requires, if any (`categoryFilters[tab].gender`). */
  function TabGender(c: Category): Option<Gender>
  {
    match c
    case AllMembers => None
    case Women => Some(Profiles.Woman)
    case Men => Some(Profiles.Man)
    case Couples => Some(Profiles.Couple)
    case GayMen => Some(Profiles.Man)
    case Lesbians => Some(Profiles.Woman)
  }

  /** The sought gender a tab requires, if any (`categoryFilters[tab].seeking`). */
  function TabSeeking(c: Category): Option<Gender>
  {
    match c
    case GayMen => Some(Profiles.Man)
    case Lesbians => Some(Profiles.Woman)
    case _ => None
  }

  datatype SortOption = LastActive | Newest | Alphabetical

  /** The applied filters. A select left on "any" is `None`; the age bounds
      are the raw text of their boxes. */
  datatype Filters = Filters(search: string, iAm: Option<Gender>, lookingFor: Option<Gender>,
                             district: Option<string>, ageMin: string, ageMax: string, sort: SortOption)

  const Defaults: Filters := Filters("", None, None, None, "", "", LastActive)

  /** `ageMin ? parseInt(ageMin) : 0` and the like: an empty box gives the
      default, anything else what `parseInt` reads, `None` for `NaN`. */
  function AgeBound(text: string, default: int): (r: Option<int>)
    ensures text == [] ==> r == Some(default)
    ensures text != [] ==> r == ParseInt(text)
  {
    if text == [] then Some(default) else ParseInt(text)
  }

  /** `p.age >= minAge && p.age <= maxAge`; every comparison with `NaN` is false. */
  predicate InAgeRange(age: int, f: Filters)
  {
    var lo := AgeBound(f.ageMin, 0);
    var hi := AgeBound(f.ageMax, 999);
    lo.Some? && hi.Some? && lo.value <= age <= hi.value
  }

  /** The search: applied when the trimmed query is not blank, it looks for
      the lower-cased query, untrimmed, in the name, the username or the district. */
  predicate MatchesSearch(p: Profile, search: string)
  {
    var q := ToLower(search);
    Trim(search) == [] || Search(ToLower(p.name), q) || Search(ToLower(p.username), q) || Search(ToLower(p.district), q)
  }

  /** What a tab lets through: its gender and its sought gender, if any. */
  predicate TabAllows(p: Profile, tab: Category)
  {
    && (TabGender(tab).None? || p.gender == TabGender(tab).value)
    && (TabSeeking(tab).None? || p.seeking == TabSeeking(tab).value)
  }

  /** What the applied filters let through: the three selects, the age
      range and the search. */
  predicate FiltersAllow(p: Profile, f: Filters)
  {
    && (f.iAm.None? || p.gender == f.iAm.value)
    && (f.lookingFor.None? || p.seeking == f.lookingFor.value)
    && (f.district.None? || p.district == f.district.value)
    && InAgeRange(p.age, f)
    && MatchesSearch(p, f.search)
  }

  /** Every filter of the `filteredProfiles` chain: the logged-in member
      left out, then the tab, then the applied filters. */
  predicate Keeps(p: Profile, me: Option<string>, tab: Category, f: Filters)
  {
    (me.None? || p.id != me.value) && TabAllows(p, tab) && FiltersAllow(p, f)
  }

  /** The number the sort puts in non-increasing order: the last activity,
      the creation time, or the negated collation rank of the name. */
  function SortKey(sort: SortOption, collate: string -> int, p: Profile): int
  {
    match sort
    case LastActive => p.lastActive
    case Newest => p.createdAt
    case Alphabetical => -collate(p.name)
  }

  /** `filteredProfiles`: the members the filters keep, in the chosen order. */
  function Browse(ps: seq<Profile>, me: Option<string>, tab: Category, f: Filters, collate: string -> int)
    : (r: seq<Profile>)
    ensures multiset(r) == multiset(Filter(ps, p => Keeps(p, me, tab, f)))
    ensures forall i, j :: 0 <= i < j < |r| ==> SortKey(f.sort, collate, r[i]) >= SortKey(f.sort, collate, r[j])
  {
    var kept := Filter(ps, p => Keeps(p, me, tab, f));
    var r := SortDesc(kept, p => SortKey(f.sort, collate, p));
    assert SortedDesc(r, p => SortKey(f.sort, collate, p));
    r
  }

  /** A member is listed exactly when they are in the store and the filters keep them. */
  lemma BrowseMembers(ps: seq<Profile>, me: Option<string>, tab: Category, f: Filters, collate: string -> int,
                      p: Profile)
    ensures p in Browse(ps, me, tab, f, collate) <==> p in ps && Keeps(p, me, tab, f)
  {
    var r := Browse(ps, me, tab, f, collate);
    assert p in r <==> p in multiset(r);
    assert p in Filter(ps, q => Keeps(q, me, tab, f)) <==> p in multiset(Filter(ps, q => Keeps(q, me, tab, f)));
  }

  /** The logged-in member never sees their own card. */
  lemma OwnProfileHidden(ps: seq<Profile>, me: string, tab: Category, f: Filters, collate: string -> int,
                         p: Profile)
    requires p.id == me
    ensures p !in Browse(ps, Some(me), tab, f, collate)
  {
    BrowseMembers(ps, Some(me), tab, f, collate, p);
  }

  /** The Gay tab lists exactly the members the Men tab lists who seek a man. */
  lemma GayTab(ps: seq<Profile>, me: Option<string>, f: Filters, collate: string -> int, p: Profile)
    ensures p in Browse(ps, me, GayMen, f, collate) <==>
              p in Browse(ps, me, Men, f, collate) && p.seeking == Profiles.Man
  {
    BrowseMembers(ps, me, GayMen, f, collate, p);
    BrowseMembers(ps, me, Men, f, collate, p);
    TabKeeps(p, me, f);
  }

  /** The Lesbian tab lists exactly the members the Women tab lists who seek a woman. */
  lemma LesbianTab(ps: seq<Profile>, me: Option<string>, f: Filters, collate: string -> int, p: Profile)
    ensures p in Browse(ps, me, Lesbians, f, collate) <==>
              p in Browse(ps, me, Women, f, collate) && p.seeking == Profiles.Woman
  {
    BrowseMembers(ps, me, Lesbians, f, collate, p);
    BrowseMembers(ps, me, Women, f, collate, p);
    TabKeeps(p, me, f);
  }

  /** The Women, Men and Couples tabs split the All Members tab by gender. */
  lemma GenderTabsPartition(ps: seq<Profile>, me: Option<string>, f: Filters, collate: string -> int,
                            p: Profile)
    ensures p in Browse(ps, me, AllMembers, f, collate) <==>
              || p in Browse(ps, me, Women, f, collate)
              || p in Browse(ps, me, Men, f, collate)
              || p in Browse(ps, me, Couples, f, collate)
  {
    BrowseMembers(ps, me, AllMembers, f, collate, p);
    BrowseMembers(ps, me, Women, f, collate, p);
    BrowseMembers(ps, me, Men, f, collate, p);
    BrowseMembers(ps, me, Couples, f, collate, p);
    TabKeeps(p, me, f);
  }

  /** How the tabs' conditions relate, for one member. */
  lemma TabKeeps(p: Profile, me: Option<string>, f: Filters)
    ensures Keeps(p, me, GayMen, f) <==> Keeps(p, me, Men, f) && p.seeking == Profiles.Man
    ensures Keeps(p, me, Lesbians, f) <==> Keeps(p, me, Women, f) && p.seeking == Profiles.Woman
    ensures Keeps(p, me, AllMembers, f) <==> Keeps(p, me, Women, f) || Keeps(p, me, Men, f) || Keeps(p, me, Couples, f)
  {
    assert TabAllows(p, GayMen) <==> TabAllows(p, Men) && p.seeking == Profiles.Man;
    assert TabAllows(p, Lesbians) <==> TabAllows(p, Women) && p.seeking == Profiles.Woman;
    assert TabAllows(p, AllMembers) <==> TabAllows(p, Women) || TabAllows(p, Men) || TabAllows(p, Couples);
  }

  /** Age boxes that `parseInt` cannot read hide every member. */
  lemma UnreadableAgeHidesAll(ps: seq<Profile>, me: Option<string>, tab: Category, f: Filters,
                              collate: string -> int)
    requires f.ageMin != [] && ParseInt(f.ageMin).None?
    ensures Browse(ps, me, tab, f, collate) == []
  {
  }

  /** `activeFilterCount`: how many of the seven filters differ from their reset value. */
  function ActiveFilterCount(f: Filters): (n: nat)
    ensures n <= 7
    ensures n == 0 <==> f.(search := "") == Defaults && Trim(f.search) == []
  {
    (if f.iAm.Some? then 1 else 0) + (if f.lookingFor.Some? then 1 else 0)
    + (if f.district.Some? then 1 else 0) + (if f.ageMin != "" then 1 else 0)
    + (if f.ageMax != "" then 1 else 0) + (if Trim(f.search) != "" then 1 else 0)
    + (if f.sort != LastActive then 1 else 0)
  }

  /** With no active filter, the tab lists every other member of its
      category whose age lies in 0 … 999. */
  lemma NoActiveFilterListsCategory(ps: seq<Profile>, me: Option<string>, tab: Category, f: Filters,
                                    collate: string -> int, p: Profile)
    requires ActiveFilterCount(f) == 0
    requires p in ps && 0 <= p.age <= 999 && (me.None? || p.id != me.value) && TabAllows(p, tab)
    ensures p in Browse(ps, me, tab, f, collate)
  {
    assert f.ageMin == [] && f.ageMax == [] && f.iAm.None? && f.lookingFor.None? && f.district.None?;
    assert InAgeRange(p.age, f);
    assert MatchesSearch(p, f.search);
    assert Keeps(p, me, tab, f);
    BrowseMembers(ps, me, tab, f, collate, p);
  }

  /** The page's state: the filters being edited, the applied filters, the tab and the page. */
  datatype Browser = Browser(pending: Filters, applied: Filters, tab: Category, page: int)

  const Initial: Browser := Browser(Defaults, Defaults, AllMembers, 1)

  /** `handleSearch`: the edited filters become the applied ones, back to page 1. */
  function ApplySearch(b: Browser): (r: Browser)
    ensures r.applied == b.pending && r.pending == b.pending && r.tab == b.tab && r.page == 1
  {
    b.(applied := b.pending, page := 1)
  }

  /** `handleResetFilters`: both sets of filters back to their defaults, page 1. */
  function ResetFilters(b: Browser): (r: Browser)
    ensures ActiveFilterCount(r.applied) == 0 && r.pending == r.applied
    ensures r.tab == b.tab && r.page == 1
  {
    b.(pending := Defaults, applied := Defaults, page := 1)
  }

  /** `handleCategoryChange`: the new tab, page 1, and "any" for both
      gender selects, edited and applied; the other filters stay. */
  function ChangeCategory(b: Browser, tab: Category): (r: Browser)
    ensures r.tab == tab && r.page == 1
    ensures r.applied.iAm.None? && r.applied.lookingFor.None?
    ensures r.applied.(iAm := b.applied.iAm, lookingFor := b.applied.lookingFor) == b.applied
    ensures r.pending.(iAm := b.pending.iAm, lookingFor := b.pending.lookingFor) == b.pending
  {
    Browser(b.pending.(iAm := None, lookingFor := None), b.applied.(iAm := None, lookingFor := None), tab, 1)
  }

  /** After a tab change the gender selects add nothing to the tab: the
      active count drops by the selects that were set. */
  lemma ChangeCategoryClearsSelects(b: Browser, tab: Category)
    ensures ActiveFilterCount(ChangeCategory(b, tab).applied)
            == ActiveFilterCount(b.applied) - (if b.applied.iAm.Some? then 1 else 0)
                                           - (if b.applied.lookingFor.Some? then 1 else 0)
  {
  }

  /** `isRecentlyActive`, read at `now`: active less than ten minutes ago. */
  predicate IsRecentlyActive(lastActive: int, now: int)
  {
    now - lastActive < OnlineWindowMs
  }

  /** A member stamped by `updateUserLastActive` at `now` shows the online dot
      at every later reading until ten minutes have passed, and not after. */
  lemma TouchedIsOnline(st: Storage.Stored<seq<Profile>>, mock: seq<Profile>, userId: string, now: int, later: int)
    requires IndexBy(Profiles.Users(st, mock).value, Profiles.IdOf, userId) >= 0
    requires now <= later
    ensures var k := IndexBy(Profiles.Users(st, mock).value, Profiles.IdOf, userId);
            IsRecentlyActive(Profiles.TouchLastActive(st, mock, userId, now).v[k].lastActive, later)
            <==> later < now + OnlineWindowMs
  {
  }

  /** `totalMembersCount`: the member count shown, never below 24000 and
      growing by one per stored member. */
  function ShownMemberCount(ps: seq<Profile>): (n: int)
    ensures n >= ShownMembersBase && n - |ps| == ShownMembersBase
  {
    ShownMembersBase + |ps|
  }

  /** A successful sign-up raises the member count the page shows by exactly
      one; a refused one leaves it as it was. */
  lemma RegisterAddsShownMember(w: DatingAuth.World, mock: seq<Profile>, f: DatingAuth.RegisterFields,
                                id: string, now: int)
    ensures var r := DatingAuth.Register(w, mock, f, id, now);
            var before := ShownMemberCount(Profiles.PublicProfiles(w.users, mock));
            var after := ShownMemberCount(Profiles.PublicProfiles(r.1.users, mock));
            && (r.0.Success? ==> after == before + 1)
            && (r.0.Failure? ==> after == before)
  {
  }

  /** The members page `page` shows. */
  function MembersPage(ps: seq<Profile>, me: Option<string>, b: Browser, collate: string -> int): seq<Profile>
  {
    Paging.PageOf(Browse(ps, me, b.tab, b.applied, collate), b.page, MembersPerPage)
  }

  /** Every member on a page is one the filters keep. */
  lemma MembersPageShowsKept(ps: seq<Profile>, me: Option<string>, b: Browser, collate: string -> int,
                             p: Profile)
    requires p in MembersPage(ps, me, b, collate)
    ensures p in ps && Keeps(p, me, b.tab, b.applied)
  {
    BrowseMembers(ps, me, b.tab, b.applied, collate, p);
  }

  /** The pages together show the whole sorted list, in order. */
  lemma MembersPagesCover(ps: seq<Profile>, me: Option<string>, b: Browser, collate: string -> int)
    ensures var r := Browse(ps, me, b.tab, b.applied, collate);
            Paging.Pages(r, MembersPerPage, Paging.TotalPages(|r|, MembersPerPage)) == r
  {
    Paging.PagesCoverList(Browse(ps, me, b.tab, b.applied, collate), MembersPerPage);
  }
}

=== FILE: listings.dfy ===
/** The ad list page and the home page's latest-ads list: the category tab
    chosen by the `?cat=` code, the filter both pages apply to the unified
    ad list, and the pages they cut it into. */
module Listings {
  import opened Text
  import opened Lists
  import MockAds
  import Paging
  import UnifiedAds

  type Ad = UnifiedAds.Ad

  const AdsPerPage: nat := 16
  const HomeAdsPerPage: nat := 20

  /** `catParamToTab`: the eight URL codes and the tab each names. */
  function CodeTab(code: string): Option<string>
  {
    match code
    case "male" => Some("Male Personals")
    case "female" => Some("Female Personals")
    case "massage" => Some("Massage")
    case "livecam" => Some("Live Cam")
    case "toys" => Some("Toys")
    case "jobs" => Some("Jobs")
    case "hotels" => Some("Hotel/Rooms")
    case "other" => Some("Other")
    case _ => None
  }

  /** The names every plain object inherits from `Object.prototype`; reading
      any of them from `catParamToTab` yields a function or an object, never
      `undefined`. */
  const Inherited: set<string> :=
    {"constructor", "hasOwnProperty", "isPrototypeOf", "propertyIsEnumerable", "toLocaleString",
     "toString", "valueOf", "__proto__", "__defineGetter__", "__defineSetter__", "__lookupGetter__",
     "__lookupSetter__"}

  /** The active tab: a tab name, or the non-string value an inherited name reads. */
  datatype Tab = Named(name: string) | NotAString

  /** `searchParams.get("cat") || ""` */
  function CatParam(param: Option<string>): string
  {
    if param.Some? then param.value else ""
  }

  /** The tab as the page computes it, `catParamToTab[catParam] || "All"`:
      an inherited name is truthy and becomes the tab. */
  function InitialTabAsWritten(param: Option<string>): (r: Tab)
    ensures CodeTab(CatParam(param)).Some? ==> r == Named(CodeTab(CatParam(param)).value)
    ensures CatParam(param) in Inherited ==> r == NotAString
    ensures CodeTab(CatParam(param)).None? && CatParam(param) !in Inherited ==> r == Named("All")
  {
    var code := CatParam(param);
    match CodeTab(code)
    case Some(t) => Named(t)
    case None => if code in Inherited then NotAString else Named("All")
  }

  /** The tab the page means: one of the eight codes picks its category;
      anything else, missing or unknown, picks "All". Either way the page
      opens on one of its category tabs. */
  function InitialTab(param: Option<string>): (r: Tab)
    ensures r.Named? && r.name in MockAds.CategoryTabs
    ensures CodeTab(CatParam(param)).None? <==> r == Named("All")
  {
    var code := CatParam(param);
    match CodeTab(code)
    case Some(t) => Named(t)
    case None => Named("All")
  }

  /** Distinct codes name distinct tabs, so the code can be read back from the tab. */
  lemma CodesDistinct(a: string, b: string)
    requires CodeTab(a).Some? && CodeTab(a) == CodeTab(b)
    ensures a == b
  {
  }

  /** The home page's category links: the code each link carries and the
      label it shows. */
  const HomeCategories: seq<(string, string)> :=
    [("male", "Male Personals"), ("female", "Female Personals"), ("massage", "Massage"), ("livecam", "Live Cam"),
     ("toys", "Toys"), ("jobs", "Jobs"), ("hotels", "Hotel/Rooms"), ("other", "Other")]

  /** Each home page category link opens the ad list on the tab its label names. */
  lemma HomeLinksOpenTheirTab(i: int)
    requires 0 <= i < |HomeCategories|
    ensures InitialTab(Some(HomeCategories[i].0)) == Named(HomeCategories[i].1)
    ensures InitialTabAsWritten(Some(HomeCategories[i].0)) == Named(HomeCategories[i].1)
  {
  }

  /** The filters applied on Search: the search text, the district and the city. */
  datatype Query = Query(tab: Tab, search: string, district: string, city: string)

  /** `includes` after lower-casing both sides. */
  predicate Mentions(text: string, search: string)
  {
    Search(ToLower(text), ToLower(search))
  }

  /** The ad list's filter: the tab ("All" or the ad's category), then a
      non-empty search found in the title or the description ignoring case,
      then the district and the city unless "all". */
  predicate Passes(ad: Ad, q: Query)
  {
    && !(q.tab != Named("All") && Named(ad.category) != q.tab)
    && !(q.search != "" && !Mentions(ad.title, q.search) && !Mentions(ad.description, q.search))
    && !(q.district != "all" && ad.district != q.district)
    && !(q.city != "all" && ad.city != q.city)
  }

  /** `allAds.filter(…)` on the ad list page: exactly the passing ads, in
      list order. */
  function Filtered(ads: seq<Ad>, q: Query): (r: seq<Ad>)
    ensures forall a :: a in r <==> a in ads && Passes(a, q)
    ensures Subseq(r, ads)
    ensures KeepsExactly(r, ads, a => Passes(a, q))
  {
    FilterKeepsExactly(ads, a => Passes(a, q));
    Filter(ads, a => Passes(a, q))
  }

  /** What the filter means, condition by condition. */
  lemma PassesMeans(ad: Ad, q: Query)
    requires q.tab.Named?
    ensures Passes(ad, q) <==>
              && (q.tab.name == "All" || ad.category == q.tab.name)
              && (q.search == [] || Contains(ToLower(ad.title), ToLower(q.search))
                                 || Contains(ToLower(ad.description), ToLower(q.search)))
              && (q.district == "all" || ad.district == q.district)
              && (q.city == "all" || ad.city == q.city)
  {
  }

  /** An ad list opened with an inherited name as its code shows no ads at all. */
  lemma InheritedCodeHidesEverything(ads: seq<Ad>, search: string, district: string, city: string)
    ensures InitialTabAsWritten(Some("constructor")) == NotAString
    ensures Filtered(ads, Query(InitialTabAsWritten(Some("constructor")), search, district, city)) == []
  {
    assert CodeTab("constructor").None?;
  }

  /** With the corrected lookup, the tab always names a category or "All",
      so an ad of the chosen category with no other filter set is listed. */
  lemma CorrectedTabListsItsCategory(ads: seq<Ad>, param: Option<string>, i: int)
    requires 0 <= i < |ads|
    requires InitialTab(param).name == "All" || ads[i].category == InitialTab(param).name
    ensures ads[i] in Filtered(ads, Query(InitialTab(param), "", "all", "all"))
  {
  }

  /** The home page's filter: the same conditions without the tab. */
  predicate HomePasses(ad: Ad, search: string, district: string, city: string)
  {
    && !(search != "" && !Mentions(ad.title, search) && !Mentions(ad.description, search))
    && !(district != "all" && ad.district != district)
    && !(city != "all" && ad.city != city)
  }

  function HomeFiltered(ads: seq<Ad>, search: string, district: string, city: string): seq<Ad>
  {
    Filter(ads, a => HomePasses(a, search, district, city))
  }

  /** The home list is the ad list on the "All" tab. */
  lemma HomeIsAllTab(ads: seq<Ad>, search: string, district: string, city: string)
    ensures HomeFiltered(ads, search, district, city) == Filtered(ads, Query(Named("All"), search, district, city))
  {
    var q := Query(Named("All"), search, district, city);
    FilterExt(ads, a => HomePasses(a, search, district, city), a => Passes(a, q));
  }

  /** The ads page `page` of the home page's list shows. */
  function HomePage(ads: seq<Ad>, search: string, district: string, city: string, page: int): seq<Ad>
  {
    Paging.PageOf(HomeFiltered(ads, search, district, city), page, HomeAdsPerPage)
  }

  /** The ads page `page` of the ad list shows. */
  function AdsPage(ads: seq<Ad>, q: Query, page: int): seq<Ad>
  {
    Paging.PageOf(Filtered(ads, q), page, AdsPerPage)
  }

  /** The pages together list every passing ad once, in list order. */
  lemma AdsPagesCover(ads: seq<Ad>, q: Query)
    ensures var f := Filtered(ads, q);
            Paging.Pages(f, AdsPerPage, Paging.TotalPages(|f|, AdsPerPage)) == f
  {
    Paging.PagesCoverList(Filtered(ads, q), AdsPerPage);
  }

  /** Every ad on a page is a listed ad that passes the filter. */
  lemma AdsOnPagePass(ads: seq<Ad>, q: Query, page: int, a: Ad)
    requires a in AdsPage(ads, q, page)
    ensures a in ads && Passes(a, q)
  {
  }
}

=== FILE: lists.dfy ===
/** The array idioms every store is written with — `filter`, `findIndex`,
    `find`, replace-at-first-match, `reduce` to a sum — and the stable
    comparison sort `Array.prototype.sort` performs with a numeric comparator. */
module Lists {

  /** `xs.filter(p)` */
  function Filter<T(!new)>(s: seq<T>, p: T -> bool): (r: seq<T>)
    ensures |r| <= |s|
    ensures forall i :: 0 <= i < |r| ==> p(r[i])
    ensures forall x :: x in r <==> x in s && p(x)
    ensures forall x :: multiset(r)[x] == if p(x) then multiset(s)[x] else 0
  {
    if |s| == 0 then []
    else
      var rest := Filter(s[1..], p);
      assert s == [s[0]] + s[1..];
      if p(s[0]) then [s[0]] + rest else rest
  }

  /** Filtering keeps relative order: it distributes over concatenation. */
  lemma {:induction false} FilterAppend<T(!new)>(a: seq<T>, b: seq<T>, p: T -> bool)
    ensures Filter(a + b, p) == Filter(a, p) + Filter(b, p)
  {
    if |a| == 0 {
      assert a + b == b;
    } else {
      assert (a + b)[1..] == a[1..] + b;
      FilterAppend(a[1..], b, p);
    }
  }

  /** Filtering depends only on which elements pass. */
  lemma {:induction false} FilterExt<T(!new)>(s: seq<T>, p: T -> bool, q: T -> bool)
    requires forall i :: 0 <= i < |s| ==> p(s[i]) == q(s[i])
    ensures Filter(s, p) == Filter(s, q)
  {
    if |s| > 0 {
      FilterExt(s[1..], p, q);
    }
  }

  /** Two filters in a row keep what passes both. */
  lemma {:induction false} FilterTwice<T(!new)>(s: seq<T>, p: T -> bool, q: T -> bool, both: T -> bool)
    requires forall i :: 0 <= i < |s| ==> both(s[i]) == (p(s[i]) && q(s[i]))
    ensures Filter(Filter(s, p), q) == Filter(s, both)
  {
    if |s| > 0 {
      FilterTwice(s[1..], p, q, both);
      if p(s[0]) {
        assert Filter(s, p) == [s[0]] + Filter(s[1..], p);
        assert ([s[0]] + Filter(s[1..], p))[1..] == Filter(s[1..], p);
      }
    }
  }

  /** A filter that no element passes leaves nothing. */
  lemma {:induction false} FilterNone<T(!new)>(s: seq<T>, p: T -> bool)
    requires forall i :: 0 <= i < |s| ==> !p(s[i])
    ensures Filter(s, p) == []
  {
    if |s| > 0 {
      FilterNone(s[1..], p);
    }
  }

  /** A filter that every element passes changes nothing. */
  lemma {:induction false} FilterAll<T(!new)>(s: seq<T>, p: T -> bool)
    requires forall i :: 0 <= i < |s| ==> p(s[i])
    ensures Filter(s, p) == s
  {
    if |s| > 0 {
      FilterAll(s[1..], p);
    }
  }

  /** `xs.filter(p).length` */
  function Count<T>(s: seq<T>, p: T -> bool): (n: nat)
    ensures n <= |s|
    ensures n == 0 <==> forall i :: 0 <= i < |s| ==> !p(s[i])
    ensures n == |s| <==> forall i :: 0 <= i < |s| ==> p(s[i])
  {
    if |s| == 0 then 0
    else
      var m := Count(s[1..], p);
      assert forall i :: 1 <= i < |s| ==> s[i] == s[1..][i - 1];
      (if p(s[0]) then 1 else 0) + m
  }

  lemma {:induction false} CountIsFilterLength<T(!new)>(s: seq<T>, p: T -> bool)
    ensures Count(s, p) == |Filter(s, p)|
  {
    if |s| > 0 {
      CountIsFilterLength(s[1..], p);
    }
  }

  lemma {:induction false} CountAppend<T>(a: seq<T>, b: seq<T>, p: T -> bool)
    ensures Count(a + b, p) == Count(a, p) + Count(b, p)
  {
    if |a| == 0 {
      assert a + b == b;
    } else {
      assert (a + b)[1..] == a[1..] + b;
      CountAppend(a[1..], b, p);
    }
  }

  /** One more element adds one to the count when it passes. */
  lemma CountSnoc<T>(s: seq<T>, x: T, p: T -> bool)
    ensures Count(s + [x], p) == Count(s, p) + (if p(x) then 1 else 0)
  {
    CountAppend(s, [x], p);
    assert [x][1..] == [];
  }

  /** Counting depends only on which elements pass. */
  lemma {:induction false} CountExt<T>(s: seq<T>, p: T -> bool, q: T -> bool)
    requires forall i :: 0 <= i < |s| ==> p(s[i]) == q(s[i])
    ensures Count(s, p) == Count(s, q)
  {
    if |s| > 0 {
      CountExt(s[1..], p, q);
    }
  }

  /** Counting within a filtered list is counting both conditions at once. */
  lemma {:induction false} CountFilter<T(!new)>(s: seq<T>, p: T -> bool, q: T -> bool, both: T -> bool)
    requires forall i :: 0 <= i < |s| ==> both(s[i]) == (p(s[i]) && q(s[i]))
    ensures Count(Filter(s, p), q) == Count(s, both)
  {
    if |s| > 0 {
      CountFilter(s[1..], p, q, both);
      var rest := Filter(s[1..], p);
      if p(s[0]) {
        assert Filter(s, p) == [s[0]] + rest;
        assert ([s[0]] + rest)[1..] == rest;
      }
    }
  }

  /** Filtering first by a condition every counted element meets changes no count. */
  lemma {:induction false} CountFilterImplied<T(!new)>(s: seq<T>, p: T -> bool, q: T -> bool)
    requires forall i :: 0 <= i < |s| ==> q(s[i]) ==> p(s[i])
    ensures Count(Filter(s, p), q) == Count(s, q)
  {
    CountFilter(s, p, q, q);
  }

  /** No value occurs twice. */
  predicate Distinct<K(==)>(ks: seq<K>)
  {
    forall i, j :: 0 <= i < j < |ks| ==> ks[i] != ks[j]
  }

  lemma {:induction false} DistinctOnce<K>(ks: seq<K>, k: K)
    requires Distinct(ks) && k in ks
    ensures multiset(ks)[k] == 1
  {
    assert ks == [ks[0]] + ks[1..];
    if ks[0] == k {
      assert k !in ks[1..];
    } else {
      DistinctOnce(ks[1..], k);
    }
  }

  /** The number of elements with key `k` that satisfy `q`. */
  function CountKey<T, K(==)>(s: seq<T>, key: T -> K, k: K, q: T -> bool): nat
  {
    if |s| == 0 then 0 else (if key(s[0]) == k && q(s[0]) then 1 else 0) + CountKey(s[1..], key, k, q)
  }

  /** Counting by key is counting with any predicate that means the same. */
  lemma {:induction false} CountKeyIsCount<T, K>(s: seq<T>, key: T -> K, k: K, q: T -> bool, c: T -> bool)
    requires forall i :: 0 <= i < |s| ==> c(s[i]) == (key(s[i]) == k && q(s[i]))
    ensures CountKey(s, key, k, q) == Count(s, c)
  {
    if |s| > 0 {
      CountKeyIsCount(s[1..], key, k, q, c);
    }
  }

  /** Σ over the keys `k` of `ks` of the number of elements with key `k` that satisfy `q`. */
  function CountPerKey<T, K(==)>(ks: seq<K>, s: seq<T>, key: T -> K, q: T -> bool): nat
  {
    if |ks| == 0 then 0 else CountKey(s, key, ks[0], q) + CountPerKey(ks[1..], s, key, q)
  }

  lemma {:induction false} CountPerKeyEmpty<T, K>(ks: seq<K>, key: T -> K, q: T -> bool)
    ensures CountPerKey(ks, [], key, q) == 0
  {
    if |ks| > 0 {
      CountPerKeyEmpty(ks[1..], key, q);
    }
  }

  /** One more element counts once for every occurrence of its key among the keys. */
  lemma {:induction false} CountPerKeyCons<T, K>(ks: seq<K>, x: T, t: seq<T>, key: T -> K, q: T -> bool)
    ensures CountPerKey(ks, [x] + t, key, q) == CountPerKey(ks, t, key, q) + if q(x) then multiset(ks)[key(x)] else 0
  {
    if |ks| > 0 {
      CountPerKeyCons(ks[1..], x, t, key, q);
      assert ([x] + t)[1..] == t;
      assert ks == [ks[0]] + ks[1..];
    }
  }

  /** A list holding one count per key sums to the per-key count. */
  lemma {:induction false} SumPerKey<S, T, K>(r: seq<S>, f: S -> int, ks: seq<K>, s: seq<T>, key: T -> K, q: T -> bool)
    requires |r| == |ks|
    requires forall i :: 0 <= i < |r| ==> f(r[i]) == CountKey(s, key, ks[i], q)
    ensures Sum(r, f) == CountPerKey(ks, s, key, q)
  {
    if |r| > 0 {
      SumPerKey(r[1..], f, ks[1..], s, key, q);
    }
  }

  /** When every element's key occurs exactly once among the keys, counting key
      by key counts every element once. */
  lemma {:induction false} CountPerKeyTotal<T, K>(ks: seq<K>, s: seq<T>, key: T -> K, q: T -> bool)
    requires forall i :: 0 <= i < |s| ==> multiset(ks)[key(s[i])] == 1
    ensures CountPerKey(ks, s, key, q) == Count(s, q)
  {
    if |s| == 0 {
      CountPerKeyEmpty(ks, key, q);
    } else {
      CountPerKeyTotal(ks, s[1..], key, q);
      CountPerKeyCons(ks, s[0], s[1..], key, q);
      assert [s[0]] + s[1..] == s;
    }
  }

  /** `xs.findIndex(p)`: the first matching position, or -1. */
  function FindIndex<T>(s: seq<T>, p: T -> bool): (r: int)
    ensures -1 <= r < |s|
    ensures r == -1 <==> forall i :: 0 <= i < |s| ==> !p(s[i])
    ensures r >= 0 ==> p(s[r]) && forall i :: 0 <= i < r ==> !p(s[i])
  {
    if |s| == 0 then -1
    else if p(s[0]) then 0
    else
      var k := FindIndex(s[1..], p);
      assert forall i :: 1 <= i < |s| ==> s[i] == s[1..][i - 1];
      if k == -1 then -1 else k + 1
  }

  /** `xs[idx] = f(xs[idx])` at the first match, the read-modify-write every
      `update` operation performs; the sequence is unchanged when nothing matches. */
  function UpdateFirst<T>(s: seq<T>, p: T -> bool, f: T -> T): (r: seq<T>)
    ensures |r| == |s|
    ensures FindIndex(s, p) == -1 ==> r == s
    ensures FindIndex(s, p) >= 0 ==>
              r[FindIndex(s, p)] == f(s[FindIndex(s, p)])
              && forall i :: 0 <= i < |s| && i != FindIndex(s, p) ==> r[i] == s[i]
  {
    var k := FindIndex(s, p);
    if k == -1 then s else s[k := f(s[k])]
  }

  /** `xs.findIndex((x) => f(x) === k)`: the first position whose projection is `k`, or -1. */
  function IndexBy<T, K(==)>(s: seq<T>, f: T -> K, k: K): (r: int)
    ensures -1 <= r < |s|
    ensures r == -1 <==> forall i :: 0 <= i < |s| ==> f(s[i]) != k
    ensures r >= 0 ==> f(s[r]) == k && forall i :: 0 <= i < r ==> f(s[i]) != k
  {
    if |s| == 0 then -1
    else if f(s[0]) == k then 0
    else
      var r := IndexBy(s[1..], f, k);
      assert forall i :: 1 <= i < |s| ==> s[i] == s[1..][i - 1];
      if r == -1 then -1 else r + 1
  }

  /** `a` is `b` with some elements left out, the rest in their order. */
  predicate Subseq<T(==)>(a: seq<T>, b: seq<T>)
    decreases |b|
  {
    if |a| == 0 then true
    else if |b| == 0 then false
    else if a[0] == b[0] && Subseq(a[1..], b[1..]) then true
    else Subseq(a, b[1..])
  }

  /** Filtering keeps the order of what it keeps. */
  lemma {:induction false} FilterSubseq<T(!new)>(s: seq<T>, p: T -> bool)
    ensures Subseq(Filter(s, p), s)
  {
    if |s| > 0 {
      FilterSubseq(s[1..], p);
      var rest := Filter(s[1..], p);
      if p(s[0]) {
        assert Filter(s, p) == [s[0]] + rest;
        assert ([s[0]] + rest)[1..] == rest;
      }
    }
  }

  /** `r` is exactly the elements of `s` satisfying `p`, in their order:
      an order-keeping selection from `s`, all satisfying `p`, as many as `s` has. */
  predicate KeepsExactly<T(==)>(r: seq<T>, s: seq<T>, p: T -> bool)
  {
    Subseq(r, s) && (forall i :: 0 <= i < |r| ==> p(r[i])) && |r| == Count(s, p)
  }

  lemma FilterKeepsExactly<T(!new)>(s: seq<T>, p: T -> bool)
    ensures KeepsExactly(Filter(s, p), s, p)
  {
    FilterSubseq(s, p);
    CountIsFilterLength(s, p);
  }

  /** `xs.reduce((acc, x) => acc + f(x), 0)` */
  function Sum<T>(s: seq<T>, f: T -> int): int
  {
    if |s| == 0 then 0 else f(s[0]) + Sum(s[1..], f)
  }

  lemma {:induction false} SumAppend<T>(a: seq<T>, b: seq<T>, f: T -> int)
    ensures Sum(a + b, f) == Sum(a, f) + Sum(b, f)
  {
    if |a| == 0 {
      assert a + b == b;
    } else {
      assert (a + b)[1..] == a[1..] + b;
      SumAppend(a[1..], b, f);
    }
  }

  // ---------------------------------------------------------------- sorting

  /** Non-increasing by `key`. */
  predicate SortedDesc<T>(s: seq<T>, key: T -> int)
  {
    forall i, j :: 0 <= i < j < |s| ==> key(s[i]) >= key(s[j])
  }

  /** Where a stable descending insertion puts `x`: before the first element
      whose key is not larger than `x`'s. */
  function InsertPos<T>(x: T, s: seq<T>, key: T -> int): (k: nat)
    ensures k <= |s|
    ensures forall i :: 0 <= i < k ==> key(s[i]) > key(x)
    ensures k < |s| ==> key(s[k]) <= key(x)
  {
    if |s| == 0 || key(s[0]) <= key(x) then 0
    else
      var k := InsertPos(x, s[1..], key);
      assert forall i :: 1 <= i < |s| ==> s[i] == s[1..][i - 1];
      k + 1
  }

  /** Puts `x` ahead of the first element whose key is not larger, so `x`
      goes first among the elements whose key equals its own. `SortDesc`
      inserts the input's elements last to first, so the earliest of equals
      is inserted last and ends up first: the sort is stable. */
  function InsertDesc<T(==)>(x: T, s: seq<T>, key: T -> int): (r: seq<T>)
    requires SortedDesc(s, key)
    ensures SortedDesc(r, key)
    ensures multiset(r) == multiset(s) + multiset{x}
    ensures exists k :: 0 <= k <= |s| && r == s[..k] + [x] + s[k..]
  {
    var k := InsertPos(x, s, key);
    InsertKeepsSorted(x, s, key, k);
    assert s == s[..k] + s[k..];
    s[..k] + [x] + s[k..]
  }

  /** Inserting at a place where everything before has a larger key and the
      next one a key no larger keeps the order. */
  lemma InsertKeepsSorted<T>(x: T, s: seq<T>, key: T -> int, k: nat)
    requires SortedDesc(s, key) && k <= |s|
    requires forall i :: 0 <= i < k ==> key(s[i]) > key(x)
    requires k < |s| ==> key(s[k]) <= key(x)
    ensures SortedDesc(s[..k] + [x] + s[k..], key)
  {
    var r := s[..k] + [x] + s[k..];
    assert forall i :: 0 <= i < k ==> r[i] == s[i];
    assert r[k] == x;
    assert forall i :: k < i < |r| ==> r[i] == s[i - 1];
    forall i, j | 0 <= i < j < |r| ensures key(r[i]) >= key(r[j]) {
      if i == k && j > k {
        assert key(s[j - 1]) <= key(s[k]) || j - 1 == k;
      }
    }
  }

  /** `[...xs].sort((a, b) => key(b) - key(a))`: a stable insertion sort,
      largest key first. */
  function SortDesc<T(==)>(s: seq<T>, key: T -> int): (r: seq<T>)
    ensures SortedDesc(r, key)
    ensures multiset(r) == multiset(s)
    ensures |r| == |s|
  {
    if |s| == 0 then []
    else
      assert s == [s[0]] + s[1..];
      InsertDesc(s[0], SortDesc(s[1..], key), key)
  }

  /** The elements whose key is `v`. */
  function KeyIs<T>(key: T -> int, v: int): T -> bool
  {
    x => key(x) == v
  }

  /** Filtering around one element: the parts before and after, and the
      element itself when it passes. */
  lemma {:induction false} FilterAround<T(!new)>(a: seq<T>, x: T, b: seq<T>, p: T -> bool)
    ensures Filter(a + [x] + b, p) == Filter(a, p) + (if p(x) then [x] else []) + Filter(b, p)
    ensures Filter(a + b, p) == Filter(a, p) + Filter(b, p)
  {
    assert Filter([x], p) == if p(x) then [x] else [] by {
      assert [x][1..] == [];
    }
    FilterAppend(a + [x], b, p);
    FilterAppend(a, [x], p);
    FilterAppend(a, b, p);
  }

  /** `x` placed after elements of larger key only: it heads its key's
      elements when it has key `v`, and is dropped by the filter otherwise. */
  lemma {:induction false} KeyRunAround<T(!new)>(a: seq<T>, x: T, b: seq<T>, key: T -> int, v: int)
    requires forall i :: 0 <= i < |a| ==> key(a[i]) > key(x)
    ensures Filter(a + [x] + b, KeyIs(key, v)) == (if key(x) == v then [x] else []) + Filter(a + b, KeyIs(key, v))
  {
    if key(x) == v {
      KeyRunHead(a, x, b, key, v);
    } else {
      FilterAround(a, x, b, KeyIs(key, v));
      assert (if KeyIs(key, v)(x) then [x] else []) == [];
      Concat3(Filter(a, KeyIs(key, v)), [], Filter(b, KeyIs(key, v)));
    }
  }

  /** Concatenating around an empty part. */
  lemma Concat3<T>(a: seq<T>, m: seq<T>, b: seq<T>)
    ensures a == [] ==> a + m + b == m + (a + b)
    ensures m == [] ==> a + m + b == m + (a + b)
  {
  }

  /** After elements of larger key only, `x` heads the elements of its own key. */
  lemma {:induction false} KeyRunHead<T(!new)>(a: seq<T>, x: T, b: seq<T>, key: T -> int, v: int)
    requires key(x) == v && forall i :: 0 <= i < |a| ==> key(a[i]) > v
    ensures Filter(a + [x] + b, KeyIs(key, v)) == [x] + Filter(a + b, KeyIs(key, v))
  {
    var p := KeyIs(key, v);
    FilterNone(a, p);
    FilterAround(a, x, b, p);
    assert p(x);
    Concat3(Filter(a, p), [x], Filter(b, p));
  }

  /** Inserting `x` adds it at the head of the elements sharing its key and
      leaves the other keys' elements as they were. */
  lemma {:induction false} InsertDescStable<T(!new)>(x: T, s: seq<T>, key: T -> int, v: int)
    requires SortedDesc(s, key)
    ensures Filter(InsertDesc(x, s, key), KeyIs(key, v)) == (if key(x) == v then [x] else []) + Filter(s, KeyIs(key, v))
  {
    var k := InsertPos(x, s, key);
    InsertDescAt(x, s, key);
    assert s[..k] + s[k..] == s;
    KeyRunAround(s[..k], x, s[k..], key, v);
  }

  lemma InsertDescAt<T>(x: T, s: seq<T>, key: T -> int)
    requires SortedDesc(s, key)
    ensures InsertDesc(x, s, key) == s[..InsertPos(x, s, key)] + [x] + s[InsertPos(x, s, key)..]
  {
  }

  /** `Array.prototype.sort` is stable (section 23.1.3.30 of ECMA-262, 2019
      edition on): the elements with any one key keep their input order. */
  lemma {:induction false} SortDescStable<T(!new)>(s: seq<T>, key: T -> int, v: int)
    ensures Filter(SortDesc(s, key), KeyIs(key, v)) == Filter(s, KeyIs(key, v))
  {
    if |s| > 0 {
      SortDescStable(s[1..], key, v);
      InsertDescStable(s[0], SortDesc(s[1..], key), key, v);
    }
  }

  /** Sorting keeps every element's properties: what holds of all elements before holds after. */
  lemma SortDescAll<T>(s: seq<T>, key: T -> int, P: T -> bool)
    requires forall i :: 0 <= i < |s| ==> P(s[i])
    ensures forall k :: 0 <= k < |SortDesc(s, key)| ==> P(SortDesc(s, key)[k])
  {
    var t := SortDesc(s, key);
    forall k | 0 <= k < |t| ensures P(t[k]) {
      assert t[k] in multiset(s);
      var i :| 0 <= i < |s| && s[i] == t[k];
    }
  }

  /** Sorting loses no element: each one has a position afterwards. */
  lemma SortDescFind<T>(s: seq<T>, key: T -> int, i: int) returns (k: int)
    requires 0 <= i < |s|
    ensures 0 <= k < |SortDesc(s, key)| && SortDesc(s, key)[k] == s[i]
  {
    var t := SortDesc(s, key);
    assert s[i] in multiset(t);
    k :| 0 <= k < |t| && t[k] == s[i];
  }

  /** The first element of a descending sort is one with the largest key. */
  lemma SortDescFirstIsMax<T>(s: seq<T>, key: T -> int)
    requires |s| > 0
    ensures SortDesc(s, key)[0] in s
    ensures forall x :: x in s ==> key(x) <= key(SortDesc(s, key)[0])
  {
    var t := SortDesc(s, key);
    assert t[0] in multiset(s);
    forall x | x in s ensures key(x) <= key(t[0]) {
      assert x in multiset(t);
      var j :| 0 <= j < |t| && t[j] == x;
      assert j == 0 || key(t[0]) >= key(t[j]);
    }
  }

  lemma InsertDescSum<T>(x: T, s: seq<T>, key: T -> int, f: T -> int)
    requires SortedDesc(s, key)
    ensures Sum(InsertDesc(x, s, key), f) == f(x) + Sum(s, f)
  {
    var k :| 0 <= k <= |s| && InsertDesc(x, s, key) == s[..k] + [x] + s[k..];
    SumAppend(s[..k] + [x], s[k..], f);
    SumAppend(s[..k], [x], f);
    SumAppend(s[..k], s[k..], f);
    assert s[..k] + s[k..] == s;
  }

  /** Sorting never changes a sum over the elements. */
  lemma {:induction false} SortDescSum<T>(s: seq<T>, key: T -> int, f: T -> int)
    ensures Sum(SortDesc(s, key), f) == Sum(s, f)
  {
    if |s| > 0 {
      SortDescSum(s[1..], key, f);
      InsertDescSum(s[0], SortDesc(s[1..], key), key, f);
    }
  }

  /** No two elements share a `g` value. */
  predicate DistinctBy<T, K(==)>(s: seq<T>, g: T -> K)
  {
    forall i, j :: 0 <= i < j < |s| ==> g(s[i]) != g(s[j])
  }

  /** Filtering keeps `g` duplicate-free. */
  lemma {:induction false} FilterDistinctBy<T(!new), K>(s: seq<T>, p: T -> bool, g: T -> K)
    requires DistinctBy(s, g)
    ensures DistinctBy(Filter(s, p), g)
  {
    if |s| > 0 {
      DistinctByTail(s, g);
      FilterDistinctBy(s[1..], p, g);
      if p(s[0]) {
        var rest := Filter(s[1..], p);
        FilterFresh(s, p, g);
        ConsDistinct(s[0], rest, g);
        assert Filter(s, p) == [s[0]] + rest;
      }
    }
  }

  lemma DistinctByTail<T, K>(s: seq<T>, g: T -> K)
    requires |s| > 0 && DistinctBy(s, g)
    ensures DistinctBy(s[1..], g)
  {
    forall i, j | 0 <= i < j < |s[1..]| ensures g(s[1..][i]) != g(s[1..][j]) {
      assert s[1..][i] == s[i + 1] && s[1..][j] == s[j + 1];
    }
  }

  /** What filtering keeps of the tail never repeats the head's `g` value. */
  lemma FilterFresh<T(!new), K>(s: seq<T>, p: T -> bool, g: T -> K)
    requires |s| > 0 && DistinctBy(s, g)
    ensures forall i :: 0 <= i < |Filter(s[1..], p)| ==> g(Filter(s[1..], p)[i]) != g(s[0])
  {
    var rest := Filter(s[1..], p);
    forall i | 0 <= i < |rest| ensures g(rest[i]) != g(s[0]) {
      assert rest[i] in s[1..];
      var k :| 0 <= k < |s[1..]| && s[1..][k] == rest[i];
      assert s[k + 1] == rest[i];
    }
  }

  /** Prepending an element with a fresh `g` value keeps `g` duplicate-free. */
  lemma ConsDistinct<T, K>(x: T, t: seq<T>, g: T -> K)
    requires DistinctBy(t, g)
    requires forall i :: 0 <= i < |t| ==> g(t[i]) != g(x)
    ensures DistinctBy([x] + t, g)
  {
    var r := [x] + t;
    forall i, j | 0 <= i < j < |r| ensures g(r[i]) != g(r[j]) {
      assert r[j] == t[j - 1];
      if i > 0 {
        assert r[i] == t[i - 1];
      }
    }
  }

  /** Splicing in an element with a fresh `g` value keeps `g` duplicate-free. */
  lemma SpliceDistinct<T, K>(x: T, t: seq<T>, k: nat, g: T -> K)
    requires k <= |t| && DistinctBy(t, g)
    requires forall i :: 0 <= i < |t| ==> g(t[i]) != g(x)
    ensures DistinctBy(t[..k] + [x] + t[k..], g)
  {
    var r := t[..k] + [x] + t[k..];
    assert forall i :: 0 <= i < k ==> r[i] == t[i];
    assert forall i :: k < i < |r| ==> r[i] == t[i - 1];
    forall i, j | 0 <= i < j < |r| ensures g(r[i]) != g(r[j]) {
      if j < k {
      } else if j == k {
      } else if i < k {
      } else if i == k {
      } else {
      }
    }
  }

  /** Sorting keeps a projection duplicate-free. */
  lemma {:induction false} SortDescDistinct<T, K>(s: seq<T>, key: T -> int, g: T -> K)
    requires DistinctBy(s, g)
    ensures DistinctBy(SortDesc(s, key), g)
  {
    if |s| > 0 {
      var rest := s[1..];
      SortDescDistinct(rest, key, g);
      var t := SortDesc(rest, key);
      forall i | 0 <= i < |t| ensures g(t[i]) != g(s[0]) {
        assert t[i] in multiset(t);
        assert t[i] in rest;
        var j :| 0 <= j < |rest| && rest[j] == t[i];
        assert s[j + 1] == t[i];
      }
      SpliceDistinct(s[0], t, InsertPos(s[0], t, key), g);
    }
  }
}

=== FILE: messages.dfy ===
/** The dating site's private messages: one list under one key, read as an
    inbox, a sent box and conversation threads, and grouped into one summary
    per conversation partner. Times are milliseconds; ids and `now` are parameters. */
module Messages {
  import opened Text
  import opened Lists
  import opened Storage

  /** What the sender supplies: `Omit<DatingMessage, "id" | "createdAt" | "read">`. */
  datatype Draft = Draft(fromUserId: string, fromUsername: string, fromName: string, fromPhoto: string,
                         toUserId: string, toUsername: string, toName: string, toPhoto: string,
                         subject: string, body: string, replyToId: Option<string>)

  /** `DatingMessage` */
  datatype Message = Message(id: string, draft: Draft, createdAt: int, read: bool)
  {
    function From(): string { draft.fromUserId }
    function To(): string { draft.toUserId }
  }

  function IdOf(m: Message): string { m.id }

  function CreatedAt(m: Message): int { m.createdAt }

  /** The sort key of an oldest-first order. */
  function Age(m: Message): int { -m.createdAt }

  /** `getMessages`: the stored list, or [] when nothing or nothing readable is stored. */
  function All(st: Stored<seq<Message>>): (r: seq<Message>)
    ensures st.Value? ==> r == st.v
    ensures !st.Value? ==> r == []
  {
    ListOrEmpty(st)
  }

  /** `sendMessage`: append the message, unread and stamped `now`, and save.
      `id` stands for the generated `msg_…` id. */
  function Send(st: Stored<seq<Message>>, d: Draft, id: string, now: int): (r: Step<seq<Message>, Message>)
    ensures r.value == Message(id, d, now, false)
    ensures r.stored == Value(All(st) + [r.value])
  {
    Step(Message(id, d, now, false), Value(All(st) + [Message(id, d, now, false)]))
  }

  /** `getInbox`: the messages to `u`, newest first. */
  function Inbox(st: Stored<seq<Message>>, u: string): (r: seq<Message>)
    ensures SortedDesc(r, CreatedAt)
    ensures forall m :: multiset(r)[m] == if m.To() == u then multiset(All(st))[m] else 0
  {
    SortDesc(Filter(All(st), (m: Message) => m.To() == u), CreatedAt)
  }

  /** `getSentMessages`: the messages from `u`, newest first. */
  function SentBy(st: Stored<seq<Message>>, u: string): (r: seq<Message>)
    ensures SortedDesc(r, CreatedAt)
    ensures forall m :: multiset(r)[m] == if m.From() == u then multiset(All(st))[m] else 0
  {
    SortDesc(Filter(All(st), (m: Message) => m.From() == u), CreatedAt)
  }

  predicate Between(m: Message, a: string, b: string)
  {
    (m.From() == a && m.To() == b) || (m.From() == b && m.To() == a)
  }

  /** `getConversation`: the messages between `a` and `b` either way, oldest first. */
  function Conversation(st: Stored<seq<Message>>, a: string, b: string): (r: seq<Message>)
    ensures forall i, j :: 0 <= i < j < |r| ==> r[i].createdAt <= r[j].createdAt
    ensures forall m :: multiset(r)[m] == if Between(m, a, b) then multiset(All(st))[m] else 0
  {
    var r := SortDesc(Filter(All(st), m => Between(m, a, b)), Age);
    assert forall i, j :: 0 <= i < j < |r| ==> Age(r[i]) >= Age(r[j]);
    r
  }

  /** The thread is the same from either side. */
  lemma ConversationSymmetric(st: Stored<seq<Message>>, a: string, b: string)
    ensures Conversation(st, a, b) == Conversation(st, b, a)
  {
    FilterExt(All(st), m => Between(m, a, b), m => Between(m, b, a));
  }

  /** An unread message addressed to `u`. */
  predicate UnreadFor(m: Message, u: string)
  {
    m.To() == u && !m.read
  }

  /** `getUnreadCount` */
  function UnreadCount(st: Stored<seq<Message>>, u: string): (n: nat)
    ensures n == 0 <==> forall i :: 0 <= i < |All(st)| ==> !UnreadFor(All(st)[i], u)
  {
    Count(All(st), m => UnreadFor(m, u))
  }

  /** `markAsRead`: set `read` on the first message with `id`; no write when there is none. */
  function MarkAsRead(st: Stored<seq<Message>>, id: string): (r: Step<seq<Message>, ()>)
    ensures var ms := All(st); var k := IndexBy(ms, IdOf, id);
            && (k == -1 ==> r.stored == st)
            && (k >= 0 ==> r.stored.Value? && |r.stored.v| == |ms|
                           && r.stored.v[k] == ms[k].(read := true)
                           && forall i :: 0 <= i < |ms| && i != k ==> r.stored.v[i] == ms[i])
  {
    var ms := All(st);
    var k := IndexBy(ms, IdOf, id);
    if k == -1 then Step((), st) else Step((), Value(ms[k := ms[k].(read := true)]))
  }

  /** A message `markConversationAsRead(me, other)` changes: unread, from `other` to `me`. */
  predicate Pending(m: Message, me: string, other: string)
  {
    m.To() == me && m.From() == other && !m.read
  }

  /** The marking loop: every pending message becomes read, every other message stays. */
  function MarkFrom(ms: seq<Message>, me: string, other: string): (r: seq<Message>)
    ensures |r| == |ms|
    ensures forall i :: 0 <= i < |ms| ==> r[i] == if Pending(ms[i], me, other) then ms[i].(read := true) else ms[i]
  {
    if |ms| == 0 then []
    else [if Pending(ms[0], me, other) then ms[0].(read := true) else ms[0]] + MarkFrom(ms[1..], me, other)
  }

  /** `markConversationAsRead`: mark the pending messages read, saving only when there was one. */
  function MarkConversationAsRead(st: Stored<seq<Message>>, me: string, other: string): (r: Step<seq<Message>, ()>)
    ensures Count(All(st), m => Pending(m, me, other)) == 0 ==> r.stored == st
    ensures Count(All(st), m => Pending(m, me, other)) > 0 ==> r.stored == Value(MarkFrom(All(st), me, other))
  {
    if Count(All(st), m => Pending(m, me, other)) == 0 then Step((), st)
    else Step((), Value(MarkFrom(All(st), me, other)))
  }

  lemma NothingPendingAfterMarking(ms: seq<Message>, me: string, other: string)
    ensures Count(MarkFrom(ms, me, other), m => Pending(m, me, other)) == 0
  {
  }

  /** Marking twice is marking once: the second call writes nothing. */
  lemma MarkConversationIdempotent(st: Stored<seq<Message>>, me: string, other: string)
    ensures var once := MarkConversationAsRead(st, me, other).stored;
            MarkConversationAsRead(once, me, other).stored == once
  {
    NothingPendingAfterMarking(All(st), me, other);
  }

  lemma {:induction false} MarkFromUnread(ms: seq<Message>, me: string, other: string)
    ensures Count(MarkFrom(ms, me, other), m => UnreadFor(m, me))
         == Count(ms, m => UnreadFor(m, me)) - Count(ms, m => Pending(m, me, other))
  {
    if |ms| > 0 {
      MarkFromUnread(ms[1..], me, other);
      assert MarkFrom(ms, me, other)[1..] == MarkFrom(ms[1..], me, other);
    }
  }

  /** Marking a conversation lowers the unread count by exactly the number of messages it marked. */
  lemma MarkConversationLowersUnread(st: Stored<seq<Message>>, me: string, other: string)
    ensures UnreadCount(MarkConversationAsRead(st, me, other).stored, me)
         == UnreadCount(st, me) - Count(All(st), m => Pending(m, me, other))
  {
    MarkFromUnread(All(st), me, other);
  }

  /** `deleteMessage`: keep every message without `id`, in order, and always save. */
  function DeleteMessage(st: Stored<seq<Message>>, id: string): (r: Step<seq<Message>, ()>)
    ensures r.stored.Value? && KeepsExactly(r.stored.v, All(st), (m: Message) => m.id != id)
  {
    FilterKeepsExactly(All(st), (m: Message) => m.id != id);
    Step((), Value(Filter(All(st), (m: Message) => m.id != id)))
  }

  // ------------------------------------------------------- conversation summaries

  /** `ConversationSummary` */
  datatype Summary = Summary(partnerId: string, partnerUsername: string, partnerName: string,
                             partnerPhoto: string, lastMessage: Message, unreadCount: nat, totalMessages: nat)

  function PartnerIdOf(s: Summary): string { s.partnerId }
  function UnreadOf(s: Summary): int { s.unreadCount }
  function TotalOf(s: Summary): int { s.totalMessages }
  function LastAt(s: Summary): int { s.lastMessage.createdAt }

  predicate Involves(m: Message, u: string)
  {
    m.From() == u || m.To() == u
  }

  /** The other side of a message `u` sent or received. */
  function Partner(m: Message, u: string): string
  {
    if m.From() == u then m.To() else m.From()
  }

  /** The partner ids of `ms` in order of first appearance, after `seen`: the
      insertion order of the source's `Map`. */
  function PartnersFrom(ms: seq<Message>, u: string, seen: seq<string>): (r: seq<string>)
    requires Distinct(seen)
    ensures Distinct(r) && seen <= r
    ensures forall i :: 0 <= i < |ms| ==> Partner(ms[i], u) in r
    ensures forall p :: p in r ==> p in seen || exists i :: 0 <= i < |ms| && Partner(ms[i], u) == p
  {
    if |ms| == 0 then seen
    else
      var p := Partner(ms[0], u);
      var next := if p in seen then seen else seen + [p];
      var r := PartnersFrom(ms[1..], u, next);
      assert p in next && next <= r;
      assert forall i :: 1 <= i < |ms| ==> ms[i] == ms[1..][i - 1];
      r
  }

  function Partners(ms: seq<Message>, u: string): (r: seq<string>)
    ensures Distinct(r)
    ensures forall i :: 0 <= i < |ms| ==> Partner(ms[i], u) in r
    ensures forall p :: p in r ==> exists i :: 0 <= i < |ms| && Partner(ms[i], u) == p
    ensures forall p :: p in r ==> |Group(ms, u, p)| > 0
  {
    GroupsOfPartners(ms, u);
    PartnersFrom(ms, u, [])
  }

  /** The messages with partner `p`, in store order: the array the source builds for `p`. */
  function Group(ms: seq<Message>, u: string, p: string): (r: seq<Message>)
    ensures forall m :: m in r <==> m in ms && Partner(m, u) == p
    ensures KeepsExactly(r, ms, m => Partner(m, u) == p)
  {
    FilterKeepsExactly(ms, m => Partner(m, u) == p);
    Filter(ms, m => Partner(m, u) == p)
  }

  /** A partner's group is not empty. */
  lemma GroupsOfPartners(ms: seq<Message>, u: string)
    ensures forall p :: (exists i :: 0 <= i < |ms| && Partner(ms[i], u) == p) ==> |Group(ms, u, p)| > 0
  {
    forall p | exists i :: 0 <= i < |ms| && Partner(ms[i], u) == p ensures |Group(ms, u, p)| > 0 {
      var i :| 0 <= i < |ms| && Partner(ms[i], u) == p;
      assert ms[i] in Group(ms, u, p);
    }
  }

  /** What a summary promises about `u`'s messages `ms`: its last message is one
      of them, with the summary's partner, and none with that partner is newer. */
  predicate Summarises(s: Summary, ms: seq<Message>, u: string)
  {
    && s.lastMessage in ms && Partner(s.lastMessage, u) == s.partnerId
    && forall m :: m in ms && Partner(m, u) == s.partnerId ==> m.createdAt <= s.lastMessage.createdAt
  }

  /** The summary for partner `p`: the group's newest message, the partner's
      name, username and photo as that message records them, and the counts. */
  function SummaryOf(ms: seq<Message>, u: string, p: string): (s: Summary)
    requires |Group(ms, u, p)| > 0
    ensures s.partnerId == p && Summarises(s, ms, u)
    ensures s.unreadCount == CountKey(ms, m => Partner(m, u), p, m => UnreadFor(m, u))
    ensures s.totalMessages == CountKey(ms, m => Partner(m, u), p, m => true)
    ensures var d := s.lastMessage.draft;
            s.lastMessage.From() == u ==> (s.partnerUsername, s.partnerName, s.partnerPhoto) == (d.toUsername, d.toName, d.toPhoto)
    ensures var d := s.lastMessage.draft;
            s.lastMessage.From() != u ==> (s.partnerUsername, s.partnerName, s.partnerPhoto) == (d.fromUsername, d.fromName, d.fromPhoto)
  {
    SortDescFirstIsMax(Group(ms, u, p), CreatedAt);
    GroupCounts(ms, u, p);
    var last := SortDesc(Group(ms, u, p), CreatedAt)[0];
    if last.From() == u then
      Summary(p, last.draft.toUsername, last.draft.toName, last.draft.toPhoto, last,
              Count(Group(ms, u, p), m => UnreadFor(m, u)), |Group(ms, u, p)|)
    else
      Summary(p, last.draft.fromUsername, last.draft.fromName, last.draft.fromPhoto, last,
              Count(Group(ms, u, p), m => UnreadFor(m, u)), |Group(ms, u, p)|)
  }

  /** The group's size and unread count, counted over all of `ms`. */
  lemma GroupCounts(ms: seq<Message>, u: string, p: string)
    ensures Count(Group(ms, u, p), m => UnreadFor(m, u)) == CountKey(ms, m => Partner(m, u), p, m => UnreadFor(m, u))
    ensures |Group(ms, u, p)| == CountKey(ms, m => Partner(m, u), p, m => true)
  {
    CountFilter(ms, m => Partner(m, u) == p, m => UnreadFor(m, u), m => Partner(m, u) == p && UnreadFor(m, u));
    CountKeyIsCount(ms, m => Partner(m, u), p, m => UnreadFor(m, u), m => Partner(m, u) == p && UnreadFor(m, u));
    CountIsFilterLength(ms, m => Partner(m, u) == p);
    CountKeyIsCount(ms, m => Partner(m, u), p, m => true, m => Partner(m, u) == p);
  }

  /** One summary per partner of `ps`, in that order. */
  function BuildAll(ps: seq<string>, ms: seq<Message>, u: string): (r: seq<Summary>)
    requires forall p :: p in ps ==> |Group(ms, u, p)| > 0
    ensures |r| == |ps|
    ensures forall i :: 0 <= i < |ps| ==> r[i] == SummaryOf(ms, u, ps[i])
  {
    seq(|ps|, i requires 0 <= i < |ps| => SummaryOf(ms, u, ps[i]))
  }

  /** The messages `u` sent or received. */
  function Mine(st: Stored<seq<Message>>, u: string): (r: seq<Message>)
    ensures forall m :: m in r <==> m in All(st) && Involves(m, u)
    ensures forall m :: multiset(r)[m] == if Involves(m, u) then multiset(All(st))[m] else 0
  {
    Filter(All(st), m => Involves(m, u))
  }

  /** `getConversationSummaries`: group `u`'s messages by partner, summarise
      each group, and order the summaries newest first. */
  function Summaries(st: Stored<seq<Message>>, u: string): (r: seq<Summary>)
    ensures SortedDesc(r, LastAt)
  {
    SortDesc(BuildAll(Partners(Mine(st, u), u), Mine(st, u), u), LastAt)
  }

  /** No partner appears in two summaries. */
  lemma SummariesDistinct(st: Stored<seq<Message>>, u: string)
    ensures DistinctBy(Summaries(st, u), PartnerIdOf)
  {
    var mine := Mine(st, u);
    var built := BuildAll(Partners(mine, u), mine, u);
    SortDescDistinct(built, LastAt, PartnerIdOf);
  }

  /** Every built summary summarises `ms`. */
  lemma BuiltSummarise(ms: seq<Message>, u: string)
    ensures forall j :: 0 <= j < |Partners(ms, u)| ==> Summarises(BuildAll(Partners(ms, u), ms, u)[j], ms, u)
  {
    var ps := Partners(ms, u);
    var b := BuildAll(ps, ms, u);
    forall j | 0 <= j < |ps| ensures Summarises(b[j], ms, u) {
      assert b[j] == SummaryOf(ms, u, ps[j]);
    }
  }

  /** Every message's partner has a built summary. */
  lemma BuiltCover(ms: seq<Message>, u: string, i: int) returns (j: int)
    requires 0 <= i < |ms|
    ensures 0 <= j < |Partners(ms, u)| && BuildAll(Partners(ms, u), ms, u)[j].partnerId == Partner(ms[i], u)
  {
    var ps := Partners(ms, u);
    assert Partner(ms[i], u) in ps;
    j :| 0 <= j < |ps| && ps[j] == Partner(ms[i], u);
    var b := BuildAll(ps, ms, u);
    assert b[j] == SummaryOf(ms, u, ps[j]);
  }

  /** Every summary summarises `u`'s messages. */
  lemma SummariesSummarise(st: Stored<seq<Message>>, u: string)
    ensures forall k :: 0 <= k < |Summaries(st, u)| ==> Summarises(Summaries(st, u)[k], Mine(st, u), u)
  {
    var mine := Mine(st, u);
    BuiltSummarise(mine, u);
    SortDescAll(BuildAll(Partners(mine, u), mine, u), LastAt, s => Summarises(s, mine, u));
  }

  /** A message `u` sent or received has a position among `u`'s messages. */
  lemma MineIndex(st: Stored<seq<Message>>, u: string, m: Message) returns (i: int)
    requires m in All(st) && Involves(m, u)
    ensures 0 <= i < |Mine(st, u)| && Mine(st, u)[i] == m
  {
    assert m in Mine(st, u);
    i :| 0 <= i < |Mine(st, u)| && Mine(st, u)[i] == m;
  }

  /** Every partner `u` exchanged a message with has a summary. */
  lemma SummariesCoverPartners(st: Stored<seq<Message>>, u: string, m: Message) returns (k: int)
    requires m in All(st) && Involves(m, u)
    ensures 0 <= k < |Summaries(st, u)| && Summaries(st, u)[k].partnerId == Partner(m, u)
  {
    var mine := Mine(st, u);
    var i := MineIndex(st, u, m);
    var j := BuiltCover(mine, u, i);
    k := SortDescFind(BuildAll(Partners(mine, u), mine, u), LastAt, j);
  }

  /** A partner id equals `u` only through a message `u` sent to itself. */
  lemma SelfPartnerNeedsSelfMessage(st: Stored<seq<Message>>, u: string, k: int)
    requires 0 <= k < |Summaries(st, u)| && Summaries(st, u)[k].partnerId == u
    ensures exists m :: m in All(st) && m.From() == u && m.To() == u
  {
    SummariesSummarise(st, u);
    assert Summaries(st, u)[k].lastMessage in All(st);
  }

  /** Every message of `u` has its partner exactly once among the partners. */
  lemma PartnersOnce(ms: seq<Message>, u: string)
    ensures forall i :: 0 <= i < |ms| ==> multiset(Partners(ms, u))[(m => Partner(m, u))(ms[i])] == 1
  {
    forall i | 0 <= i < |ms| ensures multiset(Partners(ms, u))[Partner(ms[i], u)] == 1 {
      DistinctOnce(Partners(ms, u), Partner(ms[i], u));
    }
  }

  /** Summed over the built summaries, the unread and message counts count every message of `ms` once. */
  lemma BuiltSums(ms: seq<Message>, u: string)
    ensures Sum(BuildAll(Partners(ms, u), ms, u), UnreadOf) == Count(ms, m => UnreadFor(m, u))
    ensures Sum(BuildAll(Partners(ms, u), ms, u), TotalOf) == |ms|
  {
    var ps := Partners(ms, u);
    var b := BuildAll(ps, ms, u);
    SumPerKey(b, UnreadOf, ps, ms, m => Partner(m, u), m => UnreadFor(m, u));
    SumPerKey(b, TotalOf, ps, ms, m => Partner(m, u), m => true);
    PartnersOnce(ms, u);
    CountPerKeyTotal(ps, ms, m => Partner(m, u), m => UnreadFor(m, u));
    CountPerKeyTotal(ps, ms, m => Partner(m, u), m => true);
  }

  /** The unread counts of the summaries add up to `getUnreadCount(u)`. */
  lemma SummariesUnreadSum(st: Stored<seq<Message>>, u: string)
    ensures Sum(Summaries(st, u), UnreadOf) == UnreadCount(st, u)
  {
    var mine := Mine(st, u);
    SortDescSum(BuildAll(Partners(mine, u), mine, u), LastAt, UnreadOf);
    BuiltSums(mine, u);
    MineUnread(st, u);
  }

  /** Every unread message to `u` involves `u`. */
  lemma MineUnread(st: Stored<seq<Message>>, u: string)
    ensures Count(Mine(st, u), m => UnreadFor(m, u)) == UnreadCount(st, u)
  {
    CountFilterImplied(All(st), m => Involves(m, u), m => UnreadFor(m, u));
  }

  /** The message counts of the summaries add up to the number of messages `u` sent or received. */
  lemma SummariesTotalSum(st: Stored<seq<Message>>, u: string)
    ensures Sum(Summaries(st, u), TotalOf) == Count(All(st), m => Involves(m, u))
  {
    var mine := Mine(st, u);
    SortDescSum(BuildAll(Partners(mine, u), mine, u), LastAt, TotalOf);
    BuiltSums(mine, u);
    CountIsFilterLength(All(st), m => Involves(m, u));
  }
}

=== FILE: mockads.dfy ===
/** The 24 demonstration ads every listing shows after the members' own:
    each field is picked from a fixed table by the ad's index. */
module MockAds {
  import opened Text
  import opened Lists
  import TimeLabels

  /** `categoryTabs`: "All" and the eight ad categories. */
  const CategoryTabs: seq<string> :=
    ["All", "Male Personals", "Female Personals", "Massage", "Live Cam", "Toys", "Jobs", "Hotel/Rooms", "Other"]

  /** The English copy of the tables `titles` (24 entries) and `descriptions`
      (12 entries): `title(k)` and `description(k)` are entry `k`. */
  datatype Copy = Copy(title: nat -> string, description: nat -> string)

  const Districts: seq<string> :=
    ["Colombo", "Gampaha", "Kandy", "Galle", "Matara", "Jaffna", "Kurunegala", "Negombo", "Ratnapura", "Badulla"]

  const Cities: seq<string> :=
    ["Colombo 3", "Negombo", "Kandy City", "Galle City", "Hikkaduwa", "Jaffna City", "Dehiwala", "Mount Lavinia",
     "Nugegoda", "Ella"]

  datatype MockAd = MockAd(id: int, title: string, description: string, category: string, district: string,
                           city: string, location: string, time: string, verified: bool, image: string)

  function IdOf(a: MockAd): int { a.id }

  /** Element `i` of `Array.from({ length: 24 }, (_, i) => …)`. */
  function AdAt(copy: Copy, i: nat): MockAd
    requires i < 24
  {
    MockAd(i + 1, copy.title(i % 24), copy.description(i % 12), CategoryTabs[1 + i % 8],
           Districts[i % |Districts|], Cities[i % |Cities|],
           Cities[i % |Cities|] + ", " + Districts[i % |Districts|],
           NatToString(i % 12 + 1) + "h ago", i % 3 == 0,
           "https://picsum.photos/seed/ad" + NatToString(i + 1) + "/300/200")
  }

  /** `mockAds` */
  function Ads(copy: Copy): (r: seq<MockAd>)
    ensures |r| == 24
    ensures forall i :: 0 <= i < 24 ==> r[i] == AdAt(copy, i)
  {
    seq(24, i requires 0 <= i < 24 => AdAt(copy, i))
  }

  /** Ad `i` is numbered i + 1, is in one of the eight real categories (never
      "All"), is verified exactly when 3 divides i, and is located in the
      city and district it names. */
  lemma AdShape(copy: Copy, i: nat)
    requires i < 24
    ensures Ads(copy)[i].id == i + 1
    ensures Ads(copy)[i].category in CategoryTabs[1..] && Ads(copy)[i].category != "All"
    ensures Ads(copy)[i].verified <==> i % 3 == 0
    ensures Ads(copy)[i].location == Ads(copy)[i].city + ", " + Ads(copy)[i].district
    ensures Ads(copy)[i].city == Cities[i % 10] && Ads(copy)[i].district == Districts[i % 10]
  {
    var k := 1 + i % 8;
    assert CategoryTabs[k] == CategoryTabs[1..][k - 1];
  }

  /** Ad `i`'s label reads back as (i mod 12) + 1 hours. */
  lemma AdTimeReadsBack(copy: Copy, i: nat)
    requires i < 24
    ensures TimeLabels.ParseAgo(Ads(copy)[i].time) == Some(TimeLabels.Hours(i % 12 + 1))
  {
    var a := TimeLabels.Hours(i % 12 + 1);
    assert Ads(copy)[i].time == TimeLabels.Render(a, "");
    TimeLabels.ParseRender(a);
  }

  /** `mockAds.find((a) => a.id === n)` */
  function Find(copy: Copy, n: int): (r: Option<MockAd>)
    ensures r == (if 1 <= n <= 24 then Some(Ads(copy)[n - 1]) else None)
  {
    FindByNumber(copy, n);
    var j := IndexBy(Ads(copy), IdOf, n);
    if j >= 0 then Some(Ads(copy)[j]) else None
  }

  /** The first ad numbered n is ad n - 1 for n in 1 … 24, and there is none otherwise. */
  lemma FindByNumber(copy: Copy, n: int)
    ensures IndexBy(Ads(copy), IdOf, n) == (if 1 <= n <= 24 then n - 1 else -1)
  {
    var s := Ads(copy);
    var k := IndexBy(s, IdOf, n);
    assert forall j :: 0 <= j < 24 ==> IdOf(s[j]) == j + 1;
    if 1 <= n <= 24 {
      assert IdOf(s[n - 1]) == n;
    }
  }
}

=== FILE: paging.dfy ===
/** Splitting a result list into pages, the page-number bars under the
    listings, and the rotating ad placed after every fourth listed item. */
module Paging {
  import Arith

  function Min(a: int, b: int): int { if a <= b then a else b }
  function Max(a: int, b: int): int { if a >= b then a else b }

  // ------------------------------------------------------------ pages

  /** `Math.max(1, Math.ceil(n / per))`, counted out page by page: one page
      for up to `per` items, one more for each further `per`. */
  function TotalPages(n: nat, per: nat): (t: nat)
    requires per > 0
    ensures t >= 1
    ensures n == 0 ==> t == 1
    ensures n > 0 ==> (t - 1) * per < n <= t * per
    decreases n
  {
    if n <= per then 1
    else
      var t := 1 + TotalPages(n - per, per);
      assert t * per == (t - 1) * per + per;
      assert (t - 1) * per == (t - 2) * per + per;
      t
  }

  /** The count is the rounded-up quotient. */
  lemma TotalPagesIsCeiling(n: nat, per: nat)
    requires per > 0 && n > 0
    ensures TotalPages(n, per) == (n + per - 1) / per
  {
    var t := TotalPages(n, per);
    var r := n - 1 - (t - 1) * per;
    assert t * per == (t - 1) * per + per;
    Arith.DivModUnique(n + per - 1, t, r, per);
  }

  /** Where `xs.slice` reads a bound: a negative one counts back from the
      end, and both are clamped to the list. */
  function SliceBound(i: int, len: nat): (r: nat)
    ensures r <= len
    ensures 0 <= i <= len ==> r == i
  {
    if i < 0 then Max(len + i, 0) else Min(i, len)
  }

  /** `xs.slice(start, end)` */
  function Slice<T>(s: seq<T>, start: int, end: int): (r: seq<T>)
    ensures |r| <= |s|
    ensures 0 <= start <= end <= |s| ==> r == s[start..end]
    ensures forall x :: x in r ==> x in s
  {
    var a := SliceBound(start, |s|);
    var b := SliceBound(end, |s|);
    if a < b then s[a..b] else []
  }

  /** `xs.slice((page - 1) * per, page * per)`: the items page `page` shows. */
  function PageOf<T>(s: seq<T>, page: int, per: nat): (r: seq<T>)
    requires per > 0
  {
    Slice(s, (page - 1) * per, page * per)
  }

  /** A page from 1 on holds at most `per` items: the next `per` items
      from position (page - 1) * per, or as many as remain. */
  lemma PageOfShape<T>(s: seq<T>, page: int, per: nat)
    requires per > 0 && page >= 1
    ensures (page - 1) * per >= 0 && page * per == (page - 1) * per + per
    ensures |PageOf(s, page, per)| <= per
    ensures var start := (page - 1) * per;
            start <= |s| ==> PageOf(s, page, per) == s[start..Min(start + per, |s|)]
    ensures (page - 1) * per >= |s| ==> PageOf(s, page, per) == []
  {
    NextPageStart(page, per);
    Arith.MulMono(page, per);
  }

  /** Page k ends where page k + 1 starts, `per` items on. */
  lemma NextPageStart(k: int, per: nat)
    ensures k * per == (k - 1) * per + per
  {
  }

  /** Pages 1 … k, one after the other. */
  function Pages<T>(s: seq<T>, per: nat, k: nat): seq<T>
    requires per > 0
  {
    if k == 0 then [] else Pages(s, per, k - 1) + PageOf(s, k, per)
  }

  lemma {:induction false} PagesPrefix<T>(s: seq<T>, per: nat, k: nat)
    requires per > 0
    ensures Pages(s, per, k) == s[..Min(k * per, |s|)]
  {
    if k > 0 {
      PagesPrefix(s, per, k - 1);
      PageOfShape(s, k, per);
      NextPageStart(k, per);
      PrefixThenSlice(s, (k - 1) * per, k * per);
    }
  }

  /** The first `start` items and the following stretch up to `end`,
      clamped to the list, make the first `end` items. */
  lemma PrefixThenSlice<T>(s: seq<T>, start: nat, end: nat)
    requires start <= end
    ensures start <= |s| ==> s[..start] + s[start..Min(end, |s|)] == s[..Min(end, |s|)]
    ensures start >= |s| ==> s[..Min(start, |s|)] == s[..Min(end, |s|)]
  {
  }

  /** Reading pages 1 … TotalPages in order shows every item exactly once,
      in list order. */
  lemma PagesCoverList<T>(s: seq<T>, per: nat)
    requires per > 0
    ensures Pages(s, per, TotalPages(|s|, per)) == s
  {
    PagesPrefix(s, per, TotalPages(|s|, per));
  }

  /** "Showing a–b of n" */
  datatype Showing = Showing(first: int, last: int, of: int)

  /** The listing line: from (page - 1) * per + 1 to min(page * per, n). */
  function ShowingLine(page: int, per: nat, n: nat): (r: Showing)
    ensures r.of == n
  {
    Showing((page - 1) * per + 1, Min(page * per, n), n)
  }

  /** On every page of a non-empty list the line names exactly the items
      the page shows, counting from 1. */
  lemma ShowingMatchesPage<T>(s: seq<T>, page: int, per: nat)
    requires per > 0 && |s| > 0 && 1 <= page <= TotalPages(|s|, per)
    ensures 1 <= ShowingLine(page, per, |s|).first <= ShowingLine(page, per, |s|).last <= |s|
    ensures PageOf(s, page, per) == s[ShowingLine(page, per, |s|).first - 1..ShowingLine(page, per, |s|).last]
    ensures |PageOf(s, page, per)| == ShowingLine(page, per, |s|).last - ShowingLine(page, per, |s|).first + 1
  {
    PageStartsInside(|s|, per, page);
    PageLine(s, page, per);
  }

  /** The same for any page that starts inside the list. */
  lemma PageLine<T>(s: seq<T>, page: int, per: nat)
    requires per > 0 && page >= 1 && (page - 1) * per < |s|
    ensures 1 <= ShowingLine(page, per, |s|).first <= ShowingLine(page, per, |s|).last <= |s|
    ensures PageOf(s, page, per) == s[ShowingLine(page, per, |s|).first - 1..ShowingLine(page, per, |s|).last]
    ensures |PageOf(s, page, per)| == ShowingLine(page, per, |s|).last - ShowingLine(page, per, |s|).first + 1
  {
    NextPageStart(page, per);
    PageOfShape(s, page, per);
    LineOfSlice(s, (page - 1) * per, page * per, PageOf(s, page, per));
  }

  /** A stretch that starts inside the list, counted from 1. */
  lemma LineOfSlice<T>(s: seq<T>, start: int, end: int, shown: seq<T>)
    requires 0 <= start < |s| && start < end && shown == s[start..Min(end, |s|)]
    ensures 1 <= start + 1 <= Min(end, |s|) <= |s|
    ensures shown == s[start + 1 - 1..Min(end, |s|)]
    ensures |shown| == Min(end, |s|) - (start + 1) + 1
  {
  }

  /** Every page up to the last starts before the end of the list. */
  lemma PageStartsInside(n: nat, per: nat, page: int)
    requires per > 0 && n > 0 && 1 <= page <= TotalPages(n, per)
    ensures (page - 1) * per < n
  {
    var t := TotalPages(n, per);
    assert (t - 1) * per < n;
    if page < t {
      assert (t - 1) * per == (page - 1) * per + (t - page) * per;
      Arith.MulMono(t - page, per);
    }
  }

  // ------------------------------------------------------------ page-number bars

  /** One entry of a page-number bar: a page button or "...". */
  datatype Entry = Num(n: int) | Gap

  /** The buttons lo, lo + 1, …, hi. */
  function Run(lo: int, hi: int): (r: seq<Entry>)
    ensures |r| == if lo <= hi then hi - lo + 1 else 0
    decreases hi - lo
  {
    if lo > hi then [] else [Num(lo)] + Run(lo + 1, hi)
  }

  /** `getPageNumbers()` of the ad list, and the same window on the home
      page: every page when there are at most 7; otherwise the first page,
      the current page with one neighbour each side, and the last page,
      with "..." for what is skipped. The pages render a bar only when
      there is more than one page (`totalPages > 1`). */
  function PageNumbers(total: int, page: int): (r: seq<Entry>)
    ensures 1 <= page <= total ==> |r| <= 7
  {
    if total <= 7 then Run(1, total)
    else
      [Num(1)] + (if page > 3 then [Gap] else []) + Run(Max(2, page - 1), Min(total - 1, page + 1))
      + (if page < total - 2 then [Gap] else []) + [Num(total)]
  }

  /** Page p has a button when it is the first, the last, or at most
      `radius` away from the current page. */
  predicate Shown(total: int, page: int, radius: int, p: int)
  {
    1 <= p <= total && (p == 1 || p == total || (page - radius <= p <= page + radius))
  }

  /** `Array.from({ length: total }, (_, i) => i + 1).filter(p => …)`,
      from page `lo` on. */
  function ShownFrom(lo: int, total: int, page: int, radius: int): (r: seq<int>)
    requires lo >= 1
    decreases total - lo
  {
    if lo > total then []
    else (if Shown(total, page, radius, lo) then [lo] else []) + ShownFrom(lo + 1, total, page, radius)
  }

  predicate Increasing(ps: seq<int>)
  {
    forall i, j :: 0 <= i < j < |ps| ==> ps[i] < ps[j]
  }

  /** The filter keeps exactly the shown pages, in increasing order. */
  lemma {:induction false} ShownFromContents(lo: int, total: int, page: int, radius: int)
    requires lo >= 1
    ensures var r := ShownFrom(lo, total, page, radius);
            && Increasing(r)
            && (forall i :: 0 <= i < |r| ==> r[i] >= lo)
            && (forall p :: p in r <==> lo <= p && Shown(total, page, radius, p))
    decreases total - lo
  {
    if lo <= total {
      ShownFromContents(lo + 1, total, page, radius);
      var head := if Shown(total, page, radius, lo) then [lo] else [];
      PrependBelow(lo, head, ShownFrom(lo + 1, total, page, radius));
    }
  }

  /** Putting `lo` (or nothing) in front of larger numbers in increasing order. */
  lemma PrependBelow(lo: int, head: seq<int>, rest: seq<int>)
    requires head == [] || head == [lo]
    requires Increasing(rest) && forall i :: 0 <= i < |rest| ==> rest[i] >= lo + 1
    ensures Increasing(head + rest)
    ensures forall i :: 0 <= i < |head + rest| ==> (head + rest)[i] >= lo
    ensures forall p :: p in head + rest <==> p in head || p in rest
  {
    var r := head + rest;
    forall i | 0 <= i < |r| ensures r[i] >= lo {
      if i >= |head| {
        assert r[i] == rest[i - |head|];
      }
    }
    forall i, j | 0 <= i < j < |r| ensures r[i] < r[j] {
      if i >= |head| {
        assert r[i] == rest[i - |head|] && r[j] == rest[j - |head|];
      } else {
        assert r[j] == rest[j - |head|];
      }
    }
  }

  /** The bar a list of page numbers gives when "..." goes before every page
      whose predecessor in the list is not its neighbour: the page-button
      list of the dating page, written out. */
  function WithEllipses(ps: seq<int>): seq<Entry>
  {
    if |ps| == 0 then [] else [Num(ps[0])] + After(ps[0], ps[1..])
  }

  function After(prev: int, ps: seq<int>): seq<Entry>
    decreases |ps|
  {
    if |ps| == 0 then []
    else (if ps[0] - prev > 1 then [Gap] else []) + [Num(ps[0])] + After(ps[0], ps[1..])
  }

  /** The dating page's buttons: pages within 2 of the current one, the
      first and the last, each preceded by "..." after a jump. */
  function DatingButtons(total: int, page: int): seq<Entry>
  {
    WithEllipses(ShownFrom(1, total, page, 2))
  }

  /** Skipping over pages without a button. */
  lemma {:induction false} SkipHidden(lo: int, hi: int, total: int, page: int, radius: int)
    requires 1 <= lo <= hi
    requires forall p :: lo <= p < hi ==> !Shown(total, page, radius, p)
    ensures ShownFrom(lo, total, page, radius) == ShownFrom(hi, total, page, radius)
    decreases hi - lo
  {
    if lo < hi {
      SkipHidden(lo + 1, hi, total, page, radius);
    }
  }

  /** A stretch of pages that all have buttons. */
  function Ints(lo: int, hi: int): (r: seq<int>)
    ensures |r| == if lo <= hi then hi - lo + 1 else 0
    decreases hi - lo
  {
    if lo > hi then [] else [lo] + Ints(lo + 1, hi)
  }

  lemma {:induction false} TakeShown(lo: int, hi: int, total: int, page: int, radius: int)
    requires 1 <= lo && hi <= total
    requires forall p :: lo <= p <= hi ==> Shown(total, page, radius, p)
    ensures ShownFrom(lo, total, page, radius) == Ints(lo, hi) + ShownFrom(Max(lo, hi + 1), total, page, radius)
    decreases hi - lo
  {
    if lo <= hi {
      TakeShown(lo + 1, hi, total, page, radius);
      if lo == hi {
        assert Ints(lo + 1, hi) == [];
      }
    }
  }

  lemma {:induction false} AfterRun(prev: int, lo: int, hi: int, rest: seq<int>)
    requires lo <= hi
    ensures After(prev, Ints(lo, hi) + rest)
         == (if lo - prev > 1 then [Gap] else []) + Run(lo, hi) + After(hi, rest)
    decreases hi - lo
  {
    var g: seq<Entry> := if lo - prev > 1 then [Gap] else [];
    var xs := Ints(lo + 1, hi) + rest;
    Assoc([lo], Ints(lo + 1, hi), rest);
    AfterCons(prev, lo, xs);
    var tail := After(hi, rest);
    if lo < hi {
      AfterRun(lo, lo + 1, hi, rest);
      assert After(lo, xs) == [] + Run(lo + 1, hi) + tail;
      assert [] + Run(lo + 1, hi) == Run(lo + 1, hi);
      Assoc([Num(lo)], Run(lo + 1, hi), tail);
      Assoc(g, [Num(lo)], Run(lo + 1, hi) + tail);
      Assoc(g, [Num(lo)] + Run(lo + 1, hi), tail);
      Assoc(g, [Num(lo)], Run(lo + 1, hi));
    } else {
      assert Ints(lo + 1, hi) == [] && Run(lo + 1, hi) == [];
      assert xs == rest;
      assert Run(lo, hi) == [Num(lo)];
    }
  }

  lemma Assoc<T>(a: seq<T>, b: seq<T>, c: seq<T>)
    ensures a + (b + c) == a + b + c
  {
  }


  /** One step of `After`. */
  lemma AfterCons(prev: int, x: int, xs: seq<int>)
    ensures After(prev, [x] + xs) == (if x - prev > 1 then [Gap] else []) + [Num(x)] + After(x, xs)
  {
    assert ([x] + xs)[0] == x && ([x] + xs)[1..] == xs;
  }


  /** With more than 7 pages, the ad list's window is the page bar of the
      pages within 1 of the current one plus the first and the last. */
  lemma WindowIsWithEllipses(total: int, page: int)
    requires 7 < total && 1 <= page <= total
    ensures PageNumbers(total, page) == WithEllipses(ShownFrom(1, total, page, 1))
  {
    var a := Max(2, page - 1);
    var b := Min(total - 1, page + 1);
    var g1: seq<Entry> := if page > 3 then [Gap] else [];
    var g2: seq<Entry> := if page < total - 2 then [Gap] else [];
    WindowPages(total, page);
    var ps := ShownFrom(1, total, page, 1);
    assert ps[0] == 1 && ps[1..] == Ints(a, b) + [total];
    AfterRun(1, a, b, [total]);
    assert After(1, ps[1..]) == g1 + Run(a, b) + After(b, [total]);
    LastAfter(b, total);
    assert After(b, [total]) == g2 + [Num(total)];
    Assoc5([Num(1)], g1, Run(a, b), g2, [Num(total)]);
  }

  /** The bar after page b when only the last page follows. */
  lemma LastAfter(b: int, total: int)
    ensures After(b, [total]) == (if total - b > 1 then [Gap] else []) + [Num(total)]
  {
    assert [total][1..] == [];
  }

  lemma Assoc5<T>(a: seq<T>, b: seq<T>, c: seq<T>, d: seq<T>, e: seq<T>)
    ensures a + (b + c + (d + e)) == a + b + c + d + e
  {
  }

  /** With more than 7 pages, the pages within 1 of the current one, plus the first and the last. */
  lemma WindowPages(total: int, page: int)
    requires 7 < total && 1 <= page <= total
    ensures ShownFrom(1, total, page, 1) == [1] + (Ints(Max(2, page - 1), Min(total - 1, page + 1)) + [total])
  {
    var a := Max(2, page - 1);
    var b := Min(total - 1, page + 1);
    assert 2 <= a <= b < total;
    WindowSplit(total, page);
    SkipHidden(2, a, total, page, 1);
    TakeShown(a, b, total, page, 1);
    SkipHidden(b + 1, total, total, page, 1);
    assert ShownFrom(total, total, page, 1) == [total] + ShownFrom(total + 1, total, page, 1);
    assert ShownFrom(1, total, page, 1) == [1] + ShownFrom(2, total, page, 1);
  }

  /** Between the first and the last page, exactly the pages next to the
      current one have buttons. */
  lemma WindowSplit(total: int, page: int)
    requires 7 < total && 1 <= page <= total
    ensures var a := Max(2, page - 1);
            var b := Min(total - 1, page + 1);
            && (forall p :: 2 <= p < a ==> !Shown(total, page, 1, p))
            && (forall p :: a <= p <= b ==> Shown(total, page, 1, p))
            && (forall p :: b + 1 <= p < total ==> !Shown(total, page, 1, p))
  {
  }

  /** With at most 7 pages the window holds every page, without "...". */
  lemma SmallWindowIsWithEllipses(total: int, page: int)
    requires 1 <= page <= total <= 7
    ensures PageNumbers(total, page) == WithEllipses(ShownFrom(1, total, page, total))
  {
    forall p | 1 <= p <= total ensures Shown(total, page, total, p) {
    }
    TakeShown(1, total, total, page, total);
    assert ShownFrom(total + 1, total, page, total) == [];
    var ps := ShownFrom(1, total, page, total);
    assert ps == Ints(1, total) == [1] + Ints(2, total);
    assert Run(1, total) == [Num(1)] + Run(2, total);
    if total > 1 {
      AfterRun(1, 2, total, []);
      assert ps[1..] == Ints(2, total) + [];
      assert After(total, []) == [];
      assert After(1, ps[1..]) == [] + Run(2, total) + [];
      assert [] + Run(2, total) + [] == Run(2, total);
    } else {
      assert ps[1..] == [];
    }
  }

  /** The ad list's window, for a current page within range: it starts at
      page 1, ends at the last page, lists pages in increasing order with
      the current one among them, and holds exactly the first, the last and
      the pages next to the current one (every page when there are at most 7). */
  lemma PageNumbersShape(total: int, page: int)
    requires 1 <= page <= total
    ensures var r := PageNumbers(total, page);
            && r[0] == Num(1) && r[|r| - 1] == Num(total) && Num(page) in r
            && Increasing(NumbersOf(r))
            && (forall p :: p in NumbersOf(r) <==> Shown(total, page, if total <= 7 then total else 1, p))
  {
    if total <= 7 {
      SmallWindowIsWithEllipses(total, page);
      BarOfShown(total, page, total);
    } else {
      WindowIsWithEllipses(total, page);
      BarOfShown(total, page, 1);
    }
  }

  /** The dating page's buttons, for a current page within range: page 1
      first, the last page last, in increasing order, and exactly the pages
      that are first, last, or within 2 of the current one. */
  lemma DatingButtonsShape(total: int, page: int)
    requires 1 <= page <= total
    ensures var r := DatingButtons(total, page);
            && r[0] == Num(1) && r[|r| - 1] == Num(total) && Num(page) in r
            && Increasing(NumbersOf(r))
            && (forall p :: p in NumbersOf(r) <==> 1 <= p <= total && (p == 1 || p == total || -2 <= p - page <= 2))
  {
    BarOfShown(total, page, 2);
  }

  /** The bar of the shown pages starts at page 1, ends at the last page and
      lists exactly the shown pages, in increasing order. */
  lemma BarOfShown(total: int, page: int, radius: int)
    requires 1 <= page <= total && radius >= 0
    ensures var r := WithEllipses(ShownFrom(1, total, page, radius));
            && |r| > 0 && r[0] == Num(1) && r[|r| - 1] == Num(total) && Num(page) in r
            && Increasing(NumbersOf(r))
            && (forall p :: p in NumbersOf(r) <==> Shown(total, page, radius, p))
  {
    var ps := ShownFrom(1, total, page, radius);
    ShownEnds(total, page, radius);
    EllipsesBetween(ps);
    var r := WithEllipses(ps);
    assert page in NumbersOf(r);
    NumbersOfMember(r, page);
  }

  lemma ShownEnds(total: int, page: int, radius: int)
    requires 1 <= page <= total && radius >= 0
    ensures var ps := ShownFrom(1, total, page, radius);
            && |ps| > 0 && ps[0] == 1 && ps[|ps| - 1] == total
            && Increasing(ps) && (forall p :: p in ps <==> Shown(total, page, radius, p))
  {
    var ps := ShownFrom(1, total, page, radius);
    ShownFromContents(1, total, page, radius);
    assert 1 in ps && total in ps;
    var i :| 0 <= i < |ps| && ps[i] == 1;
    var j :| 0 <= j < |ps| && ps[j] == total;
    assert ps[0] in ps && ps[|ps| - 1] in ps;
    assert ps[0] <= ps[i] && ps[j] <= ps[|ps| - 1];
  }

  lemma {:induction false} NumbersOfMember(r: seq<Entry>, p: int)
    requires p in NumbersOf(r)
    ensures Num(p) in r
  {
    if r[0] != Num(p) {
      assert p in NumbersOf(r[1..]);
      NumbersOfMember(r[1..], p);
    }
  }

  /** The numbers of a bar, with the "..." entries left out. */
  function NumbersOf(r: seq<Entry>): seq<int>
  {
    if |r| == 0 then []
    else (if r[0].Num? then [r[0].n] else []) + NumbersOf(r[1..])
  }

  /** A bar built this way neither starts nor ends with "...", never has two
      in a row, and its numbers are the listed pages in order. */
  lemma {:induction false} EllipsesBetween(ps: seq<int>)
    requires |ps| > 0
    ensures var r := WithEllipses(ps);
            && r[0] == Num(ps[0]) && r[|r| - 1] == Num(ps[|ps| - 1])
            && NoDoubleGap(r)
            && NumbersOf(r) == ps
  {
    AfterShape(ps[0], ps[1..]);
    var r := WithEllipses(ps);
    assert r == [Num(ps[0])] + After(ps[0], ps[1..]);
    assert r[1..] == After(ps[0], ps[1..]);
    NoDoubleGapAppend([Num(ps[0])], After(ps[0], ps[1..]));
    if |ps| > 1 {
      assert ps[1..][|ps[1..]| - 1] == ps[|ps| - 1];
    }
    assert NumbersOf(r) == [ps[0]] + NumbersOf(r[1..]);
    assert [ps[0]] + ps[1..] == ps;
  }

  /** The shape of a bar (or its tail) listing the pages `ps`: it ends with
      the last of them, has no two "..." together, never starts with a "..."
      that nothing follows, and its numbers are `ps`. */
  predicate BarShape(r: seq<Entry>, ps: seq<int>)
  {
    && (|ps| > 0 ==> |r| > 0 && r[|r| - 1] == Num(ps[|ps| - 1]))
    && NoDoubleGap(r)
    && (|r| > 0 && r[0].Gap? ==> |r| > 1 && r[1].Num?)
    && NumbersOf(r) == ps
  }

  lemma {:induction false} AfterShape(prev: int, ps: seq<int>)
    ensures BarShape(After(prev, ps), ps)
    decreases |ps|
  {
    if |ps| > 0 {
      AfterShape(ps[0], ps[1..]);
      var rest := After(ps[0], ps[1..]);
      var head := (if ps[0] - prev > 1 then [Gap] else []) + [Num(ps[0])];
      assert After(prev, ps) == head + rest;
      HeadShape(prev, ps[0]);
      JoinShape(head, rest, ps[0], ps[1..]);
      assert [ps[0]] + ps[1..] == ps;
    }
  }

  /** No two "..." entries side by side. */
  predicate NoDoubleGap(r: seq<Entry>)
  {
    forall i :: 0 <= i < |r| - 1 ==> !(r[i].Gap? && r[i + 1].Gap?)
  }

  /** The entries one page adds: an optional "..." and its button. */
  lemma HeadShape(prev: int, x: int)
    ensures var head := (if x - prev > 1 then [Gap] else []) + [Num(x)];
            && NoDoubleGap(head) && head[|head| - 1] == Num(x)
            && (head[0].Gap? ==> head[1].Num?)
            && NumbersOf(head) == [x]
  {
    assert NumbersOf([Num(x)]) == [x];
    if x - prev > 1 {
      var head := [Gap] + [Num(x)];
      assert head[1..] == [Num(x)];
    }
  }

  /** A page's entries followed by the bar of the pages after it. */
  lemma JoinShape(head: seq<Entry>, rest: seq<Entry>, x: int, tail: seq<int>)
    requires |head| > 0 && NoDoubleGap(head) && head[|head| - 1] == Num(x)
    requires (head[0].Gap? ==> head[1].Num?) && NumbersOf(head) == [x]
    requires BarShape(rest, tail) && (|tail| == 0 ==> rest == [])
    ensures BarShape(head + rest, [x] + tail)
  {
    NumbersAppend(head, rest);
    NoDoubleGapAppend(head, rest);
    assert ([x] + tail)[|tail|] == if |tail| == 0 then x else tail[|tail| - 1];
  }

  /** Joining after a button keeps "..." entries apart. */
  lemma NoDoubleGapAppend(a: seq<Entry>, b: seq<Entry>)
    requires NoDoubleGap(a) && NoDoubleGap(b) && |a| > 0 && a[|a| - 1].Num?
    ensures NoDoubleGap(a + b)
  {
    var r := a + b;
    forall i | 0 <= i < |r| - 1 ensures !(r[i].Gap? && r[i + 1].Gap?) {
      if i >= |a| {
        assert r[i] == b[i - |a|] && r[i + 1] == b[i + 1 - |a|];
      } else if i < |a| - 1 {
        assert r[i] == a[i] && r[i + 1] == a[i + 1];
      }
    }
  }

  lemma {:induction false} NumbersAppend(a: seq<Entry>, b: seq<Entry>)
    ensures NumbersOf(a + b) == NumbersOf(a) + NumbersOf(b)
    decreases |a|
  {
    if |a| > 0 {
      assert (a + b)[1..] == a[1..] + b;
      NumbersAppend(a[1..], b);
    } else {
      assert a + b == b;
    }
  }

  /** A "..." entry stands exactly between two listed pages that are not
      neighbours. */
  lemma {:induction false} GapMeansJump(prev: int, ps: seq<int>, i: int)
    requires Increasing([prev] + ps)
    requires 0 <= i < |After(prev, ps)| && After(prev, ps)[i].Gap?
    ensures i + 1 < |After(prev, ps)| && After(prev, ps)[i + 1].Num?
    ensures i > 0 ==> After(prev, ps)[i - 1].Num?
    ensures var before := if i == 0 then prev else After(prev, ps)[i - 1].n;
            After(prev, ps)[i + 1].n - before > 1
    decreases |ps|
  {
    var r := After(prev, ps);
    var head := (if ps[0] - prev > 1 then [Gap] else []) + [Num(ps[0])];
    var rest := After(ps[0], ps[1..]);
    assert r == head + rest;
    if i >= |head| {
      assert Increasing([ps[0]] + ps[1..]) by {
        assert [ps[0]] + ps[1..] == ps;
        forall a, b | 0 <= a < b < |ps| ensures ps[a] < ps[b] {
          assert ps[a] == ([prev] + ps)[a + 1] && ps[b] == ([prev] + ps)[b + 1];
        }
      }
      assert r[i] == rest[i - |head|];
      GapMeansJump(ps[0], ps[1..], i - |head|);
      assert r[i + 1] == rest[i - |head| + 1];
      if i - |head| > 0 {
        assert r[i - 1] == rest[i - |head| - 1];
      }
    }
  }

  /** Two buttons side by side are neighbouring pages; so is a first
      button and the page before the list. */
  lemma {:induction false} SideBySideMeansStep(prev: int, ps: seq<int>, i: int)
    requires 0 <= i < |After(prev, ps)| && After(prev, ps)[i].Num?
    requires i == 0 || After(prev, ps)[i - 1].Num?
    ensures var before := if i == 0 then prev else After(prev, ps)[i - 1].n;
            After(prev, ps)[i].n - before <= 1
    decreases |ps|
  {
    var r := After(prev, ps);
    var head := (if ps[0] - prev > 1 then [Gap] else []) + [Num(ps[0])];
    var rest := After(ps[0], ps[1..]);
    assert r == head + rest;
    if i >= |head| {
      assert r[i] == rest[i - |head|];
      if i - |head| > 0 {
        assert r[i - 1] == rest[i - |head| - 1];
      }
      SideBySideMeansStep(ps[0], ps[1..], i - |head|);
    }
  }

  // ------------------------------------------------------------ ads inside a page

  /** One rendered cell of a page: a listed item, or the rotating ad slot
      with the rotation index it asks for. */
  datatype Cell<T> = Item(x: T) | RotatingAd(index: int)

  /** What item i of a page renders: the item, then an ad when i + 1 is a
      multiple of 4, asking for rotation index ⌊i / 4⌋. */
  function CellsOf<T>(s: seq<T>, i: nat): seq<Cell<T>>
    requires i < |s|
  {
    [Item(s[i])] + (if (i + 1) % 4 == 0 then [RotatingAd(i / 4)] else [])
  }

  /** The cells of the first n items of a page. */
  function WithRotatingAds<T>(s: seq<T>, n: nat): seq<Cell<T>>
    requires n <= |s|
  {
    if n == 0 then [] else WithRotatingAds(s, n - 1) + CellsOf(s, n - 1)
  }

  /** Each step adds the item's cell, and an ad cell after every fourth item. */
  lemma RotatingAdsStep<T>(s: seq<T>, n: nat)
    requires 0 < n <= |s|
    ensures var m := n - 1;
            var p := WithRotatingAds(s, m);
            && WithRotatingAds(s, n) == p + CellsOf(s, m)
            && (m % 4 == 3 ==> CellsOf(s, m) == [Item(s[m]), RotatingAd(m / 4)] && n / 4 == m / 4 + 1)
            && (m % 4 != 3 ==> CellsOf(s, m) == [Item(s[m])] && n / 4 == m / 4)
  {
    QuarterStep(n - 1);
  }

  /** Counting one more item moves the quarter on exactly after a fourth item. */
  lemma QuarterStep(m: nat)
    ensures m % 4 == 3 ==> (m + 1) % 4 == 0 && (m + 1) / 4 == m / 4 + 1
    ensures m % 4 != 3 ==> (m + 1) % 4 != 0 && (m + 1) / 4 == m / 4
  {
    if m % 4 == 3 {
      Arith.DivModUnique(m + 1, m / 4 + 1, 0, 4);
    } else {
      Arith.DivModUnique(m + 1, m / 4, m % 4 + 1, 4);
    }
  }

  /** Item k sits at position k + ⌊k / 4⌋, and the page has n + ⌊n / 4⌋ cells. */
  lemma {:induction false} RotatingAdsItems<T>(s: seq<T>, n: nat)
    requires n <= |s|
    ensures |WithRotatingAds(s, n)| == n + n / 4
    ensures forall k :: 0 <= k < n ==> WithRotatingAds(s, n)[k + k / 4] == Item(s[k])
  {
    if n > 0 {
      RotatingAdsItems(s, n - 1);
      RotatingAdsStep(s, n);
      var r := WithRotatingAds(s, n);
      var p := WithRotatingAds(s, n - 1);
      forall k | 0 <= k < n ensures r[k + k / 4] == Item(s[k]) {
        if k < n - 1 {
          assert r[k + k / 4] == p[k + k / 4];
        }
      }
    }
  }

  /** After every fourth item comes an ad, asking for rotation index
      ⌊k / 4⌋ after item k: 0, 1, 2, … in order. */
  lemma {:induction false} RotatingAdsPlaces<T>(s: seq<T>, n: nat)
    requires n <= |s|
    ensures |WithRotatingAds(s, n)| == n + n / 4
    ensures forall k :: 0 <= k < n && (k + 1) % 4 == 0 ==>
              k + k / 4 + 1 < |WithRotatingAds(s, n)| && WithRotatingAds(s, n)[k + k / 4 + 1] == RotatingAd(k / 4)
  {
    if n > 0 {
      var m := n - 1;
      RotatingAdsPlaces(s, m);
      RotatingAdsStep(s, n);
      var p := WithRotatingAds(s, m);
      var r := WithRotatingAds(s, n);
      forall k | 0 <= k < n && (k + 1) % 4 == 0
        ensures k + k / 4 + 1 < |r| && r[k + k / 4 + 1] == RotatingAd(k / 4)
      {
        var i := k + k / 4 + 1;
        if k < m {
          assert i < |p|;
          assert r[i] == p[i];
        } else {
          assert i == |p| + 1;
          assert r[i] == CellsOf(s, m)[1];
        }
      }
    }
  }

  /** Any other item is followed by the next item: no ad is placed there. */
  lemma NoAdAfterOtherItems<T>(s: seq<T>, n: nat, k: int)
    requires n <= |s| && 0 <= k < n - 1 && (k + 1) % 4 != 0
    ensures k + k / 4 + 1 < |WithRotatingAds(s, n)| && WithRotatingAds(s, n)[k + k / 4 + 1] == Item(s[k + 1])
  {
    RotatingAdsItems(s, n);
    assert (k + 1) / 4 == k / 4;
  }
}

=== FILE: phone.dfy ===
/** Sri Lankan phone numbers: the sign-up form's validation and check order,
    and the contact links of an ad's page (WhatsApp and Viber numbers). */
module Phone {
  import opened Text
  import opened Lists

  /** The class `[\s\-()]` that both pages strip. */
  predicate IsSeparator(c: char)
  {
    IsSpace(c) || c == '-' || c == '(' || c == ')'
  }

  /** A character the cleaning keeps. */
  predicate Kept(c: char)
  {
    !IsSeparator(c)
  }

  /** `phone.replace(/[\s\-()]/g, "")`: exactly the characters of `p` that
      are not separators, in their order. */
  function Clean(p: string): (r: string)
    ensures forall i :: 0 <= i < |r| ==> !IsSeparator(r[i])
    ensures KeepsExactly(r, p, Kept)
  {
    RemoveKeeps(p);
    FilterKeepsExactly(p, Kept);
    Remove(p, IsSeparator)
  }

  /** Dropping the separators is filtering for the kept characters. */
  lemma {:induction false} RemoveKeeps(s: string)
    ensures Remove(s, IsSeparator) == Filter(s, Kept)
  {
    if |s| > 0 {
      RemoveKeeps(s[1..]);
    }
  }

  /** `/^07[0-9]{8}$/` */
  predicate LocalForm(s: string)
  {
    |s| == 10 && s[..2] == "07" && AllDigits(s[2..])
  }

  /** `/^\+947[0-9]{8}$/` */
  predicate PlusForm(s: string)
  {
    |s| == 12 && s[..4] == "+947" && AllDigits(s[4..])
  }

  /** `/^947[0-9]{8}$/` */
  predicate IntlForm(s: string)
  {
    |s| == 11 && s[..3] == "947" && AllDigits(s[3..])
  }

  const PhoneError: string := "Enter a valid Sri Lankan number (e.g. 0771234567 or +94771234567)"

  datatype Validation = Valid | Invalid(error: string)

  /** `validateSLPhone`: the three accepted shapes, tried on the cleaned
      number; every rejection carries the same message. */
  function ValidateSLPhone(p: string): (r: Validation)
    ensures r.Invalid? ==> r.error == PhoneError
  {
    var c := Clean(p);
    if LocalForm(c) || PlusForm(c) || IntlForm(c) then Valid else Invalid(PhoneError)
  }

  /** A number passes exactly when its cleaned form has 10, 11 or 12
      characters: "07", "947" or "+947", then 8 digits. So apart from a
      leading '+', an accepted number is all digits. */
  lemma AcceptedShape(p: string)
    ensures ValidateSLPhone(p).Valid? <==>
              var c := Clean(p);
              || (|c| == 10 && c[0] == '0' && c[1] == '7' && AllDigits(c[2..]))
              || (|c| == 11 && c[0] == '9' && c[1] == '4' && c[2] == '7' && AllDigits(c[3..]))
              || (|c| == 12 && c[0] == '+' && c[1] == '9' && c[2] == '4' && c[3] == '7' && AllDigits(c[4..]))
    ensures ValidateSLPhone(p).Valid? ==>
              var c := Clean(p);
              (AllDigits(c) || (c[0] == '+' && AllDigits(c[1..])))
  {
    var c := Clean(p);
    if |c| == 10 && c[0] == '0' && c[1] == '7' {
      assert c[..2] == "07";
    }
    if |c| == 11 && c[0] == '9' && c[1] == '4' && c[2] == '7' {
      assert c[..3] == "947";
    }
    if |c| == 12 && c[0] == '+' && c[1] == '9' && c[2] == '4' && c[3] == '7' {
      assert c[..4] == "+947";
    }
    if ValidateSLPhone(p).Valid? {
      if LocalForm(c) || IntlForm(c) {
        assert forall i :: 0 <= i < |c| ==> IsDigit(c[i]) by {
          forall i | 0 <= i < |c| ensures IsDigit(c[i]) {
            if LocalForm(c) {
              if i >= 2 { assert c[i] == c[2..][i - 2]; } else { assert c[i] == c[..2][i]; }
            } else {
              if i >= 3 { assert c[i] == c[3..][i - 3]; } else { assert c[i] == c[..3][i]; }
            }
          }
        }
      } else {
        assert c[0] == c[..4][0];
        forall i | 1 <= i < |c| ensures IsDigit(c[i]) {
          if i >= 4 { assert c[i] == c[4..][i - 4]; } else { assert c[i] == c[..4][i]; }
        }
        assert forall i :: 0 <= i < |c[1..]| ==> c[1..][i] == c[i + 1];
      }
    }
  }

  /** Cleaning twice changes nothing, so validating a cleaned number gives
      the same verdict. */
  lemma ValidateCleaned(p: string)
    ensures Clean(Clean(p)) == Clean(p)
    ensures ValidateSLPhone(Clean(p)) == ValidateSLPhone(p)
  {
    RemoveIdempotent(p, IsSeparator);
  }

  /** Separators typed anywhere in a number do not change the verdict. */
  lemma SeparatorsIgnored(a: string, sep: string, b: string)
    requires forall i :: 0 <= i < |sep| ==> IsSeparator(sep[i])
    ensures Clean(a + sep + b) == Clean(a + b)
    ensures ValidateSLPhone(a + sep + b) == ValidateSLPhone(a + b)
  {
    RemoveAllDropped(sep);
    RemoveAppend(a, sep, IsSeparator);
    assert Remove(a + sep, IsSeparator) == Remove(a, IsSeparator);
    RemoveAppend(a + sep, b, IsSeparator);
    RemoveAppend(a, b, IsSeparator);
  }

  lemma {:induction false} RemoveAllDropped(sep: string)
    requires forall i :: 0 <= i < |sep| ==> IsSeparator(sep[i])
    ensures Remove(sep, IsSeparator) == []
  {
    if |sep| > 0 {
      RemoveAllDropped(sep[1..]);
    }
  }

  /** What the sign-up form does on submit: show an error, show the phone
      error, or call `register` with the trimmed username and cleaned phone. */
  datatype FormResult = FormError(error: string) | PhoneRejected(error: string)
                      | Submit(username: string, phone: string, password: string)

  const FillAll: string := "Please fill in all fields."
  const ShortUsername: string := "Username must be at least 3 characters."
  const ShortPassword: string := "Password must be at least 6 characters."
  const Mismatch: string := "Passwords do not match."

  /** `handleRegister` of the sign-up dialog: blank fields, then a short
      trimmed username, then the phone, then a short raw password, then a
      confirmation that differs. Lengths are `.length`, in UTF-16 units. */
  function HandleRegister(username: string, phone: string, password: string, confirm: string): (r: FormResult)
    ensures var blank := Trim(username) == [] || Trim(phone) == [] || Trim(password) == [] || Trim(confirm) == [];
            var named := !blank && JsLength(Trim(username)) >= 3;
            var phoned := named && ValidateSLPhone(phone).Valid?;
            && (blank ==> r == FormError(FillAll))
            && (!blank && JsLength(Trim(username)) < 3 ==> r == FormError(ShortUsername))
            && (named && ValidateSLPhone(phone).Invalid? ==> r == PhoneRejected(PhoneError))
            && (phoned && JsLength(password) < 6 ==> r == FormError(ShortPassword))
            && (phoned && JsLength(password) >= 6 && password != confirm ==> r == FormError(Mismatch))
            && (r.Submit? <==> phoned && JsLength(password) >= 6 && password == confirm)
            && (r.Submit? ==> r == Submit(Trim(username), Clean(phone), password))
  {
    if Trim(username) == [] || Trim(phone) == [] || Trim(password) == [] || Trim(confirm) == [] then FormError(FillAll)
    else if JsLength(Trim(username)) < 3 then FormError(ShortUsername)
    else if ValidateSLPhone(phone).Invalid? then PhoneRejected(ValidateSLPhone(phone).error)
    else if JsLength(password) < 6 then FormError(ShortPassword)
    else if password != confirm then FormError(Mismatch)
    else Submit(Trim(username), Clean(phone), password)
  }

  /** Every phone the form submits is already clean and passes validation. */
  lemma SubmittedPhoneIsValid(username: string, phone: string, password: string, confirm: string)
    requires HandleRegister(username, phone, password, confirm).Submit?
    ensures var s := HandleRegister(username, phone, password, confirm);
            Clean(s.phone) == s.phone && ValidateSLPhone(s.phone).Valid? && JsLength(s.username) >= 3
  {
    ValidateCleaned(phone);
  }

  /** `handleLogin`: blank fields are refused; otherwise `login` gets the
      trimmed username and the raw password. */
  function HandleLogin(username: string, password: string): (r: FormResult)
    ensures r.FormError? <==> Trim(username) == [] || Trim(password) == []
    ensures r.FormError? ==> r.error == FillAll
    ensures r.Submit? ==> r.username == Trim(username) && r.password == password
  {
    if Trim(username) == [] || Trim(password) == [] then FormError(FillAll)
    else Submit(Trim(username), "", password)
  }

  /** `ad.contact?.replace(/[\s\-()]/g, "") || ""` */
  function PhoneNumber(contact: Option<string>): string
  {
    if contact.Some? then Clean(contact.value) else ""
  }

  /** The WhatsApp number: a leading '+' dropped, else a leading '0'
      replaced by "94", else the number as it is. */
  function WaNumber(n: string): (r: string)
    ensures |n| > 0 && n[0] == '+' ==> "+" + r == n
    ensures |n| > 0 && n[0] == '0' ==> r == "94" + n[1..]
    ensures (|n| == 0 || (n[0] != '+' && n[0] != '0')) ==> r == n
  {
    if |n| > 0 && n[0] == '+' then n[1..]
    else if |n| > 0 && n[0] == '0' then "94" + n[1..]
    else n
  }

  /** The Viber link's number, as the page builds it separately. */
  function ViberNumber(n: string): string
  {
    if |n| > 0 && n[0] == '+' then n
    else "+" + (if |n| > 0 && n[0] == '0' then "94" + n[1..] else n)
  }

  /** The Viber number is always '+' and the WhatsApp number. */
  lemma ViberIsPlusWa(n: string)
    ensures ViberNumber(n) == "+" + WaNumber(n)
  {
  }

  /** For a contact the sign-up validation accepts, the WhatsApp number is
      "947" and 8 digits. */
  lemma ValidContactWaNumber(contact: string)
    requires ValidateSLPhone(contact).Valid?
    ensures var wa := WaNumber(PhoneNumber(Some(contact)));
            |wa| == 11 && wa[..3] == "947" && AllDigits(wa[3..])
  {
    var c := Clean(contact);
    var wa := WaNumber(c);
    if LocalForm(c) {
      assert c[0] == c[..2][0];
      assert wa == "94" + c[1..];
      assert wa[2] == c[1] == c[..2][1];
      assert wa[3..] == c[2..];
    } else if PlusForm(c) {
      assert c[0] == c[..4][0];
      assert wa == c[1..];
      assert wa[..3] == c[..4][1..];
      assert wa[3..] == c[4..];
    } else {
      assert c[0] == c[..3][0];
      assert wa == c;
    }
  }
}

=== FILE: profiles.dfy ===
/** The dating section's member store: one list of profiles under one key,
    seeded with 24 fixture members the first time it is read, and the
    logged-in member's session under a second key. Times are milliseconds
    since the epoch; `now` and the fixtures' load time `loadedAt` are
    parameters, and so are the values `Math.random()` gave. */
module Profiles {
  import opened Text
  import opened Lists
  import opened Storage
  import TimeLabels

  datatype Gender = Man | Woman | Couple

  datatype MaritalStatus = Single | Married | Divorced | Widowed | Separated | Complicated | MaritalUndisclosed

  datatype Orientation = Straight | Gay | Lesbian | Bisexual | OtherOrientation | OrientationUndisclosed

  /** `DatingProfile`. `password` is `None` for `undefined`; `createdAt` and
      `lastActive` are the instants the ISO strings name. `seeking` takes the
      same three values as `gender`. */
  datatype Profile = Profile(id: string, username: string, password: Option<string>, name: string,
                             age: int, gender: Gender, seeking: Gender, country: string, district: string,
                             aboutMe: string, interests: string, maritalStatus: MaritalStatus,
                             orientation: Orientation, profilePhoto: string, createdAt: int, lastActive: int)

  function IdOf(p: Profile): string { p.id }
  function UsernameOf(p: Profile): string { p.username }

  const DayMs: int := 86400000
  const MinuteMs: int := 60000

  /** `Math.floor(Math.random() * (max - min + 1)) + min`, with `u` the value
      `Math.random()` gave, taken as an exact real. */
  function RandomIn(lo: int, hi: int, u: real): (r: int)
    ensures lo <= hi && 0.0 <= u < 1.0 ==> lo <= r <= hi
  {
    var k := (u * (hi - lo + 1) as real).Floor;
    assert lo <= hi && 0.0 <= u < 1.0 ==> 0 <= k <= hi - lo by {
      if lo <= hi && 0.0 <= u < 1.0 {
        assert 0.0 <= u * (hi - lo + 1) as real < (hi - lo + 1) as real;
      }
    }
    k + lo
  }

  /** What the fixture list fixes about member `i`: everything but the copy
      of `aboutMe` and `interests`, and the day and minute ranges from which
      `randomCreatedAt` and `randomLastActive` draw. */
  datatype Seed = Seed(username: string, name: string, age: int, gender: Gender, seeking: Gender,
                       district: string, maritalStatus: MaritalStatus, orientation: Orientation,
                       minDays: int, maxDays: int, minMinutes: int, maxMinutes: int)

  /** `mockDatingProfiles`, in order: m1 first. */
  const Seeds: seq<Seed> := [
    Seed("sachini_c", "Sachini", 26, Woman, Man, "Colombo", Single, Straight, 30, 180, 1, 10),
    Seed("kasun_k", "Kasun", 29, Man, Woman, "Kandy", Single, Straight, 30, 180, 1, 5),
    Seed("nimali_g", "Nimali", 24, Woman, Man, "Galle", Single, Straight, 10, 90, 5, 30),
    Seed("dilan_n", "Dilan", 31, Man, Woman, "Gampaha", Divorced, Straight, 60, 200, 10, 60),
    Seed("ishara_co", "Ishara", 27, Man, Man, "Colombo", Single, Gay, 5, 60, 1, 15),
    Seed("chathu_m", "Chathurika", 25, Woman, Woman, "Matara", Single, Lesbian, 15, 120, 2, 20),
    Seed("nuwan_r", "Nuwan", 33, Man, Woman, "Kurunegala", Single, Straight, 30, 150, 15, 120),
    Seed("malini_j", "Malini", 28, Woman, Man, "Jaffna", Single, Straight, 20, 100, 3, 45),
    Seed("saman_b", "Saman", 34, Man, Woman, "Badulla", Married, Straight, 60, 250, 20, 200),
    Seed("tharushi_p", "Tharushi", 23, Woman, Man, "Colombo", Single, Straight, 3, 30, 1, 8),
    Seed("pradeep_a", "Pradeep", 30, Man, Man, "Colombo", Single, Gay, 20, 100, 5, 40),
    Seed("dilani_h", "Dilani", 30, Woman, Man, "Kalutara", Divorced, Straight, 40, 180, 8, 60),
    Seed("ravindu_w", "Ravindu", 26, Man, Woman, "Ratnapura", Single, Straight, 10, 70, 2, 25),
    Seed("sanduni_t", "Sanduni", 26, Woman, Woman, "Gampaha", Single, Lesbian, 10, 80, 3, 30),
    Seed("couple_cn", "Chamara & Nilmini", 33, Couple, Couple, "Colombo", Married, Bisexual, 30, 120, 10, 50),
    Seed("amal_col", "Amal", 28, Man, Woman, "Colombo", Single, Straight, 5, 40, 1, 12),
    Seed("hiruni_m", "Hiruni", 27, Woman, Man, "Matale", Single, Straight, 15, 90, 4, 35),
    Seed("janith_anp", "Janith", 31, Man, Woman, "Anuradhapura", Single, Straight, 40, 200, 30, 180),
    Seed("nethmi_k", "Nethmi", 24, Woman, Man, "Kandy", Single, Straight, 7, 50, 1, 20),
    Seed("couple_rk", "Ruwan & Kumari", 35, Couple, Woman, "Galle", Married, Bisexual, 60, 300, 5, 45),
    Seed("thilina_p", "Thilina", 29, Man, Woman, "Polonnaruwa", Single, Straight, 20, 130, 10, 80),
    Seed("kavisha_t", "Kavisha", 27, Woman, Man, "Trincomalee", Single, Straight, 10, 60, 2, 18),
    Seed("harsha_b", "Harsha", 32, Man, Man, "Kandy", Single, Gay, 30, 150, 8, 55),
    Seed("nadeeka_h", "Nadeeka", 30, Woman, Man, "Hambantota", Widowed, Straight, 50, 200, 15, 100)
  ]

  /** The English copy of a fixture member's `aboutMe` and `interests`. */
  datatype Blurb = Blurb(aboutMe: string, interests: string)

  /** Fixture member `i` (0-based): id "m1" … "m24", no password, no photo,
      from Sri Lanka. `rand(2 * i)` and `rand(2 * i + 1)` are the two
      `Math.random()` values its `createdAt` and `lastActive` consumed. */
  function Fixture(i: nat, loadedAt: int, blurb: Blurb, rand: int -> real): Profile
    requires i < |Seeds|
  {
    var s := Seeds[i];
    Profile("m" + NatToString(i + 1), s.username, None, s.name, s.age, s.gender, s.seeking,
            "Sri Lanka", s.district, blurb.aboutMe, blurb.interests, s.maritalStatus, s.orientation, "",
            loadedAt - RandomIn(s.minDays, s.maxDays, rand(2 * i)) * DayMs,
            loadedAt - RandomIn(s.minMinutes, s.maxMinutes, rand(2 * i + 1)) * MinuteMs)
  }

  function Mock(loadedAt: int, blurb: int -> Blurb, rand: int -> real): (r: seq<Profile>)
    ensures |r| == |Seeds|
    ensures forall i :: 0 <= i < |r| ==> r[i] == Fixture(i, loadedAt, blurb(i), rand)
  {
    seq(|Seeds|, i requires 0 <= i < |Seeds| => Fixture(i, loadedAt, blurb(i), rand))
  }

  /** "m" followed by distinct numbers gives distinct ids. */
  lemma NumberedIdsDiffer(a: nat, b: nat)
    requires a != b
    ensures "m" + NatToString(a) != "m" + NatToString(b)
  {
    var x, y := "m" + NatToString(a), "m" + NatToString(b);
    ParseIntOfNatToString(a);
    ParseIntOfNatToString(b);
    assert x[1..] == NatToString(a);
    assert y[1..] == NatToString(b);
  }

  /** The fixture usernames are pairwise different: m1 … m12 among themselves,
      m13 … m24 among themselves, and across the two halves. */
  lemma SeedUsernamesDistinct()
    ensures forall i, j :: 0 <= i < j < |Seeds| ==> Seeds[i].username != Seeds[j].username
  {
    FirstHalfDistinct();
    SecondHalfDistinct();
    HalvesDiffer();
  }

  lemma FirstHalfDistinct()
    ensures forall i, j :: 0 <= i < j < 12 ==> Seeds[i].username != Seeds[j].username
  {
  }

  lemma SecondHalfDistinct()
    ensures forall i, j :: 12 <= i < j < 24 ==> Seeds[i].username != Seeds[j].username
  {
  }

  lemma HalvesDiffer()
    ensures forall i, j :: 0 <= i < 12 <= j < 24 ==> Seeds[i].username != Seeds[j].username
  {
  }

  /** The fixture ids are "m1" … "m24", so pairwise different. */
  lemma MockIdsDistinct(loadedAt: int, blurb: int -> Blurb, rand: int -> real)
    ensures forall i :: 0 <= i < |Seeds| ==> Mock(loadedAt, blurb, rand)[i].id == "m" + NatToString(i + 1)
    ensures DistinctBy(Mock(loadedAt, blurb, rand), IdOf)
  {
    var m := Mock(loadedAt, blurb, rand);
    forall i, j | 0 <= i < j < |m| ensures m[i].id != m[j].id {
      NumberedIdsDiffer(i + 1, j + 1);
    }
  }

  /** The fixture usernames are pairwise different. */
  lemma MockUsernamesDistinct(loadedAt: int, blurb: int -> Blurb, rand: int -> real)
    ensures DistinctBy(Mock(loadedAt, blurb, rand), UsernameOf)
  {
    SeedUsernamesDistinct();
  }

  /** Every fixture member is an adult without a password. */
  lemma MockAdultsWithoutPassword(loadedAt: int, blurb: int -> Blurb, rand: int -> real)
    ensures forall i :: 0 <= i < |Seeds| ==>
              Mock(loadedAt, blurb, rand)[i].age >= 18 && Mock(loadedAt, blurb, rand)[i].password.None?
  {
  }

  /** When every `Math.random()` value lies in [0, 1), each fixture joined
      between its minimum and maximum number of days before load time, and
      was last active between its minimum and maximum number of minutes
      before it. */
  lemma MockTimesInRange(loadedAt: int, blurb: int -> Blurb, rand: int -> real, i: int)
    requires 0 <= i < |Seeds|
    requires forall k :: 0.0 <= rand(k) < 1.0
    ensures var p, s := Mock(loadedAt, blurb, rand)[i], Seeds[i];
            && loadedAt - s.maxDays * DayMs <= p.createdAt <= loadedAt - s.minDays * DayMs
            && loadedAt - s.maxMinutes * MinuteMs <= p.lastActive <= loadedAt - s.minMinutes * MinuteMs
  {
    var s := Seeds[i];
    assert s.minDays <= s.maxDays && s.minMinutes <= s.maxMinutes;
    var d := RandomIn(s.minDays, s.maxDays, rand(2 * i));
    var n := RandomIn(s.minMinutes, s.maxMinutes, rand(2 * i + 1));
    assert s.minDays * DayMs <= d * DayMs <= s.maxDays * DayMs;
    assert s.minMinutes * MinuteMs <= n * MinuteMs <= s.maxMinutes * MinuteMs;
  }

  /** `getDatingUsers`: seeded with the fixtures when the key is absent. */
  function Users(st: Stored<seq<Profile>>, mock: seq<Profile>): Step<seq<Profile>, seq<Profile>>
  {
    Seeded(st, mock)
  }

  /** `getDatingSession`: the stored profile, or nothing when the key is
      absent or unreadable. */
  function GetSession(st: Stored<Profile>): (r: Option<Profile>)
    ensures r.Some? <==> st.Value?
  {
    if st.Value? then Some(st.v) else None
  }

  /** `saveDatingSession`: store the profile, or remove the key for `null`. */
  function SaveSession(p: Option<Profile>): (st: Stored<Profile>)
    ensures p.None? ==> st.Absent?
  {
    if p.Some? then Value(p.value) else Absent
  }

  /** Reading the session back gives what was saved, `null` included. */
  lemma SessionRoundTrip(p: Option<Profile>)
    ensures GetSession(SaveSession(p)) == p
  {
  }

  /** A profile with its password dropped: `{ ...rest, password: undefined }`. */
  function Public(p: Profile): (r: Profile)
    ensures r.password.None?
    ensures r.(password := p.password) == p
  {
    p.(password := None)
  }

  /** `getAllPublicProfiles`: every member, in store order, without passwords. */
  function PublicProfiles(st: Stored<seq<Profile>>, mock: seq<Profile>): (r: seq<Profile>)
    ensures var us := Users(st, mock).value;
            && |r| == |us|
            && forall i :: 0 <= i < |r| ==> r[i].password.None? && r[i].(password := us[i].password) == us[i]
  {
    var us := Users(st, mock).value;
    seq(|us|, i requires 0 <= i < |us| => Public(us[i]))
  }

  /** `getProfileById`: the first member with `id`, without password. */
  function ProfileById(st: Stored<seq<Profile>>, mock: seq<Profile>, id: string): (r: Option<Profile>)
    ensures var us := Users(st, mock).value;
            && (r.None? <==> forall i :: 0 <= i < |us| ==> us[i].id != id)
            && (r.Some? ==> r.value.password.None? && r.value.id == id
                            && exists k :: 0 <= k < |us| && r.value == us[k].(password := None)
                                           && forall i :: 0 <= i < k ==> us[i].id != id)
  {
    var us := Users(st, mock).value;
    var k := IndexBy(us, IdOf, id);
    if k == -1 then None else Some(Public(us[k]))
  }

  /** `updateUserLastActive`: stamp `now` on the first member with `userId`
      and save; an unknown id writes nothing beyond the read's seeding. */
  function TouchLastActive(st: Stored<seq<Profile>>, mock: seq<Profile>, userId: string, now: int)
    : (stored: Stored<seq<Profile>>)
    ensures var us := Users(st, mock).value; var k := IndexBy(us, IdOf, userId);
            && (k < 0 ==> stored == Users(st, mock).stored)
            && (k >= 0 ==> stored.Value? && |stored.v| == |us|
                           && stored.v[k] == us[k].(lastActive := now)
                           && forall i :: 0 <= i < |us| && i != k ==> stored.v[i] == us[i])
  {
    var us := Users(st, mock).value;
    var k := IndexBy(us, IdOf, userId);
    if k == -1 then Users(st, mock).stored else Value(us[k := us[k].(lastActive := now)])
  }

  /** `formatLastActive`, read at `now`. */
  function FormatLastActive(lastActive: int, now: int): string
  {
    TimeLabels.LastActiveText(now - lastActive)
  }

  /** A member just stamped by `updateUserLastActive` shows as active 0 seconds ago. */
  lemma TouchedShowsActiveNow(st: Stored<seq<Profile>>, mock: seq<Profile>, userId: string, now: int)
    requires IndexBy(Users(st, mock).value, IdOf, userId) >= 0
    ensures var k := IndexBy(Users(st, mock).value, IdOf, userId);
            FormatLastActive(TouchLastActive(st, mock, userId, now).v[k].lastActive, now) == "Active 0s ago"
  {
    var k := IndexBy(Users(st, mock).value, IdOf, userId);
    assert TouchLastActive(st, mock, userId, now).v[k].lastActive == now;
    TimeLabels.ActiveJustNow();
  }
}

=== FILE: storage.dfy ===
/** Each store keeps one JSON document under one fixed local-storage key.
    What a store can find there after `getItem` and `JSON.parse`. */
module Storage {

  /** `Absent`: `getItem` gave `null` or the empty string (both falsy);
      `Corrupt`: `JSON.parse` threw, or the parsed value made the store's
      own code throw inside its `try`; `Value`: a well-formed document. */
  datatype Stored<T> = Absent | Corrupt | Value(v: T)

  /** `JSON.parse(getItem(key) || "[]")` inside `try { } catch { return [] }`:
      the list-backed stores without fixtures read this way. */
  function ListOrEmpty<T>(st: Stored<seq<T>>): seq<T>
  {
    if st.Value? then st.v else []
  }

  /** What a store operation returns, and what its key holds afterwards. */
  datatype Step<S, R> = Step(value: R, stored: Stored<S>)

  /** The read of a store with fixtures (`getAllStories`, `getDatingUsers`):
      an absent key is seeded with the fixtures, which are returned; an
      unreadable one yields the fixtures without a write. */
  function Seeded<T>(st: Stored<seq<T>>, fixtures: seq<T>): (r: Step<seq<T>, seq<T>>)
    ensures r.stored == (if st.Absent? then Value(fixtures) else st)
    ensures r.stored.Value? ==> r.value == r.stored.v
    ensures st.Corrupt? ==> r.value == fixtures
  {
    match st
    case Absent => Step(fixtures, Value(fixtures))
    case Corrupt => Step(fixtures, st)
    case Value(v) => Step(v, st)
  }
}

=== FILE: stories.dfy ===
/** The erotic-story section's store: one list under one key, seeded with six
    fixture stories the first time it is read. `now` and the fixtures' load
    time `loadedAt` are parameters. */
module Stories {
  import opened Text
  import opened Lists
  import opened Storage
  import TimeLabels

  /** What an author supplies: `Omit<Story, "id" | "createdTs" | "views" | "likes" | "time">`. */
  datatype StoryText = StoryText(title: string, author: string, excerpt: string, image: Option<string>,
                                 content: string, category: string)

  /** `Story` */
  datatype Story = Story(id: int, text: StoryText, views: int, likes: int, time: string, createdTs: int)

  function IdOf(s: Story): int { s.id }

  /** The slugs of `walkathaCategories`, in their order. */
  const CategorySlugs: seq<string> :=
    ["bdsm", "cuckold", "gay", "hot-wife", "lesbian", "massage", "other", "taboo", "teacher", "threesome"]

  /** The Sinhala title, excerpt and body of a fixture story: copy, not logic. */
  datatype Prose = Prose(title: string, excerpt: string, content: string)

  const HourMs: int := 3600000

  /** Fixture `i` (0-based) of `mockStories`: its author, counters, label,
      category and age in hours as the source lists them. */
  function Fixture(i: int, loadedAt: int, prose: Prose): Story
  {
    match i
    case 0 => Story(1, FixtureText(prose, "Anonymous", "taboo"), 1245, 89, "2h ago", loadedAt - 2 * HourMs)
    case 1 => Story(2, FixtureText(prose, "KandyGirl", "hot-wife"), 982, 67, "5h ago", loadedAt - 5 * HourMs)
    case 2 => Story(3, FixtureText(prose, "NightWriter", "teacher"), 2130, 156, "1d ago", loadedAt - 24 * HourMs)
    case 3 => Story(4, FixtureText(prose, "Anonymous", "massage"), 3420, 234, "2d ago", loadedAt - 48 * HourMs)
    case 4 => Story(5, FixtureText(prose, "ColomboLover", "cuckold"), 1876, 145, "3d ago", loadedAt - 72 * HourMs)
    case _ => Story(6, FixtureText(prose, "Anonymous", "threesome"), 1543, 98, "4d ago", loadedAt - 96 * HourMs)
  }

  /** A fixture's text: no image. */
  function FixtureText(prose: Prose, author: string, category: string): StoryText
  {
    StoryText(prose.title, author, prose.excerpt, None, prose.content, category)
  }

  /** `mockStories`, with `Date.now()` at load time as `loadedAt`. */
  function Mock(loadedAt: int, prose: int -> Prose): seq<Story>
  {
    seq(6, i => Fixture(i, loadedAt, prose(i)))
  }

  /** The fixtures are numbered 1 to 6, so their ids are unique. */
  lemma MockIds(loadedAt: int, prose: int -> Prose)
    ensures |Mock(loadedAt, prose)| == 6
    ensures forall i :: 0 <= i < 6 ==> Mock(loadedAt, prose)[i].id == i + 1
    ensures DistinctBy(Mock(loadedAt, prose), IdOf)
  {
    var m := Mock(loadedAt, prose);
    forall i | 0 <= i < 6 ensures m[i].id == i + 1 {
      assert m[i] == Fixture(i, loadedAt, prose(i));
    }
  }

  /** The fixtures are listed newest first, under listed categories, with
      non-negative counters. */
  lemma MockShape(loadedAt: int, prose: int -> Prose)
    ensures SortedDesc(Mock(loadedAt, prose), (s: Story) => s.createdTs)
    ensures forall i :: 0 <= i < |Mock(loadedAt, prose)| ==>
              Mock(loadedAt, prose)[i].text.category in CategorySlugs
              && Mock(loadedAt, prose)[i].views >= 0 && Mock(loadedAt, prose)[i].likes >= 0
  {
    var m := Mock(loadedAt, prose);
    forall i | 0 <= i < 6 ensures m[i].createdTs == loadedAt - HoursOld(i) * HourMs {
      assert m[i] == Fixture(i, loadedAt, prose(i));
    }
    forall i | 0 <= i < 6 ensures m[i].text.category in CategorySlugs && m[i].views >= 0 && m[i].likes >= 0 {
      assert m[i] == Fixture(i, loadedAt, prose(i));
    }
  }

  function HoursOld(i: int): int
  {
    if i == 0 then 2 else if i == 1 then 5 else 24 * (i - 1)
  }

  /** Each fixture's `time` is the label the ad-age rule gives its age at load
      time: the hand-written "2h ago" … "4d ago" agree with the hours subtracted. */
  lemma FixtureLabelMatchesAge(i: int, loadedAt: int, prose: Prose)
    requires 0 <= i < 6
    ensures var f := Fixture(i, loadedAt, prose);
            f.time == TimeLabels.Render(TimeLabels.AdAge(loadedAt - f.createdTs), "")
  {
    var f := Fixture(i, loadedAt, prose);
    if i < 2 {
      var h := if i == 0 then 2 else 5;
      assert f.time == [DigitChar(h)] + "h ago" && loadedAt - f.createdTs == h * HourMs;
      HoursLabel(h);
    } else {
      var d := i - 1;
      assert f.time == [DigitChar(d)] + "d ago" && loadedAt - f.createdTs == d * TimeLabels.DayMs;
      DaysLabel(d);
    }
  }

  lemma HoursLabel(n: int)
    requires 1 <= n < 10
    ensures TimeLabels.Render(TimeLabels.AdAge(n * HourMs), "") == [DigitChar(n)] + "h ago"
  {
    assert TimeLabels.AdAge(n * HourMs) == TimeLabels.Hours(n);
    assert NatToString(n) == [DigitChar(n)];
  }

  lemma DaysLabel(n: int)
    requires 1 <= n < 10
    ensures TimeLabels.Render(TimeLabels.AdAge(n * TimeLabels.DayMs), "") == [DigitChar(n)] + "d ago"
  {
    assert TimeLabels.AdAge(n * TimeLabels.DayMs) == TimeLabels.Days(n);
    assert NatToString(n) == [DigitChar(n)];
  }

  /** `getAllStories` */
  function All(st: Stored<seq<Story>>, mock: seq<Story>): Step<seq<Story>, seq<Story>>
  {
    Seeded(st, mock)
  }

  /** `getStoryById`: the first story with `id`. */
  function GetById(st: Stored<seq<Story>>, mock: seq<Story>, id: int): (r: Option<Story>)
    ensures var ss := All(st, mock).value;
            && (r.None? <==> forall i :: 0 <= i < |ss| ==> ss[i].id != id)
            && (r.Some? ==> exists i :: 0 <= i < |ss| && ss[i] == r.value && r.value.id == id
                                        && forall j :: 0 <= j < i ==> ss[j].id != id)
  {
    var ss := All(st, mock).value;
    var k := IndexBy(ss, IdOf, id);
    if k == -1 then None else Some(ss[k])
  }

  /** `reduce((max, s) => Math.max(max, s.id), acc)`, folded from the left. */
  function MaxIdFrom(acc: int, ss: seq<Story>): (m: int)
    decreases |ss|
    ensures m >= acc
    ensures forall i :: 0 <= i < |ss| ==> ss[i].id <= m
    ensures m == acc || exists i :: 0 <= i < |ss| && ss[i].id == m
  {
    if |ss| == 0 then acc
    else
      var m := MaxIdFrom(if ss[0].id > acc then ss[0].id else acc, ss[1..]);
      assert forall i :: 1 <= i < |ss| ==> ss[i] == ss[1..][i - 1];
      m
  }

  /** `addStory`: number the story one past the largest id (0 for none), stamp
      it as new, put it first and save. */
  function Add(st: Stored<seq<Story>>, mock: seq<Story>, t: StoryText, now: int): (r: Step<seq<Story>, Story>)
    ensures var ss := All(st, mock).value;
            && (forall i :: 0 <= i < |ss| ==> ss[i].id < r.value.id)
            && r.value.id >= 1
            && (r.value.id == 1 || exists i :: 0 <= i < |ss| && ss[i].id == r.value.id - 1)
            && r.value == Story(r.value.id, t, 0, 0, "Just now", now)
            && r.stored == Value([r.value] + ss)
  {
    var ss := All(st, mock).value;
    var s := Story(MaxIdFrom(0, ss) + 1, t, 0, 0, "Just now", now);
    Step(s, Value([s] + ss))
  }

  /** Adding keeps ids unique. */
  lemma AddKeepsIdsDistinct(st: Stored<seq<Story>>, mock: seq<Story>, t: StoryText, now: int)
    requires DistinctBy(All(st, mock).value, IdOf)
    ensures DistinctBy(Add(st, mock, t, now).stored.v, IdOf)
  {
    var ss := All(st, mock).value;
    var r := Add(st, mock, t, now).stored.v;
    forall i, j | 0 <= i < j < |r| ensures r[i].id != r[j].id {
      assert r[j] == ss[j - 1];
      if i > 0 {
        assert r[i] == ss[i - 1];
      }
    }
  }

  /** `Partial<Omit<Story, "id">>`: each present field replaces the story's. */
  datatype StoryPatch = StoryPatch(title: Option<string>, author: Option<string>, views: Option<int>,
                                   likes: Option<int>, time: Option<string>, excerpt: Option<string>,
                                   image: Option<Option<string>>, content: Option<string>,
                                   category: Option<string>, createdTs: Option<int>)

  /** `{ ...story, ...updates }` */
  function Merge(s: Story, u: StoryPatch): (r: Story)
    ensures r.id == s.id
    ensures u == StoryPatch(None, None, None, None, None, None, None, None, None, None) ==> r == s
    ensures Patched(u.title, s.text.title, r.text.title) && Patched(u.author, s.text.author, r.text.author)
    ensures Patched(u.excerpt, s.text.excerpt, r.text.excerpt) && Patched(u.image, s.text.image, r.text.image)
    ensures Patched(u.content, s.text.content, r.text.content) && Patched(u.category, s.text.category, r.text.category)
    ensures Patched(u.views, s.views, r.views) && Patched(u.likes, s.likes, r.likes)
    ensures Patched(u.time, s.time, r.time) && Patched(u.createdTs, s.createdTs, r.createdTs)
  {
    var t := s.text;
    Story(s.id,
          StoryText(u.title.GetOr(t.title), u.author.GetOr(t.author), u.excerpt.GetOr(t.excerpt),
                    u.image.GetOr(t.image), u.content.GetOr(t.content), u.category.GetOr(t.category)),
          u.views.GetOr(s.views), u.likes.GetOr(s.likes), u.time.GetOr(s.time), u.createdTs.GetOr(s.createdTs))
  }

  /** `updateStory`: merge into the first story with `id` and save; false when
      there is none, with only the seeding write of the read. */
  function Update(st: Stored<seq<Story>>, mock: seq<Story>, id: int, u: StoryPatch): (r: Step<seq<Story>, bool>)
    ensures var ss := All(st, mock).value; var k := IndexBy(ss, IdOf, id);
            && (r.value <==> k >= 0)
            && (!r.value ==> r.stored == All(st, mock).stored)
            && (r.value ==> r.stored.Value? && |r.stored.v| == |ss|
                            && r.stored.v[k] == Merge(ss[k], u)
                            && forall i :: 0 <= i < |ss| && i != k ==> r.stored.v[i] == ss[i])
  {
    var ss := All(st, mock).value;
    var k := IndexBy(ss, IdOf, id);
    if k == -1 then Step(false, All(st, mock).stored) else Step(true, Value(ss[k := Merge(ss[k], u)]))
  }

  /** Updating never changes an id, so ids stay unique. */
  lemma UpdateKeepsIdsDistinct(st: Stored<seq<Story>>, mock: seq<Story>, id: int, u: StoryPatch)
    requires DistinctBy(All(st, mock).value, IdOf)
    ensures Update(st, mock, id, u).stored.Value? ==> DistinctBy(Update(st, mock, id, u).stored.v, IdOf)
  {
  }

  /** `deleteStory`: drop every story with `id`; false when none had it, with
      only the seeding write of the read. */
  function Delete(st: Stored<seq<Story>>, mock: seq<Story>, id: int): (r: Step<seq<Story>, bool>)
    ensures var ss := All(st, mock).value;
            && (r.value <==> exists i | 0 <= i < |ss| :: ss[i].id == id)
            && (!r.value ==> r.stored == All(st, mock).stored)
            && (r.value ==> r.stored.Value? && KeepsExactly(r.stored.v, ss, (s: Story) => s.id != id))
  {
    var ss := All(st, mock).value;
    var kept := Filter(ss, (s: Story) => s.id != id);
    FilterKeepsExactly(ss, (s: Story) => s.id != id);
    if |kept| == |ss| then Step(false, All(st, mock).stored) else Step(true, Value(kept))
  }

  /** Deleting keeps ids unique. */
  lemma DeleteKeepsIdsDistinct(st: Stored<seq<Story>>, mock: seq<Story>, id: int)
    requires DistinctBy(All(st, mock).value, IdOf)
    ensures Delete(st, mock, id).stored.Value? ==> DistinctBy(Delete(st, mock, id).stored.v, IdOf)
  {
    FilterDistinctBy(All(st, mock).value, (s: Story) => s.id != id, IdOf);
  }

  /** `resetStories`: the key holds the fixtures again. */
  function Reset(mock: seq<Story>): (stored: Stored<seq<Story>>)
    ensures All(stored, mock).value == mock
  {
    Value(mock)
  }
}

=== FILE: storyviews.dfy ===
/** The story section's pages: the list with its search, category and sort,
    pages of 20, and one story's page with its paragraphs, the ad slots set
    between them and the like button. */
module StoryViews {
  import opened Text
  import opened Lists
  import Paging
  import Stories
  import Arith

  type Story = Stories.Story

  const StoriesPerPage: nat := 20

  // ---------------------------------------------------------------- the list

  datatype StorySort = Newest | Popular

  /** The applied search text, category slug ("all" for any) and sort. */
  datatype StoryQuery = StoryQuery(search: string, category: string, sort: StorySort)

  /** The search: applied when the trimmed text is not blank, it looks for
      the lower-cased text, untrimmed, in the title, the excerpt or the body. */
  predicate StoryMatches(s: Story, q: StoryQuery)
  {
    var needle := ToLower(q.search);
    && (Trim(q.search) == [] || Search(ToLower(s.text.title), needle) || Search(ToLower(s.text.excerpt), needle)
                             || Search(ToLower(s.text.content), needle))
    && (q.category == "all" || s.text.category == q.category)
  }

  /** The number the sort puts in non-increasing order: the creation time,
      or likes plus views. */
  function StoryKey(sort: StorySort, s: Story): int
  {
    match sort
    case Newest => s.createdTs
    case Popular => s.likes + s.views
  }

  /** `filteredStories` */
  function FilteredStories(ss: seq<Story>, q: StoryQuery): (r: seq<Story>)
    ensures multiset(r) == multiset(Filter(ss, s => StoryMatches(s, q)))
    ensures forall i, j :: 0 <= i < j < |r| ==> StoryKey(q.sort, r[i]) >= StoryKey(q.sort, r[j])
  {
    var kept := Filter(ss, s => StoryMatches(s, q));
    var r := SortDesc(kept, s => StoryKey(q.sort, s));
    assert SortedDesc(r, s => StoryKey(q.sort, s));
    r
  }

  /** A story is listed exactly when it is stored and matches. */
  lemma FilteredStoriesMembers(ss: seq<Story>, q: StoryQuery, s: Story)
    ensures s in FilteredStories(ss, q) <==> s in ss && StoryMatches(s, q)
  {
    var r := FilteredStories(ss, q);
    assert s in r <==> s in multiset(r);
    assert s in Filter(ss, x => StoryMatches(x, q)) <==> s in multiset(Filter(ss, x => StoryMatches(x, q)));
  }

  /** The list holds as many likes and views as the stories it keeps:
      sorting loses and duplicates nothing. */
  lemma PopularKeepsTotals(ss: seq<Story>, q: StoryQuery)
    ensures Sum(FilteredStories(ss, q), s => StoryKey(Popular, s))
            == Sum(Filter(ss, s => StoryMatches(s, q)), s => StoryKey(Popular, s))
  {
    SortDescSum(Filter(ss, s => StoryMatches(s, q)), s => StoryKey(q.sort, s), s => StoryKey(Popular, s));
  }

  /** The stories page `page` shows. */
  function StoriesPage(ss: seq<Story>, q: StoryQuery, page: int): seq<Story>
  {
    Paging.PageOf(FilteredStories(ss, q), page, StoriesPerPage)
  }

  /** The page controls appear only when there are more than 20 stories. */
  predicate ShowsPageControls(n: nat)
  {
    n > StoriesPerPage
  }

  /** "Page x of `Math.ceil(n / 20)`", and Next is disabled from that page on. */
  function StoryPageCount(n: nat): (c: nat)
    ensures ShowsPageControls(n) ==> c == Paging.TotalPages(n, StoriesPerPage) && c >= 2
    ensures n == 0 ==> c == 0
  {
    if n > 0 then Paging.TotalPagesIsCeiling(n, StoriesPerPage); (n + StoriesPerPage - 1) / StoriesPerPage
    else 0
  }

  // ---------------------------------------------------------------- one story

  /** `content.split("\n\n")`, with `acc` the part read so far: each maximal
      stretch between two separators, read from the left. */
  function SplitFrom(s: string, acc: string): (r: seq<string>)
    ensures |r| >= 1
    decreases |s|
  {
    if |s| == 0 then [acc]
    else if |s| >= 2 && s[0] == '\n' && s[1] == '\n' then [acc] + SplitFrom(s[2..], "")
    else SplitFrom(s[1..], acc + [s[0]])
  }

  /** `parts.join("\n\n")` */
  function Join(parts: seq<string>): string
  {
    if |parts| == 0 then ""
    else if |parts| == 1 then parts[0]
    else parts[0] + "\n\n" + Join(parts[1..])
  }

  /** Joining the parts with the separator gives the text back. */
  lemma {:induction false} JoinSplitFrom(s: string, acc: string)
    ensures Join(SplitFrom(s, acc)) == acc + s
    decreases |s|
  {
    if |s| == 0 {
    } else if |s| >= 2 && s[0] == '\n' && s[1] == '\n' {
      JoinSplitFrom(s[2..], "");
      JoinAtSeparator(s, acc, SplitFrom(s[2..], ""));
    } else {
      JoinSplitFrom(s[1..], acc + [s[0]]);
      assert s == [s[0]] + s[1..];
    }
  }

  /** At a separator the part read so far is closed and the rest joins on. */
  lemma JoinAtSeparator(s: string, acc: string, rest: seq<string>)
    requires |s| >= 2 && s[0] == '\n' && s[1] == '\n'
    requires |rest| >= 1 && Join(rest) == "" + s[2..]
    ensures Join([acc] + rest) == acc + s
  {
    assert ([acc] + rest)[1..] == rest;
    assert s == "\n\n" + s[2..];
  }

  predicate NonEmpty(p: string)
  {
    p != ""
  }

  /** `content.split("\n\n").filter(Boolean)`: exactly the non-empty pieces
      of the split, in their order. */
  function Paragraphs(content: string): (r: seq<string>)
    ensures forall i :: 0 <= i < |r| ==> r[i] != ""
    ensures Subseq(r, SplitFrom(content, ""))
    ensures KeepsExactly(r, SplitFrom(content, ""), NonEmpty)
  {
    FilterKeepsExactly(SplitFrom(content, ""), NonEmpty);
    Filter(SplitFrom(content, ""), NonEmpty)
  }

  /** The separators lost, the paragraphs give back the whole text: joined
      with the separator, the split parts are the content again. */
  lemma SplitRoundTrip(content: string)
    ensures Join(SplitFrom(content, "")) == content
  {
    JoinSplitFrom(content, "");
    assert "" + content == content;
  }

  /** `Math.max(1, Math.floor(total * 0.25))` and its two siblings; the
      products are exact in double precision, so they are integer divisions. */
  function At25(total: nat): nat { Paging.Max(1, total / 4) }
  function At50(total: nat): nat { Paging.Max(2, total / 2) }
  function At75(total: nat): nat { Paging.Max(3, (3 * total) / 4) }

  /** What the story body shows: a paragraph or an ad slot. */
  datatype Block = Para(text: string) | Slot(key: string)

  const Slot1: string := "walkatha-story-content-1"
  const Slot2: string := "walkatha-story-content-2"
  const Slot3: string := "walkatha-story-content-3"
  const SlotEnd: string := "walkatha-story-content-4"

  /** The slots after paragraph `i` (0-based) of `total`. */
  function SlotsAfter(i: nat, total: nat): (r: seq<Block>)
    ensures forall k :: 0 <= k < |r| ==> r[k].Slot?
  {
    (if i + 1 == At25(total) then [Slot(Slot1)] else [])
    + (if i + 1 == At50(total) then [Slot(Slot2)] else [])
    + (if i + 1 == At75(total) then [Slot(Slot3)] else [])
  }

  /** Paragraphs `i` onwards with their slots. */
  function BodyFrom(ps: seq<string>, i: nat): seq<Block>
    requires i <= |ps|
    decreases |ps| - i
  {
    if i == |ps| then [] else [Para(ps[i])] + SlotsAfter(i, |ps|) + BodyFrom(ps, i + 1)
  }

  /** `StoryContentWithAds`: every paragraph with the slots due after it,
      then the slot at the end. */
  function StoryBody(content: string): seq<Block>
  {
    var ps := Paragraphs(content);
    BodyFrom(ps, 0) + [Slot(SlotEnd)]
  }

  /** The text a block shows: its paragraph, or none for a slot. */
  function TextOf(b: Block): seq<string>
  {
    if b.Para? then [b.text] else []
  }

  function TextsOf(bs: seq<Block>): seq<string>
  {
    if |bs| == 0 then [] else TextOf(bs[0]) + TextsOf(bs[1..])
  }

  lemma {:induction false} TextsOfAppend(a: seq<Block>, b: seq<Block>)
    ensures TextsOf(a + b) == TextsOf(a) + TextsOf(b)
  {
    if |a| == 0 {
      assert a + b == b;
    } else {
      assert (a + b)[0] == a[0];
      assert (a + b)[1..] == a[1..] + b;
      TextsOfAppend(a[1..], b);
      Paging.Assoc(TextOf(a[0]), TextsOf(a[1..]), TextsOf(b));
    }
  }

  lemma {:induction false} NoTexts(bs: seq<Block>)
    requires forall k :: 0 <= k < |bs| ==> bs[k].Slot?
    ensures TextsOf(bs) == []
  {
    if |bs| > 0 {
      NoTexts(bs[1..]);
    }
  }

  lemma {:induction false} TextsOfBodyFrom(ps: seq<string>, i: nat)
    requires i <= |ps|
    ensures TextsOf(BodyFrom(ps, i)) == ps[i..]
    decreases |ps| - i
  {
    if i < |ps| {
      TextsOfBodyFrom(ps, i + 1);
      BodyStepText(ps, i);
      assert ps[i..] == [ps[i]] + ps[i + 1..];
    }
  }

  /** One paragraph with its slots adds exactly that paragraph's text. */
  lemma BodyStepText(ps: seq<string>, i: nat)
    requires i < |ps|
    ensures TextsOf(BodyFrom(ps, i)) == [ps[i]] + TextsOf(BodyFrom(ps, i + 1))
  {
    var slots := SlotsAfter(i, |ps|);
    HeadText(ps[i], slots);
    TextsOfAppend([Para(ps[i])] + slots, BodyFrom(ps, i + 1));
  }

  /** A paragraph followed by ad slots shows just that paragraph. */
  lemma HeadText(p: string, slots: seq<Block>)
    requires forall k :: 0 <= k < |slots| ==> slots[k].Slot?
    ensures TextsOf([Para(p)] + slots) == [p]
  {
    NoTexts(slots);
    TextsOfAppend([Para(p)], slots);
    assert [Para(p)][1..] == [];
  }

  /** The body shows the paragraphs, all of them, in order, each once; the
      ad slots add no text. */
  lemma StoryBodyText(content: string)
    ensures TextsOf(StoryBody(content)) == Paragraphs(content)
  {
    var ps := Paragraphs(content);
    TextsOfBodyFrom(ps, 0);
    TextsOfAppend(BodyFrom(ps, 0), [Slot(SlotEnd)]);
    assert TextsOf([Slot(SlotEnd)]) == [];
    assert ps[0..] == ps;
  }

  lemma {:induction false} SlotInBodyFrom(ps: seq<string>, i: nat, key: string)
    requires i <= |ps|
    ensures Slot(key) in BodyFrom(ps, i) <==> exists j :: i <= j < |ps| && Slot(key) in SlotsAfter(j, |ps|)
    decreases |ps| - i
  {
    if i < |ps| {
      SlotInBodyFrom(ps, i + 1, key);
      var b := Slot(key);
      assert BodyFrom(ps, i) == [Para(ps[i])] + SlotsAfter(i, |ps|) + BodyFrom(ps, i + 1);
      assert b in BodyFrom(ps, i) <==> b in SlotsAfter(i, |ps|) || b in BodyFrom(ps, i + 1);
      if b in SlotsAfter(i, |ps|) {
        assert i <= i < |ps| && b in SlotsAfter(i, |ps|);
      }
    }
  }

  /** The slot at the end always shows. */
  lemma EndSlotShown(content: string)
    ensures Slot(SlotEnd) in StoryBody(content)
  {
    var body := StoryBody(content);
    assert body[|body| - 1] == Slot(SlotEnd);
  }

  /** An in-content slot shows exactly when the paragraph it follows exists. */
  lemma InContentSlot(content: string, key: string, at: nat)
    requires at >= 1
    requires key in {Slot1, Slot2, Slot3}
    requires key == Slot1 ==> at == At25(|Paragraphs(content)|)
    requires key == Slot2 ==> at == At50(|Paragraphs(content)|)
    requires key == Slot3 ==> at == At75(|Paragraphs(content)|)
    ensures Slot(key) in StoryBody(content) <==> at <= |Paragraphs(content)|
  {
    var ps := Paragraphs(content);
    assert StoryBody(content) == BodyFrom(ps, 0) + [Slot(SlotEnd)];
    assert Slot(key) in StoryBody(content) <==> Slot(key) in BodyFrom(ps, 0);
    SlotInBodyFrom(ps, 0, key);
    SlotShown(|ps|, at, key);
  }

  /** Where the ads fall: the first in-content slot shows once the story has a
      paragraph, the second from two paragraphs on, the third from three;
      the slot at the end always shows. */
  lemma StorySlotsShown(content: string)
    ensures var n := |Paragraphs(content)|;
            && Slot(SlotEnd) in StoryBody(content)
            && (Slot(Slot1) in StoryBody(content) <==> n >= 1)
            && (Slot(Slot2) in StoryBody(content) <==> n >= 2)
            && (Slot(Slot3) in StoryBody(content) <==> n >= 3)
  {
    var n := |Paragraphs(content)|;
    EndSlotShown(content);
    InContentSlot(content, Slot1, At25(n));
    InContentSlot(content, Slot2, At50(n));
    InContentSlot(content, Slot3, At75(n));
    assert n >= 3 ==> At75(n) <= n by {
      if n >= 3 {
        assert (3 * n) / 4 <= n;
      }
    }
  }

  /** Slot `key` placed after paragraph `at` shows exactly when the story reaches that paragraph. */
  lemma SlotShown(n: nat, at: nat, key: string)
    requires at >= 1
    requires key in {Slot1, Slot2, Slot3}
    requires key == Slot1 ==> at == At25(n)
    requires key == Slot2 ==> at == At50(n)
    requires key == Slot3 ==> at == At75(n)
    ensures (exists j :: 0 <= j < n && Slot(key) in SlotsAfter(j, n)) <==> at <= n
  {
    if at <= n {
      assert Slot(key) in SlotsAfter(at - 1, n);
    }
  }

  /** With four paragraphs or more, the three in-content slots fall after
      three different paragraphs, in their order. */
  lemma SlotsInOrder(total: nat)
    requires total >= 4
    ensures 1 <= At25(total) < At50(total) < At75(total) <= total
  {
    var q := total / 4;
    var r := total % 4;
    assert total == 4 * q + r;
    assert total / 2 == 2 * q + r / 2 by {
      Arith.DivModUnique(total, 2 * q + r / 2, r % 2, 2);
    }
    assert (3 * total) / 4 == 3 * q + (3 * r) / 4 by {
      Arith.DivModUnique(3 * total, 3 * q + (3 * r) / 4, (3 * r) % 4, 4);
    }
  }

  // ---------------------------------------------------------------- the like button

  /** The like button's local state: whether this visit liked the story, and
      the count shown. Nothing is saved. */
  datatype LikeState = LikeState(liked: bool, count: int)

  /** The state on opening a story: not liked, its stored likes (0 when the story is missing). */
  function OpenLikes(story: Option<Story>): (r: LikeState)
    ensures !r.liked && r.count == (if story.Some? then story.value.likes else 0)
  {
    LikeState(false, if story.Some? then story.value.likes else 0)
  }

  /** `handleLike` */
  function ToggleLike(s: LikeState): (r: LikeState)
    ensures r.liked == !s.liked
    ensures r.count - s.count == (if s.liked then -1 else 1)
  {
    if s.liked then LikeState(false, s.count - 1) else LikeState(true, s.count + 1)
  }

  /** Every state reached by pressing the button shows the stored likes plus
      one exactly while liked; pressing twice gives the state back. */
  lemma LikeCountTracksLiked(base: int, s: LikeState)
    requires s.count == base + (if s.liked then 1 else 0)
    ensures var t := ToggleLike(s); t.count == base + (if t.liked then 1 else 0)
    ensures ToggleLike(ToggleLike(s)) == s
  {
  }

}

=== FILE: text.dfy ===
/** String helpers with the semantics of the JavaScript built-ins the
    application calls: `trim`, `toLowerCase`, `includes`, the `\s` class,
    `parseInt` and decimal rendering of non-negative integers. */
module Text {

  /** Option, used wherever the source returns `undefined`, `null` or `NaN`. */
  datatype Option<+T> = None | Some(value: T)
  {
    /** `x ?? d`, and the spread `{ ...base, ...patch }` for one optional patch field. */
    function GetOr(d: T): T
    {
      if Some? then value else d
    }
  }

  /** A field after a spread of one optional patch field: the patch's value when
      it carries one, the old value otherwise. */
  predicate Patched<T(==)>(o: Option<T>, before: T, after: T)
  {
    && (o.Some? ==> after == o.value)
    && (o.None? ==> after == before)
  }

  /** ECMAScript WhiteSpace and LineTerminator code points: the set matched by
      `\s` and removed by `String.prototype.trim`. */
  predicate IsSpace(c: char)
  {
    c == '\t' || c == '\n' || c == '\U{B}' || c == '\U{C}' || c == '\r' || c == ' '
    || c == '\U{A0}' || c == '\U{1680}' || ('\U{2000}' <= c <= '\U{200A}')
    || c == '\U{2028}' || c == '\U{2029}' || c == '\U{202F}' || c == '\U{205F}'
    || c == '\U{3000}' || c == '\U{FEFF}'
  }

  predicate AllSpace(s: string)
  {
    forall i :: 0 <= i < |s| ==> IsSpace(s[i])
  }

  /** `s.trimStart()` */
  function TrimStart(s: string): (r: string)
    ensures |r| <= |s| && r == s[|s| - |r|..]
    ensures AllSpace(s[..|s| - |r|])
    ensures r == [] || !IsSpace(r[0])
  {
    if |s| > 0 && IsSpace(s[0]) then
      var r := TrimStart(s[1..]);
      TrimStartStep(s, r);
      r
    else s
  }

  /** A leading space cut off in front of what the tail's trim leaves. */
  lemma TrimStartStep(s: string, r: string)
    requires |s| > 0 && IsSpace(s[0])
    requires |r| <= |s| - 1 && r == s[1..][|s| - 1 - |r|..] && AllSpace(s[1..][..|s| - 1 - |r|])
    ensures r == s[|s| - |r|..] && AllSpace(s[..|s| - |r|])
  {
    assert s[..|s| - |r|] == [s[0]] + s[1..][..|s| - 1 - |r|];
    assert s[|s| - |r|..] == s[1..][|s| - 1 - |r|..];
  }

  /** `s.trimEnd()` */
  function TrimEnd(s: string): (r: string)
    ensures |r| <= |s| && r == s[..|r|]
    ensures AllSpace(s[|r|..])
    ensures r == [] || !IsSpace(r[|r| - 1])
  {
    if |s| > 0 && IsSpace(s[|s| - 1]) then
      var r := TrimEnd(s[..|s| - 1]);
      assert s[|r|..] == s[..|s| - 1][|r|..] + [s[|s| - 1]];
      r
    else s
  }

  /** `s.trim()` */
  function Trim(s: string): (r: string)
  {
    TrimEnd(TrimStart(s))
  }

  /** The trimmed string is a contiguous piece of the input with only
      white space cut off on either side, and it has no white space at its ends. */
  lemma {:induction false} TrimIsSlice(s: string)
    ensures exists i, j :: 0 <= i <= j <= |s| && Trim(s) == s[i..j]
                           && AllSpace(s[..i]) && AllSpace(s[j..])
    ensures Trim(s) == [] || (!IsSpace(Trim(s)[0]) && !IsSpace(Trim(s)[|Trim(s)| - 1]))
  {
    var t := TrimStart(s);
    var i := |s| - |t|;
    var r := TrimEnd(t);
    SliceOfSlice(s, i, |r|);
    assert 0 <= i <= i + |r| <= |s| && r == s[i..i + |r|] && AllSpace(s[..i]) && AllSpace(s[i + |r|..]);
    if r != [] {
      assert r[0] == t[0];
    }
  }

  /** Slicing a suffix again is slicing the original. */
  lemma SliceOfSlice<T>(s: seq<T>, i: nat, k: nat)
    requires i + k <= |s|
    ensures s[i..][..k] == s[i..i + k] && s[i..][k..] == s[i + k..]
  {
  }

  lemma {:induction false} TrimIdempotent(s: string)
    ensures Trim(Trim(s)) == Trim(s)
  {
    var r := Trim(s);
    TrimIsSlice(s);
    if r != [] {
      assert TrimStart(r) == r;
      assert TrimEnd(r) == r;
    }
  }

  /** A string is blank (falsy after `trim()`) exactly when every character is white space. */
  lemma {:induction false} BlankIffAllSpace(s: string)
    ensures Trim(s) == [] <==> AllSpace(s)
  {
    var t := TrimStart(s);
    if AllSpace(s) {
      if t != [] {
        assert t[0] == s[|s| - |t|];
      }
    } else {
      if Trim(s) == [] {
        assert AllSpace(s[|s| - |t|..]) by {
          assert s[|s| - |t|..] == t;
          assert AllSpace(t[|TrimEnd(t)|..]);
        }
        forall k | 0 <= k < |s| ensures IsSpace(s[k]) {
          if k < |s| - |t| {
            assert s[k] == s[..|s| - |t|][k];
          } else {
            assert s[k] == s[|s| - |t|..][k - (|s| - |t|)];
          }
        }
      }
    }
  }

  /** `String.prototype.toLowerCase`, restricted to the ASCII letters. */
  function LowerChar(c: char): (r: char)
  {
    if 'A' <= c <= 'Z' then (c as int + 32) as char else c
  }

  function ToLower(s: string): (r: string)
    ensures |r| == |s|
    ensures forall i :: 0 <= i < |s| ==> r[i] == LowerChar(s[i])
  {
    if |s| == 0 then [] else [LowerChar(s[0])] + ToLower(s[1..])
  }

  lemma ToLowerIdempotent(s: string)
    ensures ToLower(ToLower(s)) == ToLower(s)
  {
  }

  /** Case-insensitive equality as the stores write it: `a.toLowerCase() === b.toLowerCase()`. */
  predicate SameIgnoringCase(a: string, b: string)
  {
    ToLower(a) == ToLower(b)
  }

  /** `needle` occurs in `hay` starting at position `i`. */
  predicate OccursAt(hay: string, needle: string, i: int)
  {
    0 <= i && i + |needle| <= |hay| && hay[i..i + |needle|] == needle
  }

  /** `hay.includes(needle)` */
  predicate Contains(hay: string, needle: string)
  {
    exists i | 0 <= i <= |hay| - |needle| :: OccursAt(hay, needle, i)
  }

  /** A direct, position-by-position search used to compute `Contains`. */
  function Search(hay: string, needle: string): (r: bool)
    ensures r <==> Contains(hay, needle)
    decreases |hay|
  {
    if needle <= hay then
      assert OccursAt(hay, needle, 0);
      true
    else if |hay| <= |needle| then
      false
    else
      ContainsStep(hay, needle);
      Search(hay[1..], needle)
  }

  /** When `needle` is not at the front of `hay`, it occurs in `hay` exactly
      when it occurs in `hay` without its first character. */
  lemma {:induction false} ContainsStep(hay: string, needle: string)
    requires !(needle <= hay) && |hay| > |needle|
    ensures Contains(hay, needle) <==> Contains(hay[1..], needle)
  {
    if Contains(hay[1..], needle) {
      var i :| 0 <= i <= |hay[1..]| - |needle| && OccursAt(hay[1..], needle, i);
      SliceOfTail(hay, i, i + |needle|);
      assert OccursAt(hay, needle, i + 1);
    }
    if Contains(hay, needle) {
      var i :| 0 <= i <= |hay| - |needle| && OccursAt(hay, needle, i);
      if i != 0 {
        SliceOfTail(hay, i - 1, i - 1 + |needle|);
        assert OccursAt(hay[1..], needle, i - 1);
      }
    }
  }

  lemma {:induction false} SliceOfTail(s: string, i: int, j: int)
    requires |s| > 0 && 0 <= i <= j <= |s| - 1
    ensures s[1..][i..j] == s[i + 1..j + 1]
  {
  }

  lemma {:induction false} EmptyIsContained(hay: string)
    ensures Contains(hay, "")
  {
    assert OccursAt(hay, "", 0);
  }

  /** `s.replace(/[...]/g, "")`: drop every character of the class. */
  function Remove(s: string, drop: char -> bool): (r: string)
    ensures |r| <= |s|
    ensures forall i :: 0 <= i < |r| ==> !drop(r[i])
    ensures forall c :: c in r ==> c in s
  {
    if |s| == 0 then []
    else if drop(s[0]) then Remove(s[1..], drop)
    else [s[0]] + Remove(s[1..], drop)
  }

  lemma {:induction false} RemoveIdempotent(s: string, drop: char -> bool)
    ensures Remove(Remove(s, drop), drop) == Remove(s, drop)
  {
    if |s| > 0 {
      RemoveIdempotent(s[1..], drop);
      if !drop(s[0]) {
        assert ([s[0]] + Remove(s[1..], drop))[1..] == Remove(s[1..], drop);
      }
    }
  }

  /** Removing dropped characters commutes with concatenation, so a separator
      inserted anywhere disappears. */
  lemma {:induction false} RemoveAppend(a: string, b: string, drop: char -> bool)
    ensures Remove(a + b, drop) == Remove(a, drop) + Remove(b, drop)
  {
    if |a| > 0 {
      assert (a + b)[1..] == a[1..] + b;
      RemoveAppend(a[1..], b, drop);
    } else {
      assert a + b == b;
    }
  }

  // ---------------------------------------------------------------- UTF-16 lengths

  /** The UTF-16 code units one code point takes: a surrogate pair above U+FFFF. */
  function Units(c: char): (n: nat)
    ensures n == 1 || n == 2
  {
    if c as int > 0xFFFF then 2 else 1
  }

  /** Every code point of `s` lies in the Basic Multilingual Plane. */
  predicate InBmp(s: string)
  {
    forall i :: 0 <= i < |s| ==> s[i] as int <= 0xFFFF
  }

  /** `s.length`: JavaScript counts UTF-16 code units, not code points. */
  function JsLength(s: string): (n: nat)
    ensures |s| <= n <= 2 * |s|
  {
    if |s| == 0 then 0 else Units(s[0]) + JsLength(s[1..])
  }

  /** `.length` equals the number of code points exactly when no code point
      needs a surrogate pair. */
  lemma {:induction false} JsLengthOfBmp(s: string)
    ensures JsLength(s) == |s| <==> InBmp(s)
  {
    if |s| > 0 {
      JsLengthOfBmp(s[1..]);
      assert InBmp(s) <==> s[0] as int <= 0xFFFF && InBmp(s[1..]) by {
        assert forall i :: 1 <= i < |s| ==> s[i] == s[1..][i - 1];
      }
    }
  }

  lemma {:induction false} JsLengthAppend(a: string, b: string)
    ensures JsLength(a + b) == JsLength(a) + JsLength(b)
  {
    if |a| > 0 {
      JsLengthAppend(a[1..], b);
      assert (a + b)[1..] == a[1..] + b;
    } else {
      assert a + b == b;
    }
  }

  /** `s.slice(0, n)` in whole code points: code points are taken from the
      front while they still fit in `n` UTF-16 units. */
  function JsPrefix(s: string, n: nat): string
  {
    if |s| == 0 || Units(s[0]) > n then []
    else [s[0]] + JsPrefix(s[1..], n - Units(s[0]))
  }

  /** `JsPrefix(s, n)` is the longest prefix of `s` whose UTF-16 length is at
      most `n`. */
  lemma {:induction false} JsPrefixFits(s: string, n: nat)
    ensures JsPrefix(s, n) <= s
    ensures JsLength(JsPrefix(s, n)) <= n
    ensures JsLength(s) <= n ==> JsPrefix(s, n) == s
    ensures var r := JsPrefix(s, n); |r| < |s| ==> JsLength(r) + Units(s[|r|]) > n
  {
    if |s| > 0 && Units(s[0]) <= n {
      var rest := JsPrefix(s[1..], n - Units(s[0]));
      JsPrefixFits(s[1..], n - Units(s[0]));
      assert ([s[0]] + rest)[1..] == rest;
    }
  }

  /** Without surrogate pairs the prefix is the plain slice `s[..n]`. */
  lemma {:induction false} JsPrefixOfBmp(s: string, n: nat)
    requires InBmp(s)
    ensures JsPrefix(s, n) == s[..if n < |s| then n else |s|]
  {
    if |s| == 0 || n == 0 {
      assert JsPrefix(s, n) == [];
    } else {
      BmpStep(s, n);
      JsPrefixOfBmp(s[1..], n - 1);
      BmpPrefixStep(s, n);
    }
  }

  /** The inductive step of `JsPrefixOfBmp`. */
  lemma BmpPrefixStep(s: string, n: nat)
    requires |s| > 0 && n > 0
    requires JsPrefix(s, n) == [s[0]] + JsPrefix(s[1..], n - 1)
    requires JsPrefix(s[1..], n - 1) == s[1..][..if n - 1 < |s[1..]| then n - 1 else |s[1..]|]
    ensures JsPrefix(s, n) == s[..if n < |s| then n else |s|]
  {
    var k := if n < |s| then n else |s|;
    assert s[..k] == [s[0]] + s[1..][..k - 1];
  }

  /** One code point of the Basic Multilingual Plane taken off the front. */
  lemma {:induction false} BmpStep(s: string, n: nat)
    requires InBmp(s) && |s| > 0 && n > 0
    ensures InBmp(s[1..])
    ensures JsPrefix(s, n) == [s[0]] + JsPrefix(s[1..], n - 1)
  {
    assert Units(s[0]) == 1;
    assert forall i :: 0 <= i < |s| - 1 ==> s[1..][i] == s[i + 1];
  }

  // ---------------------------------------------------------------- digits

  predicate IsDigit(c: char)
  {
    '0' <= c <= '9'
  }

  predicate AllDigits(s: string)
  {
    forall i :: 0 <= i < |s| ==> IsDigit(s[i])
  }

  function DigitChar(d: nat): (c: char)
    requires d < 10
    ensures IsDigit(c)
  {
    ('0' as int + d) as char
  }

  function DigitValue(c: char): nat
    requires IsDigit(c)
  {
    c as int - '0' as int
  }

  /** Decimal value of a string of digits. */
  function DigitsValue(s: string): nat
    requires AllDigits(s)
  {
    if |s| == 0 then 0 else DigitsValue(s[..|s| - 1]) * 10 + DigitValue(s[|s| - 1])
  }

  /** Template-literal rendering of a non-negative integer: `${n}`. */
  function NatToString(n: nat): (r: string)
    ensures |r| > 0 && AllDigits(r)
    ensures |r| > 1 ==> r[0] != '0'
    ensures DigitsValue(r) == n
  {
    if n < 10 then [DigitChar(n)]
    else
      var r := NatToString(n / 10) + [DigitChar(n % 10)];
      assert r[..|r| - 1] == NatToString(n / 10);
      r
  }

  /** Template-literal rendering of any integer: `${i}`. */
  function IntToString(i: int): (r: string)
    ensures |r| > 0 && !IsSpace(r[0])
    ensures i >= 0 ==> r == NatToString(i)
    ensures i < 0 ==> r == "-" + NatToString(-i)
  {
    if i < 0 then "-" + NatToString(-i) else NatToString(i)
  }

  /** A string that starts with a visible character is not blank. */
  lemma {:induction false} NotBlank(s: string)
    requires |s| > 0 && !IsSpace(s[0])
    ensures Trim(s) != []
  {
    BlankIffAllSpace(s);
  }

  /** The longest prefix of decimal digits. */
  function DigitRun(s: string): (r: string)
    ensures AllDigits(r) && r <= s
    ensures |r| < |s| ==> !IsDigit(s[|r|])
  {
    if |s| > 0 && IsDigit(s[0]) then [s[0]] + DigitRun(s[1..]) else []
  }

  lemma {:induction false} DigitRunOfDigits(s: string)
    requires AllDigits(s)
    ensures DigitRun(s) == s
  {
    if |s| > 0 {
      DigitRunOfDigits(s[1..]);
    }
  }

  /** `parseInt(s, 10)`: skip leading white space, read an optional sign and the
      longest run of digits; `None` models `NaN` (no digit at all). The age
      filter and `parseSize` call `parseInt` without a radix, which would read
      a "0x" prefix as hexadecimal; neither can see one, since a number input
      only holds decimal text and `parseSize` has already split its text at
      every 'x' or 'X'. */
  function ParseInt(s: string): (r: Option<int>)
  {
    var t := TrimStart(s);
    var neg := |t| > 0 && t[0] == '-';
    var body := if |t| > 0 && (t[0] == '-' || t[0] == '+') then t[1..] else t;
    var d := DigitRun(body);
    if |d| == 0 then None
    else if neg then Some(-(DigitsValue(d) as int))
    else Some(DigitsValue(d))
  }

  /** Rendering a number and parsing it back gives the number. */
  lemma {:induction false} ParseIntOfNatToString(n: nat)
    ensures ParseInt(NatToString(n)) == Some(n)
  {
    ParseIntIgnoresTail(n, []);
    assert NatToString(n) + [] == NatToString(n);
  }

  lemma {:induction false} ParseIntOfDigits(s: string)
    requires |s| > 0 && AllDigits(s)
    ensures ParseInt(s) == Some(DigitsValue(s))
  {
    assert !IsSpace(s[0]);
    assert TrimStart(s) == s;
    assert s[0] != '-' && s[0] != '+';
    DigitRunOfDigits(s);
  }

  /** Anything after the digits is ignored, as `parseInt` does. */
  lemma {:induction false} ParseIntIgnoresTail(n: nat, tail: string)
    requires tail == [] || !IsDigit(tail[0])
    ensures ParseInt(NatToString(n) + tail) == Some(n)
  {
    ParseIntUnsigned(NatToString(n), tail);
  }

  /** A run of digits with no sign is read as its value. */
  lemma {:induction false} ParseIntUnsigned(s: string, tail: string)
    requires |s| > 0 && AllDigits(s)
    requires tail == [] || !IsDigit(tail[0])
    ensures ParseInt(s + tail) == Some(DigitsValue(s))
  {
    var t := s + tail;
    assert t[0] == s[0];
    assert TrimStart(t) == t by {
      assert !IsSpace(t[0]);
    }
    assert t[0] != '-' && t[0] != '+';
    DigitRunPrefix(s, tail);
  }

  /** The same for a signed number. */
  lemma {:induction false} ParseIntOfIntToString(i: int, tail: string)
    requires tail == [] || !IsDigit(tail[0])
    ensures ParseInt(IntToString(i) + tail) == Some(i)
  {
    if i >= 0 {
      ParseIntIgnoresTail(i, tail);
    } else {
      var s := NatToString(-i);
      assert IntToString(i) + tail == "-" + (s + tail);
      ParseIntNegative(s, tail);
    }
  }

  /** A minus sign before a run of digits negates its value. */
  lemma {:induction false} ParseIntNegative(s: string, tail: string)
    requires |s| > 0 && AllDigits(s)
    requires tail == [] || !IsDigit(tail[0])
    ensures ParseInt("-" + (s + tail)) == Some(-(DigitsValue(s) as int))
  {
    var t := "-" + (s + tail);
    assert t[0] == '-' && t[1..] == s + tail;
    assert TrimStart(t) == t by {
      assert !IsSpace(t[0]);
    }
    DigitRunPrefix(s, tail);
  }

  lemma {:induction false} DigitRunPrefix(s: string, tail: string)
    requires AllDigits(s)
    requires tail == [] || !IsDigit(tail[0])
    ensures DigitRun(s + tail) == s
  {
    if |s| > 0 {
      assert (s + tail)[1..] == s[1..] + tail;
      DigitRunPrefix(s[1..], tail);
    } else {
      assert s + tail == tail;
    }
  }
}

=== FILE: timelabels.dfy ===
/** The "… ago" labels the site prints next to messages, ads and profiles.
    Each label is computed from the elapsed milliseconds `diffMs` by floor
    division, as `Math.floor` does; Dafny's `/` by a positive constant is the
    same floor division, negative dividends included. */
module TimeLabels {
  import opened Text

  const MinuteMs: int := 60000
  const HourMs: int := 3600000
  const DayMs: int := 86400000
  const WeekMs: int := 604800000

  /** What a label says: a count of one unit, "Just now", or a calendar date. */
  datatype Ago = JustNow | Seconds(n: int) | Minutes(n: int) | Hours(n: int) | Days(n: int) | Weeks(n: int) | OnDate

  /** The unit letter of a counted label. */
  function Unit(a: Ago): char
  {
    match a
    case Seconds(_) => 's'
    case Minutes(_) => 'm'
    case Hours(_) => 'h'
    case Days(_) => 'd'
    case Weeks(_) => 'w'
    case _ => ' '
  }

  /** The label text; `dateText` stands for the locale date string of `OnDate`. */
  function Render(a: Ago, dateText: string): string
  {
    if a.JustNow? then "Just now"
    else if a.OnDate? then dateText
    else IntToString(a.n) + [Unit(a)] + " ago"
  }

  function WithUnit(u: char, n: int): Option<Ago>
  {
    if u == 's' then Some(Seconds(n))
    else if u == 'm' then Some(Minutes(n))
    else if u == 'h' then Some(Hours(n))
    else if u == 'd' then Some(Days(n))
    else if u == 'w' then Some(Weeks(n))
    else None
  }

  /** Reads a label back: "Just now", or a canonical number, a unit letter and " ago". */
  function ParseAgo(s: string): Option<Ago>
  {
    if s == "Just now" then Some(JustNow)
    else if |s| < 6 || s[|s| - 4..] != " ago" then None
    else
      match ParseInt(s[..|s| - 5])
      case None => None
      case Some(n) => if IntToString(n) == s[..|s| - 5] then WithUnit(s[|s| - 5], n) else None
  }

  lemma ParseCount(n: int, u: char)
    requires u != ' '
    ensures ParseAgo(IntToString(n) + [u] + " ago") == WithUnit(u, n)
  {
    var t := IntToString(n);
    var s := t + [u] + " ago";
    assert s != "Just now" by {
      assert s[0] == t[0];
      if n >= 0 { assert IsDigit(s[0]); } else { assert s[0] == '-'; }
    }
    AgoSlices(t, u);
    ParseIntOfIntToString(n, []);
    assert t + [] == t;
  }

  /** Where the parts of a label sit: the count, the unit letter, the suffix. */
  lemma AgoSlices(t: string, u: char)
    ensures var s := t + [u] + " ago";
      s[..|s| - 5] == t && s[|s| - 5] == u && s[|s| - 4..] == " ago"
  {
  }

  /** A label names its bucket and its count: reading it back gives both. */
  lemma ParseRender(a: Ago)
    requires !a.OnDate?
    ensures ParseAgo(Render(a, "")) == Some(a)
  {
    if !a.JustNow? {
      var s := IntToString(a.n) + [Unit(a)] + " ago";
      assert Render(a, "") == s;
      ParseCount(a.n, Unit(a));
      UnitNamesBucket(a);
    }
  }

  lemma UnitNamesBucket(a: Ago)
    requires !a.JustNow? && !a.OnDate?
    ensures Unit(a) != ' ' && WithUnit(Unit(a), a.n) == Some(a)
  {
  }

  /** `formatMessageDate`: minutes, hours, then days up to a week; older
      messages show their date. */
  function MessageAge(diffMs: int): (a: Ago)
    ensures a.JustNow? <==> diffMs < MinuteMs
    ensures a.Minutes? ==> 1 <= a.n < 60 && a.n * MinuteMs <= diffMs < (a.n + 1) * MinuteMs
    ensures a.Hours? ==> 1 <= a.n < 24 && a.n * HourMs <= diffMs < (a.n + 1) * HourMs
    ensures a.Days? ==> 1 <= a.n < 7 && a.n * DayMs <= diffMs < (a.n + 1) * DayMs
    ensures a.OnDate? <==> diffMs >= 7 * DayMs
    ensures a.JustNow? || a.Minutes? || a.Hours? || a.Days? || a.OnDate?
  {
    var mins := diffMs / 60000;
    var hrs := mins / 60;
    var days := hrs / 24;
    if mins < 1 then JustNow
    else if mins < 60 then Minutes(mins)
    else if hrs < 24 then Hours(hrs)
    else if days < 7 then Days(days)
    else OnDate
  }

  /** `unifyUserAd`'s label: minutes, hours below 1440 minutes, then days without end. */
  function AdAge(diffMs: int): (a: Ago)
    ensures a.JustNow? <==> diffMs < MinuteMs
    ensures a.Minutes? ==> 1 <= a.n < 60 && a.n * MinuteMs <= diffMs < (a.n + 1) * MinuteMs
    ensures a.Hours? ==> 1 <= a.n < 24 && a.n * HourMs <= diffMs < (a.n + 1) * HourMs
    ensures a.Days? ==> 1 <= a.n && a.n * DayMs <= diffMs < (a.n + 1) * DayMs
    ensures a.JustNow? || a.Minutes? || a.Hours? || a.Days?
  {
    var mins := diffMs / 60000;
    if mins < 1 then JustNow
    else if mins < 60 then Minutes(mins)
    else if mins < 1440 then Hours(mins / 60)
    else Days(mins / 1440)
  }

  /** `formatLastActive`'s count: seconds, minutes, hours, days below a week,
      then whole weeks. A time in the future gives a negative second count. */
  function LastActiveAge(diffMs: int): (a: Ago)
    ensures a.Seconds? <==> diffMs < MinuteMs
    ensures a.Seconds? ==> a.n * 1000 <= diffMs < (a.n + 1) * 1000
    ensures a.Minutes? ==> 1 <= a.n < 60 && a.n * MinuteMs <= diffMs < (a.n + 1) * MinuteMs
    ensures a.Hours? ==> 1 <= a.n < 24 && a.n * HourMs <= diffMs < (a.n + 1) * HourMs
    ensures a.Days? ==> 1 <= a.n < 7 && a.n * DayMs <= diffMs < (a.n + 1) * DayMs
    ensures a.Weeks? ==> 1 <= a.n && a.n * WeekMs <= diffMs < (a.n + 1) * WeekMs
    ensures a.Seconds? || a.Minutes? || a.Hours? || a.Days? || a.Weeks?
  {
    var secs := diffMs / 1000;
    var mins := secs / 60;
    var hrs := mins / 60;
    var days := hrs / 24;
    if secs < 60 then Seconds(secs)
    else if mins < 60 then Minutes(mins)
    else if hrs < 24 then Hours(hrs)
    else if days < 7 then Days(days)
    else Weeks(days / 7)
  }

  /** `formatMessageDate` */
  function MessageDateText(diffMs: int, dateText: string): string
  {
    Render(MessageAge(diffMs), dateText)
  }

  /** `formatLastActive` */
  function LastActiveText(diffMs: int): string
  {
    "Active " + Render(LastActiveAge(diffMs), "")
  }

  /** No time elapsed reads as "Active 0s ago". */
  lemma ActiveJustNow()
    ensures LastActiveText(0) == "Active 0s ago"
  {
    assert LastActiveAge(0) == Seconds(0);
    assert IntToString(0) == "0";
  }
}

=== FILE: unifiedads.dfy ===
/** One ad shape for the listings and the detail page: the members' ads
    first, in store order, then the demonstration ads; and the lookup of one
    ad by its unified id. `now` is a parameter. */
module UnifiedAds {
  import opened Text
  import opened Lists
  import opened Storage
  import UserAds
  import MockAds
  import TimeLabels

  datatype Source = MockSource | UserSource

  /** `UnifiedAd` */
  datatype Ad = Ad(id: string, title: string, description: string, category: string, district: string,
                   city: string, location: string, time: string, verified: bool, image: string,
                   contact: Option<string>, whatsapp: Option<bool>, viber: Option<bool>, telegram: Option<bool>,
                   imo: Option<bool>, price: Option<string>, username: Option<string>, source: Source)

  const MockPrefix: string := "mock_"

  /** A demonstration ad as `unifyMockAds` and `findAdById` build it. */
  function UnifyMock(a: MockAds.MockAd): (r: Ad)
    ensures r.id == MockPrefix + IntToString(a.id) && r.source == MockSource
    ensures r.verified == a.verified && r.time == a.time && r.contact.None?
  {
    Ad(MockPrefix + IntToString(a.id), a.title, a.description, a.category, a.district, a.city, a.location,
       a.time, a.verified, a.image, None, None, None, None, None, None, None, MockSource)
  }

  /** `unifyUserAd`, read at `now`: the id kept, never verified, the age label
      of `createdAt`, and "" for a missing image. */
  function UnifyUser(a: UserAds.UserAd, now: int): (r: Ad)
    ensures r.id == a.id && r.source == UserSource && !r.verified
    ensures r.time == TimeLabels.Render(TimeLabels.AdAge(now - a.createdAt), "")
    ensures r.image == (if a.post.image.Some? then a.post.image.value else "")
    ensures r.contact == Some(a.post.contact) && r.username == Some(a.post.username)
  {
    var p := a.post;
    Ad(a.id, p.title, p.description, p.category, p.district, p.city, p.location,
       TimeLabels.Render(TimeLabels.AdAge(now - a.createdAt), ""), false, p.image.GetOr(""),
       Some(p.contact), p.whatsapp, p.viber, p.telegram, p.imo, p.price, Some(p.username), UserSource)
  }

  /** `unifyMockAds()` */
  function MockList(copy: MockAds.Copy): (r: seq<Ad>)
    ensures |r| == 24
    ensures forall j :: 0 <= j < 24 ==> r[j] == UnifyMock(MockAds.Ads(copy)[j])
  {
    var ms := MockAds.Ads(copy);
    seq(24, j requires 0 <= j < 24 => UnifyMock(ms[j]))
  }

  /** `getAllAds`: every member ad, in store order, then every demonstration ad. */
  function AllAds(st: Stored<seq<UserAds.UserAd>>, copy: MockAds.Copy, now: int): (r: seq<Ad>)
    ensures var us := UserAds.All(st);
            && |r| == |us| + 24
            && (forall i :: 0 <= i < |us| ==> r[i] == UnifyUser(us[i], now))
            && (forall j :: 0 <= j < 24 ==> r[|us| + j] == UnifyMock(MockAds.Ads(copy)[j]))
  {
    var us := UserAds.All(st);
    seq(|us|, i requires 0 <= i < |us| => UnifyUser(us[i], now)) + MockList(copy)
  }

  predicate HasMockPrefix(id: string)
  {
    |id| >= 5 && id[..5] == MockPrefix
  }

  /** `findAdById`: a member ad with exactly this id wins; otherwise a
      "mock_" id is read with `parseInt` and the demonstration ad with that
      number is rebuilt; anything else is `null`. */
  function FindAdById(st: Stored<seq<UserAds.UserAd>>, copy: MockAds.Copy, id: string, now: int): (r: Option<Ad>)
    ensures var us := UserAds.All(st); var k := IndexBy(us, UserAds.IdOf, id);
            && (k >= 0 ==> r == Some(UnifyUser(us[k], now)))
            && (k < 0 && !HasMockPrefix(id) ==> r.None?)
            && (k < 0 && HasMockPrefix(id) ==>
                  match ParseInt(id[5..])
                  case None => r.None?
                  case Some(n) => r == (if 1 <= n <= 24 then Some(UnifyMock(MockAds.Ads(copy)[n - 1])) else None))
  {
    var us := UserAds.All(st);
    var k := IndexBy(us, UserAds.IdOf, id);
    if k >= 0 then Some(UnifyUser(us[k], now))
    else if !HasMockPrefix(id) then None
    else
      match ParseInt(id[5..])
      case None => None
      case Some(n) =>
        var m := MockAds.Find(copy, n);
        if m.Some? then Some(UnifyMock(m.value)) else None
  }

  /** Every id `getAllAds` lists finds an ad with that id. */
  lemma FindListedAd(st: Stored<seq<UserAds.UserAd>>, copy: MockAds.Copy, now: int, i: int)
    requires 0 <= i < |AllAds(st, copy, now)|
    ensures FindAdById(st, copy, AllAds(st, copy, now)[i].id, now).Some?
    ensures FindAdById(st, copy, AllAds(st, copy, now)[i].id, now).value.id == AllAds(st, copy, now)[i].id
  {
    var us := UserAds.All(st);
    if i < |us| {
      FindListedUserAd(st, now, i);
    } else {
      FindListedMockAd(st, copy, now, i - |us|);
    }
  }

  lemma FindListedUserAd(st: Stored<seq<UserAds.UserAd>>, now: int, i: int)
    requires 0 <= i < |UserAds.All(st)|
    ensures IndexBy(UserAds.All(st), UserAds.IdOf, UserAds.All(st)[i].id) >= 0
  {
    assert UserAds.IdOf(UserAds.All(st)[i]) == UserAds.All(st)[i].id;
  }

  lemma FindListedMockAd(st: Stored<seq<UserAds.UserAd>>, copy: MockAds.Copy, now: int, j: int)
    requires 0 <= j < 24
    ensures var id := UnifyMock(MockAds.Ads(copy)[j]).id;
            FindAdById(st, copy, id, now).Some? && FindAdById(st, copy, id, now).value.id == id
  {
    var x := UnifyMock(MockAds.Ads(copy)[j]);
    MockIdReadsBack(copy, j);
    var k := IndexBy(UserAds.All(st), UserAds.IdOf, x.id);
    if k >= 0 {
      assert UserAds.All(st)[k].id == x.id;
    } else {
      FindUnlistedMock(st, copy, x.id, now, j);
    }
  }

  /** An id no member ad has, with the prefix and number j + 1, finds demonstration ad j. */
  lemma FindUnlistedMock(st: Stored<seq<UserAds.UserAd>>, copy: MockAds.Copy, id: string, now: int, j: int)
    requires 0 <= j < 24 && IndexBy(UserAds.All(st), UserAds.IdOf, id) < 0
    requires HasMockPrefix(id) && ParseInt(id[5..]) == Some(j + 1)
    ensures FindAdById(st, copy, id, now) == Some(UnifyMock(MockAds.Ads(copy)[j]))
  {
  }

  /** A demonstration ad's id has the prefix and reads back as its number. */
  lemma MockIdReadsBack(copy: MockAds.Copy, j: int)
    requires 0 <= j < 24
    ensures var id := UnifyMock(MockAds.Ads(copy)[j]).id;
            HasMockPrefix(id) && ParseInt(id[5..]) == Some(j + 1)
  {
    var id := UnifyMock(MockAds.Ads(copy)[j]).id;
    assert MockAds.Ads(copy)[j].id == j + 1;
    assert id[..5] == MockPrefix;
    assert id[5..] == IntToString(j + 1);
    ParseIntOfIntToString(j + 1, []);
    assert IntToString(j + 1) + [] == IntToString(j + 1);
  }

  /** The lookup returns nothing but member ads with exactly the given id and
      demonstration ads. */
  lemma FoundAdOrigin(st: Stored<seq<UserAds.UserAd>>, copy: MockAds.Copy, id: string, now: int)
    requires FindAdById(st, copy, id, now).Some?
    ensures var a := FindAdById(st, copy, id, now).value;
            (a.source == UserSource && a.id == id) || (a.source == MockSource && HasMockPrefix(id))
  {
  }
}

=== FILE: userads.dfy ===
/** The classified ads members post themselves: one list under one key, with
    a 60-day lifetime and a 14-day edit lock stamped when an ad is added.
    Times are milliseconds since the epoch; `now` is a parameter. */
module UserAds {
  import opened Text
  import opened Lists
  import opened Storage

  /** `AD_LIMITS.AD_LIFETIME_DAYS` and `AD_LIMITS.EDIT_LOCK_DAYS`. */
  const LifetimeDays: int := 60
  const LockDays: int := 14

  /** `24 * 60 * 60 * 1000` */
  const DayMs: int := 86400000

  /** What the poster fills in: `Omit<UserAd, "id" | "createdAt" | "expiresAt" | "editLockedUntil">`. */
  datatype Post = Post(username: string, category: string, title: string, description: string,
                       district: string, city: string, location: string, contact: string,
                       image: Option<string>, price: Option<string>,
                       whatsapp: Option<bool>, viber: Option<bool>, telegram: Option<bool>, imo: Option<bool>)

  /** `UserAd`: the post plus what the store stamps on it. */
  datatype UserAd = UserAd(id: string, post: Post, createdAt: int,
                           expiresAt: Option<int>, editLockedUntil: Option<int>)

  function IdOf(a: UserAd): string { a.id }

  /** `getAll`: the stored list, or [] when nothing or nothing readable is stored. */
  function All(st: Stored<seq<UserAd>>): (r: seq<UserAd>)
    ensures st.Value? ==> r == st.v
    ensures !st.Value? ==> r == []
  {
    ListOrEmpty(st)
  }

  predicate ByUser(a: UserAd, username: string)
  {
    SameIgnoringCase(a.post.username, username)
  }

  /** `isLocked`: an ad without a lock date is never locked. */
  predicate IsLocked(a: UserAd, now: int)
  {
    a.editLockedUntil.Some? && a.editLockedUntil.value > now
  }

  /** `isExpired`: an ad without an expiry date never expires. */
  predicate IsExpired(a: UserAd, now: int)
  {
    a.expiresAt.Some? && a.expiresAt.value <= now
  }

  /** `getByUser`: the user's ads in store order, usernames compared ignoring case. */
  function GetByUser(st: Stored<seq<UserAd>>, username: string): (r: seq<UserAd>)
    ensures KeepsExactly(r, All(st), a => ByUser(a, username))
  {
    FilterKeepsExactly(All(st), a => ByUser(a, username));
    Filter(All(st), a => ByUser(a, username))
  }

  /** `countActiveByUser`: one pass over all ads with both conditions. */
  function CountActiveByUser(st: Stored<seq<UserAd>>, username: string, now: int): (n: nat)
    ensures n <= |All(st)|
  {
    Count(All(st), a => ByUser(a, username) && !IsExpired(a, now))
  }

  /** Counting in one pass agrees with counting the not-expired ads among `getByUser`. */
  lemma {:induction false} CountActiveIsUnexpiredOwnAds(ads: seq<UserAd>, username: string, now: int)
    ensures Count(ads, a => ByUser(a, username) && !IsExpired(a, now))
         == Count(Filter(ads, a => ByUser(a, username)), a => !IsExpired(a, now))
  {
    if |ads| > 0 {
      CountActiveIsUnexpiredOwnAds(ads[1..], username, now);
      var mine := Filter(ads[1..], a => ByUser(a, username));
      if ByUser(ads[0], username) {
        assert Filter(ads, a => ByUser(a, username)) == [ads[0]] + mine;
        assert ([ads[0]] + mine)[1..] == mine;
      }
    }
  }

  lemma CountActiveByUserAgrees(st: Stored<seq<UserAd>>, username: string, now: int)
    ensures CountActiveByUser(st, username, now) == Count(GetByUser(st, username), a => !IsExpired(a, now))
  {
    CountActiveIsUnexpiredOwnAds(All(st), username, now);
  }

  /** The ad `add` builds: stamped with `createdAt = now` and both deadlines. */
  function Stamp(p: Post, id: string, now: int): (a: UserAd)
    ensures a.post == p && a.id == id && a.createdAt == now
    ensures a.expiresAt == Some(now + LifetimeDays * DayMs)
    ensures a.editLockedUntil == Some(now + LockDays * DayMs)
  {
    UserAd(id, p, now, Some(now + LifetimeDays * DayMs), Some(now + LockDays * DayMs))
  }

  /** `add`: append the stamped ad and save. No quota is checked: the count of
      active ads plays no part. `id` stands for the generated `ua_…` id. */
  function Add(st: Stored<seq<UserAd>>, p: Post, id: string, now: int): (r: Step<seq<UserAd>, UserAd>)
    ensures r.stored.Value? && |r.stored.v| == |All(st)| + 1
    ensures r.stored.v[..|All(st)|] == All(st)
    ensures r.stored.v[|All(st)|] == r.value
    ensures r.value == Stamp(p, id, now)
    ensures r.value.post == p && r.value.id == id && r.value.createdAt == now
  {
    var ad := Stamp(p, id, now);
    Step(ad, Value(All(st) + [ad]))
  }

  /** An ad added at `t` is locked and live for 14 days, then unlocked and
      live until day 60, then unlocked and expired. */
  lemma AddedAdLifecycle(p: Post, id: string, t: int, now: int)
    requires now >= t
    ensures var a := Stamp(p, id, t);
            && (now < t + LockDays * DayMs ==> IsLocked(a, now) && !IsExpired(a, now))
            && (t + LockDays * DayMs <= now < t + LifetimeDays * DayMs ==> !IsLocked(a, now) && !IsExpired(a, now))
            && (t + LifetimeDays * DayMs <= now ==> !IsLocked(a, now) && IsExpired(a, now))
  {
  }

  /** Once unlocked an ad stays unlocked, and once expired it stays expired. */
  lemma DeadlinesAreMonotone(a: UserAd, now: int, later: int)
    requires now <= later
    ensures !IsLocked(a, now) ==> !IsLocked(a, later)
    ensures IsExpired(a, now) ==> IsExpired(a, later)
  {
  }

  /** `Partial<Omit<UserAd, "id" | "username" | "createdAt">>`: each present field replaces the ad's. */
  datatype AdPatch = AdPatch(category: Option<string>, title: Option<string>, description: Option<string>,
                             district: Option<string>, city: Option<string>, location: Option<string>,
                             contact: Option<string>, image: Option<Option<string>>, price: Option<Option<string>>,
                             whatsapp: Option<Option<bool>>, viber: Option<Option<bool>>,
                             telegram: Option<Option<bool>>, imo: Option<Option<bool>>,
                             expiresAt: Option<Option<int>>, editLockedUntil: Option<Option<int>>)

  /** `{ ...ad, ...updates }` */
  function Merge(a: UserAd, u: AdPatch): (r: UserAd)
    ensures r.id == a.id && r.post.username == a.post.username && r.createdAt == a.createdAt
    ensures u == AdPatch(None, None, None, None, None, None, None, None, None, None, None, None, None, None, None) ==> r == a
    ensures Patched(u.category, a.post.category, r.post.category) && Patched(u.title, a.post.title, r.post.title)
    ensures Patched(u.description, a.post.description, r.post.description)
    ensures Patched(u.district, a.post.district, r.post.district) && Patched(u.city, a.post.city, r.post.city)
    ensures Patched(u.location, a.post.location, r.post.location) && Patched(u.contact, a.post.contact, r.post.contact)
    ensures Patched(u.image, a.post.image, r.post.image) && Patched(u.price, a.post.price, r.post.price)
    ensures Patched(u.whatsapp, a.post.whatsapp, r.post.whatsapp) && Patched(u.viber, a.post.viber, r.post.viber)
    ensures Patched(u.telegram, a.post.telegram, r.post.telegram) && Patched(u.imo, a.post.imo, r.post.imo)
    ensures Patched(u.expiresAt, a.expiresAt, r.expiresAt) && Patched(u.editLockedUntil, a.editLockedUntil, r.editLockedUntil)
  {
    var p := a.post;
    UserAd(a.id,
           Post(p.username, u.category.GetOr(p.category), u.title.GetOr(p.title),
                u.description.GetOr(p.description), u.district.GetOr(p.district), u.city.GetOr(p.city),
                u.location.GetOr(p.location), u.contact.GetOr(p.contact), u.image.GetOr(p.image),
                u.price.GetOr(p.price), u.whatsapp.GetOr(p.whatsapp), u.viber.GetOr(p.viber),
                u.telegram.GetOr(p.telegram), u.imo.GetOr(p.imo)),
           a.createdAt, u.expiresAt.GetOr(a.expiresAt), u.editLockedUntil.GetOr(a.editLockedUntil))
  }

  /** `update`: merge into the first ad with `id` and save; false, with no
      write, when there is none. */
  function Update(st: Stored<seq<UserAd>>, id: string, u: AdPatch): (r: Step<seq<UserAd>, bool>)
    ensures var ads := All(st); var k := IndexBy(ads, (a: UserAd) => a.id, id);
            && (r.value <==> k >= 0)
            && (!r.value ==> r.stored == st)
            && (r.value ==> r.stored.Value? && |r.stored.v| == |ads|
                            && r.stored.v[k] == Merge(ads[k], u)
                            && forall i :: 0 <= i < |ads| && i != k ==> r.stored.v[i] == ads[i])
  {
    var ads := All(st);
    var k := IndexBy(ads, (a: UserAd) => a.id, id);
    if k == -1 then Step(false, st) else Step(true, Value(ads[k := Merge(ads[k], u)]))
  }

  /** `delete`: drop every ad with `id`; false, with no write, when none had it. */
  function Delete(st: Stored<seq<UserAd>>, id: string): (r: Step<seq<UserAd>, bool>)
    ensures var ads := All(st);
            && (r.value <==> exists i | 0 <= i < |ads| :: ads[i].id == id)
            && (!r.value ==> r.stored == st)
            && (r.value ==> r.stored.Value? && KeepsExactly(r.stored.v, ads, (a: UserAd) => a.id != id))
  {
    var ads := All(st);
    var kept := Filter(ads, (a: UserAd) => a.id != id);
    FilterKeepsExactly(ads, (a: UserAd) => a.id != id);
    if |kept| == |ads| then
      Step(false, st)
    else
      Step(true, Value(kept))
  }
}
